=== FILE: README.md ===
# ResLogger2 in Dafny

ResLogger2 collects file paths of a game's packed archives. The archives hold only hashes of
the paths, so every observed path is a find. The server keeps a catalog of confirmed paths keyed
by `(IndexId, FolderHash, FileHash, FullHash)`. Beside it sit two staging tables: one for
folder/file hashes seen without a matching full hash (Index1), and one for full hashes seen alone
(Index2). Each row carries the range of game versions `[FirstSeen, LastSeen]` it was seen in.

This project models the reconciliation engine and the logic around it:

- the game version and its hand-written comparator, which looks at Revision before Part;
- range widening (`Entry.UpdateSeen`) and the path-entry identity;
- the in-memory mirror `PathCache`, as a value (`Caches.Cache`) and as a class over it;
- the ingestion of a patch's indexes (`ServerHashDatabase`), as functions (`ServerSteps`) and as
  class methods proved against them;
- the per-archive join of the two index formats (`CompositeIndexInfo.Process`);
- the pairing of index files by stem (`PatchIndexHolder`);
- uploads from the plugin (`PathDbService`) and the statistics it serves;
- the update job's URL parsing, update/patch selection, the holders built from the downloaded
  files, and the lock guard (`UpdateJob`);
- the path-category classifier in C# and in Python, and the `Exists` lookups;
- the path-variant expander in C# and in Python;
- the plugin's local dedup cache (`LocalHashDatabase`);
- the two `ExistsResult` types and two string helpers (`ReadString`, `ToLowerUnsafe`).

Hash functions, the file system, downloads, the database and the lock service are parameters.
Each module's header comment names the source file it models.

Pure source code is modelled as datatypes, functions and lemmas. Code that updates state in place
is modelled as classes whose methods are proved against those functions, and in-place loops as
methods with loop invariants. The catalog invariant the engine keeps is proved for every kind of
observation: the caches stay well formed, and no staging row shares a key with a confirmed row.
Ranges only widen, and a path once attached is never replaced.

## Model

| member | source | states |
|---|---|---|
| GameVersions.GameVersion.CompareTo | ResLogger2.Common/ServerDatabase/Model/GameVersion.cs:61-98 | 1 against null; otherwise the lexicographic comparison of (Year, Month, Day, Revision, Part), always -1, 0 or 1 |
| GameVersions.KeyCompare | ResLogger2.Common/ServerDatabase/Model/GameVersion.cs:67-97 | the lexicographic comparison unfolds into the source's chain of ten field tests, Revision tested before Part |
| GameVersions.CompareZero | ResLogger2.Common/ServerDatabase/Model/GameVersion.cs:61-98 | two versions compare as 0 exactly when the five numbers agree; Id, IsSpecial and Comment never matter |
| GameVersions.CompareReflexive | ResLogger2.Common/ServerDatabase/Model/GameVersion.cs:100-103 | a version compares 0 with itself, and `<=`, `>=` hold while `<`, `>` do not |
| GameVersions.CompareAntisymmetric | ResLogger2.Common/ServerDatabase/Model/GameVersion.cs:61-98 | compare(a, b) = -compare(b, a) |
| GameVersions.CompareTransitive | ResLogger2.Common/ServerDatabase/Model/GameVersion.cs:100-103 | `<=` is transitive, and strict as soon as one step is strict |
| GameVersions.CompareTotal | ResLogger2.Common/ServerDatabase/Model/GameVersion.cs:100-103 | any two versions are related by `<=` one way or the other, and `a < b` iff `b > a` |
| GameVersions.LexZero | ResLogger2.Common/ServerDatabase/Model/GameVersion.cs:67-97 | the reference lexicographic comparison is 0 exactly on equal key sequences |
| GameVersions.LexAntisymmetric | ResLogger2.Common/ServerDatabase/Model/GameVersion.cs:67-97 | swapping the sequences negates the reference comparison |
| GameVersions.LexTransitive | ResLogger2.Common/ServerDatabase/Model/GameVersion.cs:67-97 | the reference comparison is transitive, strictly when one step is strict |
| GameVersions.Equal | ResLogger2.Common/ServerDatabase/Model/GameVersion.cs:105-111 | `==`: null equals only null, a version never equals null, and two versions are equal iff their five numbers agree |
| GameVersions.NotEqualOutcome | ResLogger2.Common/ServerDatabase/Model/GameVersion.cs:113-119 | `!=` is the negation of `==` when an operand is non-null, and never returns when both are null |
| GameVersions.NotEqualBothNull | ResLogger2.Common/ServerDatabase/Model/GameVersion.cs:115-116 | with both operands null, `!=` calls itself again at every depth and never returns |
| GameVersions.ParseField | ResLogger2.Common/ServerDatabase/Model/GameVersion.cs:22-26 | a field parses iff the piece exists and `uint.Parse` accepts it, and then it has that value |
| GameVersions.ParseWithComment | ResLogger2.Common/ServerDatabase/Model/GameVersion.cs:37-57 | succeeds iff there are five pieces that all parse; fills Year, Month, Day, Part, Revision from pieces 0-4 in that order; IsSpecial is whether a comment was given |
| GameVersions.Parse | ResLogger2.Common/ServerDatabase/Model/GameVersion.cs:15-35 | the comment-less overload: never special, no comment |
| GameVersions.ParseZeroPadded | ResLogger2.Common/ServerDatabase/Model/GameVersion.cs:59 | a zero-padded number parses back to itself and holds no '.' |
| GameVersions.ParseToString | ResLogger2.Common/ServerDatabase/Model/GameVersion.cs:15-59 | round trip: parsing the printed form gives the same five numbers, and the result compares equal to the original |
| Strings.ParseUInt | ResLogger2.Common/ServerDatabase/Model/GameVersion.cs:22-26 | `uint.Parse` succeeds iff the text is a non-empty digit string whose value fits 32 bits, and then returns that value |
| Strings.ZeroPaddedValue | ResLogger2.Common/ServerDatabase/Model/GameVersion.cs:59 | the digits printed by the zero-padding format have the printed number's value |
| Strings.SplitJoin | ResLogger2.Common/ServerDatabase/Model/GameVersion.cs:19 | splitting a '.'-joined list gives the pieces back when no piece holds a '.' |
| Entries.Absorb | ResLogger2.Common/ServerDatabase/ServerHashDatabase.cs:291-310 | merging a removed staging range: the result starts no later and ends no earlier than both inputs, and each bound is one of the inputs' |
| Entries.Widen | ResLogger2.Common/ServerDatabase/Model/Entry.cs:13-23 | after `UpdateSeen(gv)` the range covers `gv`, contains the old range, and each bound is the old one or `gv` |
| Entries.WidenChanged | ResLogger2.Common/ServerDatabase/Model/Entry.cs:11-25 | the returned flag is true exactly when the range changed |
| Entries.WidenCovered | ResLogger2.Common/ServerDatabase/Model/Entry.cs:13-23 | a range that already covers `gv` is left alone and the flag is false |
| Entries.WidenIdempotent | ResLogger2.Common/ServerDatabase/Model/Entry.cs:13-23 | a second call with the same version reports no change and changes nothing |
| Entries.WidenOrdered | ResLogger2.Common/ServerDatabase/Model/Entry.cs:13-23 | FirstSeen <= LastSeen before implies it after |
| Entries.WidenMonotone | ResLogger2.Common/ServerDatabase/Model/Entry.cs:13-23 | widening preserves containment between ranges |
| Entries.WithinTransitive | ResLogger2.Common/ServerDatabase/Model/Entry.cs:13-23 | ranges that only widen step by step end up wider overall |
| Entries.AbsorbWithin | ResLogger2.Common/ServerDatabase/ServerHashDatabase.cs:291-310 | the merged range contains both ranges it was made from |
| Entries.WithinCovers | ResLogger2.Common/ServerDatabase/Model/Entry.cs:13-23 | a range containing one that covers `gv` covers `gv` too |
| Entries.Entry.UpdateSeen | ResLogger2.Common/ServerDatabase/Model/Entry.cs:9-26 | the new range is `Widen` of the old, the flag is whether it changed, IndexId is untouched |
| PathEntries.EqualsIgnoresPayload | ResLogger2.Common/ServerDatabase/Model/PathEntry.cs:10-16 | `Equals` holds iff the three hashes match; IndexId, Path and the seen range are ignored |
| PathEntries.EqualsEquivalence | ResLogger2.Common/ServerDatabase/Model/PathEntry.cs:10-16 | `Equals` is reflexive, symmetric and transitive |
| PathEntries.EqualsHashAlike | ResLogger2.Common/ServerDatabase/Model/PathEntry.cs:18-21 | equal entries have equal hash codes, whatever the combiner |
| PathEntries.MutationKeepsIdentity | ResLogger2.Common/ServerDatabase/Model/PathEntry.cs:8-21 | setting Path or widening the range keeps the entry equal to itself with the same hash code |
| Caches.SetAdd | ResLogger2.Common/ServerDatabase/Model/PathCache.cs:125-139 | `HashSet.Add` keeps the set when an `Equals` element is present, otherwise appends the new reference |
| Caches.Without | ResLogger2.Common/ServerDatabase/Model/PathCache.cs:151 | removing a full hash from a leaf keeps exactly the other hashes |
| Caches.Cache.FindPath4 | ResLogger2.Common/ServerDatabase/Model/PathCache.cs:247-255 | found iff the four-part slot is occupied, and then the object has that key |
| Caches.Cache.FindPath3 | ResLogger2.Common/ServerDatabase/Model/PathCache.cs:257-264 | null iff no stored entry has the prefix; otherwise a stored entry with the prefix, occupying its own slot |
| Caches.Cache.FindPath2 | ResLogger2.Common/ServerDatabase/Model/PathCache.cs:266-272 | found iff the by-full index holds the key, and then an object with that `(IndexId, FullHash)` |
| Caches.Cache.FindIndex1 | ResLogger2.Common/ServerDatabase/Model/PathCache.cs:274-281 | found iff the Index1 slot is occupied, carrying that key |
| Caches.Cache.FindIndex2 | ResLogger2.Common/ServerDatabase/Model/PathCache.cs:283-290 | found iff the Index2 slot is occupied, carrying that key |
| Caches.Cache.FindLatestIndex | ResLogger2.Common/ServerDatabase/Model/PathCache.cs:292-295 | found iff the index id has a row, carrying that id |
| Caches.Cache.FindLatestProcessed | ResLogger2.Common/ServerDatabase/Model/PathCache.cs:297-300 | found iff the repository has a row, carrying that repository |
| Caches.Cache.Inserted | ResLogger2.Common/ServerDatabase/Model/PathCache.cs:98-139 | storing a new object touches neither staging nor version tables |
| Caches.Cache.AddPath | ResLogger2.Common/ServerDatabase/Model/PathCache.cs:98-143 | throws iff the four-part slot is occupied; otherwise the entry joins the object store |
| Caches.Cache.RemovePath | ResLogger2.Common/ServerDatabase/Model/PathCache.cs:145-156 | the four-part slot is free afterwards |
| Caches.Cache.AddIndex1 | ResLogger2.Common/ServerDatabase/Model/PathCache.cs:158-179 | throws iff the Index1 slot is occupied |
| Caches.Cache.RemoveIndex1 | ResLogger2.Common/ServerDatabase/Model/PathCache.cs:181-192 | the Index1 slot is free afterwards |
| Caches.Cache.AddIndex2 | ResLogger2.Common/ServerDatabase/Model/PathCache.cs:194-208 | throws iff the Index2 slot is occupied |
| Caches.Cache.RemoveIndex2 | ResLogger2.Common/ServerDatabase/Model/PathCache.cs:210-218 | the Index2 slot is free afterwards |
| Caches.Cache.AddGameVersion | ResLogger2.Common/ServerDatabase/Model/PathCache.cs:220-227 | throws iff the Id is already cached |
| Caches.Cache.AddLatestIndex | ResLogger2.Common/ServerDatabase/Model/PathCache.cs:229-236 | throws iff the index id already has a row |
| Caches.Cache.AddLatestProcessed | ResLogger2.Common/ServerDatabase/Model/PathCache.cs:238-245 | throws iff the repository already has a row |
| Caches.Cache.SetPath | ResLogger2.Common/ServerDatabase/ServerHashDatabase.cs:282-283 | writing Path through a reference changes only that object's Path, never its key |
| Caches.Cache.SetSeen | ResLogger2.Common/ServerDatabase/ServerHashDatabase.cs:284 | writing the range through a reference changes only that object's range, never its key |
| Caches.Cache.SetIndex1 | ResLogger2.Common/ServerDatabase/ServerHashDatabase.cs:338-341 | after updating a looked-up Index1 row, the lookup returns the new row |
| Caches.Cache.SetIndex2 | ResLogger2.Common/ServerDatabase/ServerHashDatabase.cs:369-372 | after updating a looked-up Index2 row, the lookup returns the new row |
| Caches.Cache.SetLatestIndex | ResLogger2.Common/ServerDatabase/ServerHashDatabase.cs:270-274 | after setting a looked-up LatestIndex row, the lookup returns it |
| Caches.Cache.SetLatestProcessed | ResLogger2.Common/ServerDatabase/ServerHashDatabase.cs:257-261 | after setting a looked-up LatestProcessedVersion row, the lookup returns it |
| CacheLaws.InsertedValid | ResLogger2.Common/ServerDatabase/Model/PathCache.cs:98-139 | storing into a free slot keeps every reference valid and the leaf order in step |
| CacheLaws.AddPathThenFind | ResLogger2.Common/ServerDatabase/Model/PathCache.cs:98-139 | an occupied slot throws; otherwise the cache stays valid, `FindPath(id, folder, file, full)` returns exactly the new object, and the other two overloads find an entry with its hashes |
| CacheLaws.AddPathFrame | ResLogger2.Common/ServerDatabase/Model/PathCache.cs:98-143 | adding a path leaves every other slot, every old object and every staging or version table untouched |
| CacheLaws.AddPathShape | ResLogger2.Common/ServerDatabase/Model/PathCache.cs:98-139 | the new object is appended, takes its by-folder slot, and joins its by-full set while every other set is unchanged |
| CacheLaws.InsertedJoinsSet | ResLogger2.Common/ServerDatabase/Model/PathCache.cs:125-134 | while the by-full index holds confirmed rows only, the new object always joins the hash set at the end |
| CacheLaws.InsertedCoherent | ResLogger2.Common/ServerDatabase/Model/PathCache.cs:98-139 | adding keeps every confirmed row reachable through the by-full index |
| CacheLaws.InsertedOnlyConfirmed | ResLogger2.Common/ServerDatabase/Model/PathCache.cs:98-139 | adding keeps the by-full index holding confirmed rows only |
| CacheLaws.AddPathKeepsExact | ResLogger2.Common/ServerDatabase/Model/PathCache.cs:98-139 | the two indexes of confirmed rows stay in exact agreement across an add |
| CacheLaws.FindPath3Meaning | ResLogger2.Common/ServerDatabase/Model/PathCache.cs:257-264 | the three-key lookup is null exactly when no stored entry has the prefix, and otherwise returns one of them |
| CacheLaws.RemovePathLeavesByFull | ResLogger2.Common/ServerDatabase/Model/PathCache.cs:145-156 | after `Remove` the four-key lookup fails, but `FindPath(id, full)` still returns the removed object |
| CacheLaws.SetPathKeepsValid | ResLogger2.Common/ServerDatabase/Model/PathCache.cs:98-139 | writing Path through a reference keeps the cache well formed |
| CacheLaws.SetPathKeepsExact | ResLogger2.Common/ServerDatabase/Model/PathCache.cs:98-139 | ... and the two confirmed-row indexes in agreement |
| CacheLaws.SetSeenKeepsValid | ResLogger2.Common/ServerDatabase/Model/PathCache.cs:98-139 | writing the range through a reference keeps the cache well formed |
| CacheLaws.SetSeenKeepsExact | ResLogger2.Common/ServerDatabase/Model/PathCache.cs:98-139 | ... and the two confirmed-row indexes in agreement |
| CacheLaws.AddIndex1Throws | ResLogger2.Common/ServerDatabase/Model/PathCache.cs:158-166 | adding an Index1 row throws exactly when `FindIndex1` finds one at its key |
| CacheLaws.AddIndex1ThenFind | ResLogger2.Common/ServerDatabase/Model/PathCache.cs:158-179 | into a free slot, the row is found afterwards and no other slot changes |
| CacheLaws.AddIndex2Throws | ResLogger2.Common/ServerDatabase/Model/PathCache.cs:194-200 | adding an Index2 row throws exactly when `FindIndex2` finds one at its key |
| CacheLaws.AddIndex2ThenFind | ResLogger2.Common/ServerDatabase/Model/PathCache.cs:194-208 | into a free slot, the row is found afterwards and no other slot changes |
| CacheLaws.RemoveIndexThenFind | ResLogger2.Common/ServerDatabase/Model/PathCache.cs:181-218 | removing a staging row makes its lookup return null and leaves every other slot |
| CacheLaws.AddGameVersionThenFind | ResLogger2.Common/ServerDatabase/Model/PathCache.cs:220-227 | a successful add inserts the version under its Id and changes no other Id |
| CacheLaws.AddLatestIndexThenFind | ResLogger2.Common/ServerDatabase/Model/PathCache.cs:229-236 | throws iff a row exists; otherwise the row is found afterwards |
| CacheLaws.AddLatestProcessedThenFind | ResLogger2.Common/ServerDatabase/Model/PathCache.cs:238-245 | throws iff a row exists; otherwise the row is found afterwards |
| CacheLaws.ClearedFindsNothing | ResLogger2.Common/ServerDatabase/Model/PathCache.cs:29-38 | after `Clear` the cache is well formed and every lookup returns null |
| PathCaches.PathCache.constructor | ResLogger2.Common/ServerDatabase/Model/PathCache.cs:15-21 | a new cache is cleared: empty and well formed |
| PathCaches.PathCache.Clear | ResLogger2.Common/ServerDatabase/Model/PathCache.cs:29-38 | the fields become the cleared cache |
| PathCaches.PathCache.AddPath | ResLogger2.Common/ServerDatabase/Model/PathCache.cs:98-143 | fails and changes nothing on an occupied slot; otherwise the fields become `AddPath` of the old contents |
| PathCaches.PathCache.RemovePath | ResLogger2.Common/ServerDatabase/Model/PathCache.cs:145-156 | the fields become `RemovePath` of the old contents |
| PathCaches.PathCache.AddIndex1 | ResLogger2.Common/ServerDatabase/Model/PathCache.cs:158-179 | fails and changes nothing on an occupied slot; otherwise the row is stored |
| PathCaches.PathCache.RemoveIndex1 | ResLogger2.Common/ServerDatabase/Model/PathCache.cs:181-192 | frees the Index1 slot and nothing else |
| PathCaches.PathCache.AddIndex2 | ResLogger2.Common/ServerDatabase/Model/PathCache.cs:194-208 | fails and changes nothing on an occupied slot; otherwise the row is stored |
| PathCaches.PathCache.RemoveIndex2 | ResLogger2.Common/ServerDatabase/Model/PathCache.cs:210-218 | frees the Index2 slot and nothing else |
| PathCaches.PathCache.AddGameVersion | ResLogger2.Common/ServerDatabase/Model/PathCache.cs:220-227 | fails and changes nothing on an existing Id; otherwise inserts |
| PathCaches.PathCache.AddLatestIndex | ResLogger2.Common/ServerDatabase/Model/PathCache.cs:229-236 | fails and changes nothing on an existing index id; otherwise inserts |
| PathCaches.PathCache.AddLatestProcessed | ResLogger2.Common/ServerDatabase/Model/PathCache.cs:238-245 | fails and changes nothing on an existing repository; otherwise inserts |
| PathCaches.PathCache.SetPath | ResLogger2.Common/ServerDatabase/ServerHashDatabase.cs:282-283 | Path is written on the referenced object only |
| PathCaches.PathCache.UpdateSeen | ResLogger2.Common/ServerDatabase/ServerHashDatabase.cs:284 | the referenced object's range becomes `Widen` of its old range, and the flag reports a change |
| PathCaches.PathCache.UpdateIndex1Seen | ResLogger2.Common/ServerDatabase/ServerHashDatabase.cs:338-341 | the Index1 row's range becomes `Widen` of its old range |
| PathCaches.PathCache.UpdateIndex2Seen | ResLogger2.Common/ServerDatabase/ServerHashDatabase.cs:369-372 | the Index2 row's range becomes `Widen` of its old range |
| PathCaches.PathCache.SetLatestIndex | ResLogger2.Common/ServerDatabase/ServerHashDatabase.cs:270-274 | sets the looked-up LatestIndex row |
| PathCaches.PathCache.SetLatestProcessed | ResLogger2.Common/ServerDatabase/ServerHashDatabase.cs:257-261 | sets the looked-up LatestProcessedVersion row |
| ServerSteps.Unstage1 | ResLogger2.Common/ServerDatabase/ServerHashDatabase.cs:294-301 | removing the Index1 staging row at a prefix drops exactly that key and touches no other table |
| ServerSteps.Unstage2 | ResLogger2.Common/ServerDatabase/ServerHashDatabase.cs:303-310 | removing the Index2 staging row at a full hash drops exactly that key and touches no other table |
| ServerSteps.Unstaged | ResLogger2.Common/ServerDatabase/ServerHashDatabase.cs:288-310 | promotion removes the Index1 row at the key's prefix and the Index2 row at its full hash, and nothing else |
| ServerSteps.SameRowsValid | ResLogger2.Common/ServerDatabase/ServerHashDatabase.cs:243-387 | well-formedness depends only on the confirmed rows and their indexes, so staging and version writes keep it |
| ServerSteps.Reconfirm | ResLogger2.Common/ServerDatabase/ServerHashDatabase.cs:280-286 | a combined entry on a confirmed key keeps the cache well formed and changes only the objects |
| ServerSteps.Promote | ResLogger2.Common/ServerDatabase/ServerHashDatabase.cs:288-323 | promotion leaves both version tables alone |
| ServerSteps.PromoteValid | ResLogger2.Common/ServerDatabase/ServerHashDatabase.cs:288-323 | promoting on a free key keeps the cache well formed |
| ServerSteps.StepCombined | ResLogger2.Common/ServerDatabase/ServerHashDatabase.cs:278-323 | one combined entry keeps the cache well formed and leaves the version tables alone |
| ServerSteps.Stage1 | ResLogger2.Common/ServerDatabase/ServerHashDatabase.cs:336-354 | staging an Index1-only entry changes only the Index1 table, whose keys gain exactly the entry's prefix |
| ServerSteps.StepIndex1 | ResLogger2.Common/ServerDatabase/ServerHashDatabase.cs:328-354 | one Index1-only entry keeps the cache well formed and leaves the version tables alone |
| ServerSteps.Stage2 | ResLogger2.Common/ServerDatabase/ServerHashDatabase.cs:367-384 | staging an Index2-only entry changes only the Index2 table, whose keys gain exactly the entry's full hash |
| ServerSteps.StepIndex2 | ResLogger2.Common/ServerDatabase/ServerHashDatabase.cs:359-384 | one Index2-only entry keeps the cache well formed and leaves the version tables alone |
| ServerSteps.StepLatestProcessed | ResLogger2.Common/ServerDatabase/ServerHashDatabase.cs:247-261 | recording a repository's version touches only the latest-processed table |
| ServerSteps.StepLatestIndex | ResLogger2.Common/ServerDatabase/ServerHashDatabase.cs:265-274 | recording an index's version touches only the latest-index table |
| ServerSteps.FoldCombined | ResLogger2.Common/ServerDatabase/ServerHashDatabase.cs:276-324 | the combined-entry loop keeps the cache well formed and leaves the version tables alone |
| ServerSteps.FoldIndex1 | ResLogger2.Common/ServerDatabase/ServerHashDatabase.cs:326-355 | the Index1-only loop keeps the cache well formed and leaves the version tables alone |
| ServerSteps.FoldIndex2 | ResLogger2.Common/ServerDatabase/ServerHashDatabase.cs:357-385 | the Index2-only loop keeps the cache well formed and leaves the version tables alone |
| ServerSteps.Observe | ResLogger2.Common/ServerDatabase/ServerHashDatabase.cs:276-385 | a segment's three loops keep the cache well formed and leave the version tables alone |
| ServerSteps.InMemory | ResLogger2.Common/ServerDatabase/ServerHashDatabase.cs:243-387 | `ProcessInMemory(holder)` keeps the cache well formed |
| ServerSteps.InMemorySegments | ResLogger2.Common/ServerDatabase/ServerHashDatabase.cs:263-386 | the loop over the holder's indexes keeps the cache well formed |
| ServerSteps.Processed | ResLogger2.Common/ServerDatabase/ServerHashDatabase.cs:420-467 | `Process(holder)` keeps the tables well formed |
| ServerSteps.ProcessedSegments | ResLogger2.Common/ServerDatabase/ServerHashDatabase.cs:444-466 | the loop over the holder's indexes keeps the tables well formed |
| ServerSteps.ProcessedAll | ResLogger2.Common/ServerDatabase/ServerHashDatabase.cs:469-475 | `Process(List)` keeps the tables well formed, holder after holder |
| ServerHashDatabases.ApplyCombined | ResLogger2.Common/ServerDatabase/ServerHashDatabase.cs:278-323 | the cache after one combined entry is `StepCombined` of the cache before |
| ServerHashDatabases.ApplyPromote | ResLogger2.Common/ServerDatabase/ServerHashDatabase.cs:288-323 | the cache after promoting on a free key is `Promote` of the cache before |
| ServerHashDatabases.ApplyIndex1 | ResLogger2.Common/ServerDatabase/ServerHashDatabase.cs:328-354 | the cache after one Index1-only entry is `StepIndex1` of the cache before |
| ServerHashDatabases.ApplyIndex2 | ResLogger2.Common/ServerDatabase/ServerHashDatabase.cs:359-384 | the cache after one Index2-only entry is `StepIndex2` of the cache before |
| ServerHashDatabases.ApplyLatestProcessed | ResLogger2.Common/ServerDatabase/ServerHashDatabase.cs:247-261 | the cache after recording the repository's version is `StepLatestProcessed` of the cache before |
| ServerHashDatabases.ApplyLatestIndex | ResLogger2.Common/ServerDatabase/ServerHashDatabase.cs:265-274 | the cache after recording the index's version is `StepLatestIndex` of the cache before |
| ServerHashDatabases.ApplyAllCombined | ResLogger2.Common/ServerDatabase/ServerHashDatabase.cs:276-324 | the combined-entry loop computes `FoldCombined` |
| ServerHashDatabases.ApplyAllIndex1 | ResLogger2.Common/ServerDatabase/ServerHashDatabase.cs:326-355 | the Index1-only loop computes `FoldIndex1` |
| ServerHashDatabases.ApplyAllIndex2 | ResLogger2.Common/ServerDatabase/ServerHashDatabase.cs:357-385 | the Index2-only loop computes `FoldIndex2` |
| ServerHashDatabases.ApplySegment | ResLogger2.Common/ServerDatabase/ServerHashDatabase.cs:263-386 | one pass of the loop over `holder.Indexes`: the index's version, then the segment's observations |
| ServerHashDatabases.ServerHashDatabase.constructor | ResLogger2.Common/ServerDatabase/ServerHashDatabase.cs:17-21 | a new context has empty, well-formed tables and no cache |
| ServerHashDatabases.ServerHashDatabase.ProcessInMemory | ResLogger2.Common/ServerDatabase/ServerHashDatabase.cs:243-387 | fails exactly when there is no cache (the null dereference); otherwise the cache becomes `InMemory` of the old cache |
| ServerHashDatabases.ServerHashDatabase.ProcessInMemoryAll | ResLogger2.Common/ServerDatabase/ServerHashDatabase.cs:389-397 | the loop body is empty, so neither the tables nor the cache change |
| ServerHashDatabases.ServerHashDatabase.HandlePathEntry | ResLogger2.Common/ServerDatabase/ServerHashDatabase.cs:85-154 | the tables after one combined entry are `StepCombined` of the tables before |
| ServerHashDatabases.ServerHashDatabase.PromoteEntry | ResLogger2.Common/ServerDatabase/ServerHashDatabase.cs:105-153 | the tables after promoting on a free key are `Promote` of the tables before |
| ServerHashDatabases.ServerHashDatabase.HandleIndex1Entry | ResLogger2.Common/ServerDatabase/ServerHashDatabase.cs:156-199 | the tables after one Index1-only entry are `StepIndex1` of the tables before |
| ServerHashDatabases.ServerHashDatabase.HandleIndex2Entry | ResLogger2.Common/ServerDatabase/ServerHashDatabase.cs:201-241 | the tables after one Index2-only entry are `StepIndex2` of the tables before |
| ServerHashDatabases.ServerHashDatabase.ProcessInternal | ResLogger2.Common/ServerDatabase/ServerHashDatabase.cs:399-418 | the three loops compute `Observe` over the segment, on tables that read their own unsaved writes |
| ServerHashDatabases.ServerHashDatabase.HandleAllCombined | ResLogger2.Common/ServerDatabase/ServerHashDatabase.cs:401-404 | the first loop computes `FoldCombined`, on tables that read their own unsaved writes |
| ServerHashDatabases.ServerHashDatabase.HandleAllIndex1 | ResLogger2.Common/ServerDatabase/ServerHashDatabase.cs:407-410 | the second loop computes `FoldIndex1` |
| ServerHashDatabases.ServerHashDatabase.HandleAllIndex2 | ResLogger2.Common/ServerDatabase/ServerHashDatabase.cs:413-416 | the third loop computes `FoldIndex2` |
| ServerHashDatabases.ServerHashDatabase.Process | ResLogger2.Common/ServerDatabase/ServerHashDatabase.cs:420-467 | the tables after a holder are `Processed` of the tables before |
| ServerHashDatabases.ServerHashDatabase.RecordProcessed | ResLogger2.Common/ServerDatabase/ServerHashDatabase.cs:426-440 | the repository's version is recorded as `StepLatestProcessed` and the tables stay well formed |
| ServerHashDatabases.ServerHashDatabase.ProcessSegment | ResLogger2.Common/ServerDatabase/ServerHashDatabase.cs:444-466 | the segment's observations, then its index's version, skipped when already at least `gv` |
| ServerHashDatabases.ServerHashDatabase.ProcessAll | ResLogger2.Common/ServerDatabase/ServerHashDatabase.cs:469-475 | the tables after a list of holders are `ProcessedAll` of the tables before, with every holder's repository row taken as saved |
| ServerLaws.SameRowsExact | ResLogger2.Common/ServerDatabase/ServerHashDatabase.cs:243-387 | agreement of the two confirmed-row indexes depends only on the confirmed rows |
| ServerLaws.ClearedGood | ResLogger2.Common/ServerDatabase/ServerHashDatabase.cs:79-83 | a cleared catalog satisfies the invariant |
| ServerLaws.SameKeysDisjoint | ResLogger2.Common/ServerDatabase/ServerHashDatabase.cs:243-387 | disjointness depends only on the keys of the confirmed and staging tables |
| ServerLaws.ReconfirmKeys | ResLogger2.Common/ServerDatabase/ServerHashDatabase.cs:280-286 | reconfirming keeps every table's keys |
| ServerLaws.SetSeenKeys | ResLogger2.Common/ServerDatabase/ServerHashDatabase.cs:284 | widening a row through its reference keeps every table's keys |
| ServerLaws.ReconfirmGood | ResLogger2.Common/ServerDatabase/ServerHashDatabase.cs:280-286 | reconfirming keeps the invariant |
| ServerLaws.PromoteGood | ResLogger2.Common/ServerDatabase/ServerHashDatabase.cs:288-323 | promotion keeps the invariant: the staging rows at the new key's projections are removed |
| ServerLaws.StepCombinedGood | ResLogger2.Common/ServerDatabase/ServerHashDatabase.cs:278-323 | a combined observation keeps the invariant: well formed, confirmed indexes in agreement, no staging row sharing a key with a confirmed row |
| ServerLaws.Stage1Disjoint | ResLogger2.Common/ServerDatabase/ServerHashDatabase.cs:336-354 | staging at a prefix no confirmed row has keeps the tables disjoint |
| ServerLaws.Stage2Disjoint | ResLogger2.Common/ServerDatabase/ServerHashDatabase.cs:367-384 | staging at a full hash no confirmed row has keeps the tables disjoint |
| ServerLaws.StepIndex1Good | ResLogger2.Common/ServerDatabase/ServerHashDatabase.cs:328-354 | an Index1-only observation keeps the invariant |
| ServerLaws.StepIndex2Good | ResLogger2.Common/ServerDatabase/ServerHashDatabase.cs:359-384 | an Index2-only observation keeps the invariant |
| ServerLaws.StepLatestGood | ResLogger2.Common/ServerDatabase/ServerHashDatabase.cs:247-274 | the version bookkeeping keeps the invariant |
| ServerLaws.FoldCombinedGood | ResLogger2.Common/ServerDatabase/ServerHashDatabase.cs:276-324 | the combined-entry loop keeps the invariant |
| ServerLaws.FoldIndex1Good | ResLogger2.Common/ServerDatabase/ServerHashDatabase.cs:326-355 | the Index1-only loop keeps the invariant |
| ServerLaws.FoldIndex2Good | ResLogger2.Common/ServerDatabase/ServerHashDatabase.cs:357-385 | the Index2-only loop keeps the invariant |
| ServerLaws.ObserveGood | ResLogger2.Common/ServerDatabase/ServerHashDatabase.cs:276-385 | a segment's observations keep the invariant |
| ServerLaws.InMemorySegmentsGood | ResLogger2.Common/ServerDatabase/ServerHashDatabase.cs:263-386 | the loop over the holder's indexes keeps the invariant |
| ServerLaws.InMemoryGood | ResLogger2.Common/ServerDatabase/ServerHashDatabase.cs:243-387 | `ProcessInMemory` keeps the invariant |
| ServerLaws.ProcessedSegmentsGood | ResLogger2.Common/ServerDatabase/ServerHashDatabase.cs:444-466 | `Process`'s loop keeps the invariant |
| ServerLaws.ProcessedAllGood | ResLogger2.Common/ServerDatabase/ServerHashDatabase.cs:469-475 | `Process` keeps the invariant, holder after holder |
| ServerOutcomes.ReconfirmFrame | ResLogger2.Common/ServerDatabase/ServerHashDatabase.cs:280-286 | reconfirming changes only the found row's path and range, never its key, and no table's keys |
| ServerOutcomes.ReconfirmRow | ResLogger2.Common/ServerDatabase/ServerHashDatabase.cs:282-284 | a path the row has is never replaced, a missing one is taken from the observation, and the range is widened with `gv` |
| ServerOutcomes.CombinedKnown | ResLogger2.Common/ServerDatabase/ServerHashDatabase.cs:278-286 | on a confirmed key: the row keeps its key and any path it had, takes the observation's path if it had none, its range is widened; nothing else changes |
| ServerOutcomes.CombinedNew | ResLogger2.Common/ServerDatabase/ServerHashDatabase.cs:288-323 | on a new key: both staging rows at its projections are removed, and one confirmed row with the observation's hashes, path and the promoted range is appended under the key |
| ServerOutcomes.PromotedRange | ResLogger2.Common/ServerDatabase/ServerHashDatabase.cs:291-310 | the promoted range covers `gv` and the ranges of the staging rows it replaces |
| ServerOutcomes.PromotedBounds | ResLogger2.Common/ServerDatabase/ServerHashDatabase.cs:291-310 | each bound of the promoted range is `gv`'s or one of the removed rows'; with the previous row, it is the smallest such range |
| ServerOutcomes.Index1Confirmed | ResLogger2.Common/ServerDatabase/ServerHashDatabase.cs:328-334 | an Index1-only entry whose prefix a confirmed row has widens that row and stages nothing |
| ServerOutcomes.Stage1Outcome | ResLogger2.Common/ServerDatabase/ServerHashDatabase.cs:336-354 | the Index1 row at the prefix is widened with `gv`, or created with range exactly `gv`; no other Index1 row changes |
| ServerOutcomes.Index1Staged | ResLogger2.Common/ServerDatabase/ServerHashDatabase.cs:336-354 | otherwise the Index1 staging row at the prefix is widened or created with range `gv`, and nothing else changes |
| ServerOutcomes.Index2Confirmed | ResLogger2.Common/ServerDatabase/ServerHashDatabase.cs:359-365 | an Index2-only entry whose full hash is confirmed widens the first row of that hash set and stages nothing |
| ServerOutcomes.Stage2Outcome | ResLogger2.Common/ServerDatabase/ServerHashDatabase.cs:367-384 | the Index2 row at the full hash is widened with `gv`, or created with range exactly `gv`; no other Index2 row changes |
| ServerOutcomes.Index2Staged | ResLogger2.Common/ServerDatabase/ServerHashDatabase.cs:367-384 | otherwise the Index2 staging row is widened or created with range `gv`, and nothing else changes |
| ServerOutcomes.LatestProcessedMax | ResLogger2.Common/ServerDatabase/ServerHashDatabase.cs:247-261 | the repository's version becomes the larger of its old value and `gv` (or `gv` when it had none); other repositories keep theirs |
| ServerOutcomes.LatestIndexMax | ResLogger2.Common/ServerDatabase/ServerHashDatabase.cs:265-274 | the index's version follows the same rule; other ids keep theirs |
| ServerGrowth.KeptReflexive | ResLogger2.Common/ServerDatabase/ServerHashDatabase.cs:280-286 | a row is kept by itself |
| ServerGrowth.GrowsReflexive | ResLogger2.Common/ServerDatabase/ServerHashDatabase.cs:243-387 | a catalog grows into itself |
| ServerGrowth.GrowsTransitive | ResLogger2.Common/ServerDatabase/ServerHashDatabase.cs:243-387 | growth composes across steps |
| ServerGrowth.GrowsByOneRow | ResLogger2.Common/ServerDatabase/ServerHashDatabase.cs:280-286 | rewriting one row in a way that keeps it grows the catalog |
| ServerGrowth.GrowsBySameRows | ResLogger2.Common/ServerDatabase/ServerHashDatabase.cs:328-384 | steps that leave the confirmed rows alone grow the catalog |
| ServerGrowth.StepCombinedGrows | ResLogger2.Common/ServerDatabase/ServerHashDatabase.cs:278-323 | a combined observation loses no confirmed row, moves no key, never replaces a path and never narrows a range |
| ServerGrowth.StepIndex1Grows | ResLogger2.Common/ServerDatabase/ServerHashDatabase.cs:328-354 | an Index1-only observation grows the catalog |
| ServerGrowth.StepIndex2Grows | ResLogger2.Common/ServerDatabase/ServerHashDatabase.cs:359-384 | an Index2-only observation grows the catalog |
| ServerGrowth.FoldCombinedGrows | ResLogger2.Common/ServerDatabase/ServerHashDatabase.cs:276-324 | the combined-entry loop grows the catalog |
| ServerGrowth.FoldIndex1Grows | ResLogger2.Common/ServerDatabase/ServerHashDatabase.cs:326-355 | the Index1-only loop grows the catalog |
| ServerGrowth.FoldIndex2Grows | ResLogger2.Common/ServerDatabase/ServerHashDatabase.cs:357-385 | the Index2-only loop grows the catalog |
| ServerGrowth.StagingPassesGrow | ResLogger2.Common/ServerDatabase/ServerHashDatabase.cs:326-385 | the two staging passes together grow the catalog |
| ServerGrowth.ObserveGrows | ResLogger2.Common/ServerDatabase/ServerHashDatabase.cs:276-385 | a segment's observations grow the catalog |
| ServerGrowth.InMemorySegmentsGrow | ResLogger2.Common/ServerDatabase/ServerHashDatabase.cs:263-386 | the loop over the holder's indexes grows the catalog |
| ServerGrowth.InMemoryGrows | ResLogger2.Common/ServerDatabase/ServerHashDatabase.cs:243-387 | `ProcessInMemory` never loses a confirmed row, never replaces a path and never narrows a range |
| ServerGrowth.ConfirmedGrows | ResLogger2.Common/ServerDatabase/ServerHashDatabase.cs:243-387 | a key confirmed over `gv` stays confirmed over `gv` as the catalog grows |
| ServerGrowth.StepCombinedConfirms | ResLogger2.Common/ServerDatabase/ServerHashDatabase.cs:278-323 | right after a combined observation its key is confirmed with a range covering `gv` |
| ServerGrowth.FoldCombinedConfirms | ResLogger2.Common/ServerDatabase/ServerHashDatabase.cs:276-324 | after the combined-entry loop every key it saw is confirmed over `gv` |
| ServerGrowth.ObserveConfirms | ResLogger2.Common/ServerDatabase/ServerHashDatabase.cs:276-385 | after a segment every combined entry is a confirmed row covering `gv`, with no staging row left at either projection |
| ServerGrowth.StepLatestIndexRaises | ResLogger2.Common/ServerDatabase/ServerHashDatabase.cs:265-274 | the index's version is set to `gv` unless it is already at least `gv` |
| ServerGrowth.InMemorySegmentsIndexes | ResLogger2.Common/ServerDatabase/ServerHashDatabase.cs:263-386 | the segments change the latest-index table only by raising their ids to `gv`, and never the latest-processed table |
| ServerGrowth.RaisedKeeps | ResLogger2.Common/ServerDatabase/ServerHashDatabase.cs:265-274 | raising keeps every version already at least `gv` |
| ServerGrowth.RaisedCovers | ResLogger2.Common/ServerDatabase/ServerHashDatabase.cs:263-274 | every index a holder carries ends at least at `gv` |
| ServerGrowth.InMemoryLatest | ResLogger2.Common/ServerDatabase/ServerHashDatabase.cs:243-387 | after `ProcessInMemory(holder)` the repository's version and every carried index's version are at least the holder's |
| ServerAgreement.RaisedTo | ResLogger2.Common/ServerDatabase/ServerHashDatabase.cs:265-274 | raising an id gives it at least `gv` and at least its old version, and keeps every other id |
| ServerAgreement.WithIndexesValid | ResLogger2.Common/ServerDatabase/ServerHashDatabase.cs:243-387 | replacing the latest-index table keeps the cache well formed |
| ServerAgreement.SetPathIgnoresIndexes | ResLogger2.Common/ServerDatabase/ServerHashDatabase.cs:282-283 | writing a path commutes with replacing the latest-index table |
| ServerAgreement.SetSeenIgnoresIndexes | ResLogger2.Common/ServerDatabase/ServerHashDatabase.cs:284 | writing a range commutes with replacing the latest-index table |
| ServerAgreement.Stage1Exactly | ResLogger2.Common/ServerDatabase/ServerHashDatabase.cs:336-354 | Index1 staging is exactly widen-or-create at the prefix |
| ServerAgreement.Stage2Exactly | ResLogger2.Common/ServerDatabase/ServerHashDatabase.cs:367-384 | Index2 staging is exactly widen-or-create at the full hash |
| ServerAgreement.Stage1IgnoresIndexes | ResLogger2.Common/ServerDatabase/ServerHashDatabase.cs:336-354 | Index1 staging commutes with replacing the latest-index table |
| ServerAgreement.Stage2IgnoresIndexes | ResLogger2.Common/ServerDatabase/ServerHashDatabase.cs:367-384 | Index2 staging commutes with replacing the latest-index table |
| ServerAgreement.PromoteIgnoresIndexes | ResLogger2.Common/ServerDatabase/ServerHashDatabase.cs:288-323 | promotion commutes with replacing the latest-index table |
| ServerAgreement.ReconfirmIgnoresIndexes | ResLogger2.Common/ServerDatabase/ServerHashDatabase.cs:280-286 | reconfirming commutes with replacing the latest-index table |
| ServerAgreement.StepCombinedIgnoresIndexes | ResLogger2.Common/ServerDatabase/ServerHashDatabase.cs:278-323 | a combined observation commutes with replacing the latest-index table |
| ServerAgreement.StepIndex1IgnoresIndexes | ResLogger2.Common/ServerDatabase/ServerHashDatabase.cs:328-354 | an Index1-only observation commutes with replacing the latest-index table |
| ServerAgreement.StepIndex2IgnoresIndexes | ResLogger2.Common/ServerDatabase/ServerHashDatabase.cs:359-384 | an Index2-only observation commutes with replacing the latest-index table |
| ServerAgreement.FoldCombinedIgnoresIndexes | ResLogger2.Common/ServerDatabase/ServerHashDatabase.cs:276-324 | the combined-entry loop commutes with replacing the latest-index table |
| ServerAgreement.FoldIndex1IgnoresIndexes | ResLogger2.Common/ServerDatabase/ServerHashDatabase.cs:326-355 | the Index1-only loop commutes with replacing the latest-index table |
| ServerAgreement.FoldIndex2IgnoresIndexes | ResLogger2.Common/ServerDatabase/ServerHashDatabase.cs:357-385 | the Index2-only loop commutes with replacing the latest-index table |
| ServerAgreement.ObserveIgnoresIndexes | ResLogger2.Common/ServerDatabase/ServerHashDatabase.cs:276-385 | a segment's observations neither read nor write the latest-index table |
| ServerAgreement.LatestIndexExactly | ResLogger2.Common/ServerDatabase/ServerHashDatabase.cs:265-274 | the latest-index step reads and writes only its own table |
| ServerAgreement.LatestIndexCommutes | ResLogger2.Common/ServerDatabase/ServerHashDatabase.cs:243-467 | recording the index's version before or after the observations gives the same catalog |
| ServerAgreement.SegmentsAgree | ResLogger2.Common/ServerDatabase/ServerHashDatabase.cs:243-467 | the two segment loops end in the same catalog when the database reads its own unsaved writes |
| ServerAgreement.ProcessedAgrees | ResLogger2.Common/ServerDatabase/ServerHashDatabase.cs:243-467 | `Process(holder)` and `ProcessInMemory(holder)` end in the same catalog when the database reads its own unsaved writes |
| Tables.Get | ResLogger2.Common/CompositeIndexInfo.cs:142 | the value `TryGetValue` finds is one stored under the key |
| Tables.Put | ResLogger2.Common/CompositeIndexInfo.cs:60-66 | `Dictionary.Add` throws iff the key is present, naming it; otherwise the pair is appended |
| Tables.AddAll | ResLogger2.Common/CompositeIndexInfo.cs:58-67 | the loop of `Add`s computes `PutAll`: every item appended in order, or the first duplicate key |
| Tables.Values | ResLogger2.Common/CompositeIndexInfo.cs:70 | `Values` enumerates the stored values in insertion order |
| Tables.Remove | ResLogger2.Common/CompositeIndexInfo.cs:144-145 | `Remove(k)` keeps exactly the entries under other keys |
| Tables.RemoveHas | ResLogger2.Common/CompositeIndexInfo.cs:144-145 | after `Remove(k)` a key is present iff it was present and is not `k` |
| Tables.GetRemove | ResLogger2.Common/CompositeIndexInfo.cs:144-145 | removing one key leaves the value under every other key |
| Tables.UniqueGet | ResLogger2.Common/CompositeIndexInfo.cs:142 | with distinct keys, the value found is the one stored |
| Tables.PutAllAppends | ResLogger2.Common/CompositeIndexInfo.cs:58-67 | a run of successful `Add`s appends the items in order |
| Tables.PutAllUnique | ResLogger2.Common/CompositeIndexInfo.cs:58-67 | from distinct keys, the `Add`s all succeed exactly when the result has distinct keys |
| Tables.PutAllFresh | ResLogger2.Common/CompositeIndexInfo.cs:75-79 | `Add`s into an empty dictionary without a throw give exactly the items, with distinct keys |
| Tables.RemoveUnique | ResLogger2.Common/CompositeIndexInfo.cs:144-145 | removing a key keeps the keys distinct |
| Tables.UniqueAppend | ResLogger2.Common/CompositeIndexInfo.cs:58-108 | two tables with distinct keys and no key in common combine with distinct keys |
| CompositeIndex.Collisions64Items | ResLogger2.Common/CompositeIndexInfo.cs:58-67 | each Index1 collision becomes a Combined entry: its own hashes, the full hash of its path, its path |
| CompositeIndex.Collisions32Items | ResLogger2.Common/CompositeIndexInfo.cs:86-96 | each Index2 collision becomes a Combined entry: the folder and file hashes of its path, its own hash, its path |
| CompositeIndex.Hashes64Items | ResLogger2.Common/CompositeIndexInfo.cs:114-122 | each Index1 hash record becomes an Index1 entry under its FileIdentifier |
| CompositeIndex.Hashes32Items | ResLogger2.Common/CompositeIndexInfo.cs:126-133 | each Index2 hash record becomes an Index2 entry under its FileIdentifier |
| CompositeIndex.AddCollisions64 | ResLogger2.Common/CompositeIndexInfo.cs:58-67 | the loop adds the Index1 collisions in order, or fails on the first duplicate FileIdentifier |
| CompositeIndex.AddOffsets1 | ResLogger2.Common/CompositeIndexInfo.cs:70-80 | the loop adds the kept Index1 hash records to an empty dictionary, or fails on a duplicate |
| CompositeIndex.AddCollisions32 | ResLogger2.Common/CompositeIndexInfo.cs:86-96 | the loop adds the Index2 collisions in order, or fails on the first duplicate FileIdentifier |
| CompositeIndex.AddOffsets2 | ResLogger2.Common/CompositeIndexInfo.cs:99-108 | the loop adds the kept Index2 hash records to an empty dictionary, or fails on a duplicate |
| CompositeIndex.CompositeIndexInfo.constructor | ResLogger2.Common/CompositeIndexInfo.cs:32-39 | stores both files and starts with three empty dictionaries |
| CompositeIndex.CompositeIndexInfo.IndexId | ResLogger2.Common/CompositeIndexInfo.cs:24 | Index1's id when there is an Index1, otherwise Index2's; none (a null dereference) exactly when both are missing |
| CompositeIndex.CompositeIndexInfo.Process | ResLogger2.Common/CompositeIndexInfo.cs:44-167 | the result is `ProcessSpec` of the two files, and on success the three dictionaries hold it; the files are untouched |
| CompositeLaws.Offsets1Sound | ResLogger2.Common/CompositeIndexInfo.cs:70-80 | every Index1 offset entry comes from a non-synonym record whose FileIdentifier is not already Combined |
| CompositeLaws.Offsets1Complete | ResLogger2.Common/CompositeIndexInfo.cs:70-80 | every such record has an offset entry |
| CompositeLaws.Offsets2Sound | ResLogger2.Common/CompositeIndexInfo.cs:99-108 | every Index2 offset entry comes from a non-synonym record whose hash no Combined entry carries |
| CompositeLaws.Offsets2Complete | ResLogger2.Common/CompositeIndexInfo.cs:99-108 | every such record has an offset entry |
| CompositeLaws.LoadCombined | ResLogger2.Common/CompositeIndexInfo.cs:55-109 | after loading, Combined holds Index1's collisions and then Index2's |
| CompositeLaws.LoadOffsets | ResLogger2.Common/CompositeIndexInfo.cs:55-109 | the offset dictionaries are the filtered records, with distinct keys; Index2's filter sees the collisions of both files |
| CompositeLaws.ProcessTags | ResLogger2.Common/CompositeIndexInfo.cs:46-50 | a mis-tagged Index1 throws first; otherwise a mis-tagged Index2 throws |
| CompositeLaws.ProcessCollisions | ResLogger2.Common/CompositeIndexInfo.cs:55-109 | the Combined dictionary starts with the collisions of Index1 and then of Index2 |
| CompositeLaws.ProcessIndex1Collision | ResLogger2.Common/CompositeIndexInfo.cs:58-67 | every Index1 collision is Combined under its FileIdentifier with its hashes, the full hash of its path and its path |
| CompositeLaws.ProcessIndex2Collision | ResLogger2.Common/CompositeIndexInfo.cs:86-96 | every Index2 collision is Combined under its FileIdentifier with its path's hashes, its own hash and its path |
| CompositeLaws.ProcessOnlyIndex1 | ResLogger2.Common/CompositeIndexInfo.cs:112-123 | with only an Index1, every hash record, synonyms included, goes to Index1Entries, and Combined holds just the collisions |
| CompositeLaws.ProcessOnlyIndex2 | ResLogger2.Common/CompositeIndexInfo.cs:124-134 | with only an Index2, every hash record, synonyms included, goes to Index2Entries, and Combined holds just the collisions |
| CompositeLaws.ProcessBoth | ResLogger2.Common/CompositeIndexInfo.cs:135-166 | with both files the join never throws, and the three dictionaries are its output and its two leftovers |
| CompositeLaws.ProcessMatched | ResLogger2.Common/CompositeIndexInfo.cs:140-154 | a FileIdentifier in both offset dictionaries becomes one Combined entry without a path, and is in neither leftover |
| CompositeLaws.ProcessLeftover1 | ResLogger2.Common/CompositeIndexInfo.cs:157-160 | Index1Entries holds exactly the Index1 offsets whose key has no Index2 offset |
| CompositeLaws.ProcessLeftover2 | ResLogger2.Common/CompositeIndexInfo.cs:162-165 | Index2Entries holds exactly the Index2 offsets whose key has no Index1 offset |
| CompositeLaws.ProcessIndex1Filtered | ResLogger2.Common/CompositeIndexInfo.cs:70-80 | with both files, every Index1Entries entry comes from a non-synonym record that is not an Index1 collision |
| CompositeLaws.ProcessIndex2Filtered | ResLogger2.Common/CompositeIndexInfo.cs:99-108 | with both files, every Index2Entries entry comes from a non-synonym record whose hash is no collision's full hash |
| Joins.JoinLoop | ResLogger2.Common/CompositeIndexInfo.cs:137-154 | the loop over a snapshot of the first dictionary computes `Join` |
| Joins.JoinGrows | ResLogger2.Common/CompositeIndexInfo.cs:147-153 | the join only appends to the output |
| Joins.JoinOutKeys | ResLogger2.Common/CompositeIndexInfo.cs:140-154 | the output gains exactly the keys the snapshot and the second dictionary share |
| Joins.JoinRest2 | ResLogger2.Common/CompositeIndexInfo.cs:142-145 | a second-dictionary entry is left over exactly when the snapshot lacks its key |
| Joins.JoinRest1 | ResLogger2.Common/CompositeIndexInfo.cs:142-144 | a first-dictionary entry is left over exactly when the snapshot and the second dictionary do not both hold its key |
| Joins.JoinKeeps1 | ResLogger2.Common/CompositeIndexInfo.cs:144 | left-over first-dictionary entries are original entries, unchanged |
| Joins.JoinKeeps2 | ResLogger2.Common/CompositeIndexInfo.cs:145 | left-over second-dictionary entries are original entries, unchanged |
| Joins.JoinMatched | ResLogger2.Common/CompositeIndexInfo.cs:142-153 | a snapshot entry whose key the second dictionary holds is merged with that value into the output |
| Joins.JoinNeverThrows | ResLogger2.Common/CompositeIndexInfo.cs:147 | with distinct snapshot keys none of which is already output, no `Add` throws, and the output keeps distinct keys |
| Joins.JoinRestUnique | ResLogger2.Common/CompositeIndexInfo.cs:144-145 | the left-over dictionaries keep distinct keys |
| PatchIndexHolders.FileName | ResLogger2.Common/PatchIndexHolder.cs:41 | `Path.GetFileName`: a suffix of the path holding no '/' |
| PatchIndexHolders.Stem | ResLogger2.Common/PatchIndexHolder.cs:41 | `Path.GetFileNameWithoutExtension` holds no '/' |
| PatchIndexHolders.StemOfPath | ResLogger2.Common/PatchIndexHolder.cs:41 | the stem of "dir/stem.ext" is "stem" whenever the extension holds no '.' and neither part a '/' |
| PatchIndexHolders.FileNameOf | ResLogger2.Common/PatchIndexHolder.cs:41 | the file name of "dir/name" is "name" |
| PatchIndexHolders.Only1 | ResLogger2.Common/PatchIndexHolder.cs:92-95 | every left-over `.index` file becomes a segment with no `.index2`, in order |
| PatchIndexHolders.Only2 | ResLogger2.Common/PatchIndexHolder.cs:97-100 | every left-over `.index2` file becomes a segment with no `.index`, in order |
| PatchIndexHolders.ToDictionary | ResLogger2.Common/PatchIndexHolder.cs:77-78 | `ToDictionary(GetFileNameWithoutExtension, IndexFile.Read)` adds every file under its stem, or fails on a stem seen twice |
| PatchIndexHolders.LoadAllIndexData | ResLogger2.Common/PatchIndexHolder.cs:75-103 | the loops compute `LoadAllSpec`: pair the stems, then construct each segment in order |
| PatchIndexHolders.AddAlone1 | ResLogger2.Common/PatchIndexHolder.cs:92-95 | the second loop appends the `.index`-only segments |
| PatchIndexHolders.AddAlone2 | ResLogger2.Common/PatchIndexHolder.cs:97-100 | the third loop appends the `.index2`-only segments |
| PatchIndexHolders.ConstructAll | ResLogger2.Common/PatchIndexHolder.cs:86-99 | each segment's `new CompositeIndexInfo` in list order; the first throw ends the load |
| PatchIndexHolders.Construct1 | ResLogger2.Common/PatchIndexHolder.cs:86 | one `new CompositeIndexInfo(index1, index2)` is `SegmentOf` the segment |
| PatchIndexHolders.PrependAssoc | ResLogger2.Common/PatchIndexHolder.cs:80-102 | prefixes of finished segments compose |
| PatchIndexHolders.FromDirectory | ResLogger2.Common/PatchIndexHolder.cs:24-37 | computes `FromDirectorySpec`: info.txt overrides the repository, and the comment stays null |
| PatchIndexHolders.Construct | ResLogger2.Common/PatchIndexHolder.cs:17-22 | the private constructor parses the version with the comment, then loads the directory |
| PatchIndexHolders.FromPatch | ResLogger2.Common/PatchIndexHolder.cs:39-50 | computes `FromPatchSpec`: a hotfix stem yields an empty holder without extraction; any other stem is extracted and loaded |
| PatchLaws.Only1Keys | ResLogger2.Common/PatchIndexHolder.cs:92-95 | the `.index`-only part has exactly the left-over `.index` stems |
| PatchLaws.Only2Keys | ResLogger2.Common/PatchIndexHolder.cs:97-100 | the `.index2`-only part has exactly the left-over `.index2` stems |
| PatchLaws.OnlyUnique | ResLogger2.Common/PatchIndexHolder.cs:92-100 | distinct left-over stems give distinct segment stems |
| PatchLaws.PairingParts | ResLogger2.Common/PatchIndexHolder.cs:82-100 | the output is the paired segments (stems in both), then `.index`-only stems, then `.index2`-only stems, and the join never throws |
| PatchLaws.PairingStems | ResLogger2.Common/PatchIndexHolder.cs:75-103 | every stem of either kind of file has a segment, and no other stem has one |
| PatchLaws.PairingUnique | ResLogger2.Common/PatchIndexHolder.cs:75-103 | no stem has two segments |
| PatchLaws.PairingSegment | ResLogger2.Common/PatchIndexHolder.cs:82-100 | the segment of a stem holds that stem's `.index` file and `.index2` file, each missing exactly when no such file exists |
| PatchLaws.JoinPaired | ResLogger2.Common/PatchIndexHolder.cs:82-90 | every segment the first loop adds pairs two files |
| PatchLaws.PairingOrder | ResLogger2.Common/PatchIndexHolder.cs:82-100 | paired stems come first, then `.index`-only stems, then `.index2`-only stems |
| PatchLaws.ConcatTiers | ResLogger2.Common/PatchIndexHolder.cs:82-100 | the three parts of the output have ranks 0, 1 and 2 by position |
| PatchLaws.TiersOrdered | ResLogger2.Common/PatchIndexHolder.cs:82-100 | entries ranked by position tier are in rank order |
| PatchLaws.ProcessAllEach | ResLogger2.Common/PatchIndexHolder.cs:86-99 | one CompositeIndexInfo per segment, in segment order |
| PatchLaws.SegmentIndexId | ResLogger2.Common/CompositeIndexInfo.cs:24 | a segment's IndexId is its `.index` file's id, or its `.index2` file's without one |
| PatchLaws.HotfixPatch | ResLogger2.Common/PatchIndexHolder.cs:41-44 | a hotfix patch (stem starting with 'H') is never extracted: no segments, and the version of the stem without its first character |
| PatchLaws.PatchVersion | ResLogger2.Common/PatchIndexHolder.cs:39-50 | every patch holder's version is parsed from the stem without its first character, with no comment, and keeps the repository |
| PatchLaws.DirectoryVersion | ResLogger2.Common/PatchIndexHolder.cs:24-37 | a directory holder's version is never special and has no comment; its repository is info.txt's first line when that file exists |
| PathDbServices.StagedRange | ResLogger2.Web/services/PathDbService.cs:82-115 | `earliest`/`latest`: none without staging rows; one row's range alone; with both, the Index1 range widened by the Index2 bounds lying strictly outside it |
| PathDbServices.UploadConfirmed | ResLogger2.Web/services/PathDbService.cs:46-61 | a path whose key is confirmed counts as existing; its name is attached only when it had none (a new path), and neither its range nor the staging tables change |
| PathDbServices.UploadUnknown | ResLogger2.Web/services/PathDbService.cs:63-79 | a path is ignored exactly when it has no confirmed row and no staging row at either projection, and then nothing changes |
| PathDbServices.UploadPromoted | ResLogger2.Web/services/PathDbService.cs:80-134 | otherwise both staging rows are removed and a confirmed row with the path and a range containing theirs is added; the range is ordered when theirs were |
| PathDbServices.AbsorbOrdered | ResLogger2.Web/services/PathDbService.cs:96-113 | merging two ordered ranges gives an ordered range containing both |
| PathDbServices.UploadKeeps | ResLogger2.Web/services/PathDbService.cs:42-135 | no upload removes a confirmed row, renames a named one or touches another row, and each keeps the staging and confirmed tables disjoint |
| PathDbServices.UploadLeavesConfirmed | ResLogger2.Web/services/PathDbService.cs:51-134 | a path that is not ignored has a confirmed row afterwards |
| PathDbServices.RunLast | ResLogger2.Web/services/PathDbService.cs:42-135 | the loop over one more path is one more step of the loop |
| PathDbServices.Accumulate | ResLogger2.Web/services/PathDbService.cs:137-140 | adding the counters into `totals` leaves `PostProcessed` alone |
| PathDbServices.RunCounts | ResLogger2.Web/services/PathDbService.cs:36-135 | 0 <= newPaths <= existPaths <= the number of paths, and nothing is post-processed |
| PathDbServices.RunKeeps | ResLogger2.Web/services/PathDbService.cs:42-135 | over a batch, confirmed rows are never removed or renamed and disjointness holds throughout |
| PathDbServices.ProcessPath | ResLogger2.Web/services/PathDbService.cs:44-134 | one turn of the loop: the store after `Upload` and the counters moved by its outcome |
| PathDbServices.PathDbService.constructor | ResLogger2.Web/services/PathDbService.cs:27-32 | the service works on the given database |
| PathDbServices.PathDbService.ProcessInternal | ResLogger2.Web/services/PathDbService.cs:34-141 | the database after the loop is `Run` over the paths, and the counters are added into `totals`; the loop reads its own unsaved writes |
| PathDbServices.PathDbService.ProcessDataAsync | ResLogger2.Web/services/PathDbService.cs:152-191 | succeeds exactly when the lock is taken and the save goes through; only then does the database change, to `Run` over the uploaded paths |
| PathDbServices.TotalsBounded | ResLogger2.Web/services/PathDbService.cs:196-216 | `Totals` lists an index exactly when it has a confirmed row; its named count never exceeds its row count |
| PathDbServices.PossibleBounded | ResLogger2.Web/services/PathDbService.cs:221-249 | `Possible` lists an index exactly when it has a row last seen in its latest version; its counts are bounded by the same index's `Totals` |
| UpdateJobs.RepoOf | ResLogger2.Web/Jobs/UpdateJob.cs:206-211 | the repository part is 8 characters long whenever it can be read |
| UpdateJobs.VersionTextOf | ResLogger2.Web/Jobs/UpdateJob.cs:212-215 | the version text is shorter than the stem it is cut from |
| UpdateJobs.GetRepoAndVersion | ResLogger2.Web/Jobs/UpdateJob.cs:204-217 | on success the repository id has 8 characters |
| UpdateJobs.LastOccurrence | ResLogger2.Web/Jobs/UpdateJob.cs:207 | `LastIndexOf("game/", Ordinal)`: -1 or a position where the pattern occurs, and no occurrence lies after it |
| UpdateJobs.LastOccurrenceAt | ResLogger2.Web/Jobs/UpdateJob.cs:207 | an occurrence after which no character matches the pattern's first is the last one |
| UpdateJobs.ExFolder | ResLogger2.Web/Jobs/UpdateJob.cs:209-210 | the expansion folder "exN/" is the 4 characters skipped after an 'e' |
| UpdateJobs.GameAt | ResLogger2.Web/Jobs/UpdateJob.cs:207 | the "game/" of a download URL is the last one when nothing after it holds a 'g' |
| UpdateJobs.GameOccurs | ResLogger2.Web/Jobs/UpdateJob.cs:207 | "game/" occurs where it was put |
| UpdateJobs.NoGAfterGame | ResLogger2.Web/Jobs/UpdateJob.cs:207 | no 'g' follows that "game/" |
| UpdateJobs.PatchUrlSplit | ResLogger2.Web/Jobs/UpdateJob.cs:206-211 | a download URL is its prefix, "game/", and the part the repository is read from |
| UpdateJobs.AfterGameFree | ResLogger2.Web/Jobs/UpdateJob.cs:207 | what follows "game/" holds no 'g' when its parts hold none |
| UpdateJobs.RepoOfAt | ResLogger2.Web/Jobs/UpdateJob.cs:206-211 | with the last "game/" at `at` and the id `n` characters later (4 exactly after an 'e'), the 8 characters there are the repository |
| UpdateJobs.RepoAfterGame | ResLogger2.Web/Jobs/UpdateJob.cs:206-211 | the repository is read from what follows the last "game/" |
| UpdateJobs.RepoOfPatchUrl | ResLogger2.Web/Jobs/UpdateJob.cs:206-211 | round trip: the repository of `.../game/[exN/]<repo>/<stem>.patch` is `repo`, for an 8-character id, with no 'g' after "game/" and no base-game id starting with 'e' |
| UpdateJobs.GetRepoAndVersionOfPatchUrl | ResLogger2.Web/Jobs/UpdateJob.cs:204-217 | round trip: such a URL gives back its repository and the version parsed from its stem without the first letter, or the parse error |
| UpdateJobs.StemOfPatchUrl | ResLogger2.Web/Jobs/UpdateJob.cs:212 | the stem of such a URL is the one it was built from |
| UpdateJobs.VersionTextOfPatchUrl | ResLogger2.Web/Jobs/UpdateJob.cs:212-215 | the version text of such a URL is its stem without the leading letter |
| UpdateJobs.RepoStartingWithE | ResLogger2.Web/Jobs/UpdateJob.cs:209-211 | a base-game repository id starting with 'e' is read as an expansion folder: "game/e0123456/D2023.patch" gives "3456/D20" |
| UpdateJobs.UpdatesFromOk | ResLogger2.Web/Jobs/UpdateJob.cs:53-66 | without a throw, the repositories in `updatesNeeded` are exactly those whose stored version the upstream one differs from, each with both versions; unknown repositories never appear |
| UpdateJobs.UpdatesFromErr | ResLogger2.Web/Jobs/UpdateJob.cs:55-66 | the loop throws exactly when two upstream entries for one repository both need it updated |
| UpdateJobs.UpdatesFromErrStays | ResLogger2.Web/Jobs/UpdateJob.cs:55-66 | once the loop has thrown, later entries change nothing |
| UpdateJobs.UpdatesNeeded | ResLogger2.Web/Jobs/UpdateJob.cs:53-66 | the first loop computes `UpdatesFrom` |
| UpdateJobs.Appended | ResLogger2.Web/Jobs/UpdateJob.cs:103-106 | adding a URL to a repository's list appends it, creating the list if missing, and leaves other repositories alone |
| UpdateJobs.SelectFromErr | ResLogger2.Web/Jobs/UpdateJob.cs:89-109 | the second loop throws exactly when some URL's verdict is to throw |
| UpdateJobs.Taken | ResLogger2.Web/Jobs/UpdateJob.cs:89-109 | at most as many URLs are taken as there are |
| UpdateJobs.TakenHas | ResLogger2.Web/Jobs/UpdateJob.cs:89-109 | a URL is taken for a repository exactly when it is one of the URLs and its verdict is to take it for that repository |
| UpdateJobs.SelectFromOk | ResLogger2.Web/Jobs/UpdateJob.cs:89-109 | without a throw the dictionary lists, for each repository with a URL taken, exactly its taken URLs in order, and no other repository |
| UpdateJobs.SelectFromErrStays | ResLogger2.Web/Jobs/UpdateJob.cs:89-109 | once the loop has thrown, later URLs change nothing |
| UpdateJobs.VerdictOfIs | ResLogger2.Web/Jobs/UpdateJob.cs:91-101 | a URL throws exactly when it is not historical and cannot be read, and is taken exactly when its repository needs an update and its version is newer than the stored one |
| UpdateJobs.PatchesFromErr | ResLogger2.Web/Jobs/UpdateJob.cs:89-109 | the selection throws exactly when some non-historical URL cannot be read |
| UpdateJobs.PatchSelected | ResLogger2.Web/Jobs/UpdateJob.cs:89-109 | otherwise a URL is listed under a repository exactly when it is one of the URLs, it is wanted, and it names that repository |
| UpdateJobs.PatchesListed | ResLogger2.Web/Jobs/UpdateJob.cs:95-106 | every repository listed needs an update and has at least one URL |
| UpdateJobs.AddPatchFile | ResLogger2.Web/Jobs/UpdateJob.cs:91-106 | one turn of the second loop: skip, throw, or append the URL under its repository |
| UpdateJobs.PatchFilesNeeded | ResLogger2.Web/Jobs/UpdateJob.cs:88-109 | the second loop computes `PatchesFrom` |
| UpdateJobs.ImportedAll | ResLogger2.Web/Jobs/UpdateJob.cs:185-186 | `ProcessInMemory` on each holder in turn keeps the cache well formed |
| UpdateJobs.UpdateJob.constructor | ResLogger2.Web/Jobs/UpdateJob.cs:30-38 | the job works on the given database |
| UpdateJobs.UpdateJob.Import | ResLogger2.Web/Jobs/UpdateJob.cs:175-198 | without the lock nothing is processed; with it every holder goes through `ProcessInMemory` in order |
| PatchDownloads.ParentName | ResLogger2.Web/Jobs/UpdateJob.cs:156 | the repository of a downloaded file is the name of its directory: a suffix of the part before the last '/', holding no '/', and empty for a bare file name |
| PatchDownloads.HoldersFrom | ResLogger2.Web/Jobs/UpdateJob.cs:150-170 | the loop collects at most one holder per downloaded file |
| PatchDownloads.HoldersFromCollects | ResLogger2.Web/Jobs/UpdateJob.cs:154-160 | each collected holder is `FromPatch` of the file at its position, with its directory's name as the repository |
| PatchDownloads.HoldersFromStops | ResLogger2.Web/Jobs/UpdateJob.cs:152-166 | when fewer holders than files are collected, `FromPatch` of the next file throws: the catch ends the loop at the first failure |
| PatchDownloads.BuildHolders | ResLogger2.Web/Jobs/UpdateJob.cs:150-170 | the `foreach` with its catch computes `HoldersFrom` of the listed files |
| UpdateJobs.UpdateJob.Execute | ResLogger2.Web/Jobs/UpdateJob.cs:40-202 | fails exactly when the first loop throws or, with updates, the second does; returns early exactly when no update is needed; otherwise selects `PatchesFrom`, and only under the lock imports the holders `HoldersFrom` builds from the downloaded files |
| IndexRepositories.CharAt | ResLogger2.Plugin/IndexRepository.cs:92 | `s[i]` throws exactly past the end |
| IndexRepositories.Substring | ResLogger2.Plugin/IndexRepository.cs:112 | `Substring(start, len)` throws exactly when the range passes the end |
| IndexRepositories.Parse | ResLogger2.Plugin/IndexRepository.cs:113 | `uint.Parse` succeeds exactly as the version parser's does, with the same value |
| IndexRepositories.ShortNumber | ResLogger2.Plugin/IndexRepository.cs:98-113 | one or two digits parse below 100 |
| IndexRepositories.BgSubCategoryId | ResLogger2.Plugin/IndexRepository.cs:86-116 | the bg sub-id is below 99 * 256 + 100 |
| IndexRepositories.NonBgSubCategoryId | ResLogger2.Plugin/IndexRepository.cs:119-131 | the non-bg sub-id is an expansion number below 100 shifted left by 8 |
| IndexRepositories.WithCategory | ResLogger2.Plugin/IndexRepository.cs:68-78 | `sub | (category << 16)` is `category * 65536 + sub`, and fails exactly when the sub-id throws |
| IndexRepositories.CategoryIdForPath | ResLogger2.Plugin/IndexRepository.cs:62-83 | every category id is below 0x130000 |
| IndexRepositories.TableRow | ResLogger2.Plugin/IndexRepository.cs:64-81 | the first prefix of the chain the path starts with, and none before it |
| IndexRepositories.CategoryFollowsTable | ResLogger2.Plugin/IndexRepository.cs:62-83 | the high bits are the category of the first matching prefix (0 without one), and the low 16 bits are 0 unless the prefix is bg/, cut or mus |
| IndexRepositories.CategoryAtRow | ResLogger2.Plugin/IndexRepository.cs:64-81 | a path whose first matching prefix is row `i` gets row `i`'s category |
| IndexRepositories.SubIdInLowBits | ResLogger2.Plugin/IndexRepository.cs:68 | or-ing a sub-id below 65536 into the shifted category is adding it, and the two parts come back out |
| IndexRepositories.BgExample | ResLogger2.Plugin/IndexRepository.cs:86-116 | `bg/ex1/01...` lies in category 0x020101 |
| IndexRepositories.BgWithoutExpansionThrows | ResLogger2.Plugin/IndexRepository.cs:106-113 | a `bg/e...` path with no '/' at index 6 or 7 throws: the segment read at index 3 starts with 'e' |
| IndexRepositories.BgSubId | ResLogger2.Plugin/IndexRepository.cs:96-115 | the sub-id of `bg/exN/SS` or `bg/exNN/SS` is the expansion shifted left by 8 plus the segment |
| IndexRepositories.ShortValue | ResLogger2.Plugin/IndexRepository.cs:98-113 | one or two digits have a value below 100 |
| IndexRepositories.Exists | ResLogger2.Plugin/IndexRepository.cs:133-166 | `default` exactly when the classifier throws; otherwise the path as given, found exactly when its category has a set holding the CRC of the lower-cased path, with that category as IndexId, else IndexId uint.MaxValue |
| PyIndexRepositories.CharAt | ResLogger2.Web/services/web/project/index_repository.py:99 | `path[i]` raises exactly past the end |
| PyIndexRepositories.Slice | ResLogger2.Web/services/web/project/index_repository.py:111 | a slice never raises; within the string it is the substring, and it is never longer than asked |
| PyIndexRepositories.Int | ResLogger2.Web/services/web/project/index_repository.py:112 | `int` succeeds on a non-empty digit string, with its value |
| PyIndexRepositories.BgSubCategoryId | ResLogger2.Web/services/web/project/index_repository.py:96-113 | the bg sub-id is below 65536 |
| PyIndexRepositories.SegmentOr | ResLogger2.Web/services/web/project/index_repository.py:113 | or-ing a segment below 256 into a multiple of 256 is adding it |
| PyIndexRepositories.NonBgSubCategoryId | ResLogger2.Web/services/web/project/index_repository.py:116-126 | the non-bg sub-id is an expansion number below 100 shifted left by 8 |
| PyIndexRepositories.WithCategory | ResLogger2.Web/services/web/project/index_repository.py:67-87 | `sub | (category << 16)` is `category * 65536 + sub` |
| PyIndexRepositories.CategoryId | ResLogger2.Web/services/web/project/index_repository.py:61-93 | every category id is below 0x130000 |
| PyIndexRepositories.BgAgrees | ResLogger2.Web/services/web/project/index_repository.py:96-113 | wherever the C# bg sub-id is defined, the Python one is the same |
| PyIndexRepositories.NonBgAgrees | ResLogger2.Web/services/web/project/index_repository.py:116-126 | wherever the C# non-bg sub-id is defined, the Python one is the same |
| PyIndexRepositories.CategoryAgrees | ResLogger2.Web/services/web/project/index_repository.py:61-93 | wherever the C# classifier gives an id, the Python one gives the same id |
| PyIndexRepositories.ShortSegmentDiffers | ResLogger2.Web/services/web/project/index_repository.py:111-112 | the converse fails: "bg/ex1/5" throws in C# but is 0x020105 in Python, whose slice takes the one digit there |
| PyIndexRepositories.Exists | ResLogger2.Web/services/web/project/index_repository.py:128-133 | raises exactly when the classifier does; found exactly when the category has a set holding the CRC of the path as given, with the category, path and hash; otherwise none |
| PostProcessors.CharaReplace | ResLogger2.Plugin/PathPostProcessor.cs:54-65 | a path without a match of `c\d{4}(\D)` is left unchanged |
| PostProcessors.FirstContained | ResLogger2.Plugin/PathPostProcessor.cs:92 | `FirstOrDefault(path.Contains)`: the first element the path contains, or null when it contains none |
| PostProcessors.ReplacedByAre | ResLogger2.Plugin/PathPostProcessor.cs:96-100 | the swaps are exactly the path with `ours` replaced by each other element |
| PostProcessors.ReplacementsAre | ResLogger2.Plugin/PathPostProcessor.cs:90-101 | nothing is added when no element occurs; otherwise exactly the path with the first contained element replaced by each other element |
| PostProcessors.AddReplacementsFromList | ResLogger2.Plugin/PathPostProcessor.cs:90-101 | the method adds exactly those replacements to the staging set |
| PostProcessors.CharaEachAre | ResLogger2.Plugin/PathPostProcessor.cs:64-65 | one guess per character id, the path with every match rewritten to that id |
| PostProcessors.UiVariants | ResLogger2.Plugin/PathPostProcessor.cs:67-73 | nothing unless a `ui/` path ends in ".tex"; then the path without "_hr1" when it ends in "_hr1.tex", else with ".tex" turned into "_hr1.tex" |
| PostProcessors.GenderVariants | ResLogger2.Plugin/PathPostProcessor.cs:75-78 | "_m_" becomes "_f_"; only without "_m_" does "_f_" become "_m_"; otherwise nothing |
| PostProcessors.GatheredAdd | ResLogger2.Plugin/PathPostProcessor.cs:61-85 | what the paths give grows by one path's guesses when that path is added |
| PostProcessors.GatheredGrows | ResLogger2.Plugin/PathPostProcessor.cs:61-85 | the loop's staging set after one more path is what the visited paths give |
| PostProcessors.Step | ResLogger2.Plugin/PathPostProcessor.cs:57-88 | a pass never loses a path |
| PostProcessors.AddCharaVariants | ResLogger2.Plugin/PathPostProcessor.cs:63-65 | the character-id loop adds exactly the character-id guesses |
| PostProcessors.ListsHaveNoEmptyElement | ResLogger2.Plugin/PathPostProcessor.cs:27-50 | no replacement list holds the empty string |
| PostProcessors.AddVariants | ResLogger2.Plugin/PathPostProcessor.cs:63-84 | the loop body adds exactly what one path contributes |
| PostProcessors.AddPatternVariants | ResLogger2.Plugin/PathPostProcessor.cs:63-78 | the first three rules add exactly their guesses |
| PostProcessors.AddListVariants | ResLogger2.Plugin/PathPostProcessor.cs:80-84 | the five list rules add exactly their swaps |
| PostProcessors.PostProcessInternal | ResLogger2.Plugin/PathPostProcessor.cs:57-88 | the staging set is cleared and refilled from every path, and the paths become their union with it |
| PostProcessors.FixpointClosed | ResLogger2.Plugin/PathPostProcessor.cs:103-118 | at the fixpoint every guess from every path is already a path |
| PostProcessors.PostProcess | ResLogger2.Plugin/PathPostProcessor.cs:103-119 | the result holds the input path, and is a fixpoint of a pass when the loop ended |
| PyPostProcess.PyUiVariants | ResLogger2.Web/services/web/project/postprocess.py:38-43 | nothing unless a `ui/` path ends in "tex"; then the "_hr1" twin as in the plugin |
| PyPostProcess.ListsNonEmpty | ResLogger2.Web/services/web/project/postprocess.py:20-24 | no replacement list holds the empty string |
| PyPostProcess.PyStep | ResLogger2.Web/services/web/project/postprocess.py:30-84 | a pass never loses a path |
| PyPostProcess.FindFirst | ResLogger2.Web/services/web/project/postprocess.py:46-50 | the search loop finds the first element the path contains, as the plugin's `FirstOrDefault` does |
| PyPostProcess.SwapFirst | ResLogger2.Web/services/web/project/postprocess.py:46-76 | one search-then-swap block adds exactly the plugin's replacements for that list |
| PyPostProcess.AddSwaps | ResLogger2.Web/services/web/project/postprocess.py:45-76 | the three blocks add exactly their swaps |
| PyPostProcess.AddPyVariants | ResLogger2.Web/services/web/project/postprocess.py:33-82 | the loop body adds exactly what one path contributes |
| PyPostProcess.PostprocessInternal | ResLogger2.Web/services/web/project/postprocess.py:30-84 | a fresh staging set filled from every path, returned merged with the paths |
| PyPostProcess.Postprocess | ResLogger2.Web/services/web/project/postprocess.py:87-94 | the result contains the input, and is a fixpoint of a pass when the loop ended |
| PyPostProcess.PyFixpointClosed | ResLogger2.Web/services/web/project/postprocess.py:87-94 | at the fixpoint every guess from every path is already a path |
| PyPostProcess.UiRulesAgree | ResLogger2.Web/services/web/project/postprocess.py:39 | on paths ending in ".tex", or not in "tex" at all, the port's UI rule is the plugin's |
| PyPostProcess.UiRuleLooser | ResLogger2.Web/services/web/project/postprocess.py:39-43 | "ui/atex" gets nothing from the plugin but itself from the port |
| PyPostProcess.LanguageOrderDiffers | ResLogger2.Web/services/web/project/postprocess.py:20 | a path holding both "_fr." and "_de." has "_fr." swapped out by the plugin but "_de." by the port |
| LocalHashDatabases.CacheAdd | ResLogger2.Plugin/Database/LocalHashDatabase.cs:340-363 | the answer is true exactly when neither the full hash nor the (folder, file) pair was cached; a cached full hash leaves both maps untouched |
| LocalHashDatabases.CacheAddFull | ResLogger2.Plugin/Database/LocalHashDatabase.cs:342-349 | afterwards a full hash is cached exactly when it was before or is the one added |
| LocalHashDatabases.CacheAddFile | ResLogger2.Plugin/Database/LocalHashDatabase.cs:351-360 | afterwards a (folder, file) pair is cached exactly when it was before or is the added one and the full hash was new |
| LocalHashDatabases.CacheAddTwice | ResLogger2.Plugin/Database/LocalHashDatabase.cs:340-363 | adding the same hashes again answers false and changes nothing |
| LocalHashDatabases.Truncate | ResLogger2.Plugin/Database/LocalHashDatabase.cs:80 | `(uint)` keeps the low 32 bits: equal to the value in range, congruent modulo 2^32 always |
| LocalHashDatabases.RowKey | ResLogger2.Plugin/Database/LocalHashDatabase.cs:75-92 | a row is skipped exactly when a column is NULL or a hash lies outside 0..uint.MaxValue; otherwise the hashes are kept and the index id is truncated |
| LocalHashDatabases.LoadRowsFull | ResLogger2.Plugin/Database/LocalHashDatabase.cs:67-95 | after the reader loop a full hash is cached exactly when it was before or some accepted row carries it |
| LocalHashDatabases.LocalHashDatabase.constructor | ResLogger2.Plugin/Database/LocalHashDatabase.cs:47-48 | both caches start empty and no row is stored |
| LocalHashDatabases.LocalHashDatabase.AddToCache | ResLogger2.Plugin/Database/LocalHashDatabase.cs:335-363 | the answer and the new caches are those of `CacheAdd`; no row is inserted |
| LocalHashDatabases.LocalHashDatabase.AddFullPath | ResLogger2.Plugin/Database/LocalHashDatabase.cs:320-333 | a missing path changes nothing; an existing one goes through `AddToCache` and a row with its hashes, its text and uploaded = 0 is inserted exactly when that reports it new; every stored row stays cached and unique |
| LocalHashDatabases.LocalHashDatabase.Initialize | ResLogger2.Plugin/Database/LocalHashDatabase.cs:67-95 | the caches become what reading the stored rows in order gives; no row is added |
| LocalHashDatabases.Migrations | ResLogger2.Plugin/Database/LocalHashDatabase.cs:131-180 | throws exactly for an existing file whose version is not 1, 2 or 3; version 3 is left alone |
| LocalHashDatabases.MigrationsReachCurrent | ResLogger2.Plugin/Database/LocalHashDatabase.cs:131-180 | every dispatch that does not throw leaves the file at version 3 |
| ExistsResults.FileTextOf | ResLogger2.Common/ExistsResult.cs:5 | the file text holds no '/' and is the whole path when there is none |
| ExistsResults.FolderTextOf | ResLogger2.Common/ExistsResult.cs:6 | throws exactly when the path holds no '/'; otherwise folder + "/" + file is the path |
| ExistsResults.Equals | ResLogger2.Common/ExistsResult.cs:40-43 | true exactly for another result with the same index id and folder text; throws exactly when the ids match and either path lacks a '/' |
| ExistsResults.Neq | ResLogger2.Common/ExistsResult.cs:35-38 | `!=` throws where `==` throws and is its negation otherwise |
| ExistsResults.SameFolderEqual | ResLogger2.Common/ExistsResult.cs:40-43 | two paths in the same folder of the same index are equal whatever their file names |
| ExistsResults.FolderOfJoined | ResLogger2.Common/ExistsResult.cs:6 | the folder of folder + "/" + file is folder when file holds no '/' |
| ExistsResults.EqualsSymmetric | ResLogger2.Common/ExistsResult.cs:30-43 | `==` is symmetric, errors included |
| ExistsResults.EqualsReflexive | ResLogger2.Common/ExistsResult.cs:30-43 | `==` is reflexive on paths that have a folder |
| ExistsResults.EqualsTransitive | ResLogger2.Common/ExistsResult.cs:30-43 | `==` is transitive |
| PluginExistsResults.AsInt32 | ResLogger2.Plugin/ExistsResult.cs:26 | `unchecked((int) h)` is the signed 32-bit number congruent to h |
| PluginExistsResults.Equals | ResLogger2.Plugin/ExistsResult.cs:17-22 | true exactly for another result with the same index id and folder text; throws exactly when the ids match and either path lacks a '/' |
| PluginExistsResults.HashCodeDisagreesWithEquals | ResLogger2.Plugin/ExistsResult.cs:17-27 | "a/b" and "a/c" in index 0 are equal but get different hash codes under any CRC telling them apart |
| PluginExistsResults.EqualsAgreesWithHashByFolder | ResLogger2.Plugin/ExistsResult.cs:17-27 | with the folder-based hash code, equal values have equal hash codes |
| Extensions.AsciiChar | ResLogger2.Common/Extensions.cs:15 | ASCII decoding gives NUL exactly for the zero byte |
| Extensions.AsciiDecode | ResLogger2.Common/Extensions.cs:15 | one character per byte, each the ASCII decoding of its byte |
| Extensions.NulFrom | ResLogger2.Common/Extensions.cs:12 | the first zero byte at or after the position, or none when no zero byte is left |
| Extensions.ReadStringAt | ResLogger2.Common/Extensions.cs:7-16 | on success the text is the decoded bytes before the first zero byte, holds no NUL, and the position moves past the zero byte |
| Extensions.ReadStringRoundTrip | ResLogger2.Common/Extensions.cs:7-16 | reading back a stored NUL-terminated ASCII string gives the string and consumes its terminator, whatever follows |
| Extensions.Reader.constructor | ResLogger2.Common/Extensions.cs:7 | a reader over the bytes starts at position 0 |
| Extensions.Reader.ReadByte | ResLogger2.Common/Extensions.cs:12 | the next byte and one step on, or end of stream at the end with the position unchanged |
| Extensions.Reader.ReadString | ResLogger2.Common/Extensions.cs:7-16 | the text and the position of `ReadStringAt`, or end of stream with all bytes consumed |
| Extensions.Or60Upper | ResLogger2.Common/Extensions.cs:23 | `c | 0x60` on 'A'..'Z' adds 0x20 |
| Extensions.LowerAscii | ResLogger2.Common/Extensions.cs:23 | upper-case ASCII letters become their lower-case letters; every other character is kept |
| Extensions.NulIndex | ResLogger2.Common/Extensions.cs:22 | the first NUL, or the length when there is none |
| Extensions.Lowered | ResLogger2.Common/Extensions.cs:18-26 | before the first NUL every upper-case letter is lowered and everything else kept; from the first NUL on nothing changes |
| Extensions.ToLowerUnsafe | ResLogger2.Common/Extensions.cs:18-26 | the characters are rewritten in place to `Lowered` of the old ones and the same string is returned |
| Extensions.LoweredStopsAtSameNul | ResLogger2.Common/Extensions.cs:22-23 | lowering creates and removes no NUL, so the loop stops at the same place |
| Extensions.LoweredIdempotent | ResLogger2.Common/Extensions.cs:18-26 | lowering twice is lowering once |
| Strings.ZeroPadded | ResLogger2.Common/ServerDatabase/Model/GameVersion.cs:59 | the custom format "0000" prints only digits, at least as many as the format has zeros |
| Strings.LastIndexOf | ResLogger2.Common/ExistsResult.cs:5-6 | the last position holding the character, or -1 when none does |
| Strings.SplitFirstPiece | ResLogger2.Common/ServerDatabase/Model/GameVersion.cs:19 | splitting "a.rest" with no '.' in a gives a followed by the pieces of rest |
| PatchIndexHolders.FromDirectoryCorrected | ResLogger2.Common/PatchIndexHolder.cs:24-37 | with the comment read from info.txt's second line, a holder's comment is that line unless it is "N/A", and exactly then its version is special |

## Left out

- Database and file I/O: `PathCache.Load`/`Persist`/`Reload`, `ServerHashDatabase.ReloadCache`, Entity Framework's `SaveChanges` and transactions, the SQLite commands of `LocalHashDatabase` (`GetDbVersion`, the table creation, `Migrate2To3`'s copy of the old `fullpaths` table, `GetPathList`, `Begin`/`End`/`RestartTransaction`, `Dispose`). The tables they read and write are values or fields here.
- The `PathCache` constructor's `Load`: the model's cache starts empty or from a given value.
- Concurrency: the plugin's single-threaded task scheduler, the concurrent dictionaries, `AddPath`/`AddPostProcessedPaths`/`SubmitRestartTransaction` (which only queue work for it), Quartz's `DisallowConcurrentExecution`, and the database lock service behind `UpdateJob` (`IDbLockService`); the lock is taken as granted and released around the import.
- Network and archives: fetching the latest versions and patch lists from Thaliak, `DownloadFileAsync`, and `PatchIndexHolder.ExtractPatch`; their results are parameters (`extracted` is the list of files an extraction leaves behind). `UpdateJob`'s downloaded patch files are a parameter: the list `Directory.GetFiles` returns, in its enumeration order.
- The logging of the exception that ends `UpdateJob`'s patch processing, and all other logging and timing.
- Hash functions: `Utils.CalcHashes`, `Utils.CalcFullHash`, `Utils.CalcExtendedHash`, `Lumina.Misc.Crc32.Get` and `HashCode.Combine` are function parameters; their values are not modelled.
- `IndexFile.Read` and the binary index-file format (`BinaryReader2.cs`): an index file is the list of records the reader yields. `BinaryReader2.cs` is not part of this model.
- The memoised `ExtendedHash` of the common `ExistsResult`, its `FileHash`/`FolderHash`/`FullHash` properties (thin calls to the hash parameters), and every `ToString` except `GameVersion.ToString`.
- `ServerHashDatabase.ProcessInMemory(List)` has an empty body in the source and is modelled as changing nothing; `PathDbService.PostProcess` is unreachable and left out.
- `PathDbService.ProcessInternal`'s guard for a null earliest or latest version (PathDbService.cs:117-121): staging rows always carry both versions here, and one of the two staging rows exists at that point, so the guard never fires. The logged warnings and errors are left out with it.
- `GetStatsAsync`'s `(uint)` casts and `int` counters: counts are unbounded naturals here; their bound by the catalog size is proved instead.
- .NET `string` is UTF-16 and Dafny `char` is a Unicode scalar value, so surrogate pairs are not distinguished. Every string comparison is modelled as ordinal, but `StartsWith`/`EndsWith(string)` without a `StringComparison` are culture-sensitive in .NET (IndexRepository.cs:66-80, PathPostProcessor.cs:67-69, UpdateJob.cs:91, PatchIndexHolder.cs:43; the span `StartsWith("H")` at UpdateJob.cs:213 is ordinal and modelled exactly), and the regular expressions' `\d` (PathPostProcessor.cs:54, and Python's `re` in ResLogger2.Web/services/web/project/postprocess.py:18) match any Unicode decimal digit, while the model accepts ASCII '0'..'9' only. Python's signed 32-bit view of hashes in the web port is not modelled.
- UpdateJobs.UpdateJob.Execute: the downloaded files are a free parameter, not tied to the selected patch URLs (a failed download leaves its file out, and the lookup goes through the whole download directory). Their order is whatever `Directory.GetFiles` enumerates, and a `FromPatch` that throws ends the list there (UpdateJob.cs:150-170).
- `UpdateJob.Execute` assumes every `LatestProcessedVersion.Version` is non-null; its `!=` on versions is modelled as "not the same version number". The URL parser treats '/' as the only path separator.
- ServerHashDatabases.ServerHashDatabase.ProcessInternal: the database path is modelled on tables that read their own unsaved writes, but Entity Framework queries go to the database and nothing is saved before ServerHashDatabase.cs:405. In the source, a staging row removed for one combined entry (105-130) is still found by the next combined entry of the same loop. So two Index1 collisions that share (folder, file), with a staging row at that key, both absorb that row's range there, and only the first does in the model.
- ServerHashDatabases.ServerHashDatabase.HandleAllCombined: the same unsaved-removal gap, within the combined loop (ServerHashDatabase.cs:401-404).
- ServerHashDatabases.ServerHashDatabase.Process: inherits that gap from `ProcessInternal`.
- ServerHashDatabases.ServerHashDatabase.ProcessAll: a holder with no segments leaves its `LatestProcessedVersions.Add` (ServerHashDatabase.cs:435) unsaved, because `SaveChanges` runs only inside the segment loop (465). A later holder of the same repository then misses that row in the query at 426, adds it again and throws. The model takes the row as saved and records the version.
- ServerHashDatabases.ServerHashDatabase.HandleIndex1Entry: when several confirmed rows share the entry's (index, folder, file), the model widens the earliest inserted (`FindPath3`, the first entry of that prefix). The source's `Paths.FirstOrDefault` (ServerHashDatabase.cs:158-166) has no `OrderBy`, so against PostgreSQL the database chooses the row, and that choice can change as rows are updated.
- ServerHashDatabases.ServerHashDatabase.HandleIndex2Entry: when several confirmed rows share the entry's full hash, the model widens the earliest inserted (`FindPath2`, the first row under that hash). The source's `Paths.FirstOrDefault` (ServerHashDatabase.cs:203-210) has no `OrderBy`, so the database chooses the row.
- ServerAgreement.SegmentsAgree: proved for tables that read their own unsaved writes, with the database choosing the earliest inserted row among equal keys as `HandleIndex1Entry` and `HandleIndex2Entry` above do. On the collision input above, or when the database picks another row, the source's database loop and the in-memory loop can differ.
- ServerAgreement.ProcessedAgrees: the same two gaps; on that input `Process` and `ProcessInMemory` give different ranges in the source. Nothing in the source calls the database path (`UpdateJob` uses `ProcessInMemory`).
- PathDbServices.PathDbService.ProcessInternal: the loop is modelled as reading its own unsaved writes. In the source the confirmed-row query (PathDbService.cs:46-49) misses an earlier path's unsaved `Add`, and the staging queries (63-73) still return rows already removed. So a batch holding one staged path twice makes the second `Paths.Add` (123) throw on a key the context already tracks; the model counts the second path as existing.
- PathDbServices.PathDbService.ProcessDataAsync: on such a batch the source catches that exception (178-181) and returns false with nothing saved; the model reports success whenever the lock is taken and the save goes through.
- Caches.Cache.FindPath3: the leaf dictionary of one (index, folder, file) prefix is a list that only grows at its end, and the lookup returns its first entry. .NET's `Dictionary` reuses the slot a `Remove` frees, so after Add A, Add B, Remove A, Add C the source's `Values.FirstOrDefault()` (PathCache.cs:257-264) returns C and the model returns B. Nothing in the source calls `Remove(PathEntry)`.
- Caches.Cache.RemovePath: entry order after a removal is not modelled, as for `FindPath3`.
- PatchIndexHolders.FileName: treats '/' as the only separator, while `Path.GetFileName` also splits on `\` on Windows.
- PatchIndexHolders.Stem: the same; a `\` in the path stays part of the stem here.
- PatchDownloads.ParentName: the same; `Path.GetDirectoryName` also splits on `\` on Windows and normalises the separators it returns.
- Null fields: a null `FirstSeen`/`LastSeen` of an `Entry`, a null `GameVersion` of a holder, and the null `FullText` of the `default` `ExistsResult` that `IndexRepository.Exists` returns on a throw (its folder and file properties would dereference null) are not modelled; those fields always hold a value here.
- Strings.ParseUInt: accepts ASCII decimal digits only, while `uint.Parse` also accepts surrounding white space and a leading sign.
- IndexRepositories.Parse: accepts ASCII decimal digits only, while `uint.Parse` also accepts surrounding white space and a leading sign.
- PyIndexRepositories.Int: accepts ASCII decimal digits only, while Python's `int()` also accepts a sign, white space, underscores and non-ASCII digits (so "-1" would give a negative expansion number there).
- PostProcessors.PostProcess: runs at most `fuel + 1` passes and reports whether the fixpoint was reached; the source loops until it is, and nothing bounds that in general.
- PyPostProcess.Postprocess: runs at most `fuel + 1` passes and reports whether the fixpoint was reached; the source loops until it is.

## Findings

| source | as written | input that shows it | evidently intended | confidence | as-written member | corrected member |
|---|---|---|---|---|---|---|
| ResLogger2.Plugin/ExistsResult.cs:17-27 | `Equals` compares IndexId and FolderText, but `GetHashCode` is the CRC of FullText, so equal values can hash differently | `(0, "a/b")` and `(0, "a/c")` under any CRC that tells the two texts apart | a hash code built from what `Equals` compares: the index id and the folder text | not executed | PluginExistsResults.HashCodeDisagreesWithEquals | PluginExistsResults.EqualsAgreesWithHashByFolder |
| ResLogger2.Common/PatchIndexHolder.cs:34 | `commentt = lines[1] == "N/A" ? null : commentt` sets the comment to null or to itself, so it is always null | an info.txt whose second line is "Special" gives a version with no comment that is not special | `lines[1] == "N/A" ? null : lines[1]` | not executed | PatchLaws.DirectoryVersion | PatchIndexHolders.FromDirectoryCorrected |

=== FILE: base.dfy ===
/** Shared value types: the fixed-width unsigned integers the C# code stores hashes and
    ids in, and the Option/Result wrappers that stand for C# null and thrown exceptions. */
module Base {

  /** C# `byte`. */
  newtype u8 = x: int | 0 <= x <= 0xFF

  /** C# `uint`. */
  newtype u32 = x: int | 0 <= x <= 0xFFFF_FFFF

  /** C# `ulong` (the archive's FileIdentifier). */
  newtype u64 = x: int | 0 <= x <= 0xFFFF_FFFF_FFFF_FFFF

  const U32_MAX: int := 0xFFFF_FFFF

  /** A reference that may be null. */
  datatype Option<+T> = None | Some(value: T)

  /** A call that returns a value or throws. */
  datatype Result<+T, +E> = Ok(value: T) | Err(error: E)
  {
    predicate IsFailure() { Err? }

    function PropagateFailure<U>(): Result<U, E>
      requires Err?
    {
      Err(error)
    }

    function Extract(): T
      requires Ok?
    {
      value
    }
  }

  // ---- bitwise or on non-negative numbers (C# `|` on uint, Python `|` on int) ----

  function Pow2(k: nat): (p: nat)
    ensures p >= 1
  {
    if k == 0 then 1 else 2 * Pow2(k - 1)
  }

  /** Shifting by `a + b` is shifting by `a`, then by `b`. */
  lemma {:induction false} Pow2Add(a: nat, b: nat)
    ensures Pow2(a + b) == Pow2(a) * Pow2(b)
    decreases b
  {
    if b > 0 {
      Pow2Add(a, b - 1);
      calc {
        Pow2(a + b);
        2 * Pow2(a + b - 1);
        2 * (Pow2(a) * Pow2(b - 1));
        Pow2(a) * (2 * Pow2(b - 1));
        Pow2(a) * Pow2(b);
      }
    }
  }

  /** `a | b`, bit by bit from the least significant. */
  function BitOr(a: nat, b: nat): nat
    decreases a + b
  {
    if a == 0 then b
    else if b == 0 then a
    else 2 * BitOr(a / 2, b / 2) + (if a % 2 == 1 || b % 2 == 1 then 1 else 0)
  }

  /** Or-ing two numbers shifted left by `k` bits, the first with `j` in its low bits, is or-ing
      the shifted parts and keeping `j`. */
  lemma {:induction false} BitOrShifted(u: nat, v: nat, j: nat, k: nat)
    requires j < Pow2(k)
    ensures BitOr(u * Pow2(k) + j, v * Pow2(k)) == BitOr(u, v) * Pow2(k) + j
  {
    if k == 0 {
      assert j == 0;
    } else {
      var p := Pow2(k - 1);
      assert Pow2(k) == 2 * p;
      BitOrShifted(u, v, j / 2, k - 1);
      BitOrStep(u, v, j, p);
    }
  }

  /** One bit of `BitOrShifted`. */
  lemma BitOrStep(u: nat, v: nat, j: nat, p: nat)
    requires 1 <= p && j < 2 * p
    requires BitOr(u * p + j / 2, v * p) == BitOr(u, v) * p + j / 2
    ensures BitOr(u * (2 * p) + j, v * (2 * p)) == BitOr(u, v) * (2 * p) + j
  {
    var a, b, w := u * (2 * p) + j, v * (2 * p), BitOr(u, v);
    Twice(u, p);
    Twice(v, p);
    Twice(w, p);
    if a == 0 {
      ZeroProduct(u, 2 * p);
    } else if b == 0 {
      ZeroProduct(v, 2 * p);
    } else {
      assert a / 2 == u * p + j / 2 && a % 2 == j % 2;
      assert b / 2 == v * p && b % 2 == 0;
    }
  }

  lemma Twice(x: nat, p: nat)
    ensures x * (2 * p) == 2 * (x * p)
  {
  }

  lemma ZeroProduct(x: nat, p: nat)
    requires p >= 1 && x * p == 0
    ensures x == 0
  {
  }

  /** Or-ing numbers whose bits do not overlap is adding them: `a` below `2^k`, the other a
      multiple of `2^k`. */
  lemma BitOrDisjoint(a: nat, m: nat, k: nat)
    requires a < Pow2(k)
    ensures BitOr(a, m * Pow2(k)) == a + m * Pow2(k)
  {
    BitOrShifted(0, m, a, k);
  }

  /** A superset of the same size is the same set. */
  lemma SameSizeSuperset<T>(a: set<T>, b: set<T>)
    requires a <= b && |a| == |b|
    ensures a == b
  {
    if a != b {
      assert b - a != {} by {
        if b - a == {} {
          forall y | y in b ensures y in a {
            assert y !in b - a;
          }
        }
      }
      var x :| x in b - a;
      assert a <= b - {x};
      SubsetSize(a, b - {x});
    }
  }

  /** A subset is no larger. */
  lemma {:induction false} SubsetSize<T>(a: set<T>, b: set<T>)
    requires a <= b
    ensures |a| <= |b|
    decreases |b|
  {
    if a != {} {
      var x :| x in a;
      SubsetSize(a - {x}, b - {x});
    }
  }
}

=== FILE: cache_laws.dfy ===
/** Properties of the PathCache.cs operations, stated on the cache contents. */
module CacheLaws {
  import opened Base
  import opened GameVersions
  import opened Entries
  import opened PathEntries
  import opened Caches

  /** Storing into a free slot keeps every reference pointing at an object with the
      slot's hashes. */
  lemma InsertedRefsValid(c: Cache, e: PathEntry)
    requires c.Valid() && KeyOf(e) !in c.byFolder
    ensures c.Inserted(e).RefsValid()
  {
    var c' := c.Inserted(e);
    forall h, i | h in c'.byFull && 0 <= i < |c'.byFull[h]|
      ensures c'.byFull[h][i] < |c'.heap| && KeyOf(c'.heap[c'.byFull[h][i]]).Hash() == h
    {
      if c'.byFull[h][i] != |c.heap| {
        assert h in c.byFull && c'.byFull[h][i] in c.byFull[h];
      }
    }
  }

  /** Storing into a free slot keeps the leaf order in step with the by-folder slots. */
  lemma InsertedLeavesValid(c: Cache, e: PathEntry)
    requires c.Valid() && KeyOf(e) !in c.byFolder
    ensures c.Inserted(e).LeavesValid()
  {
    var c', k := c.Inserted(e), KeyOf(e);
    forall k': FullKey | k'.File() in c'.leafOrder && k'.fullHash in c'.leafOrder[k'.File()]
      ensures k' in c'.byFolder
    {
      if k' != k {
        assert k'.File() in c.leafOrder && k'.fullHash in c.leafOrder[k'.File()];
      }
    }
  }

  lemma InsertedValid(c: Cache, e: PathEntry)
    requires c.Valid() && KeyOf(e) !in c.byFolder
    ensures c.Inserted(e).Valid()
  {
    InsertedRefsValid(c, e);
    InsertedLeavesValid(c, e);
  }

  /** An insert into an occupied slot throws and changes nothing; into a free slot it succeeds,
      the cache stays valid, and afterwards all three `FindPath` overloads reach an entry:
      the four-key one reaches exactly the new object. */
  lemma AddPathThenFind(c: Cache, e: PathEntry)
    requires c.Valid()
    ensures c.FindPath4(KeyOf(e)).Some? ==> c.AddPath(e).None?
    ensures c.FindPath4(KeyOf(e)).None? ==>
      var c' := c.AddPath(e).value;
      && c'.Valid()
      && c'.FindPath4(KeyOf(e)) == Some(|c.heap|)
      && c'.heap[|c.heap|] == e
      && c'.FindPath2(KeyOf(e).Hash()).Some?
      && c'.heap[c'.FindPath2(KeyOf(e).Hash()).value].fullHash == e.fullHash
      && c'.FindPath3(KeyOf(e).File()).Some?
  {
    if c.FindPath4(KeyOf(e)).None? {
      InsertedValid(c, e);
      var c' := c.AddPath(e).value;
      assert KeyOf(e) in c'.byFolder;
    }
  }

  /** Adding a path leaves every other slot, every old object and every staging or version
      table untouched. */
  lemma AddPathFrame(c: Cache, e: PathEntry)
    requires c.Valid() && KeyOf(e) !in c.byFolder
    ensures var c' := c.AddPath(e).value;
      && (forall k | k != KeyOf(e) :: k in c'.byFolder <==> k in c.byFolder)
      && (forall k | k != KeyOf(e) && k in c.byFolder :: c'.byFolder[k] == c.byFolder[k])
      && c.heap <= c'.heap
      && c'.index1 == c.index1 && c'.index2 == c.index2
      && c'.gameVersions == c.gameVersions && c'.latestIndexes == c.latestIndexes
      && c'.latestProcessed == c.latestProcessed
  {
  }

  /** What `AddPath` does to the object store and the two confirmed-row indexes. */
  lemma AddPathShape(c: Cache, e: PathEntry)
    requires c.Valid() && KeyOf(e) !in c.byFolder
    ensures var c', k := c.AddPath(e).value, KeyOf(e);
      && c'.heap == c.heap + [e]
      && c'.byFolder == c.byFolder[k := |c.heap|]
      && (forall h | h != k.Hash() :: h in c'.byFull <==> h in c.byFull)
      && (forall h | h != k.Hash() && h in c.byFull :: c'.byFull[h] == c.byFull[h])
      && k.Hash() in c'.byFull
      && (k.Hash() in c.byFull ==> c.byFull[k.Hash()] <= c'.byFull[k.Hash()])
      && (forall i | 0 <= i < |c'.byFull[k.Hash()]| ::
            c'.byFull[k.Hash()][i] == |c.heap| ||
            (k.Hash() in c.byFull && c'.byFull[k.Hash()][i] in c.byFull[k.Hash()]))
  {
  }

  /** While the by-full index holds confirmed rows only, the hash set under a free slot's
      `(IndexId, FullHash)` cannot already hold an equal object (that object would occupy
      the slot), so the new object always joins it. */
  lemma InsertedJoinsSet(c: Cache, e: PathEntry)
    requires c.Valid() && c.Exact() && KeyOf(e) !in c.byFolder
    ensures KeyOf(e).Hash() in c.byFull ==>
      c.Inserted(e).byFull[KeyOf(e).Hash()] == c.byFull[KeyOf(e).Hash()] + [|c.heap|]
  {
    var k := KeyOf(e);
    if k.Hash() in c.byFull {
      var refs := c.byFull[k.Hash()];
      forall i | 0 <= i < |refs| ensures !(refs[i] < |c.heap| && Equals(c.heap[refs[i]], e)) {
        assert KeyOf(c.heap[refs[i]]) in c.byFolder;
      }
    }
  }

  /** Adding into a free slot of an exact cache keeps every confirmed row in the by-full
      index. */
  lemma InsertedCoherent(c: Cache, e: PathEntry)
    requires c.Valid() && c.Exact() && KeyOf(e) !in c.byFolder
    ensures c.Inserted(e).Valid() && c.Inserted(e).Coherent()
  {
    var k := KeyOf(e);
    InsertedValid(c, e);
    InsertedJoinsSet(c, e);
    var c' := c.Inserted(e);
    forall k' | k' in c'.byFolder ensures k'.Hash() in c'.byFull && c'.byFolder[k'] in c'.byFull[k'.Hash()] {
      if k' != k {
        assert c.byFolder[k'] in c.byFull[k'.Hash()];
      }
    }
  }

  /** ... and the by-full index still holds confirmed rows only. */
  lemma InsertedOnlyConfirmed(c: Cache, e: PathEntry)
    requires c.Valid() && c.Exact() && KeyOf(e) !in c.byFolder
    ensures c.Inserted(e).Valid()
    ensures forall h, i | h in c.Inserted(e).byFull && 0 <= i < |c.Inserted(e).byFull[h]| ::
      var c', r := c.Inserted(e), c.Inserted(e).byFull[h][i];
      KeyOf(c'.heap[r]) in c'.byFolder && c'.byFolder[KeyOf(c'.heap[r])] == r
  {
    InsertedValid(c, e);
    AddPathShape(c, e);
    var c' := c.Inserted(e);
    forall h, i | h in c'.byFull && 0 <= i < |c'.byFull[h]|
      ensures KeyOf(c'.heap[c'.byFull[h][i]]) in c'.byFolder
      ensures c'.byFolder[KeyOf(c'.heap[c'.byFull[h][i]])] == c'.byFull[h][i]
    {
      var r := c'.byFull[h][i];
      if r != |c.heap| {
        var j :| 0 <= j < |c.byFull[h]| && c.byFull[h][j] == r;
        assert KeyOf(c.heap[r]) in c.byFolder;
      }
    }
  }

  /** While the by-full index holds confirmed rows only, adding a row keeps it so. */
  lemma AddPathKeepsExact(c: Cache, e: PathEntry)
    requires c.Valid() && c.Exact() && KeyOf(e) !in c.byFolder
    ensures c.AddPath(e).value.Valid() && c.AddPath(e).value.Exact()
  {
    InsertedCoherent(c, e);
    InsertedOnlyConfirmed(c, e);
  }

  /** `FindPath(index, folder, file)` returns a stored entry with that prefix, and null
      exactly when no stored entry has it. */
  lemma FindPath3Meaning(c: Cache, f: FileKey)
    requires c.Valid()
    ensures c.FindPath3(f).None? <==> !exists k | k in c.byFolder :: k.File() == f
    ensures c.FindPath3(f).Some? ==>
      exists k | k in c.byFolder :: k.File() == f && c.byFolder[k] == c.FindPath3(f).value
  {
    if c.FindPath3(f).Some? {
      var k := KeyOf(c.heap[c.FindPath3(f).value]);
      assert k in c.byFolder && k.File() == f;
    }
  }

  /** Removing a confirmed row keeps the cache valid and frees its by-folder slot, but the
      by-full index still hands out the same object: the stale entry stays reachable through
      `FindPath(index, full)`. */
  lemma RemovePathLeavesByFull(c: Cache, e: PathEntry)
    requires c.Valid() && KeyOf(e) in c.byFolder
    ensures c.RemovePath(e).Valid()
    ensures c.RemovePath(e).FindPath4(KeyOf(e)).None?
    ensures c.RemovePath(e).FindPath2(KeyOf(e).Hash()) == c.FindPath2(KeyOf(e).Hash())
    ensures c.Coherent() ==> c.RemovePath(e).FindPath2(KeyOf(e).Hash()).Some?
  {
    var c' := c.RemovePath(e);
    assert c'.LeavesValid() by {
      forall k: FullKey | k.File() in c'.leafOrder && k.fullHash in c'.leafOrder[k.File()]
        ensures k in c'.byFolder
      {
        assert k.File() in c.leafOrder && k.fullHash in c.leafOrder[k.File()];
      }
    }
  }

  /** Writing `Path` through a reference leaves the hashes, hence every index, alone. */
  lemma SetPathKeepsValid(c: Cache, r: Ref, path: Option<string>)
    requires c.Valid() && r < |c.heap|
    ensures c.SetPath(r, path).Valid()
  {
    var c' := c.SetPath(r, path);
    assert forall q | 0 <= q < |c.heap| :: KeyOf(c'.heap[q]) == KeyOf(c.heap[q]);
  }

  lemma SetPathKeepsExact(c: Cache, r: Ref, path: Option<string>)
    requires c.Valid() && c.Exact() && r < |c.heap|
    ensures c.SetPath(r, path).Valid() && c.SetPath(r, path).Exact()
  {
    SetPathKeepsValid(c, r, path);
    var c' := c.SetPath(r, path);
    assert forall q | 0 <= q < |c.heap| :: KeyOf(c'.heap[q]) == KeyOf(c.heap[q]);
  }

  /** Writing the seen range through a reference leaves every index alone as well. */
  lemma SetSeenKeepsValid(c: Cache, r: Ref, seen: Seen)
    requires c.Valid() && r < |c.heap|
    ensures c.SetSeen(r, seen).Valid()
  {
    var c' := c.SetSeen(r, seen);
    assert forall q | 0 <= q < |c.heap| :: KeyOf(c'.heap[q]) == KeyOf(c.heap[q]);
  }

  lemma SetSeenKeepsExact(c: Cache, r: Ref, seen: Seen)
    requires c.Valid() && c.Exact() && r < |c.heap|
    ensures c.SetSeen(r, seen).Valid() && c.SetSeen(r, seen).Exact()
  {
    SetSeenKeepsValid(c, r, seen);
    var c' := c.SetSeen(r, seen);
    assert forall q | 0 <= q < |c.heap| :: KeyOf(c'.heap[q]) == KeyOf(c.heap[q]);
  }

  /** Adding a staging row throws exactly on an occupied slot. */
  lemma AddIndex1Throws(c: Cache, row: Index1Row)
    ensures c.FindIndex1(row.Key()).Some? <==> c.AddIndex1(row).None?
  {
  }

  /** Into a free slot, the row is found afterwards and no other slot changes. */
  lemma AddIndex1ThenFind(c: Cache, row: Index1Row)
    requires c.FindIndex1(row.Key()).None?
    ensures c.AddIndex1(row).value.FindIndex1(row.Key()) == Some(row)
    ensures forall f | f != row.Key() :: c.AddIndex1(row).value.FindIndex1(f) == c.FindIndex1(f)
  {
  }

  lemma AddIndex2Throws(c: Cache, row: Index2Row)
    ensures c.FindIndex2(row.Key()).Some? <==> c.AddIndex2(row).None?
  {
  }

  lemma AddIndex2ThenFind(c: Cache, row: Index2Row)
    requires c.FindIndex2(row.Key()).None?
    ensures c.AddIndex2(row).value.FindIndex2(row.Key()) == Some(row)
    ensures forall h | h != row.Key() :: c.AddIndex2(row).value.FindIndex2(h) == c.FindIndex2(h)
  {
  }

  /** Removing a staging row makes its lookup return null and leaves every other slot. */
  lemma RemoveIndexThenFind(c: Cache, row1: Index1Row, row2: Index2Row)
    ensures c.RemoveIndex1(row1).FindIndex1(row1.Key()).None?
    ensures forall f | f != row1.Key() :: c.RemoveIndex1(row1).FindIndex1(f) == c.FindIndex1(f)
    ensures c.RemoveIndex2(row2).FindIndex2(row2.Key()).None?
    ensures forall h | h != row2.Key() :: c.RemoveIndex2(row2).FindIndex2(h) == c.FindIndex2(h)
  {
  }

  /** The three keyed version tables throw on an existing key and otherwise insert. */
  lemma AddGameVersionThenFind(c: Cache, gv: GameVersion)
    ensures c.AddGameVersion(gv).Some? ==> c.AddGameVersion(gv).value.gameVersions == c.gameVersions[gv.id := gv]
  {
  }

  lemma AddLatestIndexThenFind(c: Cache, li: LatestIndex)
    ensures c.FindLatestIndex(li.indexId).Some? <==> c.AddLatestIndex(li).None?
    ensures c.AddLatestIndex(li).Some? ==> c.AddLatestIndex(li).value.FindLatestIndex(li.indexId) == Some(li)
  {
  }

  lemma AddLatestProcessedThenFind(c: Cache, lp: LatestProcessedVersion)
    ensures c.FindLatestProcessed(lp.repo).Some? <==> c.AddLatestProcessed(lp).None?
    ensures c.AddLatestProcessed(lp).Some? ==>
      c.AddLatestProcessed(lp).value.FindLatestProcessed(lp.repo) == Some(lp)
  {
  }

  /** After `Clear` every lookup returns null. */
  lemma ClearedFindsNothing(c: Cache, k: FullKey, f: FileKey, h: HashKey, id: u32, repo: string)
    requires c.Valid()
    ensures Cleared(c).Valid() && Cleared(c).Exact()
    ensures var z := Cleared(c);
      && z.FindPath4(k).None? && z.FindPath3(f).None? && z.FindPath2(h).None?
      && z.FindIndex1(f).None? && z.FindIndex2(h).None?
      && z.FindLatestIndex(id).None? && z.FindLatestProcessed(repo).None?
      && z.gameVersions == map[]
  {
  }

}

=== FILE: composite_index.dfy ===
/** ResLogger2.Common/CompositeIndexInfo.cs: one archive segment's `.index` (two-part hashes:
    folder and file) and `.index2` (one-part hash: the full path) joined on the archive's own
    FileIdentifier into three dictionaries: Combined (all three hashes, path when known),
    Index1-only and Index2-only.

    The index file readers are not part of this model: an `IndexFile` is the list of records
    it yields, in enumeration order. The path hash functions of `Utils` are parameters. */
module CompositeIndex {
  import opened Base
  import opened Tables
  import opened Joins

  /** `CombinedIndexEntry`. */
  datatype CombinedEntry = CombinedEntry(folderHash: u32, fileHash: u32, fullHash: u32, path: Option<string>)

  /** `BasicIndex1Entry`. */
  datatype Index1Entry = Index1Entry(folderHash: u32, fileHash: u32)

  /** `BasicIndex2Entry`. */
  datatype Index2Entry = Index2Entry(fullHash: u32)

  /** A collision record of a `.index` file: the path is stored because the two hashes clash. */
  datatype Collision64 = Collision64(fileId: u64, folderHash: u32, fileHash: u32, path: string)

  /** A hash record of a `.index` file. */
  datatype Hash64 = Hash64(fileId: u64, folderHash: u32, fileHash: u32, isSynonym: bool)

  /** A collision record of a `.index2` file. */
  datatype Collision32 = Collision32(fileId: u64, hash: u32, path: string)

  /** A hash record of a `.index2` file. */
  datatype Hash32 = Hash32(fileId: u64, hash: u32, isSynonym: bool)

  /** What the reader yields for one index file. A `.index` file fills the 64-bit lists, a
      `.index2` file the 32-bit ones; `isIndex2` is the file's own tag. */
  datatype IndexFile = IndexFile(
    indexId: u32, isIndex2: bool,
    collisions64: seq<Collision64>, hashes64: seq<Hash64>,
    collisions32: seq<Collision32>, hashes32: seq<Hash32>)

  /** `Utils.CalcFullHash` and `Utils.CalcHashes` (folder hash, file hash). */
  datatype Hashing = Hashing(fullHash: string -> u32, pathHashes: string -> (u32, u32))

  /** Why `Process` throws: a mis-tagged file (ArgumentException) or a FileIdentifier
      added twice to one dictionary. */
  datatype CompositeError = NotIndex1 | NotIndex2 | DuplicateKey(key: u64)

  /** The three output dictionaries. */
  datatype Composite = Composite(
    combined: Table<u64, CombinedEntry>,
    index1Entries: Table<u64, Index1Entry>,
    index2Entries: Table<u64, Index2Entry>)

  /** The dictionaries of the two loading passes, before the join. */
  datatype Loaded = Loaded(
    combined: Table<u64, CombinedEntry>,
    offsets1: Table<u64, Index1Entry>,
    offsets2: Table<u64, Index2Entry>)

  // ---- the entries each loop adds ----

  /** The Combined entry an Index1 collision becomes: its own two hashes, the full hash of
      its path, and the path. */
  function FromCollision64(c: Collision64, hs: Hashing): Pair<u64, CombinedEntry> {
    Pair(c.fileId, CombinedEntry(c.folderHash, c.fileHash, hs.fullHash(c.path), Some(c.path)))
  }

  /** The Combined entry an Index2 collision becomes: folder and file hashes of its path,
      its own full hash, and the path. */
  function FromCollision32(c: Collision32, hs: Hashing): Pair<u64, CombinedEntry> {
    Pair(c.fileId, CombinedEntry(hs.pathHashes(c.path).0, hs.pathHashes(c.path).1, c.hash, Some(c.path)))
  }

  function FromHash64(h: Hash64): Pair<u64, Index1Entry> {
    Pair(h.fileId, Index1Entry(h.folderHash, h.fileHash))
  }

  function FromHash32(h: Hash32): Pair<u64, Index2Entry> {
    Pair(h.fileId, Index2Entry(h.hash))
  }

  function Collisions64Items(cs: seq<Collision64>, hs: Hashing): (r: Table<u64, CombinedEntry>)
    ensures |r| == |cs| && forall i | 0 <= i < |cs| :: r[i] == FromCollision64(cs[i], hs)
  {
    if cs == [] then [] else [FromCollision64(cs[0], hs)] + Collisions64Items(cs[1..], hs)
  }

  function Collisions32Items(cs: seq<Collision32>, hs: Hashing): (r: Table<u64, CombinedEntry>)
    ensures |r| == |cs| && forall i | 0 <= i < |cs| :: r[i] == FromCollision32(cs[i], hs)
  {
    if cs == [] then [] else [FromCollision32(cs[0], hs)] + Collisions32Items(cs[1..], hs)
  }

  function Hashes64Items(hs: seq<Hash64>): (r: Table<u64, Index1Entry>)
    ensures |r| == |hs| && forall i | 0 <= i < |hs| :: r[i] == FromHash64(hs[i])
  {
    if hs == [] then [] else [FromHash64(hs[0])] + Hashes64Items(hs[1..])
  }

  function Hashes32Items(hs: seq<Hash32>): (r: Table<u64, Index2Entry>)
    ensures |r| == |hs| && forall i | 0 <= i < |hs| :: r[i] == FromHash32(hs[i])
  {
    if hs == [] then [] else [FromHash32(hs[0])] + Hashes32Items(hs[1..])
  }

  /** Some Combined entry already carries this full hash. */
  predicate HasFullHash(combined: Table<u64, CombinedEntry>, hash: u32) {
    exists i | 0 <= i < |combined| :: combined[i].value.fullHash == hash
  }

  /** An Index1 hash record kept for the offset dictionary: not a synonym, and its
      FileIdentifier not already Combined. */
  predicate Keep64(h: Hash64, combined: Table<u64, CombinedEntry>) {
    !h.isSynonym && !Has(combined, h.fileId)
  }

  /** An Index2 hash record kept for the offset dictionary: not a synonym, and no Combined
      entry with the same full hash. */
  predicate Keep32(h: Hash32, combined: Table<u64, CombinedEntry>) {
    !h.isSynonym && !HasFullHash(combined, h.hash)
  }

  function Offsets1Items(hs: seq<Hash64>, combined: Table<u64, CombinedEntry>): (r: Table<u64, Index1Entry>)
    decreases |hs|
  {
    if hs == [] then []
    else (if Keep64(hs[0], combined) then [FromHash64(hs[0])] else []) + Offsets1Items(hs[1..], combined)
  }

  function Offsets2Items(hs: seq<Hash32>, combined: Table<u64, CombinedEntry>): (r: Table<u64, Index2Entry>)
    decreases |hs|
  {
    if hs == [] then []
    else (if Keep32(hs[0], combined) then [FromHash32(hs[0])] else []) + Offsets2Items(hs[1..], combined)
  }

  // ---- the specification of Process ----

  /** The two loading passes (lines 55-109): Index1 collisions into Combined, then Index1
      offsets, then Index2 collisions into Combined, then Index2 offsets. */
  function Load(index1: Option<IndexFile>, index2: Option<IndexFile>, hs: Hashing): Result<Loaded, u64> {
    var pass1: Result<Loaded, u64> :=
      if index1.None? then Ok(Loaded([], [], []))
      else
        match PutAll([], Collisions64Items(index1.value.collisions64, hs))
        case Err(k) => Err(k)
        case Ok(c1) =>
          match PutAll([], Offsets1Items(index1.value.hashes64, c1))
          case Err(k) => Err(k)
          case Ok(o1) => Ok(Loaded(c1, o1, []));
    match pass1
    case Err(k) => Err(k)
    case Ok(l) =>
      if index2.None? then Ok(l)
      else
        match PutAll(l.combined, Collisions32Items(index2.value.collisions32, hs))
        case Err(k) => Err(k)
        case Ok(c2) =>
          match PutAll([], Offsets2Items(index2.value.hashes32, c2))
          case Err(k) => Err(k)
          case Ok(o2) => Ok(Loaded(c2, l.offsets1, o2))
  }

  /** The join (lines 137-154): a FileIdentifier with both offsets becomes a Combined entry
      with the Index1 hashes, the Index2 full hash and no path. */
  function Merge(v1: Index1Entry, v2: Index2Entry): CombinedEntry {
    CombinedEntry(v1.folderHash, v1.fileHash, v2.fullHash, None)
  }

  /** The three-way branch (lines 111-166). */
  function Finish(index1: Option<IndexFile>, index2: Option<IndexFile>, l: Loaded): Result<Composite, u64> {
    if index1.Some? && index2.None? then
      match PutAll([], Hashes64Items(index1.value.hashes64))
      case Err(k) => Err(k)
      case Ok(i1) => Ok(Composite(l.combined, i1, []))
    else if index1.None? && index2.Some? then
      match PutAll([], Hashes32Items(index2.value.hashes32))
      case Err(k) => Err(k)
      case Ok(i2) => Ok(Composite(l.combined, [], i2))
    else
      match Join(l.offsets1, l.offsets1, l.offsets2, l.combined, Merge)
      case Err(k) => Err(k)
      case Ok(js) =>
        match PutAll([], js.rest1)
        case Err(k) => Err(k)
        case Ok(i1) =>
          match PutAll([], js.rest2)
          case Err(k) => Err(k)
          case Ok(i2) => Ok(Composite(js.out, i1, i2))
  }

  /** `Process()` as a whole: the tag checks first, then the passes. */
  function ProcessSpec(index1: Option<IndexFile>, index2: Option<IndexFile>, hs: Hashing): Result<Composite, CompositeError> {
    if index1.Some? && index1.value.isIndex2 then Err(NotIndex1)
    else if index2.Some? && !index2.value.isIndex2 then Err(NotIndex2)
    else
      match Load(index1, index2, hs)
      case Err(k) => Err(DuplicateKey(k))
      case Ok(l) =>
        match Finish(index1, index2, l)
        case Err(k) => Err(DuplicateKey(k))
        case Ok(c) => Ok(c)
  }

  // ---- the loops of Process ----

  /** Lines 58-67. */
  method AddCollisions64(combined: Table<u64, CombinedEntry>, cs: seq<Collision64>, hs: Hashing)
    returns (r: Result<Table<u64, CombinedEntry>, u64>)
    ensures r == PutAll(combined, Collisions64Items(cs, hs))
  {
    var t := combined;
    var i := 0;
    while i < |cs|
      invariant 0 <= i <= |cs|
      invariant PutAll(combined, Collisions64Items(cs, hs)) == PutAll(t, Collisions64Items(cs[i..], hs))
    {
      assert cs[i..][1..] == cs[i + 1..];
      var p := FromCollision64(cs[i], hs);
      if Has(t, p.key) {
        return Err(p.key);
      }
      t := t + [p];
      i := i + 1;
    }
    return Ok(t);
  }

  /** Lines 70-80. */
  method AddOffsets1(combined: Table<u64, CombinedEntry>, hashes: seq<Hash64>)
    returns (r: Result<Table<u64, Index1Entry>, u64>)
    ensures r == PutAll([], Offsets1Items(hashes, combined))
  {
    var t: Table<u64, Index1Entry> := [];
    var i := 0;
    while i < |hashes|
      invariant 0 <= i <= |hashes|
      invariant PutAll([], Offsets1Items(hashes, combined)) == PutAll(t, Offsets1Items(hashes[i..], combined))
    {
      assert hashes[i..][1..] == hashes[i + 1..];
      var h := hashes[i];
      ghost var rest := Offsets1Items(hashes[i + 1..], combined);
      if !(h.isSynonym || Has(combined, h.fileId)) {
        assert Offsets1Items(hashes[i..], combined) == [FromHash64(h)] + rest;
        assert ([FromHash64(h)] + rest)[1..] == rest;
        if Has(t, h.fileId) {
          return Err(h.fileId);
        }
        t := t + [FromHash64(h)];
      } else {
        assert Offsets1Items(hashes[i..], combined) == rest;
      }
      i := i + 1;
    }
    return Ok(t);
  }

  /** Lines 86-96. */
  method AddCollisions32(combined: Table<u64, CombinedEntry>, cs: seq<Collision32>, hs: Hashing)
    returns (r: Result<Table<u64, CombinedEntry>, u64>)
    ensures r == PutAll(combined, Collisions32Items(cs, hs))
  {
    var t := combined;
    var i := 0;
    while i < |cs|
      invariant 0 <= i <= |cs|
      invariant PutAll(combined, Collisions32Items(cs, hs)) == PutAll(t, Collisions32Items(cs[i..], hs))
    {
      assert cs[i..][1..] == cs[i + 1..];
      var p := FromCollision32(cs[i], hs);
      if Has(t, p.key) {
        return Err(p.key);
      }
      t := t + [p];
      i := i + 1;
    }
    return Ok(t);
  }

  /** Lines 99-108. */
  method AddOffsets2(combined: Table<u64, CombinedEntry>, hashes: seq<Hash32>)
    returns (r: Result<Table<u64, Index2Entry>, u64>)
    ensures r == PutAll([], Offsets2Items(hashes, combined))
  {
    var t: Table<u64, Index2Entry> := [];
    var i := 0;
    while i < |hashes|
      invariant 0 <= i <= |hashes|
      invariant PutAll([], Offsets2Items(hashes, combined)) == PutAll(t, Offsets2Items(hashes[i..], combined))
    {
      assert hashes[i..][1..] == hashes[i + 1..];
      var h := hashes[i];
      ghost var rest := Offsets2Items(hashes[i + 1..], combined);
      if !(h.isSynonym || HasFullHash(combined, h.hash)) {
        assert Offsets2Items(hashes[i..], combined) == [FromHash32(h)] + rest;
        assert ([FromHash32(h)] + rest)[1..] == rest;
        if Has(t, h.fileId) {
          return Err(h.fileId);
        }
        t := t + [FromHash32(h)];
      } else {
        assert Offsets2Items(hashes[i..], combined) == rest;
      }
      i := i + 1;
    }
    return Ok(t);
  }

  /** `CompositeIndexInfo`: the two index files of one segment and the three dictionaries
      `Process` fills. */
  class CompositeIndexInfo {
    var index1: Option<IndexFile>
    var index2: Option<IndexFile>
    var combined: Table<u64, CombinedEntry>
    var index1Entries: Table<u64, Index1Entry>
    var index2Entries: Table<u64, Index2Entry>

    /** The three dictionaries as a value. */
    function Output(): Composite
      reads this
    {
      Composite(combined, index1Entries, index2Entries)
    }

    /** The constructor's assignments; the call to `Process` that follows them is the
        method below. */
    constructor(index1: Option<IndexFile>, index2: Option<IndexFile>)
      ensures this.index1 == index1 && this.index2 == index2
      ensures Output() == Composite([], [], [])
    {
      this.index1 := index1;
      this.index2 := index2;
      combined := [];
      index1Entries := [];
      index2Entries := [];
    }

    /** `IndexId`: Index1's id when there is an Index1, otherwise Index2's; with neither
        file the property dereferences null (None). */
    function IndexId(): (r: Option<u32>)
      reads this
      ensures index1.Some? ==> r == Some(index1.value.indexId)
      ensures index1.None? && index2.Some? ==> r == Some(index2.value.indexId)
      ensures r.None? <==> index1.None? && index2.None?
    {
      if index1.Some? then Some(index1.value.indexId)
      else if index2.Some? then Some(index2.value.indexId)
      else None
    }

    /** `Process()`, run on freshly constructed dictionaries. On success the dictionaries hold
        what `ProcessSpec` computes; on a throw the error is the one `ProcessSpec` names (the
        half-filled dictionaries are never seen, since the constructor throws). */
    method Process(hs: Hashing) returns (r: Result<Composite, CompositeError>)
      requires Output() == Composite([], [], [])
      modifies this
      ensures index1 == old(index1) && index2 == old(index2)
      ensures r == ProcessSpec(index1, index2, hs)
      ensures r.Ok? ==> Output() == r.value
    {
      if index1.Some? && index1.value.isIndex2 {
        return Err(NotIndex1);
      }
      if index2.Some? && !index2.value.isIndex2 {
        return Err(NotIndex2);
      }
      var offsets1: Table<u64, Index1Entry> := [];
      var offsets2: Table<u64, Index2Entry> := [];
      if index1.Some? {
        var c1 := AddCollisions64(combined, index1.value.collisions64, hs);
        if c1.Err? {
          return Err(DuplicateKey(c1.error));
        }
        combined := c1.value;
        var o1 := AddOffsets1(combined, index1.value.hashes64);
        if o1.Err? {
          return Err(DuplicateKey(o1.error));
        }
        offsets1 := o1.value;
      }
      if index2.Some? {
        var c2 := AddCollisions32(combined, index2.value.collisions32, hs);
        if c2.Err? {
          return Err(DuplicateKey(c2.error));
        }
        combined := c2.value;
        var o2 := AddOffsets2(combined, index2.value.hashes32);
        if o2.Err? {
          return Err(DuplicateKey(o2.error));
        }
        offsets2 := o2.value;
      }
      assert Load(index1, index2, hs) == Ok(Loaded(combined, offsets1, offsets2));
      if index1.Some? && index2.None? {
        var i1 := AddAll([], Hashes64Items(index1.value.hashes64));
        if i1.Err? {
          return Err(DuplicateKey(i1.error));
        }
        index1Entries := i1.value;
      } else if index1.None? && index2.Some? {
        var i2 := AddAll([], Hashes32Items(index2.value.hashes32));
        if i2.Err? {
          return Err(DuplicateKey(i2.error));
        }
        index2Entries := i2.value;
      } else {
        var js := JoinLoop(offsets1, offsets2, combined, Merge);
        if js.Err? {
          return Err(DuplicateKey(js.error));
        }
        combined := js.value.out;
        var i1 := AddAll([], js.value.rest1);
        if i1.Err? {
          return Err(DuplicateKey(i1.error));
        }
        index1Entries := i1.value;
        var i2 := AddAll([], js.value.rest2);
        if i2.Err? {
          return Err(DuplicateKey(i2.error));
        }
        index2Entries := i2.value;
      }
      return Ok(Output());
    }
  }
}

=== FILE: composite_laws.dfy ===
/** What `CompositeIndexInfo.Process` promises about its three dictionaries, proved on
    `ProcessSpec`. */
module CompositeLaws {
  import opened Base
  import opened Tables
  import opened Joins
  import opened CompositeIndex

  /** The Combined entries the collision loops add, for each file present. */
  function Collisions1(index1: Option<IndexFile>, hs: Hashing): Table<u64, CombinedEntry> {
    if index1.Some? then Collisions64Items(index1.value.collisions64, hs) else []
  }

  function Collisions2(index2: Option<IndexFile>, hs: Hashing): Table<u64, CombinedEntry> {
    if index2.Some? then Collisions32Items(index2.value.collisions32, hs) else []
  }

  /** The Index1 offset dictionary: filtered against Index1's collisions only. */
  function Offsets1(index1: Option<IndexFile>, hs: Hashing): Table<u64, Index1Entry> {
    if index1.Some? then Offsets1Items(index1.value.hashes64, Collisions1(index1, hs)) else []
  }

  /** The Index2 offset dictionary: filtered against the collisions of both files. */
  function Offsets2(index1: Option<IndexFile>, index2: Option<IndexFile>, hs: Hashing): Table<u64, Index2Entry> {
    if index2.Some? then Offsets2Items(index2.value.hashes32, Collisions1(index1, hs) + Collisions2(index2, hs)) else []
  }

  // ---- the filters ----

  /** Every Index1 offset entry comes from a non-synonym record not already Combined. */
  lemma {:induction false} Offsets1Sound(hs: seq<Hash64>, c: Table<u64, CombinedEntry>, j: nat)
    requires j < |Offsets1Items(hs, c)|
    ensures exists i | 0 <= i < |hs| :: Keep64(hs[i], c) && Offsets1Items(hs, c)[j] == FromHash64(hs[i])
    decreases |hs|
  {
    var head := if Keep64(hs[0], c) then [FromHash64(hs[0])] else [];
    if j >= |head| {
      Offsets1Sound(hs[1..], c, j - |head|);
      var i :| 0 <= i < |hs[1..]| && Keep64(hs[1..][i], c) && Offsets1Items(hs[1..], c)[j - |head|] == FromHash64(hs[1..][i]);
      assert hs[1..][i] == hs[i + 1];
    }
  }

  /** Every non-synonym Index1 record not already Combined has an offset entry. */
  lemma {:induction false} Offsets1Complete(hs: seq<Hash64>, c: Table<u64, CombinedEntry>, i: nat)
    requires i < |hs| && Keep64(hs[i], c)
    ensures FromHash64(hs[i]) in Offsets1Items(hs, c)
    decreases |hs|
  {
    if i > 0 {
      assert hs[1..][i - 1] == hs[i];
      Offsets1Complete(hs[1..], c, i - 1);
    }
  }

  /** Every Index2 offset entry comes from a non-synonym record whose hash no Combined entry
      carries. */
  lemma {:induction false} Offsets2Sound(hs: seq<Hash32>, c: Table<u64, CombinedEntry>, j: nat)
    requires j < |Offsets2Items(hs, c)|
    ensures exists i | 0 <= i < |hs| :: Keep32(hs[i], c) && Offsets2Items(hs, c)[j] == FromHash32(hs[i])
    decreases |hs|
  {
    var head := if Keep32(hs[0], c) then [FromHash32(hs[0])] else [];
    if j >= |head| {
      Offsets2Sound(hs[1..], c, j - |head|);
      var i :| 0 <= i < |hs[1..]| && Keep32(hs[1..][i], c) && Offsets2Items(hs[1..], c)[j - |head|] == FromHash32(hs[1..][i]);
      assert hs[1..][i] == hs[i + 1];
    }
  }

  /** Every non-synonym Index2 record whose hash is not Combined has an offset entry. */
  lemma {:induction false} Offsets2Complete(hs: seq<Hash32>, c: Table<u64, CombinedEntry>, i: nat)
    requires i < |hs| && Keep32(hs[i], c)
    ensures FromHash32(hs[i]) in Offsets2Items(hs, c)
    decreases |hs|
  {
    if i > 0 {
      assert hs[1..][i - 1] == hs[i];
      Offsets2Complete(hs[1..], c, i - 1);
    }
  }

  // ---- the loading passes ----

  /** Combined after loading: Index1's collisions, then Index2's. */
  lemma LoadCombined(index1: Option<IndexFile>, index2: Option<IndexFile>, hs: Hashing)
    requires Load(index1, index2, hs).Ok?
    ensures Load(index1, index2, hs).value.combined == Collisions1(index1, hs) + Collisions2(index2, hs)
  {
    if index1.Some? {
      PutAllFresh(Collisions1(index1, hs));
    }
    if index2.Some? {
      var c1 := if index1.Some? then Collisions1(index1, hs) else [];
      PutAllAppends(c1, Collisions2(index2, hs));
    } else {
      assert Collisions2(index2, hs) == [];
    }
  }

  /** The offset dictionaries after loading are the filtered records, with distinct keys. */
  lemma LoadOffsets(index1: Option<IndexFile>, index2: Option<IndexFile>, hs: Hashing)
    requires Load(index1, index2, hs).Ok?
    ensures Load(index1, index2, hs).value.offsets1 == Offsets1(index1, hs)
    ensures Load(index1, index2, hs).value.offsets2 == Offsets2(index1, index2, hs)
    ensures UniqueKeys(Offsets1(index1, hs)) && UniqueKeys(Offsets2(index1, index2, hs))
  {
    LoadCombined(index1, index2, hs);
    if index1.Some? {
      PutAllFresh(Collisions1(index1, hs));
      PutAllFresh(Offsets1(index1, hs));
    }
    if index2.Some? {
      var c1 := if index1.Some? then Collisions1(index1, hs) else [];
      PutAllAppends(c1, Collisions2(index2, hs));
      PutAllFresh(Offsets2(index1, index2, hs));
    }
  }

  // ---- Process ----

  /** A successful `Process` had correctly tagged files. */
  lemma ProcessTags(index1: Option<IndexFile>, index2: Option<IndexFile>, hs: Hashing)
    ensures index1.Some? && index1.value.isIndex2 ==> ProcessSpec(index1, index2, hs) == Err(NotIndex1)
    ensures index2.Some? && !index2.value.isIndex2 && !(index1.Some? && index1.value.isIndex2)
            ==> ProcessSpec(index1, index2, hs) == Err(NotIndex2)
  {
  }

  /** The Combined dictionary starts with the collisions of Index1 and then of Index2. */
  lemma ProcessCollisions(index1: Option<IndexFile>, index2: Option<IndexFile>, hs: Hashing)
    requires ProcessSpec(index1, index2, hs).Ok?
    ensures Collisions1(index1, hs) + Collisions2(index2, hs) <= ProcessSpec(index1, index2, hs).value.combined
  {
    LoadCombined(index1, index2, hs);
    var l := Load(index1, index2, hs).value;
    if !(index1.Some? && index2.None?) && !(index1.None? && index2.Some?) {
      JoinGrows(l.offsets1, l.offsets1, l.offsets2, l.combined, Merge);
    }
  }

  /** Every Index1 collision is Combined under its FileIdentifier, with its own hashes, the
      full hash of its path, and its path. */
  lemma ProcessIndex1Collision(index1: Option<IndexFile>, index2: Option<IndexFile>, hs: Hashing, j: nat)
    requires ProcessSpec(index1, index2, hs).Ok?
    requires index1.Some? && j < |index1.value.collisions64|
    ensures var c := index1.value.collisions64[j];
            Pair(c.fileId, CombinedEntry(c.folderHash, c.fileHash, hs.fullHash(c.path), Some(c.path)))
            in ProcessSpec(index1, index2, hs).value.combined
  {
    ProcessCollisions(index1, index2, hs);
    var all := Collisions1(index1, hs) + Collisions2(index2, hs);
    assert all[j] == FromCollision64(index1.value.collisions64[j], hs);
  }

  /** Every Index2 collision is Combined under its FileIdentifier, with the folder and file
      hashes of its path, its own hash as full hash, and its path. */
  lemma ProcessIndex2Collision(index1: Option<IndexFile>, index2: Option<IndexFile>, hs: Hashing, j: nat)
    requires ProcessSpec(index1, index2, hs).Ok?
    requires index2.Some? && j < |index2.value.collisions32|
    ensures var c := index2.value.collisions32[j];
            Pair(c.fileId, CombinedEntry(hs.pathHashes(c.path).0, hs.pathHashes(c.path).1, c.hash, Some(c.path)))
            in ProcessSpec(index1, index2, hs).value.combined
  {
    ProcessCollisions(index1, index2, hs);
    var all := Collisions1(index1, hs) + Collisions2(index2, hs);
    assert all[|Collisions1(index1, hs)| + j] == FromCollision32(index2.value.collisions32[j], hs);
  }

  /** With only an Index1, every hash record, synonyms included, goes to Index1Entries, and
      Combined holds just the collisions. */
  lemma ProcessOnlyIndex1(index1: Option<IndexFile>, hs: Hashing)
    requires ProcessSpec(index1, None, hs).Ok? && index1.Some?
    ensures ProcessSpec(index1, None, hs).value
            == Composite(Collisions64Items(index1.value.collisions64, hs), Hashes64Items(index1.value.hashes64), [])
  {
    LoadCombined(index1, None, hs);
    PutAllFresh(Hashes64Items(index1.value.hashes64));
    assert Collisions1(index1, hs) + Collisions2(None, hs) == Collisions1(index1, hs);
  }

  /** With only an Index2, every hash record, synonyms included, goes to Index2Entries, and
      Combined holds just the collisions. */
  lemma ProcessOnlyIndex2(index2: Option<IndexFile>, hs: Hashing)
    requires ProcessSpec(None, index2, hs).Ok? && index2.Some?
    ensures ProcessSpec(None, index2, hs).value
            == Composite(Collisions32Items(index2.value.collisions32, hs), [], Hashes32Items(index2.value.hashes32))
  {
    LoadCombined(None, index2, hs);
    PutAllFresh(Hashes32Items(index2.value.hashes32));
    assert Collisions1(None, hs) + Collisions2(index2, hs) == Collisions2(index2, hs);
  }

  /** With both files, the Join of the offset dictionaries as loaded. */
  function JoinOf(index1: Option<IndexFile>, index2: Option<IndexFile>, hs: Hashing): Result<Joined<u64, Index1Entry, Index2Entry, CombinedEntry>, u64> {
    Join(Offsets1(index1, hs), Offsets1(index1, hs), Offsets2(index1, index2, hs),
         Collisions1(index1, hs) + Collisions2(index2, hs), Merge)
  }

  lemma ProcessBoth(index1: Option<IndexFile>, index2: Option<IndexFile>, hs: Hashing)
    requires ProcessSpec(index1, index2, hs).Ok? && index1.Some? && index2.Some?
    ensures JoinOf(index1, index2, hs).Ok? && UniqueKeys(Offsets1(index1, hs))
    ensures ProcessSpec(index1, index2, hs).value.combined == JoinOf(index1, index2, hs).value.out
    ensures ProcessSpec(index1, index2, hs).value.index1Entries == JoinOf(index1, index2, hs).value.rest1
    ensures ProcessSpec(index1, index2, hs).value.index2Entries == JoinOf(index1, index2, hs).value.rest2
  {
    LoadCombined(index1, index2, hs);
    LoadOffsets(index1, index2, hs);
    var js := JoinOf(index1, index2, hs).value;
    PutAllFresh(js.rest1);
    PutAllFresh(js.rest2);
  }

  /** A FileIdentifier with an entry in both offset dictionaries becomes one Combined entry
      without a path, and appears in neither Index1Entries nor Index2Entries. */
  lemma ProcessMatched(index1: Option<IndexFile>, index2: Option<IndexFile>, hs: Hashing,
                       k: u64, v1: Index1Entry, v2: Index2Entry)
    requires ProcessSpec(index1, index2, hs).Ok? && index1.Some? && index2.Some?
    requires Pair(k, v1) in Offsets1(index1, hs) && Pair(k, v2) in Offsets2(index1, index2, hs)
    ensures var r := ProcessSpec(index1, index2, hs).value;
            Pair(k, CombinedEntry(v1.folderHash, v1.fileHash, v2.fullHash, None)) in r.combined
            && !Has(r.index1Entries, k) && !Has(r.index2Entries, k)
  {
    ProcessBoth(index1, index2, hs);
    LoadOffsets(index1, index2, hs);
    var o1, o2 := Offsets1(index1, hs), Offsets2(index1, index2, hs);
    var c := Collisions1(index1, hs) + Collisions2(index2, hs);
    var i :| 0 <= i < |o1| && o1[i] == Pair(k, v1);
    InHas(o1, k, v1);
    InHas(o2, k, v2);
    UniqueGet(o2, k, v2);
    JoinMatched(o1, o1, o2, c, Merge, i);
    JoinRest1(o1, o1, o2, c, Merge, k);
    JoinRest2(o1, o1, o2, c, Merge, k);
  }

  /** Index1Entries holds exactly the Index1 offsets whose key has no Index2 offset. */
  lemma ProcessLeftover1(index1: Option<IndexFile>, index2: Option<IndexFile>, hs: Hashing, k: u64)
    requires ProcessSpec(index1, index2, hs).Ok? && index1.Some? && index2.Some?
    ensures Has(ProcessSpec(index1, index2, hs).value.index1Entries, k)
            <==> Has(Offsets1(index1, hs), k) && !Has(Offsets2(index1, index2, hs), k)
  {
    ProcessBoth(index1, index2, hs);
    JoinRest1(Offsets1(index1, hs), Offsets1(index1, hs), Offsets2(index1, index2, hs),
                  Collisions1(index1, hs) + Collisions2(index2, hs), Merge, k);
  }

  /** Index2Entries holds exactly the Index2 offsets whose key has no Index1 offset. */
  lemma ProcessLeftover2(index1: Option<IndexFile>, index2: Option<IndexFile>, hs: Hashing, k: u64)
    requires ProcessSpec(index1, index2, hs).Ok? && index1.Some? && index2.Some?
    ensures Has(ProcessSpec(index1, index2, hs).value.index2Entries, k)
            <==> Has(Offsets2(index1, index2, hs), k) && !Has(Offsets1(index1, hs), k)
  {
    ProcessBoth(index1, index2, hs);
    JoinRest2(Offsets1(index1, hs), Offsets1(index1, hs), Offsets2(index1, index2, hs),
                  Collisions1(index1, hs) + Collisions2(index2, hs), Merge, k);
  }

  /** With both files, every Index1Entries entry comes from a non-synonym Index1 record whose
      FileIdentifier is not an Index1 collision. */
  lemma ProcessIndex1Filtered(index1: Option<IndexFile>, index2: Option<IndexFile>, hs: Hashing, j: nat)
    requires ProcessSpec(index1, index2, hs).Ok? && index1.Some? && index2.Some?
    requires j < |ProcessSpec(index1, index2, hs).value.index1Entries|
    ensures var hashes := index1.value.hashes64;
            exists i | 0 <= i < |hashes| ::
              !hashes[i].isSynonym && !Has(Collisions64Items(index1.value.collisions64, hs), hashes[i].fileId)
              && ProcessSpec(index1, index2, hs).value.index1Entries[j] == FromHash64(hashes[i])
  {
    ProcessBoth(index1, index2, hs);
    var o1 := Offsets1(index1, hs);
    JoinKeeps1(o1, o1, Offsets2(index1, index2, hs), Collisions1(index1, hs) + Collisions2(index2, hs), Merge, j);
    var p := ProcessSpec(index1, index2, hs).value.index1Entries[j];
    var m :| 0 <= m < |o1| && o1[m] == p;
    Offsets1Sound(index1.value.hashes64, Collisions1(index1, hs), m);
  }

  /** With both files, every Index2Entries entry comes from a non-synonym Index2 record whose
      hash is the full hash of no collision of either file. */
  lemma ProcessIndex2Filtered(index1: Option<IndexFile>, index2: Option<IndexFile>, hs: Hashing, j: nat)
    requires ProcessSpec(index1, index2, hs).Ok? && index1.Some? && index2.Some?
    requires j < |ProcessSpec(index1, index2, hs).value.index2Entries|
    ensures var hashes := index2.value.hashes32;
            exists i | 0 <= i < |hashes| ::
              !hashes[i].isSynonym && !HasFullHash(Collisions1(index1, hs) + Collisions2(index2, hs), hashes[i].hash)
              && ProcessSpec(index1, index2, hs).value.index2Entries[j] == FromHash32(hashes[i])
  {
    ProcessBoth(index1, index2, hs);
    var o2 := Offsets2(index1, index2, hs);
    JoinKeeps2(Offsets1(index1, hs), Offsets1(index1, hs), o2, Collisions1(index1, hs) + Collisions2(index2, hs), Merge, j);
    var p := ProcessSpec(index1, index2, hs).value.index2Entries[j];
    var m :| 0 <= m < |o2| && o2[m] == p;
    Offsets2Sound(index2.value.hashes32, Collisions1(index1, hs) + Collisions2(index2, hs), m);
  }
}

=== FILE: entry.dfy ===
/** ResLogger2.Common/ServerDatabase/Model/Entry.cs: the `[FirstSeen, LastSeen]` range every
    catalog and staging row carries, and `UpdateSeen`, which widens it in place. */
module Entries {
  import opened Base
  import opened GameVersions

  /** A `[FirstSeen, LastSeen]` pair. */
  datatype Seen = Seen(first: GameVersion, last: GameVersion)

  /** The range is not inverted. */
  predicate Ordered(s: Seen) {
    Le(s.first, s.last)
  }

  /** `gv` lies inside the range. */
  predicate Covers(s: Seen, gv: GameVersion) {
    Le(s.first, gv) && Le(gv, s.last)
  }

  /** `s` lies inside `t`: t is at least as wide on both ends. */
  predicate Within(s: Seen, t: Seen) {
    Le(t.first, s.first) && Le(s.last, t.last)
  }

  /** Merge the bounds of `o` into `s`: each bound moves only when `o`'s is strictly beyond
      it, which is the test `UpdateSeen` and the staging promotion both use. */
  function Absorb(s: Seen, o: Seen): (r: Seen)
    ensures Le(r.first, s.first) && Le(r.first, o.first)
    ensures Ge(r.last, s.last) && Ge(r.last, o.last)
    ensures r.first == s.first || r.first == o.first
    ensures r.last == s.last || r.last == o.last
  {
    CompareReflexive(s.first);
    CompareReflexive(o.first);
    CompareReflexive(s.last);
    CompareReflexive(o.last);
    CompareAntisymmetric(o.first, s.first);
    CompareAntisymmetric(o.last, s.last);
    Seen(if Lt(o.first, s.first) then o.first else s.first,
         if Gt(o.last, s.last) then o.last else s.last)
  }

  /** The range after `UpdateSeen(gv)`. */
  function Widen(s: Seen, gv: GameVersion): (r: Seen)
    ensures Covers(r, gv)
    ensures Within(s, r)
    ensures r.first == s.first || r.first == gv
    ensures r.last == s.last || r.last == gv
  {
    var r := Absorb(s, Seen(gv, gv));
    CompareAntisymmetric(r.last, s.last);
    CompareAntisymmetric(r.last, gv);
    r
  }

  /** The flag `UpdateSeen(gv)` returns: some bound moved. */
  predicate Changed(s: Seen, gv: GameVersion) {
    Lt(gv, s.first) || Gt(gv, s.last)
  }

  /** The flag is true exactly when the range is different afterwards. */
  lemma WidenChanged(s: Seen, gv: GameVersion)
    ensures Changed(s, gv) <==> Widen(s, gv) != s
  {
    CompareReflexive(s.first);
    CompareReflexive(s.last);
  }

  /** A range that already covers `gv` is left alone. */
  lemma WidenCovered(s: Seen, gv: GameVersion)
    requires Covers(s, gv)
    ensures !Changed(s, gv) && Widen(s, gv) == s
  {
    CompareAntisymmetric(s.last, gv);
    WidenChanged(s, gv);
  }

  /** A second call with the same version reports no change and changes nothing. */
  lemma WidenIdempotent(s: Seen, gv: GameVersion)
    ensures !Changed(Widen(s, gv), gv)
    ensures Widen(Widen(s, gv), gv) == Widen(s, gv)
  {
    WidenCovered(Widen(s, gv), gv);
  }

  /** A non-inverted range stays non-inverted. */
  lemma WidenOrdered(s: Seen, gv: GameVersion)
    requires Ordered(s)
    ensures Ordered(Widen(s, gv))
  {
    var r := Widen(s, gv);
    CompareTransitive(r.first, gv, r.last);
  }

  /** Widening is monotone: a range inside `t` stays inside `t` widened with the same version. */
  lemma WidenMonotone(s: Seen, t: Seen, gv: GameVersion)
    requires Within(s, t)
    ensures Within(Widen(s, gv), Widen(t, gv))
  {
    var rs, rt := Widen(s, gv), Widen(t, gv);
    CompareTransitive(rt.first, t.first, s.first);
    CompareTransitive(s.last, t.last, rt.last);
    CompareReflexive(gv);
  }

  /** Containment is transitive, so ranges that only widen step by step end up wider overall. */
  lemma WithinTransitive(a: Seen, b: Seen, c: Seen)
    requires Within(a, b) && Within(b, c)
    ensures Within(a, c)
  {
    CompareTransitive(c.first, b.first, a.first);
    CompareTransitive(a.last, b.last, c.last);
  }

  /** Merging keeps both ranges inside the result. */
  lemma AbsorbWithin(s: Seen, o: Seen)
    ensures Within(s, Absorb(s, o)) && Within(o, Absorb(s, o))
  {
    var r := Absorb(s, o);
    CompareAntisymmetric(r.last, s.last);
    CompareAntisymmetric(r.last, o.last);
  }

  /** A range that holds `gv` and lies inside another makes that one hold `gv` too. */
  lemma WithinCovers(s: Seen, t: Seen, gv: GameVersion)
    requires Covers(s, gv) && Within(s, t)
    ensures Covers(t, gv)
  {
    CompareTransitive(t.first, s.first, gv);
    CompareTransitive(gv, s.last, t.last);
  }

  lemma WithinReflexive(a: Seen)
    ensures Within(a, a)
  {
    CompareReflexive(a.first);
    CompareReflexive(a.last);
  }

  /** `Entry`: an index id and a seen range, updated in place. */
  class Entry {
    var indexId: u32
    var firstSeen: GameVersion
    var lastSeen: GameVersion

    constructor (indexId: u32, firstSeen: GameVersion, lastSeen: GameVersion)
      ensures this.indexId == indexId && this.firstSeen == firstSeen && this.lastSeen == lastSeen
    {
      this.indexId := indexId;
      this.firstSeen := firstSeen;
      this.lastSeen := lastSeen;
    }

    function Range(): Seen
      reads this
    {
      Seen(firstSeen, lastSeen)
    }

    /** `UpdateSeen(gv)`: lower FirstSeen to `gv` if `gv` is earlier, raise LastSeen if it is
        later, and report whether anything moved. */
    method UpdateSeen(gv: GameVersion) returns (changed: bool)
      modifies this
      ensures Range() == Widen(old(Range()), gv)
      ensures changed <==> Range() != old(Range())
      ensures Covers(Range(), gv) && Within(old(Range()), Range())
      ensures indexId == old(indexId)
    {
      WidenChanged(Range(), gv);
      changed := false;
      if Lt(gv, firstSeen) {
        firstSeen := gv;
        changed := true;
      }
      if Gt(gv, lastSeen) {
        lastSeen := gv;
        changed := true;
      }
    }
  }
}

=== FILE: exists_result.dfy ===
/** ResLogger2.Common/ExistsResult.cs: the answer to "is this game path in the index", with the
    path split at its last '/' into folder and file parts. */
module ExistsResults {
  import opened Base
  import opened Strings

  /** What slicing a span or string with a negative bound throws. */
  datatype SliceError = ArgumentOutOfRange

  /** The text after the last '/', or all of it when there is none. */
  function FileTextOf(full: string): (r: string)
    ensures '/' !in r
    ensures '/' !in full ==> r == full
  {
    full[LastIndexOf(full, '/') + 1..]
  }

  /** The text before the last '/'; with no '/' the slice end is -1 and the slice throws. */
  function FolderTextOf(full: string): (r: Result<string, SliceError>)
    ensures r.Err? <==> '/' !in full
    ensures r.Ok? ==> r.value + "/" + FileTextOf(full) == full
  {
    var i := LastIndexOf(full, '/');
    if i < 0 then Err(ArgumentOutOfRange)
    else
      assert full == full[..i] + [full[i]] + full[i + 1..];
      Ok(full[..i])
  }

  datatype ExistsResult = ExistsResult(indexId: u32, fullText: string, exists1: bool, exists2: bool)
  {
    function FileText(): string { FileTextOf(fullText) }

    function FolderText(): Result<string, SliceError> { FolderTextOf(fullText) }

    /** Present in either index file. */
    predicate Exists() { exists1 || exists2 }
  }

  /** `Equals(object)`: `None` stands for an argument that is not an `ExistsResult` (null or another
      type). The folder texts are only compared, and may only throw, when the index ids match. */
  function Equals(x: ExistsResult, obj: Option<ExistsResult>): (r: Result<bool, SliceError>)
    ensures r == Ok(true) <==>
      (obj.Some? && x.indexId == obj.value.indexId && x.FolderText().Ok? && x.FolderText() == obj.value.FolderText())
    ensures r.Err? <==>
      (obj.Some? && x.indexId == obj.value.indexId && ('/' !in x.fullText || '/' !in obj.value.fullText))
  {
    match obj
    case None => Ok(false)
    case Some(y) =>
      if x.indexId != y.indexId then Ok(false)
      else
        match x.FolderText()
        case Err(e) => Err(e)
        case Ok(a) =>
          match y.FolderText()
          case Err(e) => Err(e)
          case Ok(b) => Ok(a == b)
  }

  /** `operator ==`. */
  function Eq(x: ExistsResult, y: ExistsResult): Result<bool, SliceError> {
    Equals(x, Some(y))
  }

  /** `operator !=`: the negation of `Equals`, throwing where it throws. */
  function Neq(x: ExistsResult, y: ExistsResult): (r: Result<bool, SliceError>)
    ensures r.Err? <==> Eq(x, y).Err?
    ensures r.Ok? ==> r.value == !Eq(x, y).value
  {
    match Equals(x, Some(y))
    case Err(e) => Err(e)
    case Ok(b) => Ok(!b)
  }

  /** Two paths in the same folder of the same index are equal, whatever their file names. */
  lemma SameFolderEqual(id: u32, folder: string, a: string, b: string, e1: bool, e2: bool, f1: bool, f2: bool)
    requires '/' !in a && '/' !in b
    ensures Eq(ExistsResult(id, folder + "/" + a, e1, e2), ExistsResult(id, folder + "/" + b, f1, f2)) == Ok(true)
  {
    FolderOfJoined(folder, a);
    FolderOfJoined(folder, b);
  }

  /** The folder of `folder + "/" + file` is `folder` when `file` holds no '/'. */
  lemma FolderOfJoined(folder: string, file: string)
    requires '/' !in file
    ensures FolderTextOf(folder + "/" + file) == Ok(folder)
  {
    var s := folder + "/" + file;
    LastIndexOfIs(s, '/', |folder|);
    assert s[..|folder|] == folder;
  }

  /** `Equals` is symmetric, errors included. */
  lemma EqualsSymmetric(x: ExistsResult, y: ExistsResult)
    ensures Eq(x, y) == Eq(y, x)
  {
  }

  /** `Equals` is reflexive on paths that have a folder. */
  lemma EqualsReflexive(x: ExistsResult)
    requires '/' in x.fullText
    ensures Eq(x, x) == Ok(true)
  {
  }

  lemma EqualsTransitive(x: ExistsResult, y: ExistsResult, z: ExistsResult)
    requires Eq(x, y) == Ok(true) && Eq(y, z) == Ok(true)
    ensures Eq(x, z) == Ok(true)
  {
  }
}

=== FILE: exists_result_plugin.dfy ===
/** ResLogger2.Plugin/ExistsResult.cs: the plugin's own lookup answer. Its folder/file split is
    the same last-'/' split as the common one; its hashes are CRC32 values of the three texts. */
module PluginExistsResults {
  import opened Base
  import opened Strings
  import opened ExistsResults

  /** `Lumina.Misc.Crc32.Get(string)`, which is not part of this model. */
  type Crc32 = string -> u32

  datatype PluginExistsResult = PluginExistsResult(indexId: u32, fullText: string, fullExists: bool)
  {
    function FileText(): string { FileTextOf(fullText) }

    function FolderText(): Result<string, SliceError> { FolderTextOf(fullText) }

    function FileHash(crc: Crc32): u32 { crc(FileText()) }

    function FolderHash(crc: Crc32): Result<u32, SliceError> {
      match FolderText()
      case Ok(t) => Ok(crc(t))
      case Err(e) => Err(e)
    }

    function FullHash(crc: Crc32): u32 { crc(fullText) }
  }

  /** `unchecked((int) h)`: the 32 bits read as a signed number. */
  function AsInt32(h: u32): (r: int)
    ensures -0x8000_0000 <= r < 0x8000_0000
    ensures r % 0x1_0000_0000 == h as int
  {
    if h < 0x8000_0000 then h as int else h as int - 0x1_0000_0000
  }

  /** The common `ExistsResult` carrying the same index id and full text. */
  function Common(x: PluginExistsResult): ExistsResults.ExistsResult {
    ExistsResults.ExistsResult(x.indexId, x.fullText, x.fullExists, false)
  }

  /** `Equals(object)`: `None` stands for an argument that is not a plugin `ExistsResult`. The
      comparison is the common one, on the index id and the folder part. */
  function Equals(x: PluginExistsResult, obj: Option<PluginExistsResult>): (r: Result<bool, SliceError>)
    ensures r == Ok(true) <==>
      (obj.Some? && x.indexId == obj.value.indexId && x.FolderText().Ok? && x.FolderText() == obj.value.FolderText())
    ensures r.Err? <==>
      (obj.Some? && x.indexId == obj.value.indexId && ('/' !in x.fullText || '/' !in obj.value.fullText))
  {
    ExistsResults.Equals(Common(x), if obj.None? then None else Some(Common(obj.value)))
  }

  /** `GetHashCode` as written: the CRC of the full text. */
  function GetHashCode(crc: Crc32, x: PluginExistsResult): int {
    AsInt32(x.FullHash(crc))
  }

  /** As written, two values that are `Equals` can have different hash codes: any CRC that tells
      "a/b" from "a/c" apart gives `ExistsResult(0, "a/b")` and `ExistsResult(0, "a/c")` equal
      values with different hash codes. */
  lemma HashCodeDisagreesWithEquals(crc: Crc32)
    requires crc("a/b") != crc("a/c")
    ensures var x, y := PluginExistsResult(0, "a/b", true), PluginExistsResult(0, "a/c", true);
      Equals(x, Some(y)) == Ok(true) && GetHashCode(crc, x) != GetHashCode(crc, y)
  {
    var x, y := PluginExistsResult(0, "a/b", true), PluginExistsResult(0, "a/c", true);
    assert x.FolderText() == Ok("a") by {
      FolderOfJoined("a", "b");
      assert "a" + "/" + "b" == "a/b";
    }
    assert y.FolderText() == Ok("a") by {
      FolderOfJoined("a", "c");
      assert "a" + "/" + "c" == "a/c";
    }
    assert GetHashCode(crc, x) != GetHashCode(crc, y) by {
      assert AsInt32(crc("a/b")) % 0x1_0000_0000 != AsInt32(crc("a/c")) % 0x1_0000_0000;
    }
  }

  /** A hash code that agrees with `Equals`: the CRC of the folder text mixed with the index id
      (a path with no folder, which `Equals` rejects by throwing, hashes its empty prefix). */
  function GetHashCodeByFolder(crc: Crc32, x: PluginExistsResult): int {
    var folder := match x.FolderText() case Ok(t) => t case Err(_) => "";
    AsInt32(((crc(folder) as int + x.indexId as int * 31) % 0x1_0000_0000) as u32)
  }

  /** Values that are `Equals` have equal corrected hash codes. */
  lemma EqualsAgreesWithHashByFolder(crc: Crc32, x: PluginExistsResult, y: PluginExistsResult)
    requires Equals(x, Some(y)) == Ok(true)
    ensures GetHashCodeByFolder(crc, x) == GetHashCodeByFolder(crc, y)
  {
  }
}

=== FILE: extensions.dfy ===
/** ResLogger2.Common/Extensions.cs: reading a NUL-terminated ASCII string from a byte stream,
    and the in-place ASCII lower-casing of a string's characters. */
module Extensions {
  import opened Base

  // ---- ReadString ----

  /** What `BinaryReader.ReadByte` throws past the end of the stream. */
  datatype EndOfStream = EndOfStream

  /** `Encoding.ASCII` decoding of one byte: bytes above 0x7F become the replacement '?'. */
  function AsciiChar(b: u8): (c: char)
    ensures (c == 0 as char) <==> b == 0
  {
    if b < 0x80 then b as int as char else '?'
  }

  function AsciiDecode(bs: seq<u8>): (s: string)
    ensures |s| == |bs| && forall i | 0 <= i < |bs| :: s[i] == AsciiChar(bs[i])
  {
    seq(|bs|, i requires 0 <= i < |bs| => AsciiChar(bs[i]))
  }

  /** The position of the first 0 byte at or after `from`, if there is one. */
  function NulFrom(data: seq<u8>, from: nat): (r: Option<nat>)
    requires from <= |data|
    ensures r.Some? ==> from <= r.value < |data| && data[r.value] == 0
    ensures r.Some? ==> forall j | from <= j < r.value :: data[j] != 0
    ensures r.None? ==> forall j | from <= j < |data| :: data[j] != 0
    decreases |data| - from
  {
    if from == |data| then None
    else if data[from] == 0 then Some(from)
    else NulFrom(data, from + 1)
  }

  /** What `ReadString` yields from position `pos`: the decoded bytes before the terminator and
      the position after it, or end of stream when no terminator is left. */
  function ReadStringAt(data: seq<u8>, pos: nat): (r: Result<(string, nat), EndOfStream>)
    requires pos <= |data|
    ensures r.Ok? ==> pos < r.value.1 <= |data| && data[r.value.1 - 1] == 0
    ensures r.Ok? ==> r.value.0 == AsciiDecode(data[pos..r.value.1 - 1])
    ensures r.Ok? ==> 0 as char !in r.value.0
  {
    match NulFrom(data, pos)
    case None => Err(EndOfStream)
    case Some(z) => Ok((AsciiDecode(data[pos..z]), z + 1))
  }

  /** The bytes a NUL-terminated ASCII string is stored as. */
  function AsciiEncode(s: string): (bs: seq<u8>)
    requires forall i | 0 <= i < |s| :: 0 < s[i] as int < 0x80
    ensures |bs| == |s| + 1 && bs[|s|] == 0
  {
    seq(|s|, i requires 0 <= i < |s| => s[i] as int as u8) + [0]
  }

  /** Reading back a stored string gives the string and consumes its terminator, whatever
      follows it. */
  lemma ReadStringRoundTrip(s: string, rest: seq<u8>)
    requires forall i | 0 <= i < |s| :: 0 < s[i] as int < 0x80
    ensures ReadStringAt(AsciiEncode(s) + rest, 0) == Ok((s, |s| + 1))
  {
    var data := AsciiEncode(s) + rest;
    NulFromFirst(data, 0, |s|);
    assert AsciiDecode(data[0..|s|]) == s;
  }

  lemma {:induction false} NulFromFirst(data: seq<u8>, from: nat, z: nat)
    requires from <= z < |data| && data[z] == 0
    requires forall j | from <= j < z :: data[j] != 0
    ensures NulFrom(data, from) == Some(z)
    decreases z - from
  {
    if from < z {
      NulFromFirst(data, from + 1, z);
    }
  }

  /** A `BinaryReader` over an in-memory stream. */
  class Reader {
    var data: seq<u8>
    var pos: nat

    ghost predicate Valid()
      reads this
    {
      pos <= |data|
    }

    constructor (bytes: seq<u8>)
      ensures Valid() && data == bytes && pos == 0
    {
      data := bytes;
      pos := 0;
    }

    method ReadByte() returns (r: Result<u8, EndOfStream>)
      requires Valid()
      modifies this
      ensures Valid() && data == old(data)
      ensures old(pos) < |data| ==> r == Ok(data[old(pos)]) && pos == old(pos) + 1
      ensures old(pos) == |data| ==> r == Err(EndOfStream) && pos == old(pos)
    {
      if pos == |data| {
        return Err(EndOfStream);
      }
      r := Ok(data[pos]);
      pos := pos + 1;
    }

    /** `ReadString`: bytes up to the first 0 byte, which is consumed too. */
    method ReadString() returns (r: Result<string, EndOfStream>)
      requires Valid()
      modifies this
      ensures Valid() && data == old(data)
      ensures match ReadStringAt(data, old(pos))
        case Ok(v) => r == Ok(v.0) && pos == v.1
        case Err(e) => r == Err(e) && pos == |data|
    {
      ghost var start := pos;
      var chars: seq<u8> := [];
      while true
        invariant Valid() && data == old(data) && start <= pos
        invariant chars == data[start..pos]
        invariant forall j | start <= j < pos :: data[j] != 0
        decreases |data| - pos
      {
        var current := ReadByte();
        if current.Err? {
          assert NulFrom(data, start) == None;
          return Err(EndOfStream);
        }
        if current.value == 0 {
          NulFromFirst(data, start, pos - 1);
          return Ok(AsciiDecode(chars));
        }
        chars := chars + [current.value];
      }
    }
  }

  // ---- ToLowerUnsafe ----

  /** `c | 0x60` on 'A'..'Z' (0x41..0x5A) is adding 0x20: bit 5 is clear, bit 6 already set. */
  lemma Or60Upper(x: nat)
    requires 0x41 <= x <= 0x5a
    ensures BitOr(x, 0x60) == x + 0x20
  {
    assert Pow2(5) == 0x20;
    BitOrShifted(2, 3, x - 0x40, 5);
    assert BitOr(2, 3) == 3 by {
      assert BitOr(1, 1) == 1;
    }
  }

  /** One step of the loop: 'A'..'Z' get bits 0x60 set, which makes them 'a'..'z'; every
      other character is kept. */
  function LowerAscii(c: char): (r: char)
    ensures 'A' <= c <= 'Z' ==> r as int == c as int + 0x20
    ensures !('A' <= c <= 'Z') ==> r == c
  {
    if 0x40 < c as int < 0x5b then
      Or60Upper(c as int);
      BitOr(c as int, 0x60) as char
    else c
  }

  /** Where the loop stops: the first NUL, or the terminator after the last character. */
  function NulIndex(s: seq<char>): (n: nat)
    ensures n <= |s| && (n < |s| ==> s[n] == 0 as char)
    ensures forall j | 0 <= j < n :: s[j] != 0 as char
  {
    if s == [] then 0 else if s[0] == 0 as char then 0 else 1 + NulIndex(s[1..])
  }

  /** The characters after `ToLowerUnsafe`: before the first NUL every upper-case letter becomes
      its lower-case letter and every other character is kept; from the first NUL on nothing
      changes. */
  function Lowered(s: seq<char>): (r: seq<char>)
    ensures |r| == |s|
    ensures forall i | 0 <= i < |s| && i < NulIndex(s) && 'A' <= s[i] <= 'Z' :: r[i] as int == s[i] as int + 0x20
    ensures forall i | 0 <= i < |s| && !(i < NulIndex(s) && 'A' <= s[i] <= 'Z') :: r[i] == s[i]
  {
    var n := NulIndex(s);
    seq(|s|, i requires 0 <= i < |s| => if i < n then LowerAscii(s[i]) else s[i])
  }

  /** `ToLowerUnsafe` rewrites the string's characters in place and returns the same string. */
  method ToLowerUnsafe(a: array<char>) returns (r: array<char>)
    modifies a
    ensures r == a && a[..] == Lowered(old(a[..]))
  {
    ghost var s := a[..];
    var p := 0;
    while p < a.Length && a[p] != 0 as char
      invariant 0 <= p <= NulIndex(s)
      invariant forall j | 0 <= j < a.Length :: a[j] == if j < p then LowerAscii(s[j]) else s[j]
    {
      a[p] := LowerAscii(a[p]);
      p := p + 1;
    }
    assert p == NulIndex(s);
    return a;
  }

  /** Lower-casing never creates or removes a NUL, so the loop stops at the same place. */
  lemma LoweredStopsAtSameNul(s: seq<char>)
    ensures NulIndex(Lowered(s)) == NulIndex(s)
  {
    var t := Lowered(s);
    assert forall j | 0 <= j < NulIndex(s) :: t[j] != 0 as char;
    NulIndexIs(t, NulIndex(s));
  }

  lemma {:induction false} NulIndexIs(s: seq<char>, n: nat)
    requires n <= |s| && (n < |s| ==> s[n] == 0 as char)
    requires forall j | 0 <= j < n :: s[j] != 0 as char
    ensures NulIndex(s) == n
  {
    if n > 0 {
      NulIndexIs(s[1..], n - 1);
    }
  }

  /** `ToLowerUnsafe` is idempotent. */
  lemma LoweredIdempotent(s: seq<char>)
    ensures Lowered(Lowered(s)) == Lowered(s)
  {
    var t := Lowered(s);
    LoweredStopsAtSameNul(s);
    assert forall i | 0 <= i < NulIndex(s) :: LowerAscii(t[i]) == t[i];
  }
}

=== FILE: game_version.dfy ===
/** ResLogger2.Common/ServerDatabase/Model/GameVersion.cs: a five-number game version
    "Y.M.D.P.R" with an id, a special flag and a comment, ordered by a hand-written
    comparator that looks at Revision BEFORE Part. */
module GameVersions {
  import opened Base
  import opened Strings

  datatype GameVersion = GameVersion(
    id: int,
    year: u32,
    month: u32,
    day: u32,
    part: u32,
    revision: u32,
    isSpecial: bool,
    comment: Option<string>)
  {
    /** `CompareTo(object)`: 1 against null, otherwise the lexicographic comparison of
        the comparison keys. */
    function CompareTo(other: Option<GameVersion>): (r: int)
      ensures -1 <= r <= 1
      ensures other.None? ==> r == 1
      ensures other.Some? ==> r == LexCompare(Key(this), Key(other.value))
    {
      match other
      case None => 1
      case Some(o) =>
        KeyCompare(this, o);
        if year > o.year then 1
        else if year < o.year then -1
        else if month > o.month then 1
        else if month < o.month then -1
        else if day > o.day then 1
        else if day < o.day then -1
        else if revision > o.revision then 1
        else if revision < o.revision then -1
        else if part > o.part then 1
        else if part < o.part then -1
        else 0
    }

    /** `ToString()`: "{Year:0000}.{Month:00}.{Day:00}.{Part:0000}.{Revision:0000}". */
    function ToString(): string {
      Join(Fields(this), '.')
    }
  }

  /** The printed fields, zero-padded to 4, 2, 2, 4 and 4 digits. */
  function Fields(v: GameVersion): seq<string> {
    [ZeroPadded(v.year as nat, 4), ZeroPadded(v.month as nat, 2), ZeroPadded(v.day as nat, 2),
     ZeroPadded(v.part as nat, 4), ZeroPadded(v.revision as nat, 4)]
  }

  /** The fields the comparator reads, in the order it reads them: Revision before Part. */
  function Key(v: GameVersion): seq<int> {
    [v.year as int, v.month as int, v.day as int, v.revision as int, v.part as int]
  }

  /** Lexicographic comparison of equally long integer sequences; the reference
      definition the comparator is checked against. */
  function LexCompare(a: seq<int>, b: seq<int>): (r: int)
    requires |a| == |b|
    ensures -1 <= r <= 1
  {
    if |a| == 0 then 0
    else if a[0] > b[0] then 1
    else if a[0] < b[0] then -1
    else LexCompare(a[1..], b[1..])
  }

  /** Unfolds LexCompare over the five comparison keys. */
  lemma KeyCompare(a: GameVersion, b: GameVersion)
    ensures LexCompare(Key(a), Key(b)) ==
      if a.year > b.year then 1
      else if a.year < b.year then -1
      else if a.month > b.month then 1
      else if a.month < b.month then -1
      else if a.day > b.day then 1
      else if a.day < b.day then -1
      else if a.revision > b.revision then 1
      else if a.revision < b.revision then -1
      else if a.part > b.part then 1
      else if a.part < b.part then -1
      else 0
  {
    var ka, kb := Key(a), Key(b);
    LexStep(ka, kb);
    LexStep(ka[1..], kb[1..]);
    LexStep(ka[2..], kb[2..]);
    LexStep(ka[3..], kb[3..]);
    LexStep(ka[4..], kb[4..]);
    assert ka[1..][1..] == ka[2..] && kb[1..][1..] == kb[2..];
    assert ka[2..][1..] == ka[3..] && kb[2..][1..] == kb[3..];
    assert ka[3..][1..] == ka[4..] && kb[3..][1..] == kb[4..];
    assert ka[4..][1..] == [] && kb[4..][1..] == [];
  }

  lemma LexStep(a: seq<int>, b: seq<int>)
    requires |a| == |b| > 0
    ensures LexCompare(a, b) ==
      if a[0] > b[0] then 1 else if a[0] < b[0] then -1 else LexCompare(a[1..], b[1..])
  {
  }

  /** `x.CompareTo(y)` for two non-null versions. */
  function Compare(x: GameVersion, y: GameVersion): int {
    x.CompareTo(Some(y))
  }

  /** The operators `<`, `>`, `<=`, `>=` (non-null operands). */
  predicate Lt(x: GameVersion, y: GameVersion) { Compare(x, y) < 0 }
  predicate Gt(x: GameVersion, y: GameVersion) { Compare(x, y) > 0 }
  predicate Le(x: GameVersion, y: GameVersion) { Compare(x, y) <= 0 }
  predicate Ge(x: GameVersion, y: GameVersion) { Compare(x, y) >= 0 }

  /** Two versions the comparator cannot tell apart. */
  predicate SameVersion(x: GameVersion, y: GameVersion) {
    Key(x) == Key(y)
  }

  /** Operator `==`: null equals only null; otherwise `CompareTo(y) == 0`. */
  function Equal(x: Option<GameVersion>, y: Option<GameVersion>): (r: bool)
    ensures x.None? ==> (r <==> y.None?)
    ensures x.Some? && y.None? ==> !r
    ensures x.Some? && y.Some? ==> (r <==> SameVersion(x.value, y.value))
  {
    if x.None? then y.None? else
      LexZero(Key(x.value), if y.Some? then Key(y.value) else Key(x.value));
      x.value.CompareTo(y) == 0
  }

  /** Operator `!=`, run with a bound on its call depth: None means the bound was
      exhausted. With a null left operand it evaluates `y != null`, which calls the
      same operator again with the operands moved. */
  function NotEqual(x: Option<GameVersion>, y: Option<GameVersion>, depth: nat): Option<bool>
    decreases depth
  {
    if depth == 0 then None
    else if x.None? then
      match NotEqual(y, None, depth - 1)
      case None => None
      case Some(b) => Some(b)
    else Some(x.value.CompareTo(y) != 0)
  }

  /** `!=` returns the negation of `==` whenever at least one operand is non-null
      (within two nested calls), and never returns when both are null. */
  lemma NotEqualOutcome(x: Option<GameVersion>, y: Option<GameVersion>, depth: nat)
    ensures x.Some? || y.Some? ==> (depth >= 2 ==> NotEqual(x, y, depth) == Some(!Equal(x, y)))
    ensures x.None? && y.None? ==> NotEqual(x, y, depth) == None
  {
    if x.None? && y.None? {
      NotEqualBothNull(depth);
    }
  }

  lemma {:induction false} NotEqualBothNull(depth: nat)
    ensures NotEqual(None, None, depth) == None
  {
    if depth > 0 {
      NotEqualBothNull(depth - 1);
    }
  }

  // ---- ordering laws ----

  lemma {:induction false} LexZero(a: seq<int>, b: seq<int>)
    requires |a| == |b|
    ensures LexCompare(a, b) == 0 <==> a == b
  {
    if |a| > 0 {
      LexZero(a[1..], b[1..]);
      if a[0] == b[0] && a[1..] == b[1..] {
        assert a == [a[0]] + a[1..] && b == [b[0]] + b[1..];
      }
    }
  }

  lemma {:induction false} LexAntisymmetric(a: seq<int>, b: seq<int>)
    requires |a| == |b|
    ensures LexCompare(a, b) == -LexCompare(b, a)
  {
    if |a| > 0 && a[0] == b[0] {
      LexAntisymmetric(a[1..], b[1..]);
    }
  }

  lemma {:induction false} LexTransitive(a: seq<int>, b: seq<int>, c: seq<int>)
    requires |a| == |b| == |c|
    requires LexCompare(a, b) <= 0 && LexCompare(b, c) <= 0
    ensures LexCompare(a, c) <= 0
    ensures LexCompare(a, b) < 0 || LexCompare(b, c) < 0 ==> LexCompare(a, c) < 0
  {
    if |a| > 0 && a[0] == b[0] == c[0] {
      LexTransitive(a[1..], b[1..], c[1..]);
    }
  }

  /** `compare(a, b) == 0` exactly when the five numbers agree; Id, IsSpecial and Comment
      never matter. */
  lemma CompareZero(a: GameVersion, b: GameVersion)
    ensures Compare(a, b) == 0 <==> SameVersion(a, b)
  {
    LexZero(Key(a), Key(b));
  }

  lemma CompareReflexive(a: GameVersion)
    ensures Compare(a, a) == 0 && Le(a, a) && Ge(a, a) && !Lt(a, a) && !Gt(a, a)
  {
    CompareZero(a, a);
  }

  lemma CompareAntisymmetric(a: GameVersion, b: GameVersion)
    ensures Compare(a, b) == -Compare(b, a)
  {
    LexAntisymmetric(Key(a), Key(b));
  }

  lemma CompareTransitive(a: GameVersion, b: GameVersion, c: GameVersion)
    ensures Le(a, b) && Le(b, c) ==> Le(a, c)
    ensures Lt(a, b) && Le(b, c) ==> Lt(a, c)
    ensures Le(a, b) && Lt(b, c) ==> Lt(a, c)
  {
    if Le(a, b) && Le(b, c) {
      LexTransitive(Key(a), Key(b), Key(c));
    }
  }

  /** The comparator is a total preorder: any two versions are related one way or the other. */
  lemma CompareTotal(a: GameVersion, b: GameVersion)
    ensures Le(a, b) || Le(b, a)
    ensures Lt(a, b) <==> Gt(b, a)
  {
    CompareAntisymmetric(a, b);
  }

  // ---- parsing ----

  /** Why `Parse` threw: a missing field (IndexOutOfRangeException) or a field that is
      not a number (FormatException, rethrown wrapped) or too large (OverflowException). */
  datatype VersionError = MissingField | BadField(cause: NumberError)

  function ParseField(parts: seq<string>, i: nat): (r: Result<u32, VersionError>)
    ensures r.Ok? <==> i < |parts| && ParseUInt(parts[i]).Ok?
    ensures r.Ok? ==> r.value == ParseUInt(parts[i]).value
  {
    if i >= |parts| then Err(MissingField)
    else match ParseUInt(parts[i])
      case Ok(v) => Ok(v)
      case Err(e) => Err(BadField(e))
  }

  /** `Parse(input, comment)`: split on '.', then Year, Month, Day, Part, Revision from
      the first five pieces in that order; IsSpecial is whether a comment was given. */
  function ParseWithComment(input: string, comment: Option<string>): (r: Result<GameVersion, VersionError>)
    ensures var parts := Split(input, '.');
      r.Ok? <==> |parts| >= 5 && forall i | 0 <= i < 5 :: ParseUInt(parts[i]).Ok?
    ensures r.Ok? ==> var parts := Split(input, '.');
      && r.value.year == ParseUInt(parts[0]).value
      && r.value.month == ParseUInt(parts[1]).value
      && r.value.day == ParseUInt(parts[2]).value
      && r.value.part == ParseUInt(parts[3]).value
      && r.value.revision == ParseUInt(parts[4]).value
      && r.value.isSpecial == comment.Some?
      && r.value.comment == comment
      && r.value.id == 0
  {
    var parts := Split(input, '.');
    match ParseField(parts, 0)
    case Err(e) => Err(e)
    case Ok(year) =>
      match ParseField(parts, 1)
      case Err(e) => Err(e)
      case Ok(month) =>
        match ParseField(parts, 2)
        case Err(e) => Err(e)
        case Ok(day) =>
          match ParseField(parts, 3)
          case Err(e) => Err(e)
          case Ok(part) =>
            match ParseField(parts, 4)
            case Err(e) => Err(e)
            case Ok(revision) =>
              Ok(GameVersion(0, year, month, day, part, revision, comment.Some?, comment))
  }

  /** `Parse(input)`: as above with IsSpecial false and no comment. */
  function Parse(input: string): (r: Result<GameVersion, VersionError>)
    ensures r.Ok? ==> !r.value.isSpecial && r.value.comment == None
  {
    ParseWithComment(input, None)
  }

  lemma ParseZeroPadded(n: u32, width: nat)
    ensures ParseUInt(ZeroPadded(n as nat, width)) == Ok(n)
    ensures '.' !in ZeroPadded(n as nat, width)
  {
    ZeroPaddedValue(n as nat, width);
  }

  /** Round trip: parsing the printed form gives back the same five numbers, so the
      result compares equal to the original (Id, IsSpecial and Comment are reset). */
  lemma ParseToString(v: GameVersion)
    ensures Parse(v.ToString()) == Ok(GameVersion(0, v.year, v.month, v.day, v.part, v.revision, false, None))
    ensures Compare(Parse(v.ToString()).value, v) == 0
  {
    ParseZeroPadded(v.year, 4);
    ParseZeroPadded(v.month, 2);
    ParseZeroPadded(v.day, 2);
    ParseZeroPadded(v.part, 4);
    ParseZeroPadded(v.revision, 4);
    SplitJoin(Fields(v), '.');
    CompareZero(Parse(v.ToString()).value, v);
  }
}

=== FILE: index_repository.dfy ===
/** ResLogger2.Plugin/IndexRepository.cs: the category id (the index a game path lives in) worked
    out from the path's first characters, and the lookup of a path's CRC in the loaded index2
    hash sets. */
module IndexRepositories {
  import opened Base
  import opened Strings
  import opened PluginExistsResults

  /** What the classifier can throw: a character index or a substring past the end, or a
      number that does not parse. */
  datatype Fault = IndexOutOfRange | ArgumentOutOfRange | Format | Overflow

  /** `s[i]`. */
  function CharAt(s: string, i: nat): (r: Result<char, Fault>)
    ensures r.Ok? <==> i < |s|
    ensures r.Ok? ==> r.value == s[i]
  {
    if i < |s| then Ok(s[i]) else Err(IndexOutOfRange)
  }

  /** `s.Substring(start, len)`. */
  function Substring(s: string, start: nat, len: nat): (r: Result<string, Fault>)
    ensures r.Ok? <==> start + len <= |s|
    ensures r.Ok? ==> r.value == s[start..start + len]
  {
    if start + len <= |s| then Ok(s[start..start + len]) else Err(ArgumentOutOfRange)
  }

  /** `uint.Parse`. */
  function Parse(s: string): (r: Result<nat, Fault>)
    ensures r.Ok? <==> ParseUInt(s).Ok?
    ensures r.Ok? ==> r.value == ParseUInt(s).value as nat
  {
    match ParseUInt(s)
    case Ok(n) => Ok(n as nat)
    case Err(NotANumber) => Err(Format)
    case Err(TooLarge) => Err(Overflow)
  }

  /** One or two decimal digits are below 100. */
  lemma ShortNumber(s: string)
    requires |s| <= 2 && ParseUInt(s).Ok?
    ensures ParseUInt(s).value < 100
  {
    ShortValue(s);
  }

  /** `GetBgSubCategoryId`: 0 unless the path is `bg/e…`; otherwise the expansion number (the one
      or two characters from index 5 up to a '/' at index 6 or 7) shifted left by 8, plus the two
      digits of the segment that follows. With no '/' at 6 or 7 the "segment" is read at index 3,
      which starts with 'e' and cannot parse. */
  function BgSubCategoryId(p: string): (r: Result<nat, Fault>)
    ensures r.Ok? ==> r.value < 100 * 0x100 + 100
  {
    var c3 :- CharAt(p, 3);
    if c3 != 'e' then Ok(0)
    else
      var c6 :- CharAt(p, 6);
      var (expac, segmentIndex) :-
        if c6 == '/' then
          var d :- Parse(p[5..6]);
          ShortNumber(p[5..6]);
          Ok((d * 0x100, 7))
        else
          var c7 :- CharAt(p, 7);
          if c7 == '/' then
            var d :- Parse(p[5..7]);
            ShortNumber(p[5..7]);
            Ok((d * 0x100, 8))
          else Ok((0, 3));
      var segmentText :- Substring(p, segmentIndex, 2);
      var segment :- Parse(segmentText);
      ShortNumber(segmentText);
      Ok(expac + segment)
  }

  /** `GetNonBgSubCategoryId`: 0 unless an 'e' sits at `firstDirLen`; then the one- or two-digit
      expansion number ending at a '/' shifted left by 8, else 0. */
  function NonBgSubCategoryId(p: string, firstDirLen: nat): (r: Result<nat, Fault>)
    ensures r.Ok? ==> r.value <= 99 * 0x100 && r.value % 0x100 == 0
  {
    var c0 :- CharAt(p, firstDirLen);
    if c0 != 'e' then Ok(0)
    else
      var c3 :- CharAt(p, firstDirLen + 3);
      if c3 == '/' then
        var text := p[firstDirLen + 2..firstDirLen + 3];
        var d :- Parse(text);
        ShortNumber(text);
        Ok(d * 0x100)
      else
        var c4 :- CharAt(p, firstDirLen + 4);
        if c4 == '/' then
          var text := p[firstDirLen + 2..firstDirLen + 4];
          var d :- Parse(text);
          ShortNumber(text);
          Ok(d * 0x100)
        else Ok(0)
  }

  /** `sub | (category << 16)`. */
  function WithCategory(sub: Result<nat, Fault>, category: nat): (r: Result<nat, Fault>)
    requires sub.Ok? ==> sub.value < 0x1_0000
    ensures r.Ok? <==> sub.Ok?
    ensures r.Ok? ==> r.value == category * 0x1_0000 + sub.value
  {
    var s :- sub;
    SubIdInLowBits(s, category);
    Ok(BitOr(s, category * 0x1_0000))
  }

  /** `GetCategoryIdForPath`: the first matching three-character prefix decides. */
  function CategoryIdForPath(p: string): (r: Result<nat, Fault>)
    ensures r.Ok? ==> r.value < 0x13_0000
  {
    if StartsWith(p, "com") then Ok(0x000000)
    else if StartsWith(p, "bgc") then Ok(0x010000)
    else if StartsWith(p, "bg/") then WithCategory(BgSubCategoryId(p), 0x02)
    else if StartsWith(p, "cut") then WithCategory(NonBgSubCategoryId(p, 4), 0x03)
    else if StartsWith(p, "cha") then Ok(0x040000)
    else if StartsWith(p, "sha") then Ok(0x050000)
    else if StartsWith(p, "ui/") then Ok(0x060000)
    else if StartsWith(p, "sou") then Ok(0x070000)
    else if StartsWith(p, "vfx") then Ok(0x080000)
    else if StartsWith(p, "ui_") then Ok(0x090000)
    else if StartsWith(p, "exd") then Ok(0x0A0000)
    else if StartsWith(p, "gam") then Ok(0x0B0000)
    else if StartsWith(p, "mus") then WithCategory(NonBgSubCategoryId(p, 6), 0x0C)
    else if StartsWith(p, "_sq") then Ok(0x110000)
    else if StartsWith(p, "_de") then Ok(0x120000)
    else Ok(0)
  }

  // ---- an independent statement of the prefix table ----

  /** The categories by prefix, in the order they are tried, with whether a sub-id is added. */
  const CategoryTable: seq<(string, nat, bool)> := [
    ("com", 0x00, false), ("bgc", 0x01, false), ("bg/", 0x02, true), ("cut", 0x03, true),
    ("cha", 0x04, false), ("sha", 0x05, false), ("ui/", 0x06, false), ("sou", 0x07, false),
    ("vfx", 0x08, false), ("ui_", 0x09, false), ("exd", 0x0A, false), ("gam", 0x0B, false),
    ("mus", 0x0C, true), ("_sq", 0x11, false), ("_de", 0x12, false)]

  /** The first table row whose prefix the path starts with, if any. */
  function TableRow(p: string, from: nat): (r: Option<nat>)
    requires from <= |CategoryTable|
    ensures r.Some? ==> from <= r.value < |CategoryTable| && StartsWith(p, CategoryTable[r.value].0)
    ensures r.Some? ==> forall j | from <= j < r.value :: !StartsWith(p, CategoryTable[j].0)
    ensures r.None? ==> forall j | from <= j < |CategoryTable| :: !StartsWith(p, CategoryTable[j].0)
    decreases |CategoryTable| - from
  {
    if from == |CategoryTable| then None
    else if StartsWith(p, CategoryTable[from].0) then Some(from)
    else TableRow(p, from + 1)
  }

  /** The category byte the table gives a path: that of the first matching prefix, else 0. */
  function TableCategory(p: string): nat {
    match TableRow(p, 0)
    case Some(i) => CategoryTable[i].1
    case None => 0
  }

  /** Whether the table adds a sub-id to the path's category. */
  predicate TableHasSubId(p: string) {
    match TableRow(p, 0)
    case Some(i) => CategoryTable[i].2
    case None => false
  }

  /** The classifier follows the table: the high bits are the table's category, and the low 16
      bits are zero unless the prefix is one of the three with a sub-id. */
  lemma CategoryFollowsTable(p: string)
    requires CategoryIdForPath(p).Ok?
    ensures CategoryIdForPath(p).value / 0x1_0000 == TableCategory(p)
    ensures !TableHasSubId(p) ==> CategoryIdForPath(p).value % 0x1_0000 == 0
  {
    match TableRow(p, 0)
    case None =>
      assert forall j | 0 <= j < |CategoryTable| :: !StartsWith(p, CategoryTable[j].0);
    case Some(i) =>
      CategoryAtRow(p, i);
  }

  /** The classifier on a path whose first matching table row is `i`. */
  lemma CategoryAtRow(p: string, i: nat)
    requires i < |CategoryTable| && StartsWith(p, CategoryTable[i].0)
    requires forall j | 0 <= j < i :: !StartsWith(p, CategoryTable[j].0)
    requires CategoryIdForPath(p).Ok?
    ensures CategoryIdForPath(p).value / 0x1_0000 == CategoryTable[i].1
    ensures !CategoryTable[i].2 ==> CategoryIdForPath(p).value % 0x1_0000 == 0
  {
    if i == 0 {
      assert StartsWith(p, "com");
    } else if i == 1 {
      assert StartsWith(p, "bgc");
    } else if i == 2 {
      assert StartsWith(p, "bg/");
    } else if i == 3 {
      assert StartsWith(p, "cut");
    } else if i == 4 {
      assert StartsWith(p, "cha");
    } else if i == 5 {
      assert StartsWith(p, "sha");
    } else if i == 6 {
      assert StartsWith(p, "ui/");
    } else if i == 7 {
      assert StartsWith(p, "sou");
    } else if i == 8 {
      assert StartsWith(p, "vfx");
    } else if i == 9 {
      assert StartsWith(p, "ui_");
    } else if i == 10 {
      assert StartsWith(p, "exd");
    } else if i == 11 {
      assert StartsWith(p, "gam");
    } else if i == 12 {
      assert StartsWith(p, "mus");
    } else if i == 13 {
      assert StartsWith(p, "_sq");
    } else {
      assert StartsWith(p, "_de");
    }
  }

  lemma SubIdInLowBits(sub: nat, category: nat)
    requires sub < 0x1_0000
    ensures BitOr(sub, category * 0x1_0000) == category * 0x1_0000 + sub
    ensures (category * 0x1_0000 + sub) / 0x1_0000 == category
    ensures (category * 0x1_0000 + sub) % 0x1_0000 == sub
  {
    assert Pow2(16) == 0x1_0000 by {
      assert Pow2(8) == 0x100;
    }
    BitOrDisjoint(sub, category, 16);
  }

  /** `bg/ex1/01_…` lies in category 0x020101. */
  lemma BgExample(rest: string)
    ensures CategoryIdForPath("bg/ex1/01" + rest) == Ok(0x020101)
  {
    var p := "bg/ex1/01" + rest;
    assert BgSubCategoryId(p) == Ok(0x101) by {
      assert p[3] == 'e' && p[6] == '/' && p[5..6] == "1" && p[7..9] == "01";
      assert DigitsValue("01") == 1 by {
        assert "01"[..1] == "0";
      }
      BgSubId(p, 1);
    }
    assert p[..3] == "bg/";
    SubIdInLowBits(0x101, 0x02);
  }

  /** A `bg/e…` path with no '/' at index 6 or 7 throws: the segment read at index 3 starts with
      'e'. */
  lemma BgWithoutExpansionThrows(p: string)
    requires StartsWith(p, "bg/") && |p| > 7 && p[3] == 'e' && p[6] != '/' && p[7] != '/'
    ensures CategoryIdForPath(p).Err?
  {
    assert !IsDigit(p[3..5][0]);
  }

  /** The sub-id of a `bg/exN/SS` or `bg/exNN/SS` path: the expansion shifted left by 8 plus the
      segment. */
  lemma BgSubId(p: string, n: nat)
    requires n == 1 || n == 2
    requires |p| >= 8 + n && p[3] == 'e' && p[5 + n] == '/'
    requires n == 2 ==> p[6] != '/'
    requires AllDigits(p[5..5 + n]) && AllDigits(p[6 + n..8 + n])
    ensures BgSubCategoryId(p) == Ok(DigitsValue(p[5..5 + n]) * 0x100 + DigitsValue(p[6 + n..8 + n]))
  {
    ShortValue(p[5..5 + n]);
    ShortValue(p[6 + n..8 + n]);
  }

  lemma ShortValue(s: string)
    requires 1 <= |s| <= 2 && AllDigits(s)
    ensures DigitsValue(s) < 100
  {
    var t := s[..|s| - 1];
    assert DigitsValue(s) == DigitsValue(t) * 10 + DigitValue(s[|s| - 1]);
    if |s| == 2 {
      assert t[..0] == [];
      assert DigitsValue(t) == DigitValue(t[0]);
    } else {
      assert t == [];
    }
  }

  // ---- Exists ----

  /** `Exists`: looks the CRC of the lower-cased path up in the set of the path's category.
      `None` is the `default(ExistsResult)` returned when the classifier throws. The loaded hash
      sets, `ToLower` and the CRC are inputs. */
  function Exists(indexes: map<u32, set<u32>>, lower: string -> string, crc: Crc32, gamePath: string)
    : (r: Option<PluginExistsResult>)
    ensures r.None? <==> CategoryIdForPath(lower(gamePath)).Err?
    ensures r.Some? ==> r.value.fullText == gamePath
    ensures r.Some? ==> (r.value.fullExists <==>
      CategoryIdForPath(lower(gamePath)).value as u32 in indexes
      && crc(lower(gamePath)) in indexes[CategoryIdForPath(lower(gamePath)).value as u32])
    ensures r.Some? && r.value.fullExists ==> r.value.indexId as nat == CategoryIdForPath(lower(gamePath)).value
    ensures r.Some? && !r.value.fullExists ==> r.value.indexId as int == U32_MAX
  {
    var lowerPath := lower(gamePath);
    match CategoryIdForPath(lowerPath)
    case Err(_) => None
    case Ok(id) =>
      var fullHash := crc(lowerPath);
      if id as u32 in indexes && fullHash in indexes[id as u32] then
        Some(PluginExistsResult(id as u32, gamePath, true))
      else
        Some(PluginExistsResult(U32_MAX as u32, gamePath, false))
  }
}

=== FILE: index_repository_py.dfy ===
/** ResLogger2.Web/services/web/project/index_repository.py: the web service's port of the
    category classifier and of the index2 lookup. */
module PyIndexRepositories {
  import opened Base
  import opened Strings
  import IndexRepositories

  /** What the Python code can raise: `IndexError` from `path[i]`, `ValueError` from `int`. */
  datatype PyError = IndexError | ValueError

  /** `path[i]` for `i >= 0`. */
  function CharAt(s: string, i: nat): (r: Result<char, PyError>)
    ensures r.Ok? <==> i < |s|
    ensures r.Ok? ==> r.value == s[i]
  {
    if i < |s| then Ok(s[i]) else Err(IndexError)
  }

  /** `s[a:b]` for `0 <= a <= b`: the bounds are clipped to the string, so it never raises. */
  function Slice(s: string, a: nat, b: nat): (r: string)
    requires a <= b
    ensures b <= |s| ==> r == s[a..b]
    ensures |r| <= b - a
  {
    if |s| <= a then "" else if |s| <= b then s[a..] else s[a..b]
  }

  /** `int(s)` on a decimal string. */
  function Int(s: string): (r: Result<nat, PyError>)
    ensures r.Ok? <==> s != "" && AllDigits(s)
    ensures r.Ok? ==> r.value == DigitsValue(s)
  {
    if s != "" && AllDigits(s) then Ok(DigitsValue(s)) else Err(ValueError)
  }

  /** `get_bg_subcategory_id`: the expansion number shifted left by 8, or-ed with the segment. */
  function BgSubCategoryId(path: string): (r: Result<nat, PyError>)
    ensures r.Ok? ==> r.value < 0x1_0000
  {
    var c3 :- CharAt(path, 3);
    if c3 != 'e' then Ok(0)
    else
      var c6 :- CharAt(path, 6);
      var (expacNumber, segmentIndex) :-
        if c6 == '/' then
          var d :- Int(path[5..6]);
          IndexRepositories.ShortValue(path[5..6]);
          Ok((d, 7))
        else
          var c7 :- CharAt(path, 7);
          if c7 == '/' then
            var d :- Int(path[5..7]);
            IndexRepositories.ShortValue(path[5..7]);
            Ok((d, 8))
          else Ok((0, 3));
      var expac := expacNumber * 0x100;
      var segmentText := Slice(path, segmentIndex, segmentIndex + 2);
      var segment :- Int(segmentText);
      IndexRepositories.ShortValue(segmentText);
      SegmentOr(expacNumber, segment);
      Ok(BitOr(segment, expac))
  }

  /** Or-ing a segment below 256 into a multiple of 256 is adding it. */
  lemma SegmentOr(expac: nat, segment: nat)
    requires segment < 0x100
    ensures BitOr(segment, expac * 0x100) == expac * 0x100 + segment
  {
    assert Pow2(8) == 0x100;
    BitOrDisjoint(segment, expac, 8);
  }

  /** `get_non_bg_subcategory_id`. */
  function NonBgSubCategoryId(path: string, firstDirLen: nat): (r: Result<nat, PyError>)
    ensures r.Ok? ==> r.value <= 99 * 0x100 && r.value % 0x100 == 0
  {
    var c0 :- CharAt(path, firstDirLen);
    if c0 != 'e' then Ok(0)
    else
      var c3 :- CharAt(path, firstDirLen + 3);
      if c3 == '/' then
        var d :- Int(path[firstDirLen + 2..firstDirLen + 3]);
        IndexRepositories.ShortValue(path[firstDirLen + 2..firstDirLen + 3]);
        Ok(d * 0x100)
      else
        var c4 :- CharAt(path, firstDirLen + 4);
        if c4 == '/' then
          var d :- Int(path[firstDirLen + 2..firstDirLen + 4]);
          IndexRepositories.ShortValue(path[firstDirLen + 2..firstDirLen + 4]);
          Ok(d * 0x100)
        else Ok(0)
  }

  function WithCategory(sub: Result<nat, PyError>, category: nat): (r: Result<nat, PyError>)
    requires sub.Ok? ==> sub.value < 0x1_0000
    ensures r.Ok? <==> sub.Ok?
    ensures r.Ok? ==> r.value == category * 0x1_0000 + sub.value
  {
    var s :- sub;
    IndexRepositories.SubIdInLowBits(s, category);
    Ok(BitOr(s, category * 0x1_0000))
  }

  /** `get_category_id`: the same prefix chain as the C# classifier. */
  function CategoryId(p: string): (r: Result<nat, PyError>)
    ensures r.Ok? ==> r.value < 0x13_0000
  {
    if StartsWith(p, "com") then Ok(0x000000)
    else if StartsWith(p, "bgc") then Ok(0x010000)
    else if StartsWith(p, "bg/") then WithCategory(BgSubCategoryId(p), 0x2)
    else if StartsWith(p, "cut") then WithCategory(NonBgSubCategoryId(p, 4), 0x3)
    else if StartsWith(p, "cha") then Ok(0x040000)
    else if StartsWith(p, "sha") then Ok(0x050000)
    else if StartsWith(p, "ui/") then Ok(0x060000)
    else if StartsWith(p, "sou") then Ok(0x070000)
    else if StartsWith(p, "vfx") then Ok(0x080000)
    else if StartsWith(p, "ui_") then Ok(0x090000)
    else if StartsWith(p, "exd") then Ok(0x0A0000)
    else if StartsWith(p, "gam") then Ok(0x0B0000)
    else if StartsWith(p, "mus") then WithCategory(NonBgSubCategoryId(p, 6), 0x0C)
    else if StartsWith(p, "_sq") then Ok(0x110000)
    else if StartsWith(p, "_de") then Ok(0x120000)
    else Ok(0)
  }

  // ---- agreement with the C# classifier ----

  lemma BgAgrees(p: string)
    requires IndexRepositories.BgSubCategoryId(p).Ok?
    ensures BgSubCategoryId(p) == Ok(IndexRepositories.BgSubCategoryId(p).value)
  {
    if p[3] == 'e' {
      var i := if p[6] == '/' then 7 else if p[7] == '/' then 8 else 3;
      var d := if p[6] == '/' then DigitsValue(p[5..6]) else if p[7] == '/' then DigitsValue(p[5..7]) else 0;
      assert i + 2 <= |p|;
      var seg := p[i..i + 2];
      assert Slice(p, i, i + 2) == seg;
      assert IndexRepositories.BgSubCategoryId(p) == Ok(d * 0x100 + DigitsValue(seg));
      IndexRepositories.ShortValue(seg);
      SegmentOr(d, DigitsValue(seg));
    }
  }

  lemma NonBgAgrees(p: string, n: nat)
    requires IndexRepositories.NonBgSubCategoryId(p, n).Ok?
    ensures NonBgSubCategoryId(p, n) == Ok(IndexRepositories.NonBgSubCategoryId(p, n).value)
  {
  }

  /** Wherever the C# classifier gives an id, the Python one gives the same id: `|` and `+`
      agree because the segment is below 256. */
  lemma CategoryAgrees(p: string)
    requires IndexRepositories.CategoryIdForPath(p).Ok?
    ensures CategoryId(p) == Ok(IndexRepositories.CategoryIdForPath(p).value)
  {
    if StartsWith(p, "bg/") {
      if IndexRepositories.BgSubCategoryId(p).Ok? {
        BgAgrees(p);
      }
    } else if StartsWith(p, "cut") {
      if IndexRepositories.NonBgSubCategoryId(p, 4).Ok? {
        NonBgAgrees(p, 4);
      }
    } else if StartsWith(p, "mus") {
      if IndexRepositories.NonBgSubCategoryId(p, 6).Ok? {
        NonBgAgrees(p, 6);
      }
    }
  }

  /** The converse fails: a path cut short after a one-digit segment throws in C#, whose
      `Substring` needs two characters, while Python's slice takes the one that is there. */
  lemma ShortSegmentDiffers()
    ensures IndexRepositories.CategoryIdForPath("bg/ex1/5").Err?
    ensures CategoryId("bg/ex1/5") == Ok(0x020105)
  {
    var p := "bg/ex1/5";
    assert p[..3] == "bg/" && p[5..6] == "1";
    assert Slice(p, 7, 9) == "5";
    assert DigitsValue("1") == 1 && DigitsValue("5") == 5;
  }

  // ---- exists ----

  /** The web service's `ExistsResult(index_id, full_text, full_hash, full_exists)`. */
  datatype PyExistsResult = PyExistsResult(indexId: int, fullText: string, fullHash: int, fullExists: bool)

  /** `exists`: the result for a path whose hash is in its category's set, else `None`. The path
      is hashed as given, and the classifier's errors are not caught. The loaded sets and
      `crc32` are inputs. */
  function Exists(indexes: map<int, set<int>>, crc32: string -> int, path: string)
    : (r: Result<Option<PyExistsResult>, PyError>)
    ensures r.Err? <==> CategoryId(path).Err?
    ensures r.Ok? ==> (r.value.Some? <==>
      CategoryId(path).value in indexes && crc32(path) in indexes[CategoryId(path).value])
    ensures r.Ok? && r.value.Some? ==>
      r.value.value == PyExistsResult(CategoryId(path).value, path, crc32(path), true)
  {
    var indexId :- CategoryId(path);
    var fullHash := crc32(path);
    if indexId in indexes && fullHash in indexes[indexId] then
      Ok(Some(PyExistsResult(indexId, path, fullHash, true)))
    else Ok(None)
  }
}

=== FILE: join.dfy ===
/** The join both `CompositeIndexInfo.Process` and `PatchIndexHolder.LoadAllIndexData` run:
    iterate a snapshot of one dictionary; for each key the other dictionary also holds,
    remove the key from both and `Add` the merged value to an output dictionary. What is
    left in the two dictionaries afterwards are the unmatched entries. */
module Joins {
  import opened Base
  import opened Tables

  /** The two dictionaries after the join, and the output dictionary. */
  datatype Joined<K, A, B, C> = Joined(rest1: Table<K, A>, rest2: Table<K, B>, out: Table<K, C>)

  /** The join over the (remaining) snapshot `snap`; fails with the key whose `Add` throws. */
  function Join<K(==), A, B, C>(snap: Table<K, A>, t1: Table<K, A>, t2: Table<K, B>, out: Table<K, C>,
                                merge: (A, B) -> C): Result<Joined<K, A, B, C>, K>
    decreases |snap|
  {
    if snap == [] then Ok(Joined(t1, t2, out))
    else
      var k := snap[0].key;
      if !Has(t2, k) then Join(snap[1..], t1, t2, out, merge)
      else
        match Put(out, k, merge(snap[0].value, Get(t2, k)))
        case Err(k') => Err(k')
        case Ok(out') => Join(snap[1..], Remove(t1, k), Remove(t2, k), out', merge)
  }

  /** The loop: `foreach (var e in t1.ToArray())`, with `TryGetValue` on `t2`. */
  method JoinLoop<K(==), A, B, C>(t1: Table<K, A>, t2: Table<K, B>, out: Table<K, C>, merge: (A, B) -> C)
    returns (r: Result<Joined<K, A, B, C>, K>)
    ensures r == Join(t1, t1, t2, out, merge)
  {
    var snap := t1;
    var a, b, c := t1, t2, out;
    var i := 0;
    while i < |snap|
      invariant 0 <= i <= |snap|
      invariant Join(snap, t1, t2, out, merge) == Join(snap[i..], a, b, c, merge)
    {
      assert snap[i..][1..] == snap[i + 1..];
      var k := snap[i].key;
      if Has(b, k) {
        var v := merge(snap[i].value, Get(b, k));
        a := Remove(a, k);
        b := Remove(b, k);
        if Has(c, k) {
          return Err(k);
        }
        c := c + [Pair(k, v)];
      }
      i := i + 1;
    }
    return Ok(Joined(a, b, c));
  }

  lemma HasCons<K, V>(t: Table<K, V>, k: K)
    requires t != []
    ensures Has(t, k) <==> t[0].key == k || Has(t[1..], k)
  {
    assert t == [t[0]] + t[1..];
    HasAppend([t[0]], t[1..], k);
  }

  lemma UniqueTail<K, V>(t: Table<K, V>)
    requires t != [] && UniqueKeys(t)
    ensures UniqueKeys(t[1..]) && !Has(t[1..], t[0].key)
  {
    var rest := t[1..];
    forall a, b | 0 <= a < b < |rest| ensures rest[a].key != rest[b].key {
      assert rest[a] == t[a + 1] && rest[b] == t[b + 1];
    }
    forall a | 0 <= a < |rest| ensures rest[a].key != t[0].key {
      assert rest[a] == t[a + 1];
    }
  }

  /** The join only appends to the output. */
  lemma {:induction false} JoinGrows<K, A, B, C>(snap: Table<K, A>, t1: Table<K, A>, t2: Table<K, B>,
                                                 out: Table<K, C>, merge: (A, B) -> C)
    requires Join(snap, t1, t2, out, merge).Ok?
    ensures out <= Join(snap, t1, t2, out, merge).value.out
    decreases |snap|
  {
    if snap != [] {
      var k := snap[0].key;
      if !Has(t2, k) {
        JoinGrows(snap[1..], t1, t2, out, merge);
      } else {
        JoinGrows(snap[1..], Remove(t1, k), Remove(t2, k), out + [Pair(k, merge(snap[0].value, Get(t2, k)))], merge);
      }
    }
  }

  /** The output gains exactly the keys the snapshot and the second dictionary share. */
  lemma {:induction false} JoinOutKeys<K, A, B, C>(snap: Table<K, A>, t1: Table<K, A>, t2: Table<K, B>,
                                                   out: Table<K, C>, merge: (A, B) -> C, k: K)
    requires Join(snap, t1, t2, out, merge).Ok?
    ensures Has(Join(snap, t1, t2, out, merge).value.out, k) <==> Has(out, k) || (Has(snap, k) && Has(t2, k))
    decreases |snap|
  {
    if snap != [] {
      var k0 := snap[0].key;
      HasCons(snap, k);
      if !Has(t2, k0) {
        JoinOutKeys(snap[1..], t1, t2, out, merge, k);
      } else {
        var out' := out + [Pair(k0, merge(snap[0].value, Get(t2, k0)))];
        JoinOutKeys(snap[1..], Remove(t1, k0), Remove(t2, k0), out', merge, k);
        HasAppend(out, [Pair(k0, merge(snap[0].value, Get(t2, k0)))], k);
        assert Has([Pair(k0, merge(snap[0].value, Get(t2, k0)))], k) <==> k == k0 by {
          assert [Pair(k0, merge(snap[0].value, Get(t2, k0)))][0].key == k0;
        }
        RemoveHas(t2, k0, k);
      }
    }
  }

  /** A second-dictionary entry is left over exactly when the snapshot lacks its key. */
  lemma {:induction false} JoinRest2<K, A, B, C>(snap: Table<K, A>, t1: Table<K, A>, t2: Table<K, B>,
                                                 out: Table<K, C>, merge: (A, B) -> C, k: K)
    requires Join(snap, t1, t2, out, merge).Ok?
    ensures Has(Join(snap, t1, t2, out, merge).value.rest2, k) <==> Has(t2, k) && !Has(snap, k)
    decreases |snap|
  {
    if snap != [] {
      var k0 := snap[0].key;
      HasCons(snap, k);
      if !Has(t2, k0) {
        JoinRest2(snap[1..], t1, t2, out, merge, k);
      } else {
        JoinRest2(snap[1..], Remove(t1, k0), Remove(t2, k0), out + [Pair(k0, merge(snap[0].value, Get(t2, k0)))], merge, k);
        RemoveHas(t2, k0, k);
      }
    }
  }

  /** A first-dictionary entry is left over exactly when the snapshot and the second
      dictionary do not both hold its key. */
  lemma {:induction false} JoinRest1<K, A, B, C>(snap: Table<K, A>, t1: Table<K, A>, t2: Table<K, B>,
                                                 out: Table<K, C>, merge: (A, B) -> C, k: K)
    requires Join(snap, t1, t2, out, merge).Ok?
    ensures Has(Join(snap, t1, t2, out, merge).value.rest1, k) <==> Has(t1, k) && !(Has(snap, k) && Has(t2, k))
    decreases |snap|
  {
    if snap != [] {
      var k0 := snap[0].key;
      HasCons(snap, k);
      if !Has(t2, k0) {
        JoinRest1(snap[1..], t1, t2, out, merge, k);
      } else {
        JoinRest1(snap[1..], Remove(t1, k0), Remove(t2, k0), out + [Pair(k0, merge(snap[0].value, Get(t2, k0)))], merge, k);
        RemoveHas(t1, k0, k);
        RemoveHas(t2, k0, k);
      }
    }
  }

  /** Left-over first-dictionary entries are original entries, unchanged. */
  lemma {:induction false} JoinKeeps1<K, A, B, C>(snap: Table<K, A>, t1: Table<K, A>, t2: Table<K, B>,
                                                  out: Table<K, C>, merge: (A, B) -> C, j: nat)
    requires Join(snap, t1, t2, out, merge).Ok? && j < |Join(snap, t1, t2, out, merge).value.rest1|
    ensures Join(snap, t1, t2, out, merge).value.rest1[j] in t1
    decreases |snap|
  {
    if snap != [] {
      var k0 := snap[0].key;
      if !Has(t2, k0) {
        JoinKeeps1(snap[1..], t1, t2, out, merge, j);
      } else {
        JoinKeeps1(snap[1..], Remove(t1, k0), Remove(t2, k0), out + [Pair(k0, merge(snap[0].value, Get(t2, k0)))], merge, j);
      }
    }
  }

  /** Left-over second-dictionary entries are original entries, unchanged. */
  lemma {:induction false} JoinKeeps2<K, A, B, C>(snap: Table<K, A>, t1: Table<K, A>, t2: Table<K, B>,
                                                  out: Table<K, C>, merge: (A, B) -> C, j: nat)
    requires Join(snap, t1, t2, out, merge).Ok? && j < |Join(snap, t1, t2, out, merge).value.rest2|
    ensures Join(snap, t1, t2, out, merge).value.rest2[j] in t2
    decreases |snap|
  {
    if snap != [] {
      var k0 := snap[0].key;
      if !Has(t2, k0) {
        JoinKeeps2(snap[1..], t1, t2, out, merge, j);
      } else {
        JoinKeeps2(snap[1..], Remove(t1, k0), Remove(t2, k0), out + [Pair(k0, merge(snap[0].value, Get(t2, k0)))], merge, j);
      }
    }
  }

  /** A snapshot entry whose key the second dictionary holds is merged into the output. */
  lemma {:induction false} JoinMatched<K, A, B, C>(snap: Table<K, A>, t1: Table<K, A>, t2: Table<K, B>,
                                                   out: Table<K, C>, merge: (A, B) -> C, i: nat)
    requires Join(snap, t1, t2, out, merge).Ok? && UniqueKeys(snap)
    requires i < |snap| && Has(t2, snap[i].key)
    ensures Pair(snap[i].key, merge(snap[i].value, Get(t2, snap[i].key))) in Join(snap, t1, t2, out, merge).value.out
    decreases |snap|
  {
    var k0 := snap[0].key;
    var rest := snap[1..];
    UniqueTail(snap);
    if i == 0 {
      var e := merge(snap[0].value, Get(t2, k0));
      assert Put(out, k0, e).Ok?;
      var out' := out + [Pair(k0, e)];
      JoinGrows(rest, Remove(t1, k0), Remove(t2, k0), out', merge);
      assert out'[|out|] == Pair(k0, e);
    } else {
      assert rest[i - 1] == snap[i];
      if !Has(t2, k0) {
        JoinMatched(rest, t1, t2, out, merge, i - 1);
      } else {
        assert snap[i].key != k0 by {
          assert snap[0].key != snap[i].key;
        }
        GetRemove(t2, k0, snap[i].key);
        JoinMatched(rest, Remove(t1, k0), Remove(t2, k0), out + [Pair(k0, merge(snap[0].value, Get(t2, k0)))], merge, i - 1);
      }
    }
  }

  /** With distinct snapshot keys, none of them already output, no `Add` throws, and the
      output keeps distinct keys. */
  lemma {:induction false} JoinNeverThrows<K, A, B, C>(snap: Table<K, A>, t1: Table<K, A>, t2: Table<K, B>,
                                                       out: Table<K, C>, merge: (A, B) -> C)
    requires UniqueKeys(snap) && UniqueKeys(out)
    requires forall i | 0 <= i < |snap| :: !Has(out, snap[i].key)
    ensures Join(snap, t1, t2, out, merge).Ok? && UniqueKeys(Join(snap, t1, t2, out, merge).value.out)
    decreases |snap|
  {
    if snap != [] {
      var k0 := snap[0].key;
      UniqueTail(snap);
      if !Has(t2, k0) {
        assert forall i | 0 <= i < |snap[1..]| :: !Has(out, snap[1..][i].key) by {
          forall i | 0 <= i < |snap[1..]| ensures !Has(out, snap[1..][i].key) {
            assert snap[1..][i] == snap[i + 1];
          }
        }
        JoinNeverThrows(snap[1..], t1, t2, out, merge);
      } else {
        var p := Pair(k0, merge(snap[0].value, Get(t2, k0)));
        var out' := out + [p];
        assert !Has(out, k0) by {
          assert snap[0].key == k0;
        }
        assert UniqueKeys(out') by {
          forall a, b | 0 <= a < b < |out'| ensures out'[a].key != out'[b].key {
            if b == |out| {
              assert out[a].key != k0;
            }
          }
        }
        assert forall i | 0 <= i < |snap[1..]| :: !Has(out', snap[1..][i].key) by {
          forall i | 0 <= i < |snap[1..]| ensures !Has(out', snap[1..][i].key) {
            var k := snap[1..][i].key;
            assert snap[1..][i] == snap[i + 1];
            assert k != k0 by {
              assert snap[0].key != snap[i + 1].key;
            }
            HasAppend(out, [p], k);
            assert !Has([p], k) by {
              assert [p][0].key == k0;
            }
          }
        }
        JoinNeverThrows(snap[1..], Remove(t1, k0), Remove(t2, k0), out', merge);
      }
    }
  }

  /** The left-over dictionaries keep distinct keys. */
  lemma {:induction false} JoinRestUnique<K, A, B, C>(snap: Table<K, A>, t1: Table<K, A>, t2: Table<K, B>,
                                                      out: Table<K, C>, merge: (A, B) -> C)
    requires Join(snap, t1, t2, out, merge).Ok? && UniqueKeys(t1) && UniqueKeys(t2)
    ensures UniqueKeys(Join(snap, t1, t2, out, merge).value.rest1)
    ensures UniqueKeys(Join(snap, t1, t2, out, merge).value.rest2)
    decreases |snap|
  {
    if snap != [] {
      var k0 := snap[0].key;
      if !Has(t2, k0) {
        JoinRestUnique(snap[1..], t1, t2, out, merge);
      } else {
        RemoveUnique(t1, k0);
        RemoveUnique(t2, k0);
        JoinRestUnique(snap[1..], Remove(t1, k0), Remove(t2, k0), out + [Pair(k0, merge(snap[0].value, Get(t2, k0)))], merge);
      }
    }
  }
}

=== FILE: local_hash_database.dfy ===
/** ResLogger2.Plugin/Database/LocalHashDatabase.cs: the plugin's local store of discovered
    paths. Two in-memory maps remember which full hashes and which (folder, file) pairs each
    index already holds, so a path is written to the `Paths` table at most once; on start-up
    the maps are refilled from the table's rows, and an old database file is migrated first.

    The file names its argument type `ExistsResult` and reads `Exists`, `FolderHash`,
    `FileHash` and `FullHash` from it; only ResLogger2.Common's `ExistsResult` has all of these,
    so that is the type used here. Its hashes come from `Utils`, which is not part of this
    model: they are the function parameters `folderFile` and `full`. */
module LocalHashDatabases {
  import opened Base
  import opened ExistsResults

  /** `Version`: the schema version this code writes. */
  const Version: int := 3

  /** A value `SqliteDataReader.GetInt64` can return. */
  newtype i64 = x: int | -0x8000_0000_0000_0000 <= x <= 0x7FFF_FFFF_FFFF_FFFF

  // ---- the two dedup maps ----

  /** `_hashesByFullPath` (index -> full hashes) and `_hashesByFolderPath`
      (index -> folder hash -> file hashes). */
  datatype HashCache = HashCache(byFull: map<u32, set<u32>>, byFolder: map<u32, map<u32, set<u32>>>)
  {
    predicate HasFull(index: u32, full: u32) {
      index in byFull && full in byFull[index]
    }

    predicate HasFile(index: u32, folder: u32, file: u32) {
      index in byFolder && folder in byFolder[index] && file in byFolder[index][folder]
    }
  }

  const EmptyCache := HashCache(map[], map[])

  /** `AddToCache(indexId, folderHash, fileHash, fullHash)`: the answer and the maps after. */
  function CacheAdd(c: HashCache, index: u32, folder: u32, file: u32, full: u32): (r: (bool, HashCache))
    ensures r.0 <==> !c.HasFull(index, full) && !c.HasFile(index, folder, file)
    ensures c.HasFull(index, full) ==> r.1 == c
  {
    if c.HasFull(index, full) then (false, c)
    else
      var fulls := if index in c.byFull then c.byFull[index] else {};
      var c1 := c.(byFull := c.byFull[index := fulls + {full}]);
      var inner := if index in c.byFolder then c.byFolder[index] else map[];
      if folder in inner && file in inner[folder] then (false, c1)
      else
        var files := if folder in inner then inner[folder] else {};
        (true, c1.(byFolder := c1.byFolder[index := inner[folder := files + {file}]]))
  }

  /** After the call the full hash is cached, and so is the (folder, file) pair unless the
      call stopped at a full hash already present; nothing else is added and nothing is lost. */
  lemma CacheAddFull(c: HashCache, index: u32, folder: u32, file: u32, full: u32, i: u32, h: u32)
    ensures CacheAdd(c, index, folder, file, full).1.HasFull(i, h) <==> c.HasFull(i, h) || (i == index && h == full)
  {
  }

  lemma CacheAddFile(c: HashCache, index: u32, folder: u32, file: u32, full: u32, i: u32, d: u32, f: u32)
    ensures CacheAdd(c, index, folder, file, full).1.HasFile(i, d, f) <==>
      c.HasFile(i, d, f) || (!c.HasFull(index, full) && i == index && d == folder && f == file)
  {
  }

  /** Adding the same hashes again reports false and changes nothing. */
  lemma CacheAddTwice(c: HashCache, index: u32, folder: u32, file: u32, full: u32)
    ensures var c1 := CacheAdd(c, index, folder, file, full).1;
      CacheAdd(c1, index, folder, file, full) == (false, c1)
  {
    CacheAddFull(c, index, folder, file, full, index, full);
  }

  // ---- the rows `Initialize` reads ----

  /** One row of `SELECT IndexId, FolderHash, FileHash, FullHash FROM Paths`; `None` is NULL. */
  datatype DbRow = DbRow(index: Option<i64>, folder: Option<i64>, file: Option<i64>, full: Option<i64>)

  datatype Key = Key(index: u32, folder: u32, file: u32, full: u32)

  /** `(uint)` of a 64-bit value: the low 32 bits. */
  function Truncate(v: i64): (r: u32)
    ensures 0 <= v as int <= 0xFFFF_FFFF ==> r as int == v as int
    ensures (r as int - v as int) % 0x1_0000_0000 == 0
  {
    (v as int % 0x1_0000_0000) as u32
  }

  predicate InU32(v: i64) {
    0 <= v as int <= 0xFFFF_FFFF
  }

  /** The filter of `Initialize`'s reader loop: rows with a NULL column or a hash outside
      0..uint.MaxValue are skipped; the index id is truncated without a check. */
  function RowKey(row: DbRow): (r: Option<Key>)
    ensures r.None? <==> (row.index.None? || row.folder.None? || row.file.None? || row.full.None?
      || !InU32(row.folder.value) || !InU32(row.file.value) || !InU32(row.full.value))
    ensures r.Some? ==> (r.value.folder as int == row.folder.value as int
      && r.value.file as int == row.file.value as int
      && r.value.full as int == row.full.value as int
      && (r.value.index as int - row.index.value as int) % 0x1_0000_0000 == 0)
  {
    if row.index.None? || row.folder.None? || row.file.None? || row.full.None? then None
    else if !InU32(row.folder.value) then None
    else if !InU32(row.file.value) then None
    else if !InU32(row.full.value) then None
    else Some(Key(Truncate(row.index.value), row.folder.value as u32, row.file.value as u32, row.full.value as u32))
  }

  /** One pass of the reader loop. */
  function LoadRow(c: HashCache, row: DbRow): HashCache {
    match RowKey(row)
    case None => c
    case Some(k) => CacheAdd(c, k.index, k.folder, k.file, k.full).1
  }

  /** The maps after reading `rows` in order. */
  function LoadRows(c: HashCache, rows: seq<DbRow>): HashCache {
    if rows == [] then c else LoadRow(LoadRows(c, rows[..|rows| - 1]), rows[|rows| - 1])
  }

  /** After loading, a full hash is cached exactly when it was before or some accepted row
      carries it. */
  lemma {:induction false} LoadRowsFull(c: HashCache, rows: seq<DbRow>, i: u32, h: u32)
    ensures LoadRows(c, rows).HasFull(i, h) <==>
      c.HasFull(i, h) || exists k | 0 <= k < |rows| :: RowKey(rows[k]) .Some? && RowKey(rows[k]).value.index == i && RowKey(rows[k]).value.full == h
  {
    if rows != [] {
      var init, last := rows[..|rows| - 1], rows[|rows| - 1];
      LoadRowsFull(c, init, i, h);
      var before := LoadRows(c, init);
      match RowKey(last)
      case None =>
      case Some(key) => CacheAddFull(before, key.index, key.folder, key.file, key.full, i, h);
      if exists k | 0 <= k < |rows| :: RowKey(rows[k]).Some? && RowKey(rows[k]).value.index == i && RowKey(rows[k]).value.full == h {
        var k :| 0 <= k < |rows| && RowKey(rows[k]).Some? && RowKey(rows[k]).value.index == i && RowKey(rows[k]).value.full == h;
        if k < |rows| - 1 {
          assert rows[k] == init[k];
        }
      }
      if exists k | 0 <= k < |init| :: RowKey(init[k]).Some? && RowKey(init[k]).value.index == i && RowKey(init[k]).value.full == h {
        var k :| 0 <= k < |init| && RowKey(init[k]).Some? && RowKey(init[k]).value.index == i && RowKey(init[k]).value.full == h;
        assert rows[k] == init[k];
      }
    }
  }

  // ---- the stored `Paths` rows ----

  /** A row `AddFullPath` inserts: `INSERT INTO Paths VALUES(..., @Path, 0)`. */
  datatype PathRow = PathRow(indexId: u32, folderHash: u32, fileHash: u32, fullHash: u32, path: string, uploaded: bool)

  /** `Utils.CalcHashes(path)`: (folder hash, file hash); `Utils.CalcFullHash(path)`. */
  type FolderFileHashes = string -> (u32, u32)
  type FullHashes = string -> u32

  function RowFor(r: ExistsResult, folderFile: FolderFileHashes, full: FullHashes): PathRow {
    PathRow(r.indexId, folderFile(r.fullText).0, folderFile(r.fullText).1, full(r.fullText), r.fullText, false)
  }

  class LocalHashDatabase {
    var byFull: map<u32, set<u32>>
    var byFolder: map<u32, map<u32, set<u32>>>
    /** The rows this instance has inserted into `Paths`. */
    var rows: seq<PathRow>

    function Cache(): HashCache
      reads this
    {
      HashCache(byFull, byFolder)
    }

    /** Every inserted row's full hash is cached, and no two inserted rows share an index id
        and full hash. */
    ghost predicate Valid()
      reads this
    {
      (forall k | 0 <= k < |rows| :: Cache().HasFull(rows[k].indexId, rows[k].fullHash))
      && forall j, k | 0 <= j < k < |rows| ::
        rows[j].indexId != rows[k].indexId || rows[j].fullHash != rows[k].fullHash
    }

    constructor ()
      ensures Cache() == EmptyCache && rows == [] && Valid()
    {
      byFull := map[];
      byFolder := map[];
      rows := [];
    }

    /** `AddToCache(indexId, folderHash, fileHash, fullHash)`. */
    method AddToCache(index: u32, folder: u32, file: u32, full: u32) returns (added: bool)
      modifies this
      ensures (added, Cache()) == CacheAdd(old(Cache()), index, folder, file, full)
      ensures rows == old(rows)
    {
      ghost var c := Cache();
      ghost var fulls := if index in c.byFull then c.byFull[index] else {};
      if index !in byFull {
        byFull := byFull[index := {full}];
        assert fulls + {full} == {full};
      } else {
        if full in byFull[index] {
          return false;
        }
        byFull := byFull[index := byFull[index] + {full}];
      }
      assert byFull == c.byFull[index := fulls + {full}];
      ghost var inner := if index in c.byFolder then c.byFolder[index] else map[];
      if index !in byFolder {
        byFolder := byFolder[index := map[]];
      }
      assert byFolder[index] == inner;
      if folder !in byFolder[index] {
        byFolder := byFolder[index := byFolder[index][folder := {file}]];
        assert {} + {file} == {file};
      } else {
        if file in byFolder[index][folder] {
          assert byFolder == c.byFolder;
          return false;
        }
        byFolder := byFolder[index := byFolder[index][folder := byFolder[index][folder] + {file}]];
      }
      assert byFolder == c.byFolder[index := inner[folder := (if folder in inner then inner[folder] else {}) + {file}]];
      added := true;
    }

    /** `AddFullPath(existsResult)`: a row is inserted only for a path that exists and that
        `AddToCache` reports as new. */
    method AddFullPath(r: ExistsResult, folderFile: FolderFileHashes, full: FullHashes)
      requires Valid()
      modifies this
      ensures Valid()
      ensures !r.Exists() ==> Cache() == old(Cache()) && rows == old(rows)
      ensures r.Exists() ==>
        var (added, c) := CacheAdd(old(Cache()), r.indexId, folderFile(r.fullText).0, folderFile(r.fullText).1, full(r.fullText));
        Cache() == c && rows == old(rows) + (if added then [RowFor(r, folderFile, full)] else [])
    {
      if !r.Exists() {
        return;
      }
      var row := RowFor(r, folderFile, full);
      var added := AddToCache(r.indexId, row.folderHash, row.fileHash, row.fullHash);
      forall k | 0 <= k < |old(rows)| ensures Cache().HasFull(rows[k].indexId, rows[k].fullHash) {
        CacheAddFull(old(Cache()), row.indexId, row.folderHash, row.fileHash, row.fullHash, rows[k].indexId, rows[k].fullHash);
      }
      if !added {
        return;
      }
      CacheAddFull(old(Cache()), row.indexId, row.folderHash, row.fileHash, row.fullHash, row.indexId, row.fullHash);
      rows := rows + [row];
    }

    /** `Initialize`'s reader loop over the stored rows. */
    method Initialize(table: seq<DbRow>)
      requires Valid()
      modifies this
      ensures Cache() == LoadRows(old(Cache()), table)
      ensures rows == old(rows)
      ensures Valid()
    {
      for n := 0 to |table|
        invariant Cache() == LoadRows(old(Cache()), table[..n])
        invariant rows == old(rows)
      {
        assert table[..n + 1][..n] == table[..n];
        var key := RowKey(table[n]);
        if key.Some? {
          var _ := AddToCache(key.value.index, key.value.folder, key.value.file, key.value.full);
        }
      }
      assert table[..|table|] == table;
      forall k | 0 <= k < |rows| ensures Cache().HasFull(rows[k].indexId, rows[k].fullHash) {
        LoadRowsFull(old(Cache()), table, rows[k].indexId, rows[k].fullHash);
      }
    }
  }

  // ---- `CreateOrDoMigrations` ----

  /** What `CreateOrDoMigrations` does to the database file. */
  datatype Action = CreateTables | DeleteFile | MigrateTo3
  datatype MigrationError = UnknownVersion(version: i64)

  /** A missing file is created; stored version 3 is left alone; version 1 is deleted and, the
      file now missing, created again; version 2 is migrated; anything else throws. */
  function Migrations(fileExists: bool, version: i64): (r: Result<seq<Action>, MigrationError>)
    ensures r.Err? <==> fileExists && version as int !in {1, 2, Version}
    ensures r.Ok? && fileExists && version as int == Version ==> r.value == []
    decreases fileExists
  {
    if !fileExists then Ok([CreateTables])
    else if version as int == Version then Ok([])
    else if version == 1 then
      Ok([DeleteFile] + Migrations(false, version).value)
    else if version == 2 then Ok([MigrateTo3])
    else Err(UnknownVersion(version))
  }

  /** The version the file records after the actions: creating writes `Version`, migrating
      writes "3", deleting leaves no version. */
  function VersionAfter(actions: seq<Action>, version: Option<int>): Option<int> {
    if actions == [] then version
    else
      var v := match actions[0]
        case CreateTables => Some(Version)
        case DeleteFile => None
        case MigrateTo3 => Some(3);
      VersionAfter(actions[1..], v)
  }

  /** Whatever the stored state, a dispatch that does not throw leaves a file at the current
      version. */
  lemma MigrationsReachCurrent(fileExists: bool, version: i64)
    requires Migrations(fileExists, version).Ok?
    ensures VersionAfter(Migrations(fileExists, version).value, if fileExists then Some(version as int) else None) == Some(Version)
  {
    var acts := Migrations(fileExists, version).value;
    if fileExists && version == 1 {
      assert acts == [DeleteFile, CreateTables];
      assert acts[1..] == [CreateTables];
    }
  }
}

=== FILE: patch_downloads.dfy ===
/** ResLogger2.Web/Jobs/UpdateJob.cs, lines 150-170: the holders built from the downloaded patch
    files, one `FromPatch` per file, the repository being the name of the file's directory. */
module PatchDownloads {
  import opened Base
  import opened Strings
  import opened PatchIndexHolders
  import CompositeIndex

  // ---- building the holders (lines 150-170) ----

  /** `Path.GetFileName(Path.GetDirectoryName(file))`: the name of the directory holding `file`,
      which is the repository the file was downloaded for. */
  function ParentName(file: string): (r: string)
    ensures '/' !in r
    ensures LastIndexOf(file, '/') >= 0 ==> EndsWith(file[..LastIndexOf(file, '/')], r)
    ensures LastIndexOf(file, '/') < 0 ==> r == ""
  {
    var i := LastIndexOf(file, '/');
    if i < 0 then "" else FileName(file[..i])
  }

  /** The holders the loop collects from the downloaded `files`, listed in the order the
      directory enumerates them: one `FromPatch` each, until the first that throws, after which
      the catch keeps what was collected so far. `extract` gives the file list `ExtractPatch`
      leaves for a patch file. */
  function HoldersFrom(files: seq<string>, extract: string -> seq<string>,
                       read: string -> CompositeIndex.IndexFile, hs: CompositeIndex.Hashing): (r: seq<Holder>)
    ensures |r| <= |files|
    decreases |files|
  {
    if files == [] then []
    else
      match HolderOf(files[0], extract, read, hs)
      case Err(_) => []
      case Ok(h) => [h] + HoldersFrom(files[1..], extract, read, hs)
  }

  /** `FromPatch` of one downloaded file, with its directory's name as the repository. */
  function HolderOf(file: string, extract: string -> seq<string>,
                    read: string -> CompositeIndex.IndexFile, hs: CompositeIndex.Hashing): Result<Holder, HolderError> {
    FromPatchSpec(file, ParentName(file), extract(file), read, hs)
  }

  /** Every collected holder is the one its file gives: the `k`-th holder is `FromPatch` of
      the `k`-th file. */
  lemma {:induction false} HoldersFromCollects(files: seq<string>, k: nat, extract: string -> seq<string>,
                                               read: string -> CompositeIndex.IndexFile, hs: CompositeIndex.Hashing)
    requires k < |HoldersFrom(files, extract, read, hs)|
    ensures HolderOf(files[k], extract, read, hs) == Ok(HoldersFrom(files, extract, read, hs)[k])
    decreases k
  {
    var first := HolderOf(files[0], extract, read, hs);
    var rest := HoldersFrom(files[1..], extract, read, hs);
    assert first.Ok? && HoldersFrom(files, extract, read, hs) == [first.value] + rest;
    if k > 0 {
      HoldersFromCollects(files[1..], k - 1, extract, read, hs);
      assert files[1..][k - 1] == files[k];
    }
  }

  /** Collection stops exactly at the first file that throws. */
  lemma {:induction false} HoldersFromStops(files: seq<string>, extract: string -> seq<string>,
                                            read: string -> CompositeIndex.IndexFile, hs: CompositeIndex.Hashing)
    ensures var r := HoldersFrom(files, extract, read, hs);
      |r| < |files| ==> HolderOf(files[|r|], extract, read, hs).Err?
    decreases |files|
  {
    var r := HoldersFrom(files, extract, read, hs);
    if r != [] {
      var rest := HoldersFrom(files[1..], extract, read, hs);
      HoldersFromStops(files[1..], extract, read, hs);
      assert |r| == 1 + |rest|;
      if |r| < |files| {
        assert files[|r|] == files[1..][|rest|];
      }
    }
  }

  /** The `foreach` over the downloaded files, with its catch: a throwing `FromPatch` ends the
      loop and leaves the holders built before it. */
  method BuildHolders(files: seq<string>, extract: string -> seq<string>,
                      read: string -> CompositeIndex.IndexFile, hs: CompositeIndex.Hashing)
    returns (holders: seq<Holder>)
    ensures holders == HoldersFrom(files, extract, read, hs)
  {
    holders := [];
    var i := 0;
    while i < |files|
      invariant 0 <= i <= |files|
      invariant holders + HoldersFrom(files[i..], extract, read, hs) == HoldersFrom(files, extract, read, hs)
    {
      assert files[i..][0] == files[i] && files[i..][1..] == files[i + 1..];
      var repo := ParentName(files[i]);
      var holder := FromPatch(files[i], repo, extract(files[i]), read, hs);
      assert holder == HolderOf(files[i], extract, read, hs);
      if holder.Err? {
        assert holders + [] == holders;
        return;
      }
      holders := holders + [holder.value];
      i := i + 1;
    }
    assert files[i..] == [];
    assert holders + [] == holders;
  }
}

=== FILE: patch_index_holder.dfy ===
/** ResLogger2.Common/PatchIndexHolder.cs: the index files of one game version, paired by
    file stem into segments, with the version they belong to and the repository name.

    The file system is a parameter: a directory is the list of file paths `GetFiles` returns
    (in that order), `read` is `IndexFile.Read`, and patch extraction is the list of files it
    leaves behind. */
module PatchIndexHolders {
  import opened Base
  import opened Strings
  import Joins
  import opened GameVersions
  import opened Tables
  import opened CompositeIndex

  // ---- file names ----

  /** `Path.GetFileName`: what follows the last '/'. */
  function FileName(path: string): (r: string)
    ensures '/' !in r
    ensures EndsWith(path, r)
  {
    var i := LastIndexOf(path, '/');
    path[i + 1..]
  }

  /** `Path.GetFileNameWithoutExtension`: the file name up to its last '.'. */
  function Stem(path: string): (r: string)
    ensures '/' !in r
  {
    var name := FileName(path);
    var dot := LastIndexOf(name, '.');
    if dot < 0 then name else name[..dot]
  }

  /** The stem of "dir/stem.ext" is "stem" whenever the extension holds no '.'. */
  lemma StemOfPath(dir: string, stem: string, ext: string)
    requires '/' !in stem && '/' !in ext && '.' !in ext
    ensures Stem(dir + "/" + stem + "." + ext) == stem
  {
    var name := stem + "." + ext;
    assert dir + "/" + stem + "." + ext == dir + "/" + name;
    FileNameOf(dir, name);
    assert '.' !in ext;
    LastIndexOfIs(name, '.', |stem|);
    assert name[..|stem|] == stem;
  }

  lemma FileNameOf(dir: string, name: string)
    requires '/' !in name
    ensures FileName(dir + "/" + name) == name
  {
    var path := dir + "/" + name;
    forall j | |dir| < j < |path| ensures path[j] != '/' {
      assert path[j] == name[j - |dir| - 1];
    }
    LastIndexOfIs(path, '/', |dir|);
    assert path[|dir| + 1..] == name;
  }

  // ---- pairing ----

  /** The two index files of one stem, either of them possibly missing. */
  datatype Segment = Segment(index1: Option<IndexFile>, index2: Option<IndexFile>)

  /** What the first loop adds for a stem both dictionaries hold. */
  function Both(index1: IndexFile, index2: IndexFile): Segment {
    Segment(Some(index1), Some(index2))
  }

  /** The second loop: every left-over `.index` file alone. */
  function Only1(rest: Table<string, IndexFile>): (r: Table<string, Segment>)
    ensures |r| == |rest|
    ensures forall j | 0 <= j < |rest| :: r[j] == Pair(rest[j].key, Segment(Some(rest[j].value), None))
  {
    seq(|rest|, j requires 0 <= j < |rest| => Pair(rest[j].key, Segment(Some(rest[j].value), None)))
  }

  /** The third loop: every left-over `.index2` file alone. */
  function Only2(rest: Table<string, IndexFile>): (r: Table<string, Segment>)
    ensures |r| == |rest|
    ensures forall j | 0 <= j < |rest| :: r[j] == Pair(rest[j].key, Segment(None, Some(rest[j].value)))
  {
    seq(|rest|, j requires 0 <= j < |rest| => Pair(rest[j].key, Segment(None, Some(rest[j].value))))
  }

  /** Lines 82-100 on the two stem dictionaries: the stems both hold (in `.index` order), then
      the `.index`-only stems, then the `.index2`-only stems. Each entry is keyed by its stem,
      which the list itself does not keep. */
  function Pairing(index1s: Table<string, IndexFile>, index2s: Table<string, IndexFile>): Table<string, Segment>
    requires UniqueKeys(index1s)
  {
    Joins.JoinNeverThrows(index1s, index1s, index2s, [], Both);
    var js := Joins.Join(index1s, index1s, index2s, [], Both).value;
    js.out + Only1(js.rest1) + Only2(js.rest2)
  }

  /** `GetFiles(directory, "*" + ext)` mapped to (stem, file). */
  function Keyed(paths: seq<string>, ext: string, read: string -> IndexFile): Table<string, IndexFile>
    decreases |paths|
  {
    if paths == [] then []
    else (if EndsWith(paths[0], ext) then [Pair(Stem(paths[0]), read(paths[0]))] else [])
         + Keyed(paths[1..], ext, read)
  }

  /** What `LoadAllIndexData` and the holders pass on for one segment: its `IndexId` and
      its three dictionaries. */
  datatype SegmentData = SegmentData(indexId: u32, entries: Composite)

  /** Why building a holder throws. */
  datatype HolderError =
    | DuplicateStem(stem: string)        // ToDictionary met two files with one stem
    | BadSegment(error: CompositeError)  // the CompositeIndexInfo constructor threw
    | BadVersion(cause: VersionError)    // GameVersion.Parse threw
    | OutOfRange                         // a substring or a line index out of range

  /** One segment's `new CompositeIndexInfo(index1, index2)`, as its IndexId and
      dictionaries. */
  function SegmentOf(s: Segment, hs: Hashing): Result<SegmentData, CompositeError> {
    match ProcessSpec(s.index1, s.index2, hs)
    case Err(e) => Err(e)
    case Ok(c) =>
      var id := if s.index1.Some? then s.index1.value.indexId
                else if s.index2.Some? then s.index2.value.indexId else 0;
      Ok(SegmentData(id, c))
  }

  /** Build each segment's CompositeIndexInfo in order; the first throw ends the list. */
  function ProcessAll(segments: Table<string, Segment>, hs: Hashing): Result<seq<SegmentData>, HolderError>
    decreases |segments|
  {
    if segments == [] then Ok([])
    else
      match SegmentOf(segments[0].value, hs)
      case Err(e) => Err(BadSegment(e))
      case Ok(d) => Prepend([d], ProcessAll(segments[1..], hs))
  }

  /** `LoadAllIndexData(directory)`. */
  function LoadAllSpec(paths: seq<string>, read: string -> IndexFile, hs: Hashing): Result<seq<SegmentData>, HolderError> {
    match PutAll([], Keyed(paths, ".index", read))
    case Err(k) => Err(DuplicateStem(k))
    case Ok(index1s) =>
      match PutAll([], Keyed(paths, ".index2", read))
      case Err(k) => Err(DuplicateStem(k))
      case Ok(index2s) =>
        PutAllFresh(Keyed(paths, ".index", read));
        ProcessAll(Pairing(index1s, index2s), hs)
  }

  /** `PatchIndexHolder`. */
  datatype Holder = Holder(gameVersion: GameVersion, indexes: seq<SegmentData>, repo: string)

  /** The private constructor (lines 17-22): parse the version, then load the directory. */
  function NewHolder(gameVersion: string, paths: seq<string>, repo: string, comment: Option<string>,
                     read: string -> IndexFile, hs: Hashing): Result<Holder, HolderError> {
    match ParseWithComment(gameVersion, comment)
    case Err(e) => Err(BadVersion(e))
    case Ok(gv) =>
      match LoadAllSpec(paths, read, hs)
      case Err(e) => Err(e)
      case Ok(indexes) => Ok(Holder(gv, indexes, repo))
  }

  /** `FromDirectory` (lines 24-37); `info` is the content of info.txt when it exists. Line 34
      assigns the comment to null or to itself, so the comment is always null. */
  function FromDirectorySpec(gameVersion: string, paths: seq<string>, repo: string, info: Option<seq<string>>,
                             read: string -> IndexFile, hs: Hashing): Result<Holder, HolderError> {
    if info.None? then NewHolder(gameVersion, paths, repo, None, read, hs)
    else if |info.value| < 2 then Err(OutOfRange)
    else NewHolder(gameVersion, paths, info.value[0], None, read, hs)
  }

  /** `FromDirectory` with line 34 reading the comment from info.txt's second line, as the
      "N/A" test there evidently intends: a comment other than "N/A" makes a special version. */
  function FromDirectoryCorrected(gameVersion: string, paths: seq<string>, repo: string, info: Option<seq<string>>,
                                  read: string -> IndexFile, hs: Hashing): (r: Result<Holder, HolderError>)
    ensures r.Ok? && info.Some? ==> |info.value| >= 2
    ensures r.Ok? ==> r.value.repo == (if info.Some? then info.value[0] else repo)
    ensures r.Ok? ==>
      r.value.gameVersion.comment == (if info.Some? && info.value[1] != "N/A" then Some(info.value[1]) else None)
    ensures r.Ok? ==> (r.value.gameVersion.isSpecial <==> info.Some? && info.value[1] != "N/A")
  {
    if info.None? then NewHolder(gameVersion, paths, repo, None, read, hs)
    else if |info.value| < 2 then Err(OutOfRange)
    else
      var comment := if info.value[1] == "N/A" then None else Some(info.value[1]);
      NewHolder(gameVersion, paths, info.value[0], comment, read, hs)
  }

  /** `FromPatch` (lines 39-50); `extracted` is the file list `ExtractPatch` leaves. */
  function FromPatchSpec(patchFilePath: string, repo: string, extracted: seq<string>,
                         read: string -> IndexFile, hs: Hashing): Result<Holder, HolderError> {
    var name := Stem(patchFilePath);
    if |name| < 1 then Err(OutOfRange)
    else if StartsWith(name, "H") then
      match Parse(name[1..])
      case Err(e) => Err(BadVersion(e))
      case Ok(gv) => Ok(Holder(gv, [], repo))
    else NewHolder(name[1..], extracted, repo, None, read, hs)
  }

  // ---- the loops ----

  /** `Directory.GetFiles(directory, "*" + ext).ToDictionary(GetFileNameWithoutExtension, IndexFile.Read)`. */
  method ToDictionary(paths: seq<string>, ext: string, read: string -> IndexFile)
    returns (r: Result<Table<string, IndexFile>, string>)
    ensures r == PutAll([], Keyed(paths, ext, read))
  {
    var t: Table<string, IndexFile> := [];
    var i := 0;
    while i < |paths|
      invariant 0 <= i <= |paths|
      invariant PutAll([], Keyed(paths, ext, read)) == PutAll(t, Keyed(paths[i..], ext, read))
    {
      assert paths[i..][1..] == paths[i + 1..];
      var p := paths[i];
      ghost var rest := Keyed(paths[i + 1..], ext, read);
      if EndsWith(p, ext) {
        assert Keyed(paths[i..], ext, read) == [Pair(Stem(p), read(p))] + rest;
        assert ([Pair(Stem(p), read(p))] + rest)[1..] == rest;
        if Has(t, Stem(p)) {
          return Err(Stem(p));
        }
        t := t + [Pair(Stem(p), read(p))];
      } else {
        assert Keyed(paths[i..], ext, read) == rest;
      }
      i := i + 1;
    }
    return Ok(t);
  }

  /** `LoadAllIndexData` (lines 75-103): pair the stems, then construct the segments in
      list order. */
  method LoadAllIndexData(paths: seq<string>, read: string -> IndexFile, hs: Hashing)
    returns (r: Result<seq<SegmentData>, HolderError>)
    ensures r == LoadAllSpec(paths, read, hs)
  {
    var d1 := ToDictionary(paths, ".index", read);
    if d1.Err? {
      return Err(DuplicateStem(d1.error));
    }
    var d2 := ToDictionary(paths, ".index2", read);
    if d2.Err? {
      return Err(DuplicateStem(d2.error));
    }
    var index1s, index2s := d1.value, d2.value;
    PutAllFresh(Keyed(paths, ".index", read));
    Joins.JoinNeverThrows(index1s, index1s, index2s, [], Both);
    var js := Joins.JoinLoop(index1s, index2s, [], Both);
    var combined := AddAlone1(js.value.out, js.value.rest1);
    combined := AddAlone2(combined, js.value.rest2);
    r := ConstructAll(combined, hs);
  }

  /** Lines 92-95. */
  method AddAlone1(combined: Table<string, Segment>, rest1: Table<string, IndexFile>)
    returns (r: Table<string, Segment>)
    ensures r == combined + Only1(rest1)
  {
    r := combined;
    var i := 0;
    while i < |rest1|
      invariant 0 <= i <= |rest1|
      invariant r == combined + Only1(rest1)[..i]
    {
      r := r + [Pair(rest1[i].key, Segment(Some(rest1[i].value), None))];
      i := i + 1;
      assert Only1(rest1)[..i] == Only1(rest1)[..i - 1] + [Only1(rest1)[i - 1]];
    }
    assert Only1(rest1)[..i] == Only1(rest1);
  }

  /** Lines 97-100. */
  method AddAlone2(combined: Table<string, Segment>, rest2: Table<string, IndexFile>)
    returns (r: Table<string, Segment>)
    ensures r == combined + Only2(rest2)
  {
    r := combined;
    var i := 0;
    while i < |rest2|
      invariant 0 <= i <= |rest2|
      invariant r == combined + Only2(rest2)[..i]
    {
      r := r + [Pair(rest2[i].key, Segment(None, Some(rest2[i].value)))];
      i := i + 1;
      assert Only2(rest2)[..i] == Only2(rest2)[..i - 1] + [Only2(rest2)[i - 1]];
    }
    assert Only2(rest2)[..i] == Only2(rest2);
  }

  /** The `new CompositeIndexInfo(index1, index2)` of each segment, in list order. */
  method ConstructAll(segments: Table<string, Segment>, hs: Hashing) returns (r: Result<seq<SegmentData>, HolderError>)
    ensures r == ProcessAll(segments, hs)
  {
    var out: seq<SegmentData> := [];
    var i := 0;
    assert ProcessAll(segments, hs) == Prepend(out, ProcessAll(segments[i..], hs)) by {
      assert segments[0..] == segments;
      if ProcessAll(segments, hs).Ok? {
        assert [] + ProcessAll(segments, hs).value == ProcessAll(segments, hs).value;
      }
    }
    while i < |segments|
      invariant 0 <= i <= |segments|
      invariant ProcessAll(segments, hs) == Prepend(out, ProcessAll(segments[i..], hs))
    {
      assert segments[i..][1..] == segments[i + 1..];
      var d := Construct1(segments[i].value, hs);
      if d.Err? {
        return Err(BadSegment(d.error));
      }
      PrependAssoc(out, d.value, ProcessAll(segments[i + 1..], hs));
      out := out + [d.value];
      i := i + 1;
    }
    assert segments[i..] == [];
    assert out + [] == out;
    return Ok(out);
  }

  /** `new CompositeIndexInfo(index1, index2)`. */
  method Construct1(s: Segment, hs: Hashing) returns (r: Result<SegmentData, CompositeError>)
    ensures r == SegmentOf(s, hs)
  {
    var info := new CompositeIndexInfo(s.index1, s.index2);
    var res := info.Process(hs);
    if res.Err? {
      return Err(res.error);
    }
    var id := info.IndexId();
    return Ok(SegmentData(if id.Some? then id.value else 0, info.Output()));
  }

  /** A finished prefix in front of the result for the rest. */
  function Prepend(done: seq<SegmentData>, rest: Result<seq<SegmentData>, HolderError>): Result<seq<SegmentData>, HolderError> {
    match rest
    case Err(e) => Err(e)
    case Ok(s) => Ok(done + s)
  }

  lemma PrependAssoc(done: seq<SegmentData>, d: SegmentData, rest: Result<seq<SegmentData>, HolderError>)
    ensures Prepend(done, Prepend([d], rest)) == Prepend(done + [d], rest)
  {
    if rest.Ok? {
      assert done + ([d] + rest.value) == (done + [d]) + rest.value;
    }
  }

  /** `FromDirectory`. */
  method FromDirectory(gameVersion: string, paths: seq<string>, repo: string, info: Option<seq<string>>,
                       read: string -> IndexFile, hs: Hashing) returns (r: Result<Holder, HolderError>)
    ensures r == FromDirectorySpec(gameVersion, paths, repo, info, read, hs)
  {
    var thisRepo := repo;
    var comment: Option<string> := None;
    if info.Some? {
      var lines := info.value;
      if |lines| < 1 {
        return Err(OutOfRange);
      }
      thisRepo := lines[0];
      if |lines| < 2 {
        return Err(OutOfRange);
      }
      comment := if lines[1] == "N/A" then None else comment;
    }
    r := Construct(gameVersion, paths, thisRepo, comment, read, hs);
  }

  /** The private constructor. */
  method Construct(gameVersion: string, paths: seq<string>, repo: string, comment: Option<string>,
                   read: string -> IndexFile, hs: Hashing) returns (r: Result<Holder, HolderError>)
    ensures r == NewHolder(gameVersion, paths, repo, comment, read, hs)
  {
    var gv := ParseWithComment(gameVersion, comment);
    if gv.Err? {
      return Err(BadVersion(gv.error));
    }
    var indexes := LoadAllIndexData(paths, read, hs);
    if indexes.Err? {
      return Err(indexes.error);
    }
    return Ok(Holder(gv.value, indexes.value, repo));
  }

  /** `FromPatch`. */
  method FromPatch(patchFilePath: string, repo: string, extracted: seq<string>,
                   read: string -> IndexFile, hs: Hashing) returns (r: Result<Holder, HolderError>)
    ensures r == FromPatchSpec(patchFilePath, repo, extracted, read, hs)
  {
    var patchFileName := Stem(patchFilePath);
    if |patchFileName| < 1 {
      return Err(OutOfRange);
    }
    var patchVersion := patchFileName[1..];
    if StartsWith(patchFileName, "H") {
      var gv := Parse(patchVersion);
      if gv.Err? {
        return Err(BadVersion(gv.error));
      }
      return Ok(Holder(gv.value, [], repo));
    }
    r := Construct(patchVersion, extracted, repo, None, read, hs);
  }
}

=== FILE: patch_laws.dfy ===
/** What `LoadAllIndexData`, `FromPatch` and `FromDirectory` promise, proved on their
    specifications. */
module PatchLaws {
  import opened Base
  import opened Strings
  import opened GameVersions
  import opened Tables
  import Joins
  import opened CompositeIndex
  import opened PatchIndexHolders

  /** The file a dictionary holds under a stem, if any. */
  function Find(t: Table<string, IndexFile>, k: string): Option<IndexFile> {
    if Has(t, k) then Some(Get(t, k)) else None
  }

  /** Position class of a segment in the output: paired, `.index` alone, `.index2` alone. */
  function Rank(s: Segment): int {
    if s.index1.Some? && s.index2.Some? then 0 else if s.index1.Some? then 1 else 2
  }

  function JoinOf(t1: Table<string, IndexFile>, t2: Table<string, IndexFile>): Result<Joins.Joined<string, IndexFile, IndexFile, Segment>, string> {
    Joins.Join(t1, t1, t2, [], Both)
  }

  lemma Only1Keys(rest: Table<string, IndexFile>, k: string)
    ensures Has(Only1(rest), k) <==> Has(rest, k)
  {
    if Has(rest, k) {
      var j :| 0 <= j < |rest| && rest[j].key == k;
      assert Only1(rest)[j].key == k;
    }
    if Has(Only1(rest), k) {
      var j :| 0 <= j < |Only1(rest)| && Only1(rest)[j].key == k;
      assert rest[j].key == k;
    }
  }

  lemma Only2Keys(rest: Table<string, IndexFile>, k: string)
    ensures Has(Only2(rest), k) <==> Has(rest, k)
  {
    if Has(rest, k) {
      var j :| 0 <= j < |rest| && rest[j].key == k;
      assert Only2(rest)[j].key == k;
    }
    if Has(Only2(rest), k) {
      var j :| 0 <= j < |Only2(rest)| && Only2(rest)[j].key == k;
      assert rest[j].key == k;
    }
  }

  lemma OnlyUnique(rest: Table<string, IndexFile>)
    requires UniqueKeys(rest)
    ensures UniqueKeys(Only1(rest)) && UniqueKeys(Only2(rest))
  {
  }

  /** The three parts of the output, and the facts about their keys. */
  lemma PairingParts(t1: Table<string, IndexFile>, t2: Table<string, IndexFile>, k: string)
    requires UniqueKeys(t1)
    ensures JoinOf(t1, t2).Ok?
    ensures var js := JoinOf(t1, t2).value;
      && Pairing(t1, t2) == js.out + Only1(js.rest1) + Only2(js.rest2)
      && (Has(js.out, k) <==> Has(t1, k) && Has(t2, k))
      && (Has(Only1(js.rest1), k) <==> Has(t1, k) && !Has(t2, k))
      && (Has(Only2(js.rest2), k) <==> Has(t2, k) && !Has(t1, k))
  {
    Joins.JoinNeverThrows(t1, t1, t2, [], Both);
    var js := JoinOf(t1, t2).value;
    Joins.JoinOutKeys(t1, t1, t2, [], Both, k);
    Joins.JoinRest1(t1, t1, t2, [], Both, k);
    Joins.JoinRest2(t1, t1, t2, [], Both, k);
    Only1Keys(js.rest1, k);
    Only2Keys(js.rest2, k);
  }

  /** Every stem of either kind of file has a segment, and no other stem has one. */
  lemma PairingStems(t1: Table<string, IndexFile>, t2: Table<string, IndexFile>, k: string)
    requires UniqueKeys(t1)
    ensures Has(Pairing(t1, t2), k) <==> Has(t1, k) || Has(t2, k)
  {
    PairingParts(t1, t2, k);
    var js := JoinOf(t1, t2).value;
    HasAppend(js.out + Only1(js.rest1), Only2(js.rest2), k);
    HasAppend(js.out, Only1(js.rest1), k);
  }

  /** No stem has two segments. */
  lemma PairingUnique(t1: Table<string, IndexFile>, t2: Table<string, IndexFile>)
    requires UniqueKeys(t1) && UniqueKeys(t2)
    ensures UniqueKeys(Pairing(t1, t2))
  {
    Joins.JoinNeverThrows(t1, t1, t2, [], Both);
    Joins.JoinRestUnique(t1, t1, t2, [], Both);
    var js := JoinOf(t1, t2).value;
    OnlyUnique(js.rest1);
    OnlyUnique(js.rest2);
    forall k | Has(js.out, k) ensures !Has(Only1(js.rest1), k) {
      PairingParts(t1, t2, k);
    }
    UniqueAppend(js.out, Only1(js.rest1));
    forall k | Has(js.out + Only1(js.rest1), k) ensures !Has(Only2(js.rest2), k) {
      PairingParts(t1, t2, k);
      HasAppend(js.out, Only1(js.rest1), k);
    }
    UniqueAppend(js.out + Only1(js.rest1), Only2(js.rest2));
  }

  /** The segment of a stem pairs the `.index` file of that stem with the `.index2` file of
      that stem, each missing exactly when no such file exists. */
  lemma PairingSegment(t1: Table<string, IndexFile>, t2: Table<string, IndexFile>, k: string)
    requires UniqueKeys(t1) && UniqueKeys(t2)
    requires Has(t1, k) || Has(t2, k)
    ensures Pair(k, Segment(Find(t1, k), Find(t2, k))) in Pairing(t1, t2)
  {
    PairingParts(t1, t2, k);
    var js := JoinOf(t1, t2).value;
    var p := Pairing(t1, t2);
    if Has(t1, k) && Has(t2, k) {
      var i :| 0 <= i < |t1| && t1[i] == Pair(k, Get(t1, k));
      Joins.JoinMatched(t1, t1, t2, [], Both, i);
      assert Pair(k, Segment(Find(t1, k), Find(t2, k))) in js.out;
    } else if Has(t1, k) {
      var j :| 0 <= j < |js.rest1| && js.rest1[j].key == k by {
        Only1Keys(js.rest1, k);
      }
      Joins.JoinKeeps1(t1, t1, t2, [], Both, j);
      UniqueGet(t1, k, js.rest1[j].value);
      assert p[|js.out| + j] == Only1(js.rest1)[j];
    } else {
      var j :| 0 <= j < |js.rest2| && js.rest2[j].key == k by {
        Only2Keys(js.rest2, k);
      }
      Joins.JoinKeeps2(t1, t1, t2, [], Both, j);
      UniqueGet(t2, k, js.rest2[j].value);
      assert p[|js.out| + |js.rest1| + j] == Only2(js.rest2)[j];
    }
  }

  /** Every output entry of the join pairs two files. */
  lemma {:induction false} JoinPaired(snap: Table<string, IndexFile>, t1: Table<string, IndexFile>,
                                      t2: Table<string, IndexFile>, out: Table<string, Segment>)
    requires Joins.Join(snap, t1, t2, out, Both).Ok?
    requires forall j | 0 <= j < |out| :: Rank(out[j].value) == 0
    ensures var r := Joins.Join(snap, t1, t2, out, Both).value.out;
            forall j | 0 <= j < |r| :: Rank(r[j].value) == 0
    decreases |snap|
  {
    if snap != [] {
      var k0 := snap[0].key;
      if !Has(t2, k0) {
        JoinPaired(snap[1..], t1, t2, out);
      } else {
        var out' := out + [Pair(k0, Both(snap[0].value, Get(t2, k0)))];
        JoinPaired(snap[1..], Remove(t1, k0), Remove(t2, k0), out');
      }
    }
  }

  /** Paired stems come first, then `.index`-only stems, then `.index2`-only stems. */
  lemma PairingOrder(t1: Table<string, IndexFile>, t2: Table<string, IndexFile>)
    requires UniqueKeys(t1)
    ensures var p := Pairing(t1, t2);
            forall i, j | 0 <= i < j < |p| :: Rank(p[i].value) <= Rank(p[j].value)
  {
    Joins.JoinNeverThrows(t1, t1, t2, [], Both);
    var js := JoinOf(t1, t2).value;
    JoinPaired(t1, t1, t2, []);
    var p := Pairing(t1, t2);
    assert p == js.out + Only1(js.rest1) + Only2(js.rest2);
    var n0, n1 := |js.out|, |js.out| + |js.rest1|;
    ConcatTiers(js.out, js.rest1, js.rest2);
    TiersOrdered(p, n0, n1);
  }

  /** Paired entries, then `.index`-only ones, then `.index2`-only ones, ranked by tier. */
  lemma ConcatTiers(out: Table<string, Segment>, rest1: Table<string, IndexFile>, rest2: Table<string, IndexFile>)
    requires forall j | 0 <= j < |out| :: Rank(out[j].value) == 0
    ensures var p, n0, n1 := out + Only1(rest1) + Only2(rest2), |out|, |out| + |rest1|;
            forall i | 0 <= i < |p| :: Rank(p[i].value) == (if i < n0 then 0 else if i < n1 then 1 else 2)
  {
    var p, n0, n1 := out + Only1(rest1) + Only2(rest2), |out|, |out| + |rest1|;
    forall i | 0 <= i < |p|
      ensures Rank(p[i].value) == (if i < n0 then 0 else if i < n1 then 1 else 2)
    {
      if i < n0 {
        assert p[i] == out[i];
      } else if i < n1 {
        assert p[i] == Only1(rest1)[i - n0];
      } else {
        assert p[i] == Only2(rest2)[i - n1];
      }
    }
  }

  /** Entries ranked by tier (0 before `n0`, 1 before `n1`, 2 after) are in rank order. */
  lemma TiersOrdered(p: Table<string, Segment>, n0: int, n1: int)
    requires n0 <= n1
    requires forall i | 0 <= i < |p| :: Rank(p[i].value) == (if i < n0 then 0 else if i < n1 then 1 else 2)
    ensures forall i, j | 0 <= i < j < |p| :: Rank(p[i].value) <= Rank(p[j].value)
  {
  }

  /** `LoadAllIndexData` constructs one CompositeIndexInfo per segment, in segment order. */
  lemma {:induction false} ProcessAllEach(segments: Table<string, Segment>, hs: Hashing, i: nat)
    requires ProcessAll(segments, hs).Ok? && i < |segments|
    ensures |ProcessAll(segments, hs).value| == |segments|
    ensures SegmentOf(segments[i].value, hs).Ok?
    ensures ProcessAll(segments, hs).value[i] == SegmentOf(segments[i].value, hs).value
    decreases |segments|
  {
    var rest := ProcessAll(segments[1..], hs);
    if i == 0 {
      if segments[1..] != [] {
        ProcessAllEach(segments[1..], hs, 0);
      }
    } else {
      ProcessAllEach(segments[1..], hs, i - 1);
    }
  }

  /** A segment's IndexId is its `.index` file's id, or its `.index2` file's without one. */
  lemma SegmentIndexId(s: Segment, hs: Hashing)
    requires SegmentOf(s, hs).Ok? && (s.index1.Some? || s.index2.Some?)
    ensures SegmentOf(s, hs).value.indexId == (if s.index1.Some? then s.index1.value.indexId else s.index2.value.indexId)
    ensures SegmentOf(s, hs).value.entries == ProcessSpec(s.index1, s.index2, hs).value
  {
  }

  /** A hotfix patch (stem starting with 'H') is never extracted: its holder does not depend
      on the extracted files, has no segments, and has the version of the stem without its
      first character. */
  lemma HotfixPatch(patchFilePath: string, repo: string, extracted: seq<string>, read: string -> IndexFile,
                    hs: Hashing, extracted': seq<string>, read': string -> IndexFile, hs': Hashing)
    requires StartsWith(Stem(patchFilePath), "H")
    ensures FromPatchSpec(patchFilePath, repo, extracted, read, hs) == FromPatchSpec(patchFilePath, repo, extracted', read', hs')
    ensures var r := FromPatchSpec(patchFilePath, repo, extracted, read, hs);
            r.Ok? <==> Parse(Stem(patchFilePath)[1..]).Ok?
    ensures var r := FromPatchSpec(patchFilePath, repo, extracted, read, hs);
            r.Ok? ==> r.value == Holder(Parse(Stem(patchFilePath)[1..]).value, [], repo)
  {
  }

  /** Every patch holder's version is parsed from the patch stem without its first character,
      and carries no comment. */
  lemma PatchVersion(patchFilePath: string, repo: string, extracted: seq<string>, read: string -> IndexFile, hs: Hashing)
    requires FromPatchSpec(patchFilePath, repo, extracted, read, hs).Ok?
    ensures |Stem(patchFilePath)| >= 1 && Parse(Stem(patchFilePath)[1..]).Ok?
    ensures FromPatchSpec(patchFilePath, repo, extracted, read, hs).value.gameVersion == Parse(Stem(patchFilePath)[1..]).value
    ensures FromPatchSpec(patchFilePath, repo, extracted, read, hs).value.repo == repo
  {
  }

  /** A directory holder never has a comment, so its version is never special; its repo is
      the first line of info.txt when that file exists. */
  lemma DirectoryVersion(gameVersion: string, paths: seq<string>, repo: string, info: Option<seq<string>>,
                         read: string -> IndexFile, hs: Hashing)
    requires FromDirectorySpec(gameVersion, paths, repo, info, read, hs).Ok?
    ensures var h := FromDirectorySpec(gameVersion, paths, repo, info, read, hs).value;
            h.gameVersion == Parse(gameVersion).value && !h.gameVersion.isSpecial && h.gameVersion.comment.None?
    ensures var h := FromDirectorySpec(gameVersion, paths, repo, info, read, hs).value;
            h.repo == if info.Some? then info.value[0] else repo
  {
  }
}

=== FILE: path_cache.dfy ===
/** ResLogger2.Common/ServerDatabase/Model/PathCache.cs: the in-memory mirror of the server
    catalog. The source nests dictionaries by IndexId, then FolderHash, FileHash and FullHash;
    here every level is folded into one tuple key, and the leaf insertion order, which
    `FirstOrDefault`/`First` observe, is kept beside it.

    Confirmed rows are shared objects: the same `PathEntry` sits in the by-folder dictionary
    and in the by-full hash set, and callers mutate it through either. The model keeps the
    objects in `heap`, a reference being a position in it, and stores references (`Ref`) in
    both indexes, so a mutation through one
    index is seen through the other, exactly as in the source. Staging rows and the two
    "latest" tables are only ever reached through their own dictionary, so their slots hold
    the mutable part (the seen range, the version) directly. */
module Caches {
  import opened Base
  import opened GameVersions
  import opened Entries
  import opened PathEntries

  /** A reference to a `PathEntry` object. */
  type Ref = nat

  /** `(IndexId, FolderHash, FileHash, FullHash)`: the confirmed-row key. */
  datatype FullKey = FullKey(indexId: u32, folderHash: u32, fileHash: u32, fullHash: u32)
  {
    function File(): FileKey { FileKey(indexId, folderHash, fileHash) }
    function Hash(): HashKey { HashKey(indexId, fullHash) }
  }

  /** `(IndexId, FolderHash, FileHash)`: the Index1 staging key and the by-folder prefix. */
  datatype FileKey = FileKey(indexId: u32, folderHash: u32, fileHash: u32)
  {
    function With(fullHash: u32): FullKey { FullKey(indexId, folderHash, fileHash, fullHash) }
  }

  /** `(IndexId, FullHash)`: the Index2 staging key and the by-full index key. */
  datatype HashKey = HashKey(indexId: u32, fullHash: u32)

  function KeyOf(e: PathEntry): FullKey {
    FullKey(e.indexId, e.folderHash, e.fileHash, e.fullHash)
  }

  /** `Index1StagingEntry`: an Index1 observation not yet matched to a path. */
  datatype Index1Row = Index1Row(indexId: u32, folderHash: u32, fileHash: u32, seen: Seen)
  {
    function Key(): FileKey { FileKey(indexId, folderHash, fileHash) }
  }

  /** `Index2StagingEntry`: an Index2 observation not yet matched to a path. */
  datatype Index2Row = Index2Row(indexId: u32, fullHash: u32, seen: Seen)
  {
    function Key(): HashKey { HashKey(indexId, fullHash) }
  }

  /** `LatestIndex`: the newest version seen for one index id. */
  datatype LatestIndex = LatestIndex(indexId: u32, gameVersion: GameVersion)

  /** `LatestProcessedVersion`: the newest version processed for one repository. */
  datatype LatestProcessedVersion = LatestProcessedVersion(repo: string, version: GameVersion)

  /** `Dictionary.Remove` on the leaf order: drop one full hash, keep the rest in order. */
  function Without(s: seq<u32>, x: u32): (r: seq<u32>)
    ensures forall y :: y in r <==> y in s && y != x
  {
    if s == [] then [] else (if s[0] == x then [] else [s[0]]) + Without(s[1..], x)
  }

  /** Some element of the hash set is `Equals` to `e`. */
  predicate HasEqual(refs: seq<Ref>, heap: seq<PathEntry>, e: PathEntry) {
    exists i | 0 <= i < |refs| :: refs[i] < |heap| && Equals(heap[refs[i]], e)
  }

  /** `HashSet<PathEntry>.Add`: a no-op when an `Equals` element is already present,
      otherwise the reference joins at the end. */
  function SetAdd(refs: seq<Ref>, heap: seq<PathEntry>, e: PathEntry, r: Ref): (s: seq<Ref>)
    ensures HasEqual(refs, heap, e) ==> s == refs
    ensures !HasEqual(refs, heap, e) ==> s == refs + [r]
  {
    if HasEqual(refs, heap, e) then refs else refs + [r]
  }

  /** The cache contents: the seven dictionaries and the objects they reference. */
  datatype Cache = Cache(
    heap: seq<PathEntry>,
    byFolder: map<FullKey, Ref>,
    leafOrder: map<FileKey, seq<u32>>,
    byFull: map<HashKey, seq<Ref>>,
    index1: map<FileKey, Seen>,
    index2: map<HashKey, Seen>,
    gameVersions: map<int, GameVersion>,
    latestIndexes: map<u32, GameVersion>,
    latestProcessed: map<string, GameVersion>)
  {
    /** Every reference points to an allocated object whose hashes match the slot. */
    ghost predicate RefsValid() {
      && (forall k | k in byFolder :: byFolder[k] < |heap| && KeyOf(heap[byFolder[k]]) == k)
      && (forall h | h in byFull :: |byFull[h]| > 0)
      && (forall h, i | h in byFull && 0 <= i < |byFull[h]| ::
            byFull[h][i] < |heap| && KeyOf(heap[byFull[h][i]]).Hash() == h)
    }

    /** The leaf order lists exactly the full hashes stored under each prefix. */
    ghost predicate LeavesValid() {
      && (forall k | k in byFolder :: k.File() in leafOrder && k.fullHash in leafOrder[k.File()])
      && (forall k: FullKey | k.File() in leafOrder && k.fullHash in leafOrder[k.File()] :: k in byFolder)
    }

    ghost predicate Valid() {
      RefsValid() && LeavesValid()
    }

    /** The by-full index holds every confirmed row (the direction `Add` establishes). */
    ghost predicate Coherent()
      requires Valid()
    {
      forall k | k in byFolder :: k.Hash() in byFull && byFolder[k] in byFull[k.Hash()]
    }

    /** The by-full index holds confirmed rows and nothing else: true until a confirmed row
        is removed. */
    ghost predicate Exact()
      requires Valid()
    {
      && Coherent()
      && (forall h, i | h in byFull && 0 <= i < |byFull[h]| ::
            KeyOf(heap[byFull[h][i]]) in byFolder && byFolder[KeyOf(heap[byFull[h][i]])] == byFull[h][i])
    }

    // ---- lookups ----

    /** `FindPath(indexId, folder, file, full)`. */
    function FindPath4(k: FullKey): (r: Option<Ref>)
      requires Valid()
      ensures r.Some? <==> k in byFolder
      ensures r.Some? ==> r.value < |heap| && KeyOf(heap[r.value]) == k
    {
      if k in byFolder then Some(byFolder[k]) else None
    }

    /** `FindPath(indexId, folder, file)`: the first value of the leaf dictionary, or null. */
    function FindPath3(f: FileKey): (r: Option<Ref>)
      requires Valid()
      ensures r.None? <==> forall k | k in byFolder :: k.File() != f
      ensures r.Some? ==> r.value < |heap| && KeyOf(heap[r.value]).File() == f
      ensures r.Some? ==> KeyOf(heap[r.value]) in byFolder && byFolder[KeyOf(heap[r.value])] == r.value
    {
      if f in leafOrder && |leafOrder[f]| > 0 then
        assert leafOrder[f][0] in leafOrder[f];
        assert f.With(leafOrder[f][0]).File() == f;
        Some(byFolder[f.With(leafOrder[f][0])])
      else
        assert forall k | k in byFolder :: k.File() != f by {
          forall k | k in byFolder ensures k.File() != f {
            assert k.fullHash in leafOrder[k.File()];
          }
        }
        None
    }

    /** `FindPath(indexId, full)`: the first element of the hash set, or null. */
    function FindPath2(h: HashKey): (r: Option<Ref>)
      requires Valid()
      ensures r.Some? <==> h in byFull
      ensures r.Some? ==> r.value < |heap| && KeyOf(heap[r.value]).Hash() == h
    {
      if h in byFull then Some(byFull[h][0]) else None
    }

    /** `FindIndex1(indexId, folder, file)`: the staging row, carrying the key it is stored
        under. */
    function FindIndex1(f: FileKey): (r: Option<Index1Row>)
      ensures r.Some? <==> f in index1
      ensures r.Some? ==> r.value.Key() == f
    {
      if f in index1 then Some(Index1Row(f.indexId, f.folderHash, f.fileHash, index1[f])) else None
    }

    /** `FindIndex2(indexId, full)`. */
    function FindIndex2(h: HashKey): (r: Option<Index2Row>)
      ensures r.Some? <==> h in index2
      ensures r.Some? ==> r.value.Key() == h
    {
      if h in index2 then Some(Index2Row(h.indexId, h.fullHash, index2[h])) else None
    }

    /** `FindLatestGameVersionIndex(indexId)`. */
    function FindLatestIndex(id: u32): (r: Option<LatestIndex>)
      ensures r.Some? <==> id in latestIndexes
      ensures r.Some? ==> r.value.indexId == id
    {
      if id in latestIndexes then Some(LatestIndex(id, latestIndexes[id])) else None
    }

    /** `FindLatestProcessedVersion(repo)`. */
    function FindLatestProcessed(repo: string): (r: Option<LatestProcessedVersion>)
      ensures r.Some? <==> repo in latestProcessed
      ensures r.Some? ==> r.value.repo == repo
    {
      if repo in latestProcessed then Some(LatestProcessedVersion(repo, latestProcessed[repo])) else None
    }

    // ---- updates ----

    /** The cache after storing `e` in a free slot as a new object. */
    function Inserted(e: PathEntry): (c: Cache)
      ensures c.index1 == index1 && c.index2 == index2 && c.gameVersions == gameVersions
      ensures c.latestIndexes == latestIndexes && c.latestProcessed == latestProcessed
    {
      var k, r := KeyOf(e), |heap|;
      var leaf := if k.File() in leafOrder then leafOrder[k.File()] else [];
      var refs := if k.Hash() in byFull then SetAdd(byFull[k.Hash()], heap, e, r) else [r];
      this.(heap := heap + [e], byFolder := byFolder[k := r],
            leafOrder := leafOrder[k.File() := leaf + [k.fullHash]],
            byFull := byFull[k.Hash() := refs])
    }

    /** `Add(PathEntry)`: None when the slot is taken (the source throws before changing
        anything); otherwise `e` is stored as a fresh object. */
    function AddPath(e: PathEntry): (r: Option<Cache>)
      ensures r.None? <==> KeyOf(e) in byFolder
      ensures r.Some? ==> r.value.heap == heap + [e]
    {
      if KeyOf(e) in byFolder then None else Some(Inserted(e))
    }

    /** `Remove(PathEntry)`: deletes from the by-folder dictionary only; the by-full set keeps
        the object. */
    function RemovePath(e: PathEntry): (r: Cache)
      ensures KeyOf(e) !in r.byFolder
    {
      var k := KeyOf(e);
      var leafOrder' := if k.File() in leafOrder then leafOrder[k.File() := Without(leafOrder[k.File()], k.fullHash)] else leafOrder;
      this.(byFolder := byFolder - {k}, leafOrder := leafOrder')
    }

    /** `Add(Index1StagingEntry)`: None on an occupied slot (the source throws). */
    function AddIndex1(row: Index1Row): (r: Option<Cache>)
      ensures r.None? <==> row.Key() in index1
    {
      if row.Key() in index1 then None else Some(this.(index1 := index1[row.Key() := row.seen]))
    }

    /** `Remove(Index1StagingEntry)`: frees the row's slot. */
    function RemoveIndex1(row: Index1Row): (r: Cache)
      ensures row.Key() !in r.index1
    {
      this.(index1 := index1 - {row.Key()})
    }

    /** `Add(Index2StagingEntry)`: None on an occupied slot (the source throws). */
    function AddIndex2(row: Index2Row): (r: Option<Cache>)
      ensures r.None? <==> row.Key() in index2
    {
      if row.Key() in index2 then None else Some(this.(index2 := index2[row.Key() := row.seen]))
    }

    /** `Remove(Index2StagingEntry)`: frees the row's slot. */
    function RemoveIndex2(row: Index2Row): (r: Cache)
      ensures row.Key() !in r.index2
    {
      this.(index2 := index2 - {row.Key()})
    }

    /** `Add(GameVersion)` keyed by Id: None on an existing Id (the source throws). */
    function AddGameVersion(gv: GameVersion): (r: Option<Cache>)
      ensures r.None? <==> gv.id in gameVersions
    {
      if gv.id in gameVersions then None else Some(this.(gameVersions := gameVersions[gv.id := gv]))
    }

    /** `Add(LatestIndex)` keyed by IndexId: None on an existing key (the source throws). */
    function AddLatestIndex(li: LatestIndex): (r: Option<Cache>)
      ensures r.None? <==> li.indexId in latestIndexes
    {
      if li.indexId in latestIndexes then None
      else Some(this.(latestIndexes := latestIndexes[li.indexId := li.gameVersion]))
    }

    /** `Add(LatestProcessedVersion)` keyed by Repo: None on an existing key (the source throws). */
    function AddLatestProcessed(lp: LatestProcessedVersion): (r: Option<Cache>)
      ensures r.None? <==> lp.repo in latestProcessed
    {
      if lp.repo in latestProcessed then None
      else Some(this.(latestProcessed := latestProcessed[lp.repo := lp.version]))
    }

    // ---- writes through a reference a lookup handed out ----

    /** A caller sets `Path` on a confirmed object. */
    function SetPath(r: Ref, path: Option<string>): (c: Cache)
      requires r < |heap|
      ensures r < |c.heap| && KeyOf(c.heap[r]) == KeyOf(heap[r]) && c.heap[r].path == path
      ensures c == this.(heap := c.heap) && |c.heap| == |heap|
    {
      Written(r, heap[r].(path := path))
    }

    /** A caller replaces the seen range of a confirmed object (`UpdateSeen`). */
    function SetSeen(r: Ref, seen: Seen): (c: Cache)
      requires r < |heap|
      ensures r < |c.heap| && KeyOf(c.heap[r]) == KeyOf(heap[r]) && c.heap[r].seen == seen
      ensures c == this.(heap := c.heap) && |c.heap| == |heap|
    {
      Written(r, heap[r].(seen := seen))
    }

    /** The object behind `r` replaced by `e`; nothing else changes. */
    function Written(r: Ref, e: PathEntry): Cache
      requires r < |heap|
    {
      this.(heap := heap[r := e])
    }

    /** A caller replaces the seen range of a staging row it looked up. */
    function SetIndex1(row: Index1Row): (c: Cache)
      requires row.Key() in index1
      ensures c.FindIndex1(row.Key()) == Some(row)
    {
      this.(index1 := index1[row.Key() := row.seen])
    }

    function SetIndex2(row: Index2Row): (c: Cache)
      requires row.Key() in index2
      ensures c.FindIndex2(row.Key()) == Some(row)
    {
      this.(index2 := index2[row.Key() := row.seen])
    }

    /** A caller sets `LatestIndex.GameVersion` on the row it looked up. */
    function SetLatestIndex(li: LatestIndex): (c: Cache)
      requires li.indexId in latestIndexes
      ensures c.FindLatestIndex(li.indexId) == Some(li)
    {
      this.(latestIndexes := latestIndexes[li.indexId := li.gameVersion])
    }

    /** A caller sets `LatestProcessedVersion.Version` on the row it looked up. */
    function SetLatestProcessed(lp: LatestProcessedVersion): (c: Cache)
      requires lp.repo in latestProcessed
      ensures c.FindLatestProcessed(lp.repo) == Some(lp)
    {
      this.(latestProcessed := latestProcessed[lp.repo := lp.version])
    }
  }

  /** The cache `Clear()` leaves behind: all seven dictionaries empty, while the objects
      already handed out stay allocated. */
  function Cleared(c: Cache): Cache {
    Cache(c.heap, map[], map[], map[], map[], map[], map[], map[], map[])
  }
}

=== FILE: path_cache_class.dfy ===
/** ResLogger2.Common/ServerDatabase/Model/PathCache.cs as a mutable object: each method
    changes its fields exactly as the matching function of `Caches.Cache` says. */
module PathCaches {
  import opened Base
  import opened GameVersions
  import opened Entries
  import opened PathEntries
  import opened Caches

  /** `PathCache`: the seven dictionaries as fields, plus the objects they reference. */
  class PathCache {
    var heap: seq<PathEntry>
    var byFolder: map<FullKey, Ref>
    var leafOrder: map<FileKey, seq<u32>>
    var byFull: map<HashKey, seq<Ref>>
    var index1: map<FileKey, Seen>
    var index2: map<HashKey, Seen>
    var gameVersions: map<int, GameVersion>
    var latestIndexes: map<u32, GameVersion>
    var latestProcessed: map<string, GameVersion>

    function Snapshot(): Cache
      reads this
    {
      Cache(heap, byFolder, leafOrder, byFull, index1, index2, gameVersions, latestIndexes, latestProcessed)
    }

    /** The constructor runs `Clear` (loading from the database is not modelled). */
    constructor ()
      ensures Snapshot().Valid() && Snapshot().Exact()
      ensures Snapshot() == Cleared(Cache([], map[], map[], map[], map[], map[], map[], map[], map[]))
    {
      heap := [];
      byFolder, leafOrder, byFull := map[], map[], map[];
      index1, index2 := map[], map[];
      gameVersions, latestIndexes, latestProcessed := map[], map[], map[];
    }

    /** `Clear()`: reassign every dictionary to an empty one. */
    method Clear()
      modifies this
      ensures Snapshot() == Cleared(old(Snapshot()))
    {
      byFolder, leafOrder, byFull := map[], map[], map[];
      index1, index2 := map[], map[];
      gameVersions, latestIndexes, latestProcessed := map[], map[], map[];
    }

    /** `Add(PathEntry)`; `ok` is false where the source throws. */
    method AddPath(e: PathEntry) returns (ok: bool)
      modifies this
      ensures ok <==> old(Snapshot()).AddPath(e).Some?
      ensures ok ==> Snapshot() == old(Snapshot()).AddPath(e).value
      ensures !ok ==> Snapshot() == old(Snapshot())
    {
      var k := KeyOf(e);
      if k in byFolder {
        return false;
      }
      var leaf := if k.File() in leafOrder then leafOrder[k.File()] else [];
      var r := |heap|;
      var refs := if k.Hash() in byFull then SetAdd(byFull[k.Hash()], heap, e, r) else [r];
      heap, byFolder := heap + [e], byFolder[k := r];
      leafOrder, byFull := leafOrder[k.File() := leaf + [k.fullHash]], byFull[k.Hash() := refs];
      ok := true;
    }

    /** `Remove(PathEntry)`: by-folder dictionary only. */
    method RemovePath(e: PathEntry)
      modifies this
      ensures Snapshot() == old(Snapshot()).RemovePath(e)
    {
      var k := KeyOf(e);
      if k.File() in leafOrder {
        leafOrder := leafOrder[k.File() := Without(leafOrder[k.File()], k.fullHash)];
      }
      byFolder := byFolder - {k};
    }

    /** `Add(Index1StagingEntry)`; `ok` is false where the source throws. */
    method AddIndex1(row: Index1Row) returns (ok: bool)
      modifies this
      ensures ok <==> old(Snapshot()).AddIndex1(row).Some?
      ensures ok ==> Snapshot() == old(Snapshot()).AddIndex1(row).value
      ensures !ok ==> Snapshot() == old(Snapshot())
    {
      if row.Key() in index1 {
        return false;
      }
      index1 := index1[row.Key() := row.seen];
      ok := true;
    }

    /** `Remove(Index1StagingEntry)`. */
    method RemoveIndex1(row: Index1Row)
      modifies this
      ensures Snapshot() == old(Snapshot()).RemoveIndex1(row)
      ensures byFolder == old(byFolder)
    {
      index1 := index1 - {row.Key()};
    }

    /** `Add(Index2StagingEntry)`; `ok` is false where the source throws. */
    method AddIndex2(row: Index2Row) returns (ok: bool)
      modifies this
      ensures ok <==> old(Snapshot()).AddIndex2(row).Some?
      ensures ok ==> Snapshot() == old(Snapshot()).AddIndex2(row).value
      ensures !ok ==> Snapshot() == old(Snapshot())
    {
      if row.Key() in index2 {
        return false;
      }
      index2 := index2[row.Key() := row.seen];
      ok := true;
    }

    /** `Remove(Index2StagingEntry)`. */
    method RemoveIndex2(row: Index2Row)
      modifies this
      ensures Snapshot() == old(Snapshot()).RemoveIndex2(row)
      ensures byFolder == old(byFolder)
    {
      index2 := index2 - {row.Key()};
    }

    /** `Add(GameVersion)`; `ok` is false where the source throws. */
    method AddGameVersion(gv: GameVersion) returns (ok: bool)
      modifies this
      ensures ok <==> old(Snapshot()).AddGameVersion(gv).Some?
      ensures ok ==> Snapshot() == old(Snapshot()).AddGameVersion(gv).value
      ensures !ok ==> Snapshot() == old(Snapshot())
    {
      if gv.id in gameVersions {
        return false;
      }
      gameVersions := gameVersions[gv.id := gv];
      ok := true;
    }

    /** `Add(LatestIndex)`; `ok` is false where the source throws. */
    method AddLatestIndex(li: LatestIndex) returns (ok: bool)
      modifies this
      ensures ok <==> old(Snapshot()).AddLatestIndex(li).Some?
      ensures ok ==> Snapshot() == old(Snapshot()).AddLatestIndex(li).value
      ensures !ok ==> Snapshot() == old(Snapshot())
    {
      if li.indexId in latestIndexes {
        return false;
      }
      latestIndexes := latestIndexes[li.indexId := li.gameVersion];
      ok := true;
    }

    /** `Add(LatestProcessedVersion)`; `ok` is false where the source throws. */
    method AddLatestProcessed(lp: LatestProcessedVersion) returns (ok: bool)
      modifies this
      ensures ok <==> old(Snapshot()).AddLatestProcessed(lp).Some?
      ensures ok ==> Snapshot() == old(Snapshot()).AddLatestProcessed(lp).value
      ensures !ok ==> Snapshot() == old(Snapshot())
    {
      if lp.repo in latestProcessed {
        return false;
      }
      latestProcessed := latestProcessed[lp.repo := lp.version];
      ok := true;
    }

    /** `entry.Path = path` on an object a lookup returned. */
    method SetPath(r: Ref, path: Option<string>)
      requires r < |heap|
      modifies this
      ensures Snapshot() == old(Snapshot()).SetPath(r, path)
    {
      heap := heap[r := heap[r].(path := path)];
    }

    /** `entry.UpdateSeen(gv)` on an object a lookup returned: the object's range becomes
        `Widen` of its old range, and the flag reports a change. */
    method UpdateSeen(r: Ref, gv: GameVersion) returns (changed: bool)
      requires r < |heap|
      modifies this
      ensures Snapshot() == old(Snapshot()).SetSeen(r, Widen(old(heap[r].seen), gv))
      ensures changed <==> Changed(old(heap[r].seen), gv)
    {
      changed := Changed(heap[r].seen, gv);
      heap := heap[r := heap[r].(seen := Widen(heap[r].seen, gv))];
    }

    /** `UpdateSeen(gv)` on an Index1 staging row a lookup returned. */
    method UpdateIndex1Seen(f: FileKey, gv: GameVersion) returns (changed: bool)
      requires f in index1
      modifies this
      ensures Snapshot() == old(Snapshot()).SetIndex1(Index1Row(f.indexId, f.folderHash, f.fileHash, Widen(old(index1[f]), gv)))
      ensures changed <==> Changed(old(index1[f]), gv)
    {
      changed := Changed(index1[f], gv);
      index1 := index1[f := Widen(index1[f], gv)];
    }

    /** `UpdateSeen(gv)` on an Index2 staging row a lookup returned. */
    method UpdateIndex2Seen(h: HashKey, gv: GameVersion) returns (changed: bool)
      requires h in index2
      modifies this
      ensures Snapshot() == old(Snapshot()).SetIndex2(Index2Row(h.indexId, h.fullHash, Widen(old(index2[h]), gv)))
      ensures changed <==> Changed(old(index2[h]), gv)
    {
      changed := Changed(index2[h], gv);
      index2 := index2[h := Widen(index2[h], gv)];
    }

    /** `lgvi.GameVersion = gv` on the `LatestIndex` row a lookup returned. */
    method SetLatestIndex(li: LatestIndex)
      requires li.indexId in latestIndexes
      modifies this
      ensures Snapshot() == old(Snapshot()).SetLatestIndex(li)
    {
      latestIndexes := latestIndexes[li.indexId := li.gameVersion];
    }

    /** `repo.Version = gv` on the `LatestProcessedVersion` row a lookup returned. */
    method SetLatestProcessed(lp: LatestProcessedVersion)
      requires lp.repo in latestProcessed
      modifies this
      ensures Snapshot() == old(Snapshot()).SetLatestProcessed(lp)
    {
      latestProcessed := latestProcessed[lp.repo := lp.version];
    }
  }
}

=== FILE: path_db_service.dfy ===
/** ResLogger2.Web/services/PathDbService.cs: the server side of path uploads and the catalog
    statistics. An uploaded path whose full key is confirmed gets its name attached; one that
    only has staging rows is promoted to a confirmed row spanning their ranges; anything else
    is ignored. The database is the three tables the service touches, as maps keyed the way
    the catalog keys them. */
module PathDbServices {
  import opened Base
  import opened GameVersions
  import opened Entries
  import opened Caches

  /** A confirmed `Paths` row: its name, if known, and its seen range. */
  datatype Confirmed = Confirmed(path: Option<string>, seen: Seen)

  /** `Paths`, `Index1StagingEntries`, `Index2StagingEntries` and `LatestIndexes`. */
  datatype Store = Store(
    paths: map<FullKey, Confirmed>,
    index1: map<FileKey, Seen>,
    index2: map<HashKey, Seen>,
    latestIndexes: map<u32, GameVersion>)

  /** No staging row sits at a projection of a confirmed row. */
  ghost predicate Disjoint(s: Store) {
    forall k | k in s.paths :: k.File() !in s.index1 && k.Hash() !in s.index2
  }

  /** `path.ToLower()`, `Utils.CalcAllHashes` (folder, file, full) and
      `Utils.GetCategoryIdForPath`, none of which is part of this model. */
  datatype Hashing = Hashing(lower: string -> string, allHashes: string -> (u32, u32, u32), categoryId: string -> u32)

  /** The key an uploaded path is looked up under: hashes of the lower-cased path, category of
      the path as uploaded. */
  function KeyFor(h: Hashing, path: string): FullKey {
    var hs := h.allHashes(h.lower(path));
    FullKey(h.categoryId(path), hs.0, hs.1, hs.2)
  }

  // ---- one uploaded path ----

  /** What happened to one uploaded path. */
  datatype Outcome = Attached | Known | Unknown | Promoted(inIndex1: bool, inIndex2: bool)

  /** `earliest`/`latest` over the staging rows found: the Index1 row's range, widened by the
      Index2 row's bounds when they lie strictly outside it. */
  function StagedRange(r1: Option<Seen>, r2: Option<Seen>): (r: Option<Seen>)
    ensures r.None? <==> r1.None? && r2.None?
    ensures r1.Some? && r2.Some? ==> r.value == Absorb(r1.value, r2.value)
    ensures r1.None? && r2.Some? ==> r == r2
    ensures r1.Some? && r2.None? ==> r == r1
  {
    match (r1, r2)
    case (None, None) => None
    case (Some(a), None) => Some(a)
    case (None, Some(b)) => Some(b)
    case (Some(a), Some(b)) => Some(Absorb(a, b))
  }

  /** The staging rows at the two projections of `key`, if any. */
  function StagedRows(s: Store, key: FullKey): (Option<Seen>, Option<Seen>) {
    (if key.File() in s.index1 then Some(s.index1[key.File()]) else None,
     if key.Hash() in s.index2 then Some(s.index2[key.Hash()]) else None)
  }

  /** Both staging rows removed and a confirmed row added over their merged range. */
  function PromoteRow(s: Store, key: FullKey, path: string, r1: Option<Seen>, r2: Option<Seen>): Store
    requires r1.Some? || r2.Some?
  {
    Store(s.paths[key := Confirmed(Some(path), StagedRange(r1, r2).value)], s.index1 - {key.File()},
          s.index2 - {key.Hash()}, s.latestIndexes)
  }

  /** The body of `ProcessInternal`'s loop for one path. */
  function Upload(s: Store, key: FullKey, path: string): (Store, Outcome) {
    if key in s.paths then
      if s.paths[key].path.None? then (s.(paths := s.paths[key := s.paths[key].(path := Some(path))]), Attached)
      else (s, Known)
    else
      var (r1, r2) := StagedRows(s, key);
      if r1.None? && r2.None? then (s, Unknown)
      else (PromoteRow(s, key, path, r1, r2), Promoted(r1.Some?, r2.Some?))
  }

  /** A path whose key is confirmed: it counts as existing, its name is attached only when it had
      none, and neither its range nor the staging tables change. */
  lemma UploadConfirmed(s: Store, key: FullKey, path: string)
    requires key in s.paths
    ensures var (s', o) := Upload(s, key, path);
      && (o == Attached <==> s.paths[key].path.None?)
      && (o == Known <==> s.paths[key].path.Some?)
      && s'.paths.Keys == s.paths.Keys
      && s'.paths[key].seen == s.paths[key].seen
      && s'.paths[key].path == (if s.paths[key].path.None? then Some(path) else s.paths[key].path)
      && s'.index1 == s.index1 && s'.index2 == s.index2
  {
  }

  /** A path with no confirmed row and no staging row at either projection changes nothing. */
  lemma UploadUnknown(s: Store, key: FullKey, path: string)
    ensures Upload(s, key, path).1 == Unknown <==>
      key !in s.paths && key.File() !in s.index1 && key.Hash() !in s.index2
    ensures Upload(s, key, path).1 == Unknown ==> Upload(s, key, path).0 == s
  {
  }

  /** Otherwise both staging rows go, and a confirmed row with the path and the range over the
      removed rows takes their place; the range is ordered when theirs were. */
  lemma UploadPromoted(s: Store, key: FullKey, path: string)
    requires key !in s.paths && (key.File() in s.index1 || key.Hash() in s.index2)
    ensures var (s', o) := Upload(s, key, path);
      && o == Promoted(key.File() in s.index1, key.Hash() in s.index2)
      && key.File() !in s'.index1 && key.Hash() !in s'.index2
      && key in s'.paths && s'.paths[key].path == Some(path)
      && (key.File() in s.index1 ==> Within(s.index1[key.File()], s'.paths[key].seen))
      && (key.Hash() in s.index2 ==> Within(s.index2[key.Hash()], s'.paths[key].seen))
      && ((key.File() in s.index1 ==> Ordered(s.index1[key.File()])) && (key.Hash() in s.index2 ==> Ordered(s.index2[key.Hash()]))
          ==> Ordered(s'.paths[key].seen))
  {
    var r1 := if key.File() in s.index1 then Some(s.index1[key.File()]) else None;
    var r2 := if key.Hash() in s.index2 then Some(s.index2[key.Hash()]) else None;
    var range := StagedRange(r1, r2).value;
    if r1.Some? && r2.Some? {
      AbsorbWithin(r1.value, r2.value);
      if Ordered(r1.value) && Ordered(r2.value) {
        AbsorbOrdered(r1.value, r2.value);
      }
    } else if r1.Some? {
      WithinReflexive(r1.value);
    } else {
      WithinReflexive(r2.value);
    }
  }

  /** Merging two ordered ranges gives an ordered range that contains both. */
  lemma AbsorbOrdered(a: Seen, b: Seen)
    requires Ordered(a) && Ordered(b)
    ensures Ordered(Absorb(a, b)) && Within(b, Absorb(a, b))
  {
    var r := Absorb(a, b);
    CompareTransitive(r.first, a.first, a.last);
    CompareTransitive(r.first, a.last, r.last);
    CompareTransitive(r.first, b.first, b.last);
  }

  /** No upload removes a confirmed row or renames a named one, and each keeps the staging and
      confirmed tables disjoint. */
  lemma UploadKeeps(s: Store, key: FullKey, path: string)
    ensures var s' := Upload(s, key, path).0;
      && s.paths.Keys <= s'.paths.Keys
      && (forall k | k in s.paths && s.paths[k].path.Some? :: s'.paths[k].path == s.paths[k].path)
      && (forall k | k in s.paths && k != key :: s'.paths[k] == s.paths[k])
      && s'.latestIndexes == s.latestIndexes
      && (Disjoint(s) ==> Disjoint(s'))
  {
  }

  // ---- `ProcessInternal` ----

  /** `ProcessingTotals`. */
  datatype Totals = Totals(existPaths: int, newPaths: int, postProcessed: int, wasInIndex1: bool, wasInIndex2: bool)

  /** How one outcome moves the running counters (existPaths, newPaths, index1, index2). */
  function Tally(t: Totals, o: Outcome): Totals {
    match o
    case Attached => t.(existPaths := t.existPaths + 1, newPaths := t.newPaths + 1)
    case Known => t.(existPaths := t.existPaths + 1)
    case Unknown => t
    case Promoted(in1, in2) =>
      t.(existPaths := t.existPaths + 1, newPaths := t.newPaths + 1,
         wasInIndex1 := t.wasInIndex1 || in1, wasInIndex2 := t.wasInIndex2 || in2)
  }

  const NoTotals := Totals(0, 0, 0, false, false)

  /** The store and the counters after the loop has seen `data`. */
  function Run(s: Store, h: Hashing, data: seq<string>): (Store, Totals) {
    if data == [] then (s, NoTotals)
    else
      var (s1, t) := Run(s, h, data[..|data| - 1]);
      var (s2, o) := Upload(s1, KeyFor(h, data[|data| - 1]), data[|data| - 1]);
      (s2, Tally(t, o))
  }

  /** One more path is one more step of the loop. */
  lemma RunLast(s: Store, h: Hashing, data: seq<string>)
    requires data != []
    ensures var (s1, t) := Run(s, h, data[..|data| - 1]);
      var (s2, o) := Upload(s1, KeyFor(h, data[|data| - 1]), data[|data| - 1]);
      Run(s, h, data) == (s2, Tally(t, o))
  {
  }

  /** `totals.X += x` for the counters and `|=` for the flags. */
  function Accumulate(t: Totals, u: Totals): (r: Totals)
    ensures r.postProcessed == t.postProcessed
  {
    Totals(t.existPaths + u.existPaths, t.newPaths + u.newPaths, t.postProcessed,
           t.wasInIndex1 || u.wasInIndex1, t.wasInIndex2 || u.wasInIndex2)
  }

  /** The counters are bounded: every new path also counts as existing, and no path counts
      twice. */
  lemma {:induction false} RunCounts(s: Store, h: Hashing, data: seq<string>)
    ensures 0 <= Run(s, h, data).1.newPaths <= Run(s, h, data).1.existPaths <= |data|
    ensures Run(s, h, data).1.postProcessed == 0
  {
    if data != [] {
      RunCounts(s, h, data[..|data| - 1]);
    }
  }

  /** Over a whole batch, confirmed rows are never removed or renamed, and disjointness holds
      throughout. */
  lemma {:induction false} RunKeeps(s: Store, h: Hashing, data: seq<string>)
    ensures var s' := Run(s, h, data).0;
      && s.paths.Keys <= s'.paths.Keys
      && (forall k | k in s.paths && s.paths[k].path.Some? :: s'.paths[k].path == s.paths[k].path)
      && s'.latestIndexes == s.latestIndexes
      && (Disjoint(s) ==> Disjoint(s'))
  {
    if data != [] {
      var init := data[..|data| - 1];
      RunKeeps(s, h, init);
      var s1 := Run(s, h, init).0;
      UploadKeeps(s1, KeyFor(h, data[|data| - 1]), data[|data| - 1]);
    }
  }

  /** Each path of a batch is confirmed afterwards unless it was ignored. */
  lemma UploadLeavesConfirmed(s: Store, key: FullKey, path: string)
    ensures Upload(s, key, path).1 != Unknown ==> key in Upload(s, key, path).0.paths
  {
  }

  /** One turn of `ProcessInternal`'s loop, with the running counters `existPaths`, `newPaths`,
      `wasInIndex1` and `wasInIndex2` gathered in `t`. */
  method ProcessPath(s: Store, t: Totals, key: FullKey, path: string) returns (s': Store, t': Totals)
    ensures s' == Upload(s, key, path).0
    ensures t' == Tally(t, Upload(s, key, path).1)
  {
    s', t' := s, t;
    if key in s'.paths {
      t' := t'.(existPaths := t'.existPaths + 1);
      if s'.paths[key].path.None? {
        s' := s'.(paths := s'.paths[key := s'.paths[key].(path := Some(path))]);
        t' := t'.(newPaths := t'.newPaths + 1);
      }
      return;
    }
    var r1 := if key.File() in s'.index1 then Some(s'.index1[key.File()]) else None;
    var r2 := if key.Hash() in s'.index2 then Some(s'.index2[key.Hash()]) else None;
    assert (r1, r2) == StagedRows(s, key);
    if r1.None? && r2.None? {
      return;
    }
    t' := t'.(existPaths := t'.existPaths + 1);
    if r1.Some? {
      t' := t'.(wasInIndex1 := true);
      s' := s'.(index1 := s'.index1 - {key.File()});
    }
    if r2.Some? {
      t' := t'.(wasInIndex2 := true);
      s' := s'.(index2 := s'.index2 - {key.Hash()});
    }
    s' := s'.(paths := s'.paths[key := Confirmed(Some(path), StagedRange(r1, r2).value)]);
    t' := t'.(newPaths := t'.newPaths + 1);
    assert s' == PromoteRow(s, key, path, r1, r2);
  }

  class PathDbService {
    /** The database as last saved. */
    var db: Store

    constructor (s: Store)
      ensures db == s
    {
      db := s;
    }

    /** `ProcessInternal(ref totals, data, isPost)`: the loop over the uploaded paths with its
        running counters, added into `totals` at the end. */
    method ProcessInternal(totals: Totals, data: seq<string>, h: Hashing) returns (totals': Totals)
      modifies this
      ensures db == Run(old(db), h, data).0
      ensures totals' == Accumulate(totals, Run(old(db), h, data).1)
    {
      var running := NoTotals;
      var store := db;
      for n := 0 to |data|
        invariant db == old(db)
        invariant (store, running) == Run(db, h, data[..n])
      {
        assert data[..n + 1][..n] == data[..n];
        store, running := ProcessPath(store, running, KeyFor(h, data[n]), data[n]);
      }
      assert data[..|data|] == data;
      db := store;
      totals' := Totals(totals.existPaths + running.existPaths, totals.newPaths + running.newPaths,
                        totals.postProcessed, totals.wasInIndex1 || running.wasInIndex1,
                        totals.wasInIndex2 || running.wasInIndex2);
    }

    /** `ProcessDataAsync(data)`: processes and saves only under the lock; the result is true
        exactly when the lock was taken and the save went through. `saves` stands for
        `SaveChangesAsync` completing without an exception. */
    method ProcessDataAsync(data: seq<string>, h: Hashing, lockAcquired: bool, saves: bool) returns (success: bool)
      modifies this
      ensures success <==> lockAcquired && saves
      ensures db == if success then Run(old(db), h, data).0 else old(db)
    {
      success := false;
      if lockAcquired {
        var before := db;
        var _ := ProcessInternal(NoTotals, data, h);
        if saves {
          success := true;
        } else {
          db := before;
        }
      }
    }
  }

  // ---- `GetStatsAsync` ----

  /** `IndexStats`. */
  datatype IndexStats = IndexStats(totalPaths: nat, paths: nat)

  /** The confirmed keys of one index, and those of them with a name. */
  function KeysOf(s: Store, i: u32): set<FullKey> {
    set k | k in s.paths && k.indexId == i
  }

  function NamedOf(s: Store, i: u32): set<FullKey> {
    set k | k in s.paths && k.indexId == i && s.paths[k].path.Some?
  }

  /** `Totals`: per index id with confirmed rows, their number and the number with a name. */
  function StatsTotals(s: Store): map<u32, IndexStats> {
    map i | i in (set k | k in s.paths :: k.indexId) :: IndexStats(|KeysOf(s, i)|, |NamedOf(s, i)|)
  }

  /** A row is current when its LastSeen has the Id of its index's latest version. */
  predicate Current(s: Store, k: FullKey)
    requires k in s.paths
  {
    k.indexId in s.latestIndexes && s.paths[k].seen.last.id == s.latestIndexes[k.indexId].id
  }

  function CurrentOf(s: Store, i: u32): set<FullKey> {
    set k | k in s.paths && k.indexId == i && Current(s, k)
  }

  function NamedCurrentOf(s: Store, i: u32): set<FullKey> {
    set k | k in s.paths && k.indexId == i && Current(s, k) && s.paths[k].path.Some?
  }

  /** `Possible`: the same counts over the current rows only. */
  function StatsPossible(s: Store): map<u32, IndexStats> {
    map i | i in (set k | k in s.paths && Current(s, k) :: k.indexId) ::
      IndexStats(|CurrentOf(s, i)|, |NamedCurrentOf(s, i)|)
  }

  /** Totals: an index appears exactly when it has a confirmed row, and its named count never
      exceeds its row count. */
  lemma TotalsBounded(s: Store, i: u32)
    ensures i in StatsTotals(s) <==> exists k | k in s.paths :: k.indexId == i
    ensures i in StatsTotals(s) ==> 1 <= StatsTotals(s)[i].totalPaths && StatsTotals(s)[i].paths <= StatsTotals(s)[i].totalPaths
  {
    if i in StatsTotals(s) {
      var k :| k in s.paths && k.indexId == i;
      assert k in KeysOf(s, i);
      SubsetSize(NamedOf(s, i), KeysOf(s, i));
    }
  }

  /** Possible: an index appears exactly when it has a current row, and its counts are bounded
      by the totals of the same index. */
  lemma PossibleBounded(s: Store, i: u32)
    ensures i in StatsPossible(s) <==> exists k | k in s.paths :: k.indexId == i && Current(s, k)
    ensures i in StatsPossible(s) ==>
      (&& i in StatsTotals(s)
       && StatsPossible(s)[i].paths <= StatsPossible(s)[i].totalPaths <= StatsTotals(s)[i].totalPaths
       && StatsPossible(s)[i].paths <= StatsTotals(s)[i].paths)
  {
    if i in StatsPossible(s) {
      var k :| k in s.paths && k.indexId == i && Current(s, k);
      assert k.indexId in (set k | k in s.paths :: k.indexId);
      SubsetSize(NamedCurrentOf(s, i), CurrentOf(s, i));
      SubsetSize(CurrentOf(s, i), KeysOf(s, i));
      SubsetSize(NamedCurrentOf(s, i), NamedOf(s, i));
    }
  }
}

=== FILE: path_entry.dfy ===
/** ResLogger2.Common/ServerDatabase/Model/PathEntry.cs: a confirmed catalog row. Its identity
    for hashing containers is the three hashes alone. */
module PathEntries {
  import opened Base
  import opened GameVersions
  import opened Entries

  /** `PathEntry`: the inherited `Entry` fields, the three hashes and an optional path. */
  datatype PathEntry = PathEntry(
    indexId: u32,
    folderHash: u32,
    fileHash: u32,
    fullHash: u32,
    path: Option<string>,
    seen: Seen)

  /** `Equals`: FolderHash, FileHash and FullHash all match; nothing else is looked at. */
  predicate Equals(a: PathEntry, b: PathEntry) {
    a.folderHash == b.folderHash && a.fileHash == b.fileHash && a.fullHash == b.fullHash
  }

  /** `GetHashCode`: `HashCode.Combine` of the three hashes. The combiner is randomly seeded
      per process, so it is a parameter here. */
  function GetHashCode(e: PathEntry, combine: (u32, u32, u32) -> int): int {
    combine(e.folderHash, e.fileHash, e.fullHash)
  }

  /** Equality ignores IndexId, Path and the seen range. */
  lemma EqualsIgnoresPayload(a: PathEntry, b: PathEntry, indexId: u32, path: Option<string>, seen: Seen)
    ensures Equals(a, b) <==> Equals(a.(indexId := indexId, path := path, seen := seen), b)
    ensures Equals(a, b) <==> a.folderHash == b.folderHash && a.fileHash == b.fileHash && a.fullHash == b.fullHash
  {
  }

  /** `Equals` is an equivalence relation. */
  lemma EqualsEquivalence(a: PathEntry, b: PathEntry, c: PathEntry)
    ensures Equals(a, a)
    ensures Equals(a, b) ==> Equals(b, a)
    ensures Equals(a, b) && Equals(b, c) ==> Equals(a, c)
  {
  }

  /** Equal entries hash alike, whatever the combiner. */
  lemma EqualsHashAlike(a: PathEntry, b: PathEntry, combine: (u32, u32, u32) -> int)
    requires Equals(a, b)
    ensures GetHashCode(a, combine) == GetHashCode(b, combine)
  {
  }

  /** Attaching a path or widening the range keeps the entry equal to itself and its hash
      unchanged, so it stays findable in a hash set that already holds it. */
  lemma MutationKeepsIdentity(e: PathEntry, path: Option<string>, gv: GameVersion,
                              combine: (u32, u32, u32) -> int)
    ensures Equals(e, e.(path := path, seen := Widen(e.seen, gv)))
    ensures GetHashCode(e.(path := path, seen := Widen(e.seen, gv)), combine) == GetHashCode(e, combine)
  {
  }
}

=== FILE: path_post_processor.dfy ===
/** ResLogger2.Plugin/PathPostProcessor.cs: from one game path, guess related paths (other
    races, languages, texture kinds, equipment slots, the other gender, the high-resolution UI
    twin) and repeat on the guesses until a pass adds nothing new. */
module PostProcessors {
  import opened Base
  import opened Strings

  const CharaIds: seq<string> := [
    "c0101", "c0201", "c0104", "c0204", "c0301", "c0401", "c0501", "c0601", "c0504", "c0604",
    "c0701", "c0801", "c0704", "c0804", "c0901", "c1001", "c1101", "c1201", "c1301", "c1401",
    "c1304", "c1404", "c1501", "c1601", "c1701", "c1801"]
  const LocIds: seq<string> := ["_en.", "_fr.", "_de.", "_ja."]
  const LocIds2: seq<string> := ["/en/", "/fr/", "/de/", "/ja/"]
  const TexSuffix: seq<string> := ["_m.tex", "_n.tex", "_d.tex", "_s.tex"]
  const EquipType: seq<string> := ["_met", "_top", "_glv", "_dwn", "_sho"]
  const AccType: seq<string> := ["_ear", "_nek", "_wrs", "_ril", "_rir"]
  const GenM: string := "_m_"
  const GenF: string := "_f_"

  // ---- the character-id pattern `c\d{4}(\D)` ----

  /** A match of the pattern starts at `i`: 'c', four digits, then a non-digit. */
  predicate CharaAt(s: string, i: nat) {
    i + 6 <= |s| && s[i] == 'c' && AllDigits(s[i + 1..i + 5]) && !IsDigit(s[i + 5])
  }

  predicate CharaMatches(s: string) {
    exists i: nat | i + 6 <= |s| :: CharaAt(s, i)
  }

  /** `Regex.Replace(s, id + "$1")` / `re.sub`: every match, scanned from the left without
      overlap, becomes `id` followed by the captured non-digit. */
  function CharaReplace(s: string, id: string): (r: string)
    ensures !CharaMatches(s) ==> r == s
    decreases |s|
  {
    if |s| < 6 then s
    else if CharaAt(s, 0) then id + [s[5]] + CharaReplace(s[6..], id)
    else
      assert CharaMatches(s[1..]) ==> CharaMatches(s) by {
        if CharaMatches(s[1..]) {
          var i: nat :| i + 6 <= |s[1..]| && CharaAt(s[1..], i);
          assert s[1..][i + 1..i + 5] == s[i + 2..i + 6];
          assert CharaAt(s, i + 1);
        }
      }
      [s[0]] + CharaReplace(s[1..], id)
  }

  // ---- replacements from a list ----

  /** `elements.FirstOrDefault(path.Contains)`: the first element the path contains. */
  function FirstContained(path: string, elements: seq<string>): (r: Option<string>)
    ensures r.Some? ==> r.value in elements && Contains(path, r.value)
    ensures r.None? ==> forall e | e in elements :: !Contains(path, e)
    ensures r.Some? ==> exists i | 0 <= i < |elements| ::
      (elements[i] == r.value && forall j | 0 <= j < i :: !Contains(path, elements[j]))
  {
    if elements == [] then None
    else if Contains(path, elements[0]) then Some(elements[0])
    else
      var r := FirstContained(path, elements[1..]);
      if r.Some? then
        var i :| 0 <= i < |elements[1..]| && elements[1..][i] == r.value
          && forall j | 0 <= j < i :: !Contains(path, elements[1..][j]);
        assert elements[i + 1] == r.value;
        assert forall j | 0 <= j < i + 1 :: !Contains(path, elements[j]) by {
          forall j | 0 <= j < i + 1 ensures !Contains(path, elements[j]) {
            if j > 0 {
              assert elements[j] == elements[1..][j - 1];
            }
          }
        }
        r
      else r
  }

  /** The path with `ours` replaced by each element of `es` other than `ours`. */
  function ReplacedBy(path: string, ours: string, es: seq<string>): set<string>
    requires ours != ""
  {
    if es == [] then {}
    else
      var e := es[|es| - 1];
      ReplacedBy(path, ours, es[..|es| - 1]) + (if e != ours then {ReplaceAll(path, ours, e)} else {})
  }

  /** What `AddReplacementsFromList` adds. */
  function Replacements(path: string, elements: seq<string>): set<string>
    requires "" !in elements
  {
    match FirstContained(path, elements)
    case None => {}
    case Some(ours) => ReplacedBy(path, ours, elements)
  }

  lemma {:induction false} ReplacedByAre(path: string, ours: string, es: seq<string>, v: string)
    requires ours != ""
    ensures v in ReplacedBy(path, ours, es) <==> exists e | e in es && e != ours :: v == ReplaceAll(path, ours, e)
  {
    if es != [] {
      var init, e := es[..|es| - 1], es[|es| - 1];
      ReplacedByAre(path, ours, init, v);
      assert es == init + [e];
      if v in ReplacedBy(path, ours, es) && v !in ReplacedBy(path, ours, init) {
        assert e in es && e != ours && v == ReplaceAll(path, ours, e);
      }
      if exists e' | e' in es && e' != ours :: v == ReplaceAll(path, ours, e') {
        var e' :| e' in es && e' != ours && v == ReplaceAll(path, ours, e');
        if e' != e {
          assert e' in init;
        }
      }
    }
  }

  /** Nothing is added when no element occurs; otherwise exactly the path with the first
      contained element replaced by each other element. */
  lemma ReplacementsAre(path: string, elements: seq<string>, v: string)
    requires "" !in elements
    ensures FirstContained(path, elements).None? ==> v !in Replacements(path, elements)
    ensures FirstContained(path, elements).Some? ==> (v in Replacements(path, elements) <==>
      exists e | e in elements && e != FirstContained(path, elements).value ::
        v == ReplaceAll(path, FirstContained(path, elements).value, e))
  {
    if FirstContained(path, elements).Some? {
      ReplacedByAre(path, FirstContained(path, elements).value, elements, v);
    }
  }

  /** `AddReplacementsFromList`: adds those replacements to `staging`. */
  method AddReplacementsFromList(path: string, elements: seq<string>, staging: set<string>)
    returns (staging': set<string>)
    requires "" !in elements
    ensures staging' == staging + Replacements(path, elements)
  {
    staging' := staging;
    var ours := FirstContained(path, elements);
    if ours.None? {
      return;
    }
    for k := 0 to |elements|
      invariant staging' == staging + ReplacedBy(path, ours.value, elements[..k])
    {
      assert elements[..k + 1][..k] == elements[..k];
      if elements[k] != ours.value {
        staging' := staging' + {ReplaceAll(path, ours.value, elements[k])};
      }
    }
    assert elements[..|elements|] == elements;
  }

  // ---- one path's guesses ----

  /** The character-id guesses: one per id when the pattern occurs. */
  function CharaVariants(path: string): set<string> {
    if CharaMatches(path) then CharaEach(path, CharaIds) else {}
  }

  /** The path rewritten with each id of `ids`. */
  function CharaEach(path: string, ids: seq<string>): set<string> {
    if ids == [] then {} else CharaEach(path, ids[..|ids| - 1]) + {CharaReplace(path, ids[|ids| - 1])}
  }

  /** One guess per character id when the pattern occurs, none otherwise. */
  lemma {:induction false} CharaEachAre(path: string, ids: seq<string>, v: string)
    ensures v in CharaEach(path, ids) <==> exists id | id in ids :: v == CharaReplace(path, id)
  {
    if ids != [] {
      var init := ids[..|ids| - 1];
      var id := ids[|ids| - 1];
      CharaEachAre(path, init, v);
      assert ids == init + [id];
      if exists id' | id' in ids :: v == CharaReplace(path, id') {
        var id' :| id' in ids && v == CharaReplace(path, id');
        if id' != id {
          assert id' in init;
        }
      }
    }
  }

  /** The high-resolution UI twin of a `ui/….tex` path. */
  function UiVariants(path: string): (r: set<string>)
    ensures !(StartsWith(path, "ui/") && EndsWith(path, ".tex")) ==> r == {}
    ensures StartsWith(path, "ui/") && EndsWith(path, "_hr1.tex") ==> r == {ReplaceAll(path, "_hr1", "")}
    ensures StartsWith(path, "ui/") && EndsWith(path, ".tex") && !EndsWith(path, "_hr1.tex") ==>
      r == {ReplaceAll(path, ".tex", "_hr1.tex")}
  {
    if StartsWith(path, "ui/") && EndsWith(path, ".tex") then
      if EndsWith(path, "_hr1.tex") then {ReplaceAll(path, "_hr1", "")}
      else {ReplaceAll(path, ".tex", "_hr1.tex")}
    else
      assert EndsWith(path, "_hr1.tex") ==> EndsWith(path, ".tex") by {
        if EndsWith(path, "_hr1.tex") {
          assert path[|path| - 4..] == path[|path| - 8..][4..];
        }
      }
      {}
  }

  /** The other gender: "_m_" takes precedence over "_f_". */
  function GenderVariants(path: string): (r: set<string>)
    ensures Contains(path, GenM) ==> r == {ReplaceAll(path, GenM, GenF)}
    ensures !Contains(path, GenM) && Contains(path, GenF) ==> r == {ReplaceAll(path, GenF, GenM)}
    ensures !Contains(path, GenM) && !Contains(path, GenF) ==> r == {}
  {
    if Contains(path, GenM) then {ReplaceAll(path, GenM, GenF)}
    else if Contains(path, GenF) then {ReplaceAll(path, GenF, GenM)}
    else {}
  }

  /** Everything one path contributes to a pass. */
  function Variants(path: string): set<string> {
    PatternVariants(path) + ListVariants(path)
  }

  /** Everything `f` gives for some element of `paths`. */
  function Gathered(paths: set<string>, f: string -> set<string>): set<string> {
    set q, v | q in paths && v in f(q) :: v
  }

  lemma GatheredAdd(done: set<string>, p: string, f: string -> set<string>)
    ensures Gathered(done + {p}, f) == Gathered(done, f) + f(p)
  {
    var l, r := Gathered(done + {p}, f), Gathered(done, f) + f(p);
    forall v | v in l ensures v in r {
      var q :| q in done + {p} && v in f(q);
    }
    forall v | v in r ensures v in l {
      if v !in f(p) {
        var q :| q in done && v in f(q);
      }
    }
  }

  /** Adding one more path's guesses to what the visited paths gave. */
  lemma GatheredGrows(paths: set<string>, rest: set<string>, p: string, f: string -> set<string>,
                      before: set<string>, after: set<string>)
    requires p in rest && rest <= paths && before == Gathered(paths - rest, f) && after == before + f(p)
    ensures after == Gathered(paths - (rest - {p}), f)
  {
    GatheredAdd(paths - rest, p, f);
    assert paths - rest + {p} == paths - (rest - {p});
  }

  /** The staging set a pass over `paths` fills. */
  function Staged(paths: set<string>): set<string> {
    Gathered(paths, Variants)
  }

  /** The paths after one pass. */
  function Step(paths: set<string>): (r: set<string>)
    ensures paths <= r
  {
    paths + Staged(paths)
  }

  /** The character-id loop. */
  method AddCharaVariants(path: string, staging: set<string>) returns (staging': set<string>)
    ensures staging' == staging + CharaVariants(path)
  {
    staging' := staging;
    if CharaMatches(path) {
      for k := 0 to |CharaIds|
        invariant staging' == staging + CharaEach(path, CharaIds[..k])
      {
        assert CharaIds[..k + 1][..k] == CharaIds[..k];
        staging' := staging' + {CharaReplace(path, CharaIds[k])};
      }
      assert CharaIds[..|CharaIds|] == CharaIds;
    }
  }

  lemma ListsHaveNoEmptyElement()
    ensures "" !in LocIds && "" !in LocIds2 && "" !in TexSuffix && "" !in EquipType && "" !in AccType
  {
  }

  /** The first three rules' guesses. */
  function PatternVariants(path: string): set<string> {
    CharaVariants(path) + UiVariants(path) + GenderVariants(path)
  }

  /** The guesses from the five replacement lists. */
  function ListVariants(path: string): set<string> {
    ListsHaveNoEmptyElement();
    Replacements(path, LocIds) + Replacements(path, LocIds2) + Replacements(path, TexSuffix)
      + Replacements(path, EquipType) + Replacements(path, AccType)
  }

  /** The work of the loop body for one path. */
  method AddVariants(path: string, staging: set<string>) returns (staging': set<string>)
    ensures staging' == staging + Variants(path)
  {
    staging' := AddPatternVariants(path, staging);
    staging' := AddListVariants(path, staging');
  }

  method AddPatternVariants(path: string, staging: set<string>) returns (staging': set<string>)
    ensures staging' == staging + PatternVariants(path)
  {
    staging' := AddCharaVariants(path, staging);
    if StartsWith(path, "ui/") && EndsWith(path, ".tex") {
      if EndsWith(path, "_hr1.tex") {
        staging' := staging' + {ReplaceAll(path, "_hr1", "")};
      } else {
        staging' := staging' + {ReplaceAll(path, ".tex", "_hr1.tex")};
      }
    }
    if Contains(path, GenM) {
      staging' := staging' + {ReplaceAll(path, GenM, GenF)};
    } else if Contains(path, GenF) {
      staging' := staging' + {ReplaceAll(path, GenF, GenM)};
    }
  }

  method AddListVariants(path: string, staging: set<string>) returns (staging': set<string>)
    ensures staging' == staging + ListVariants(path)
  {
    ListsHaveNoEmptyElement();
    staging' := AddReplacementsFromList(path, LocIds, staging);
    staging' := AddReplacementsFromList(path, LocIds2, staging');
    staging' := AddReplacementsFromList(path, TexSuffix, staging');
    staging' := AddReplacementsFromList(path, EquipType, staging');
    staging' := AddReplacementsFromList(path, AccType, staging');
  }

  /** `PostProcessInternal(ref paths, ref staging)`: the staging set is cleared, refilled from
      every path, then merged into the paths. */
  method PostProcessInternal(paths: set<string>, staging: set<string>) returns (paths': set<string>, staging': set<string>)
    ensures staging' == Staged(paths)
    ensures paths' == Step(paths)
  {
    staging' := {};
    var rest := paths;
    while rest != {}
      invariant rest <= paths
      invariant staging' == Gathered(paths - rest, Variants)
    {
      var path :| path in rest;
      ghost var before := staging';
      staging' := AddVariants(path, staging');
      GatheredGrows(paths, rest, path, Variants, before, staging');
      rest := rest - {path};
    }
    paths' := paths + staging';
  }

  /** At the fixpoint every guess from every path is already a path. */
  lemma FixpointClosed(paths: set<string>, p: string, v: string)
    requires Step(paths) == paths && p in paths && v in Variants(p)
    ensures v in paths
  {
    assert v in Gathered(paths, Variants);
  }

  /** `PostProcess`: passes repeat until one leaves the count unchanged. The source loops without
      bound; here at most `fuel + 1` passes run, and `converged` says whether the fixpoint was
      reached. */
  method PostProcess(path: string, fuel: nat) returns (paths: set<string>, converged: bool)
    ensures path in paths
    ensures converged ==> Step(paths) == paths
  {
    paths := {path};
    var staging: set<string> := {};
    var left := fuel;
    while true
      invariant path in paths
      decreases left
    {
      var pre := |paths|;
      var old_paths := paths;
      paths, staging := PostProcessInternal(paths, staging);
      if |paths| == pre {
        SameSizeSuperset(old_paths, paths);
        return paths, true;
      }
      if left == 0 {
        return paths, false;
      }
      left := left - 1;
    }
  }
}

=== FILE: postprocess_py.dfy ===
/** ResLogger2.Web/services/web/project/postprocess.py: the server's port of the path
    post-processor. It keeps the character-id, high-resolution UI, language, texture-kind,
    equipment-slot and gender rules, lists the languages in a different order, has no
    language-folder and accessory rules, and tests the UI rule with `endswith("tex")`. */
module PyPostProcess {
  import opened Base
  import opened Strings
  import opened PostProcessors

  /** `loc_ids`: the same languages as the plugin's list, with German before French. */
  const PyLocIds: seq<string> := ["_en.", "_de.", "_fr.", "_ja."]

  /** The UI rule: a `ui/` path ending in "tex" (with or without the dot). */
  function PyUiVariants(path: string): (r: set<string>)
    ensures !(StartsWith(path, "ui/") && EndsWith(path, "tex")) ==> r == {}
    ensures StartsWith(path, "ui/") && EndsWith(path, "_hr1.tex") ==> r == {ReplaceAll(path, "_hr1", "")}
    ensures StartsWith(path, "ui/") && EndsWith(path, "tex") && !EndsWith(path, "_hr1.tex") ==>
      r == {ReplaceAll(path, ".tex", "_hr1.tex")}
  {
    if StartsWith(path, "ui/") && EndsWith(path, "tex") then
      if EndsWith(path, "_hr1.tex") then {ReplaceAll(path, "_hr1", "")}
      else {ReplaceAll(path, ".tex", "_hr1.tex")}
    else
      assert EndsWith(path, "_hr1.tex") ==> EndsWith(path, "tex") by {
        if EndsWith(path, "_hr1.tex") {
          assert path[|path| - 3..] == path[|path| - 8..][5..];
        }
      }
      {}
  }

  /** Everything one path contributes to a pass of `postprocess_internal`. */
  function PyVariants(path: string): set<string> {
    CharaVariants(path) + PyUiVariants(path) + SwapVariants(path) + GenderVariants(path)
  }

  /** The language, texture-kind and equipment-slot swaps. */
  function SwapVariants(path: string): set<string> {
    ListsNonEmpty();
    Replacements(path, PyLocIds) + Replacements(path, TexSuffix) + Replacements(path, EquipType)
  }

  lemma ListsNonEmpty()
    ensures "" !in PyLocIds && "" !in TexSuffix && "" !in EquipType
  {
    ListsHaveNoEmptyElement();
  }

  /** The paths after one pass of `postprocess_internal`. */
  function PyStep(paths: set<string>): (r: set<string>)
    ensures paths <= r
  {
    paths + Gathered(paths, PyVariants)
  }

  /** The `for loc_id in loc_ids: if loc_id in path: loc = loc_id; break` search. */
  method FindFirst(path: string, elements: seq<string>) returns (found: Option<string>)
    ensures found == FirstContained(path, elements)
  {
    found := None;
    var k := 0;
    while k < |elements|
      invariant k <= |elements|
      invariant FirstContained(path, elements) == FirstContained(path, elements[k..])
    {
      assert elements[k..][1..] == elements[k + 1..];
      if Contains(path, elements[k]) {
        found := Some(elements[k]);
        return;
      }
      k := k + 1;
    }
  }

  /** One of the three search-then-swap blocks: the first contained element, if any, is
      replaced by each other element. */
  method SwapFirst(path: string, elements: seq<string>, staging: set<string>)
    returns (staging': set<string>)
    requires "" !in elements
    ensures staging' == staging + Replacements(path, elements)
  {
    staging' := staging;
    var ours := FindFirst(path, elements);
    if ours.Some? {
      for k := 0 to |elements|
        invariant staging' == staging + ReplacedBy(path, ours.value, elements[..k])
      {
        assert elements[..k + 1][..k] == elements[..k];
        if elements[k] != ours.value {
          staging' := staging' + {ReplaceAll(path, ours.value, elements[k])};
        }
      }
      assert elements[..|elements|] == elements;
    }
  }

  /** The three search-then-swap blocks in a row. */
  method AddSwaps(path: string, staging: set<string>) returns (staging': set<string>)
    ensures staging' == staging + SwapVariants(path)
  {
    ListsNonEmpty();
    staging' := SwapFirst(path, PyLocIds, staging);
    staging' := SwapFirst(path, TexSuffix, staging');
    staging' := SwapFirst(path, EquipType, staging');
  }

  /** The body of the `for path in paths` loop. */
  method AddPyVariants(path: string, staging: set<string>) returns (staging': set<string>)
    ensures staging' == staging + PyVariants(path)
  {
    ListsNonEmpty();
    staging' := AddCharaVariants(path, staging);
    if StartsWith(path, "ui/") && EndsWith(path, "tex") {
      if EndsWith(path, "_hr1.tex") {
        staging' := staging' + {ReplaceAll(path, "_hr1", "")};
      } else {
        staging' := staging' + {ReplaceAll(path, ".tex", "_hr1.tex")};
      }
    }
    staging' := AddSwaps(path, staging');
    if Contains(path, GenM) {
      staging' := staging' + {ReplaceAll(path, GenM, GenF)};
    } else if Contains(path, GenF) {
      staging' := staging' + {ReplaceAll(path, GenF, GenM)};
    }
  }

  /** `postprocess_internal(paths)`: a fresh staging set filled from every path, returned
      merged with the paths. */
  method PostprocessInternal(paths: set<string>) returns (r: set<string>)
    ensures r == PyStep(paths)
  {
    var staging: set<string> := {};
    var rest := paths;
    while rest != {}
      invariant rest <= paths
      invariant staging == Gathered(paths - rest, PyVariants)
    {
      var path :| path in rest;
      ghost var before := staging;
      staging := AddPyVariants(path, staging);
      GatheredGrows(paths, rest, path, PyVariants, before, staging);
      rest := rest - {path};
    }
    r := paths + staging;
  }

  /** `postprocess(paths)`: passes repeat until one leaves the size unchanged. The source loops
      without bound; here at most `fuel + 1` passes run, and `converged` says whether the
      fixpoint was reached. */
  method Postprocess(paths: set<string>, fuel: nat) returns (r: set<string>, converged: bool)
    ensures paths <= r
    ensures converged ==> PyStep(r) == r
  {
    r := paths;
    var left := fuel;
    while true
      invariant paths <= r
      decreases left
    {
      var presize := |r|;
      var before := r;
      var next := PostprocessInternal(r);
      r := r + next;
      if |r| == presize {
        SameSizeSuperset(before, r);
        return r, true;
      }
      if left == 0 {
        return r, false;
      }
      left := left - 1;
    }
  }

  /** At the fixpoint every guess from every path is already a path. */
  lemma PyFixpointClosed(paths: set<string>, p: string, v: string)
    requires PyStep(paths) == paths && p in paths && v in PyVariants(p)
    ensures v in paths
  {
    assert v in Gathered(paths, PyVariants);
  }

  /** On paths ending in ".tex", or not ending in "tex" at all, the two UI rules agree. */
  lemma UiRulesAgree(path: string)
    requires EndsWith(path, ".tex") || !EndsWith(path, "tex")
    ensures PyUiVariants(path) == UiVariants(path)
  {
    if EndsWith(path, ".tex") {
      assert path[|path| - 3..] == path[|path| - 4..][1..];
    }
  }

  /** "ui/atex" ends in "tex" but not ".tex": the plugin adds nothing for it, while the port
      adds the path itself, since it holds no ".tex" to replace. */
  lemma UiRuleLooser()
    ensures UiVariants("ui/atex") == {}
    ensures PyUiVariants("ui/atex") == {"ui/atex"}
  {
    var p := "ui/atex";
    assert p[|p| - 4..] == "atex";
    assert p[|p| - 3..] == "tex";
    assert p[..3] == "ui/";
    forall i | 0 <= i <= |p| - 4 ensures !OccursAt(p, ".tex", i) {
      assert p[i] != '.';
    }
  }

  /** The language rule follows each list's own order: for a path holding both "_fr." and
      "_de.", the plugin swaps out "_fr." and the port "_de.". */
  lemma LanguageOrderDiffers()
    ensures FirstContained("a_fr._de.", LocIds) == Some("_fr.")
    ensures FirstContained("a_fr._de.", PyLocIds) == Some("_de.")
  {
    var p := "a_fr._de.";
    assert p[1..5] == "_fr." && p[5..9] == "_de.";
    assert OccursAt(p, "_fr.", 1) && OccursAt(p, "_de.", 5);
    forall i | 0 <= i <= |p| - 4 ensures !OccursAt(p, "_en.", i) {
      assert p[i..i + 4][0] == p[i] && p[i..i + 4][1] == p[i + 1];
    }
    assert Contains(p, "_fr.") && Contains(p, "_de.");
    assert !Contains(p, "_en.");
  }
}

=== FILE: server_agreement.dfy ===
/** ResLogger2.Common/ServerDatabase/ServerHashDatabase.cs has two ways to apply a holder:
    `ProcessInMemory` records each index's latest version before that segment's observations,
    `Process` after them. The observations never read or write that table, so both orders end
    in the same catalog. The database path is modelled on tables that read their own unsaved
    writes; Entity Framework queries do not, so where two observations of one segment meet the
    same staging row the database path of the source can differ. */
module ServerAgreement {
  import opened Base
  import opened GameVersions
  import opened Entries
  import opened PathEntries
  import opened Caches
  import opened Tables
  import opened CompositeIndex
  import opened PatchIndexHolders
  import opened ServerSteps

  /** The latest-index table once `id` is raised to at least `gv`. */
  function RaisedTo(m: map<u32, GameVersion>, id: u32, gv: GameVersion): (r: map<u32, GameVersion>)
    ensures id in r && Ge(r[id], gv)
    ensures id in m ==> Ge(r[id], m[id])
    ensures forall i | i in m && i != id :: i in r && r[i] == m[i]
  {
    if id in m && !Lt(m[id], gv) then m else m[id := gv]
  }

  /** `c` with its latest-index table replaced. */
  function WithIndexes(c: Cache, m: map<u32, GameVersion>): (r: Cache)
    ensures r.heap == c.heap && r.byFolder == c.byFolder && r.leafOrder == c.leafOrder && r.byFull == c.byFull
    ensures r.latestIndexes == m
  {
    c.(latestIndexes := m)
  }

  lemma WithIndexesValid(c: Cache, m: map<u32, GameVersion>)
    requires c.Valid()
    ensures WithIndexes(c, m).Valid()
  {
    SameRowsValid(c, WithIndexes(c, m));
  }

  // Each update the steps are made of commutes with replacing the latest-index table.

  lemma SetPathIgnoresIndexes(c: Cache, ref: Ref, path: Option<string>, m: map<u32, GameVersion>)
    requires ref < |c.heap|
    ensures WithIndexes(c, m).SetPath(ref, path) == WithIndexes(c.SetPath(ref, path), m)
  {
  }

  lemma SetSeenIgnoresIndexes(c: Cache, ref: Ref, seen: Seen, m: map<u32, GameVersion>)
    requires ref < |c.heap|
    ensures WithIndexes(c, m).SetSeen(ref, seen) == WithIndexes(c.SetSeen(ref, seen), m)
  {
  }

  /** Staging only touches its own table. */
  lemma Stage1Exactly(c: Cache, f: FileKey, gv: GameVersion)
    ensures Stage1(c, f, gv) == c.(index1 := c.index1[f := if f in c.index1 then Widen(c.index1[f], gv) else Seen(gv, gv)])
  {
    if f in c.index1 {
      assert c.FindIndex1(f).value.Key() == f;
    } else {
      assert Index1Row(f.indexId, f.folderHash, f.fileHash, Seen(gv, gv)).Key() == f;
    }
  }

  lemma Stage2Exactly(c: Cache, h: HashKey, gv: GameVersion)
    ensures Stage2(c, h, gv) == c.(index2 := c.index2[h := if h in c.index2 then Widen(c.index2[h], gv) else Seen(gv, gv)])
  {
    if h in c.index2 {
      assert c.FindIndex2(h).value.Key() == h;
    } else {
      assert Index2Row(h.indexId, h.fullHash, Seen(gv, gv)).Key() == h;
    }
  }

  lemma Stage1IgnoresIndexes(c: Cache, f: FileKey, gv: GameVersion, m: map<u32, GameVersion>)
    ensures Stage1(WithIndexes(c, m), f, gv) == WithIndexes(Stage1(c, f, gv), m)
  {
    Stage1Exactly(c, f, gv);
    Stage1Exactly(WithIndexes(c, m), f, gv);
  }

  lemma Stage2IgnoresIndexes(c: Cache, h: HashKey, gv: GameVersion, m: map<u32, GameVersion>)
    ensures Stage2(WithIndexes(c, m), h, gv) == WithIndexes(Stage2(c, h, gv), m)
  {
    Stage2Exactly(c, h, gv);
    Stage2Exactly(WithIndexes(c, m), h, gv);
  }

  lemma PromoteIgnoresIndexes(c: Cache, id: u32, gv: GameVersion, e: CombinedEntry, m: map<u32, GameVersion>)
    ensures Promote(WithIndexes(c, m), id, gv, e) == WithIndexes(Promote(c, id, gv, e), m)
  {
    var k := CombinedKey(id, e);
    assert NewRow(WithIndexes(c, m), id, gv, e) == NewRow(c, id, gv, e);
    assert Unstaged(WithIndexes(c, m), k) == WithIndexes(Unstaged(c, k), m);
  }

  lemma ReconfirmIgnoresIndexes(c: Cache, ref: Ref, e: CombinedEntry, gv: GameVersion, m: map<u32, GameVersion>)
    requires c.Valid() && ref < |c.heap|
    ensures WithIndexes(c, m).Valid()
    ensures Reconfirm(WithIndexes(c, m), ref, e, gv) == WithIndexes(Reconfirm(c, ref, e, gv), m)
  {
    WithIndexesValid(c, m);
    var d := WithIndexes(c, m);
    var c1 := if c.heap[ref].path.None? && e.path.Some? then c.SetPath(ref, e.path) else c;
    SetPathIgnoresIndexes(c, ref, e.path, m);
    SetSeenIgnoresIndexes(c1, ref, Widen(c1.heap[ref].seen, gv), m);
  }

  lemma StepCombinedIgnoresIndexes(c: Cache, id: u32, gv: GameVersion, e: CombinedEntry, m: map<u32, GameVersion>)
    requires c.Valid()
    ensures WithIndexes(c, m).Valid()
    ensures StepCombined(WithIndexes(c, m), id, gv, e) == WithIndexes(StepCombined(c, id, gv, e), m)
  {
    WithIndexesValid(c, m);
    var k := CombinedKey(id, e);
    if k in c.byFolder {
      ReconfirmIgnoresIndexes(c, c.byFolder[k], e, gv, m);
    } else {
      PromoteIgnoresIndexes(c, id, gv, e, m);
    }
  }

  lemma StepIndex1IgnoresIndexes(c: Cache, id: u32, gv: GameVersion, e: Index1Entry, m: map<u32, GameVersion>)
    requires c.Valid()
    ensures WithIndexes(c, m).Valid()
    ensures StepIndex1(WithIndexes(c, m), id, gv, e) == WithIndexes(StepIndex1(c, id, gv, e), m)
  {
    WithIndexesValid(c, m);
    var f := FileKey(id, e.folderHash, e.fileHash);
    assert WithIndexes(c, m).FindPath3(f) == c.FindPath3(f);
    match c.FindPath3(f)
    case Some(ref) => SetSeenIgnoresIndexes(c, ref, Widen(c.heap[ref].seen, gv), m);
    case None => Stage1IgnoresIndexes(c, f, gv, m);
  }

  lemma StepIndex2IgnoresIndexes(c: Cache, id: u32, gv: GameVersion, e: Index2Entry, m: map<u32, GameVersion>)
    requires c.Valid()
    ensures WithIndexes(c, m).Valid()
    ensures StepIndex2(WithIndexes(c, m), id, gv, e) == WithIndexes(StepIndex2(c, id, gv, e), m)
  {
    WithIndexesValid(c, m);
    var h := HashKey(id, e.fullHash);
    match c.FindPath2(h)
    case Some(ref) => SetSeenIgnoresIndexes(c, ref, Widen(c.heap[ref].seen, gv), m);
    case None => Stage2IgnoresIndexes(c, h, gv, m);
  }

  lemma {:induction false} FoldCombinedIgnoresIndexes(c: Cache, id: u32, gv: GameVersion, es: seq<CombinedEntry>, m: map<u32, GameVersion>)
    requires c.Valid()
    ensures WithIndexes(c, m).Valid()
    ensures FoldCombined(WithIndexes(c, m), id, gv, es) == WithIndexes(FoldCombined(c, id, gv, es), m)
    decreases |es|
  {
    WithIndexesValid(c, m);
    if es != [] {
      StepCombinedIgnoresIndexes(c, id, gv, es[0], m);
      FoldCombinedIgnoresIndexes(StepCombined(c, id, gv, es[0]), id, gv, es[1..], m);
    }
  }

  lemma {:induction false} FoldIndex1IgnoresIndexes(c: Cache, id: u32, gv: GameVersion, es: seq<Index1Entry>, m: map<u32, GameVersion>)
    requires c.Valid()
    ensures WithIndexes(c, m).Valid()
    ensures FoldIndex1(WithIndexes(c, m), id, gv, es) == WithIndexes(FoldIndex1(c, id, gv, es), m)
    decreases |es|
  {
    WithIndexesValid(c, m);
    if es != [] {
      StepIndex1IgnoresIndexes(c, id, gv, es[0], m);
      FoldIndex1IgnoresIndexes(StepIndex1(c, id, gv, es[0]), id, gv, es[1..], m);
    }
  }

  lemma {:induction false} FoldIndex2IgnoresIndexes(c: Cache, id: u32, gv: GameVersion, es: seq<Index2Entry>, m: map<u32, GameVersion>)
    requires c.Valid()
    ensures WithIndexes(c, m).Valid()
    ensures FoldIndex2(WithIndexes(c, m), id, gv, es) == WithIndexes(FoldIndex2(c, id, gv, es), m)
    decreases |es|
  {
    WithIndexesValid(c, m);
    if es != [] {
      StepIndex2IgnoresIndexes(c, id, gv, es[0], m);
      FoldIndex2IgnoresIndexes(StepIndex2(c, id, gv, es[0]), id, gv, es[1..], m);
    }
  }

  /** A segment's observations neither read nor write the latest-index table. */
  lemma ObserveIgnoresIndexes(c: Cache, gv: GameVersion, s: SegmentData, m: map<u32, GameVersion>)
    requires c.Valid()
    ensures WithIndexes(c, m).Valid()
    ensures Observe(WithIndexes(c, m), gv, s) == WithIndexes(Observe(c, gv, s), m)
  {
    var id := s.indexId;
    var c1 := FoldCombined(c, id, gv, Values(s.entries.combined));
    var c2 := FoldIndex1(c1, id, gv, Values(s.entries.index1Entries));
    FoldCombinedIgnoresIndexes(c, id, gv, Values(s.entries.combined), m);
    FoldIndex1IgnoresIndexes(c1, id, gv, Values(s.entries.index1Entries), m);
    FoldIndex2IgnoresIndexes(c2, id, gv, Values(s.entries.index2Entries), m);
  }

  /** The latest-index step reads and writes nothing but its own table. */
  lemma LatestIndexExactly(c: Cache, id: u32, gv: GameVersion)
    ensures StepLatestIndex(c, id, gv) == WithIndexes(c, RaisedTo(c.latestIndexes, id, gv))
  {
  }

  /** Recording the index's version before or after a segment's observations gives the same
      catalog. */
  lemma LatestIndexCommutes(c: Cache, gv: GameVersion, s: SegmentData)
    requires c.Valid()
    ensures StepLatestIndex(Observe(c, gv, s), s.indexId, gv) == Observe(StepLatestIndex(c, s.indexId, gv), gv, s)
  {
    var o := Observe(c, gv, s);
    var m := RaisedTo(c.latestIndexes, s.indexId, gv);
    ObserveIgnoresIndexes(c, gv, s, m);
    LatestIndexExactly(c, s.indexId, gv);
    LatestIndexExactly(o, s.indexId, gv);
    assert o.latestIndexes == c.latestIndexes;
  }

  lemma {:induction false} SegmentsAgree(c: Cache, gv: GameVersion, ss: seq<SegmentData>)
    requires c.Valid()
    ensures ProcessedSegments(c, gv, ss) == InMemorySegments(c, gv, ss)
    decreases |ss|
  {
    if ss != [] {
      LatestIndexCommutes(c, gv, ss[0]);
      SegmentsAgree(Observe(StepLatestIndex(c, ss[0].indexId, gv), gv, ss[0]), gv, ss[1..]);
    }
  }

  /** `Process(holder)` and `ProcessInMemory(holder)` end in the same catalog, on tables that
      read their own unsaved writes. */
  lemma ProcessedAgrees(c: Cache, h: Holder)
    requires c.Valid()
    ensures Processed(c, h) == InMemory(c, h)
  {
    SegmentsAgree(StepLatestProcessed(c, h.repo, h.gameVersion), h.gameVersion, h.indexes);
  }
}

=== FILE: server_growth.dfy ===
/** The catalog only grows under ResLogger2.Common/ServerDatabase/ServerHashDatabase.cs: a
    confirmed key stays confirmed with the same row, a path once set is never replaced and a
    range only widens. From that, after one segment every combined key it carries is confirmed
    with a range covering the version, and after a holder every version it touched is at
    least the holder's. */
module ServerGrowth {
  import opened Base
  import opened GameVersions
  import opened Entries
  import opened PathEntries
  import opened Caches
  import opened Tables
  import opened CompositeIndex
  import opened PatchIndexHolders
  import opened ServerSteps
  import opened ServerLaws
  import opened ServerOutcomes

  /** `b` is the same row as `a`, later: same key, a path `a` had is kept, a wider range. */
  predicate Kept(a: PathEntry, b: PathEntry) {
    KeyOf(b) == KeyOf(a) && (a.path.Some? ==> b.path == a.path) && Within(a.seen, b.seen)
  }

  /** `d` is `c` later: no row lost, no key moved, every row kept. */
  ghost predicate Grows(c: Cache, d: Cache) {
    && |c.heap| <= |d.heap|
    && (forall k | k in c.byFolder :: k in d.byFolder && d.byFolder[k] == c.byFolder[k])
    && (forall j | 0 <= j < |c.heap| :: Kept(c.heap[j], d.heap[j]))
  }

  lemma KeptReflexive(a: PathEntry)
    ensures Kept(a, a)
  {
    WithinReflexive(a.seen);
  }

  lemma GrowsReflexive(c: Cache)
    ensures Grows(c, c)
  {
    forall j | 0 <= j < |c.heap| ensures Kept(c.heap[j], c.heap[j]) {
      KeptReflexive(c.heap[j]);
    }
  }

  lemma GrowsTransitive(a: Cache, b: Cache, c: Cache)
    requires Grows(a, b) && Grows(b, c)
    ensures Grows(a, c)
  {
    forall j | 0 <= j < |a.heap| ensures Kept(a.heap[j], c.heap[j]) {
      WithinTransitive(a.heap[j].seen, b.heap[j].seen, c.heap[j].seen);
    }
  }

  /** Rewriting one row in a way that keeps it, and nothing else. */
  lemma GrowsByOneRow(c: Cache, d: Cache, ref: Ref)
    requires ref < |c.heap| && |d.heap| == |c.heap| && d.byFolder == c.byFolder
    requires Kept(c.heap[ref], d.heap[ref])
    requires forall j | 0 <= j < |c.heap| && j != ref :: d.heap[j] == c.heap[j]
    ensures Grows(c, d)
  {
    forall j | 0 <= j < |c.heap| ensures Kept(c.heap[j], d.heap[j]) {
      if j != ref {
        KeptReflexive(c.heap[j]);
      }
    }
  }

  /** Leaving the rows and the key map alone. */
  lemma GrowsBySameRows(c: Cache, d: Cache)
    requires d.heap == c.heap && d.byFolder == c.byFolder
    ensures Grows(c, d)
  {
    GrowsReflexive(c);
  }

  lemma StepCombinedGrows(c: Cache, id: u32, gv: GameVersion, e: CombinedEntry)
    requires c.Valid()
    ensures Grows(c, StepCombined(c, id, gv, e))
  {
    var k, r := CombinedKey(id, e), StepCombined(c, id, gv, e);
    if k in c.byFolder {
      CombinedKnown(c, id, gv, e);
      GrowsByOneRow(c, r, c.byFolder[k]);
    } else {
      CombinedNew(c, id, gv, e);
      forall j | 0 <= j < |c.heap| ensures Kept(c.heap[j], r.heap[j]) {
        assert r.heap[j] == c.heap[j];
        KeptReflexive(c.heap[j]);
      }
    }
  }

  lemma StepIndex1Grows(c: Cache, id: u32, gv: GameVersion, e: Index1Entry)
    requires c.Valid()
    ensures Grows(c, StepIndex1(c, id, gv, e))
  {
    var f, r := FileKey(id, e.folderHash, e.fileHash), StepIndex1(c, id, gv, e);
    if exists k | k in c.byFolder :: k.File() == f {
      Index1Confirmed(c, id, gv, e);
      GrowsByOneRow(c, r, c.FindPath3(f).value);
    } else {
      Index1Staged(c, id, gv, e);
      GrowsBySameRows(c, r);
    }
  }

  lemma StepIndex2Grows(c: Cache, id: u32, gv: GameVersion, e: Index2Entry)
    requires c.Valid()
    ensures Grows(c, StepIndex2(c, id, gv, e))
  {
    var h, r := HashKey(id, e.fullHash), StepIndex2(c, id, gv, e);
    if h in c.byFull {
      Index2Confirmed(c, id, gv, e);
      GrowsByOneRow(c, r, c.byFull[h][0]);
    } else {
      Index2Staged(c, id, gv, e);
      GrowsBySameRows(c, r);
    }
  }

  lemma {:induction false} FoldCombinedGrows(c: Cache, id: u32, gv: GameVersion, es: seq<CombinedEntry>)
    requires c.Valid()
    ensures Grows(c, FoldCombined(c, id, gv, es))
    decreases |es|
  {
    if es == [] {
      GrowsReflexive(c);
    } else {
      var c1 := StepCombined(c, id, gv, es[0]);
      StepCombinedGrows(c, id, gv, es[0]);
      FoldCombinedGrows(c1, id, gv, es[1..]);
      GrowsTransitive(c, c1, FoldCombined(c1, id, gv, es[1..]));
    }
  }

  lemma {:induction false} FoldIndex1Grows(c: Cache, id: u32, gv: GameVersion, es: seq<Index1Entry>)
    requires c.Valid()
    ensures Grows(c, FoldIndex1(c, id, gv, es))
    decreases |es|
  {
    if es == [] {
      GrowsReflexive(c);
    } else {
      var c1 := StepIndex1(c, id, gv, es[0]);
      StepIndex1Grows(c, id, gv, es[0]);
      FoldIndex1Grows(c1, id, gv, es[1..]);
      GrowsTransitive(c, c1, FoldIndex1(c1, id, gv, es[1..]));
    }
  }

  lemma {:induction false} FoldIndex2Grows(c: Cache, id: u32, gv: GameVersion, es: seq<Index2Entry>)
    requires c.Valid()
    ensures Grows(c, FoldIndex2(c, id, gv, es))
    decreases |es|
  {
    if es == [] {
      GrowsReflexive(c);
    } else {
      var c1 := StepIndex2(c, id, gv, es[0]);
      StepIndex2Grows(c, id, gv, es[0]);
      FoldIndex2Grows(c1, id, gv, es[1..]);
      GrowsTransitive(c, c1, FoldIndex2(c1, id, gv, es[1..]));
    }
  }

  /** The Index1-only and Index2-only passes of a segment. */
  lemma StagingPassesGrow(c: Cache, gv: GameVersion, s: SegmentData)
    requires c.Valid()
    ensures var c2 := FoldIndex1(c, s.indexId, gv, Values(s.entries.index1Entries));
      Grows(c, FoldIndex2(c2, s.indexId, gv, Values(s.entries.index2Entries)))
  {
    var c2 := FoldIndex1(c, s.indexId, gv, Values(s.entries.index1Entries));
    FoldIndex1Grows(c, s.indexId, gv, Values(s.entries.index1Entries));
    FoldIndex2Grows(c2, s.indexId, gv, Values(s.entries.index2Entries));
    GrowsTransitive(c, c2, FoldIndex2(c2, s.indexId, gv, Values(s.entries.index2Entries)));
  }

  /** One segment's observations only grow the catalog. */
  lemma ObserveGrows(c: Cache, gv: GameVersion, s: SegmentData)
    requires c.Valid()
    ensures Grows(c, Observe(c, gv, s))
  {
    var c1 := FoldCombined(c, s.indexId, gv, Values(s.entries.combined));
    FoldCombinedGrows(c, s.indexId, gv, Values(s.entries.combined));
    StagingPassesGrow(c1, gv, s);
    GrowsTransitive(c, c1, Observe(c, gv, s));
  }

  lemma {:induction false} InMemorySegmentsGrow(c: Cache, gv: GameVersion, ss: seq<SegmentData>)
    requires c.Valid()
    ensures Grows(c, InMemorySegments(c, gv, ss))
    decreases |ss|
  {
    if ss == [] {
      GrowsReflexive(c);
    } else {
      var c1 := StepLatestIndex(c, ss[0].indexId, gv);
      var c2 := Observe(c1, gv, ss[0]);
      GrowsBySameRows(c, c1);
      ObserveGrows(c1, gv, ss[0]);
      GrowsTransitive(c, c1, c2);
      InMemorySegmentsGrow(c2, gv, ss[1..]);
      GrowsTransitive(c, c2, InMemorySegments(c2, gv, ss[1..]));
    }
  }

  /** `ProcessInMemory` never loses a confirmed row, never replaces a path and never narrows
      a range. */
  lemma InMemoryGrows(c: Cache, h: Holder)
    requires c.Valid()
    ensures Grows(c, InMemory(c, h))
  {
    var c1 := StepLatestProcessed(c, h.repo, h.gameVersion);
    GrowsBySameRows(c, c1);
    InMemorySegmentsGrow(c1, h.gameVersion, h.indexes);
    GrowsTransitive(c, c1, InMemory(c, h));
  }

  // ---- what one segment leaves behind ----

  /** `k` is confirmed and its row's range covers `gv`. */
  ghost predicate Confirmed(c: Cache, k: FullKey, gv: GameVersion) {
    k in c.byFolder && c.byFolder[k] < |c.heap| && Covers(c.heap[c.byFolder[k]].seen, gv)
  }

  lemma ConfirmedGrows(c: Cache, d: Cache, k: FullKey, gv: GameVersion)
    requires Confirmed(c, k, gv) && Grows(c, d)
    ensures Confirmed(d, k, gv)
  {
    var j := c.byFolder[k];
    assert Kept(c.heap[j], d.heap[j]);
    WithinCovers(c.heap[j].seen, d.heap[j].seen, gv);
  }

  /** Right after a combined observation its key is confirmed over `gv`. */
  lemma StepCombinedConfirms(c: Cache, id: u32, gv: GameVersion, e: CombinedEntry)
    requires c.Valid()
    ensures Confirmed(StepCombined(c, id, gv, e), CombinedKey(id, e), gv)
  {
    var k := CombinedKey(id, e);
    if k in c.byFolder {
      CombinedKnown(c, id, gv, e);
    } else {
      CombinedNew(c, id, gv, e);
      PromotedRange(c, k, gv);
    }
  }

  lemma {:induction false} FoldCombinedConfirms(c: Cache, id: u32, gv: GameVersion, es: seq<CombinedEntry>)
    requires c.Valid()
    ensures forall i | 0 <= i < |es| :: Confirmed(FoldCombined(c, id, gv, es), CombinedKey(id, es[i]), gv)
    decreases |es|
  {
    if es != [] {
      var c1 := StepCombined(c, id, gv, es[0]);
      var r := FoldCombined(c1, id, gv, es[1..]);
      assert FoldCombined(c, id, gv, es) == r;
      FoldCombinedConfirms(c1, id, gv, es[1..]);
      forall i | 0 <= i < |es| ensures Confirmed(r, CombinedKey(id, es[i]), gv) {
        if i == 0 {
          StepCombinedConfirms(c, id, gv, es[0]);
          FoldCombinedGrows(c1, id, gv, es[1..]);
          ConfirmedGrows(c1, r, CombinedKey(id, es[0]), gv);
        } else {
          assert es[i] == es[1..][i - 1];
        }
      }
    }
  }

  /** After one segment, every combined entry it carries is a confirmed row whose range
      covers the version, with no staging row left at either projection. */
  lemma ObserveConfirms(c: Cache, gv: GameVersion, s: SegmentData)
    requires Good(c)
    ensures var r := Observe(c, gv, s);
      forall i | 0 <= i < |s.entries.combined| ::
        var k := CombinedKey(s.indexId, s.entries.combined[i].value);
        Confirmed(r, k, gv) && k.File() !in r.index1 && k.Hash() !in r.index2
  {
    var es := Values(s.entries.combined);
    var c1 := FoldCombined(c, s.indexId, gv, es);
    var r := Observe(c, gv, s);
    FoldCombinedConfirms(c, s.indexId, gv, es);
    StagingPassesGrow(c1, gv, s);
    ObserveGood(c, gv, s);
    forall i | 0 <= i < |s.entries.combined|
      ensures Confirmed(r, CombinedKey(s.indexId, s.entries.combined[i].value), gv)
    {
      assert es[i] == s.entries.combined[i].value;
      ConfirmedGrows(c1, r, CombinedKey(s.indexId, es[i]), gv);
    }
  }

  // ---- the version bookkeeping over a holder ----

  /** `id` has a recorded version of at least `gv`. */
  predicate AtLeast(m: map<u32, GameVersion>, id: u32, gv: GameVersion) {
    id in m && Ge(m[id], gv)
  }

  /** The latest-index table alone, as the segments of a holder leave it. */
  function RaisedIndexes(m: map<u32, GameVersion>, gv: GameVersion, ss: seq<SegmentData>): map<u32, GameVersion>
    decreases |ss|
  {
    if ss == [] then m
    else
      var id := ss[0].indexId;
      RaisedIndexes(if id in m && !Lt(m[id], gv) then m else m[id := gv], gv, ss[1..])
  }

  lemma StepLatestIndexRaises(c: Cache, id: u32, gv: GameVersion)
    ensures var m := c.latestIndexes;
      StepLatestIndex(c, id, gv).latestIndexes == if id in m && !Lt(m[id], gv) then m else m[id := gv]
  {
  }

  /** The version tables depend on nothing else. */
  lemma {:induction false} InMemorySegmentsIndexes(c: Cache, gv: GameVersion, ss: seq<SegmentData>)
    requires c.Valid()
    ensures InMemorySegments(c, gv, ss).latestIndexes == RaisedIndexes(c.latestIndexes, gv, ss)
    ensures InMemorySegments(c, gv, ss).latestProcessed == c.latestProcessed
    decreases |ss|
  {
    if ss != [] {
      var c1 := StepLatestIndex(c, ss[0].indexId, gv);
      StepLatestIndexRaises(c, ss[0].indexId, gv);
      InMemorySegmentsIndexes(Observe(c1, gv, ss[0]), gv, ss[1..]);
    }
  }

  /** Raising keeps every version already at least `gv`. */
  lemma {:induction false} RaisedKeeps(m: map<u32, GameVersion>, gv: GameVersion, ss: seq<SegmentData>, id: u32)
    requires AtLeast(m, id, gv)
    ensures AtLeast(RaisedIndexes(m, gv, ss), id, gv)
    decreases |ss|
  {
    if ss != [] {
      var i := ss[0].indexId;
      var m1 := if i in m && !Lt(m[i], gv) then m else m[i := gv];
      CompareReflexive(gv);
      RaisedKeeps(m1, gv, ss[1..], id);
    }
  }

  /** Every index a holder carries ends at least at `gv`. */
  lemma {:induction false} RaisedCovers(m: map<u32, GameVersion>, gv: GameVersion, ss: seq<SegmentData>)
    ensures forall s | s in ss :: AtLeast(RaisedIndexes(m, gv, ss), s.indexId, gv)
    decreases |ss|
  {
    if ss != [] {
      var i := ss[0].indexId;
      var m1 := if i in m && !Lt(m[i], gv) then m else m[i := gv];
      CompareReflexive(gv);
      RaisedKeeps(m1, gv, ss[1..], i);
      RaisedCovers(m1, gv, ss[1..]);
      forall s | s in ss ensures AtLeast(RaisedIndexes(m1, gv, ss[1..]), s.indexId, gv) {
        if s != ss[0] {
          assert s in ss[1..];
        }
      }
    }
  }

  /** After `ProcessInMemory(holder)`, the repository's processed version and the latest
      version of every index the holder carries are at least the holder's version. */
  lemma InMemoryLatest(c: Cache, h: Holder)
    requires c.Valid()
    ensures var r := InMemory(c, h);
      && h.repo in r.latestProcessed && Ge(r.latestProcessed[h.repo], h.gameVersion)
      && forall s | s in h.indexes :: AtLeast(r.latestIndexes, s.indexId, h.gameVersion)
  {
    LatestProcessedMax(c, h.repo, h.gameVersion);
    var c1 := StepLatestProcessed(c, h.repo, h.gameVersion);
    InMemorySegmentsIndexes(c1, h.gameVersion, h.indexes);
    RaisedCovers(c1.latestIndexes, h.gameVersion, h.indexes);
  }
}

=== FILE: server_hash_database.dfy ===
/** ResLogger2.Common/ServerDatabase/ServerHashDatabase.cs: applying a patch's index
    observations to the catalog, either to the in-memory `PathCache` (`ProcessInMemory`) or to
    the database tables (`Process`, through `ProcessInternal` and the `Handle*` methods). Every
    method here is proved to compute the matching function of `ServerSteps`. */
module ServerHashDatabases {
  import opened Base
  import opened GameVersions
  import opened Entries
  import opened PathEntries
  import opened Caches
  import opened PathCaches
  import opened Tables
  import opened CompositeIndex
  import opened PatchIndexHolders
  import opened ServerSteps

  // ---- the in-memory path: each step through the PathCache's own operations ----

  /** One combined entry against the cache (lines 278-323). */
  method ApplyCombined(cache: PathCache, id: u32, gv: GameVersion, e: CombinedEntry)
    requires cache.Snapshot().Valid()
    modifies cache
    ensures cache.Snapshot() == StepCombined(old(cache.Snapshot()), id, gv, e)
  {
    var path := cache.Snapshot().FindPath4(CombinedKey(id, e));
    if path.Some? {
      var ref := path.value;
      if cache.heap[ref].path.None? && e.path.Some? {
        cache.SetPath(ref, e.path);
      }
      var _ := cache.UpdateSeen(ref, gv);
    } else {
      ApplyPromote(cache, id, gv, e);
    }
  }

  /** A combined entry on a new key: merge and remove the staging rows, then add the
      confirmed row (lines 288-323). */
  method ApplyPromote(cache: PathCache, id: u32, gv: GameVersion, e: CombinedEntry)
    requires CombinedKey(id, e) !in cache.byFolder
    modifies cache
    ensures cache.Snapshot() == Promote(old(cache.Snapshot()), id, gv, e)
  {
    var k := CombinedKey(id, e);
    ghost var c := cache.Snapshot();
    var index1 := cache.Snapshot().FindIndex1(k.File());
    var index2 := cache.Snapshot().FindIndex2(k.Hash());
    var earliest, latest := gv, gv;
    ghost var merged := Seen(gv, gv);
    if index1.Some? {
      if Lt(index1.value.seen.first, earliest) {
        earliest := index1.value.seen.first;
      }
      if Gt(index1.value.seen.last, latest) {
        latest := index1.value.seen.last;
      }
      assert Seen(earliest, latest) == Absorb(Seen(gv, gv), index1.value.seen);
      merged := Seen(earliest, latest);
      cache.RemoveIndex1(index1.value);
    }
    ghost var unstaged1 := cache.Snapshot();
    assert unstaged1 == Unstage1(c, k.File());
    assert unstaged1.index2 == c.index2;
    if index2.Some? {
      if Lt(index2.value.seen.first, earliest) {
        earliest := index2.value.seen.first;
      }
      if Gt(index2.value.seen.last, latest) {
        latest := index2.value.seen.last;
      }
      assert Seen(earliest, latest) == Absorb(merged, index2.value.seen);
      cache.RemoveIndex2(index2.value);
    }
    assert Seen(earliest, latest) == Promoted(c, k, gv);
    ghost var unstaged := cache.Snapshot();
    assert unstaged == Unstaged(c, k) by {
      assert unstaged == Unstage2(unstaged1, k.Hash());
    }
    var row := PathEntry(id, e.folderHash, e.fileHash, e.fullHash, e.path, Seen(earliest, latest));
    assert row == NewRow(c, id, gv, e) && KeyOf(row) == k;
    assert k !in cache.byFolder;
    var ok := cache.AddPath(row);
  }

  /** One Index1-only entry against the cache (lines 328-354). */
  method ApplyIndex1(cache: PathCache, id: u32, gv: GameVersion, e: Index1Entry)
    requires cache.Snapshot().Valid()
    modifies cache
    ensures cache.Snapshot() == StepIndex1(old(cache.Snapshot()), id, gv, e)
  {
    var f := FileKey(id, e.folderHash, e.fileHash);
    var path := cache.Snapshot().FindPath3(f);
    if path.Some? {
      var _ := cache.UpdateSeen(path.value, gv);
      return;
    }
    var index1 := cache.Snapshot().FindIndex1(f);
    if index1.Some? {
      var _ := cache.UpdateIndex1Seen(f, gv);
    } else {
      var ok := cache.AddIndex1(Index1Row(id, e.folderHash, e.fileHash, Seen(gv, gv)));
    }
  }

  /** One Index2-only entry against the cache (lines 359-384). */
  method ApplyIndex2(cache: PathCache, id: u32, gv: GameVersion, e: Index2Entry)
    requires cache.Snapshot().Valid()
    modifies cache
    ensures cache.Snapshot() == StepIndex2(old(cache.Snapshot()), id, gv, e)
  {
    var h := HashKey(id, e.fullHash);
    var path := cache.Snapshot().FindPath2(h);
    if path.Some? {
      var _ := cache.UpdateSeen(path.value, gv);
      return;
    }
    var index2 := cache.Snapshot().FindIndex2(h);
    if index2.Some? {
      var _ := cache.UpdateIndex2Seen(h, gv);
    } else {
      var ok := cache.AddIndex2(Index2Row(id, e.fullHash, Seen(gv, gv)));
    }
  }

  /** The repository's latest processed version (lines 247-261). */
  method ApplyLatestProcessed(cache: PathCache, repo: string, gv: GameVersion)
    modifies cache
    ensures cache.Snapshot() == StepLatestProcessed(old(cache.Snapshot()), repo, gv)
  {
    var lp := cache.Snapshot().FindLatestProcessed(repo);
    if lp.None? {
      var ok := cache.AddLatestProcessed(LatestProcessedVersion(repo, gv));
    } else if Lt(lp.value.version, gv) {
      cache.SetLatestProcessed(lp.value.(version := gv));
    }
  }

  /** The index's latest version (lines 265-274). */
  method ApplyLatestIndex(cache: PathCache, id: u32, gv: GameVersion)
    modifies cache
    ensures cache.Snapshot() == StepLatestIndex(old(cache.Snapshot()), id, gv)
  {
    var li := cache.Snapshot().FindLatestIndex(id);
    if li.None? {
      var ok := cache.AddLatestIndex(LatestIndex(id, gv));
    } else if Lt(li.value.gameVersion, gv) {
      cache.SetLatestIndex(li.value.(gameVersion := gv));
    }
  }

  /** The loop over `CombinedIndexEntries.Values` (lines 276-324). */
  method ApplyAllCombined(cache: PathCache, id: u32, gv: GameVersion, es: seq<CombinedEntry>)
    requires cache.Snapshot().Valid()
    modifies cache
    ensures cache.Snapshot() == FoldCombined(old(cache.Snapshot()), id, gv, es)
  {
    ghost var start := cache.Snapshot();
    for i := 0 to |es|
      invariant cache.Snapshot().Valid()
      invariant FoldCombined(start, id, gv, es) == FoldCombined(cache.Snapshot(), id, gv, es[i..])
    {
      assert es[i..][1..] == es[i + 1..];
      ApplyCombined(cache, id, gv, es[i]);
    }
  }

  /** The loop over `Index1Entries.Values` (lines 326-355). */
  method ApplyAllIndex1(cache: PathCache, id: u32, gv: GameVersion, es: seq<Index1Entry>)
    requires cache.Snapshot().Valid()
    modifies cache
    ensures cache.Snapshot() == FoldIndex1(old(cache.Snapshot()), id, gv, es)
  {
    ghost var start := cache.Snapshot();
    for i := 0 to |es|
      invariant cache.Snapshot().Valid()
      invariant FoldIndex1(start, id, gv, es) == FoldIndex1(cache.Snapshot(), id, gv, es[i..])
    {
      assert es[i..][1..] == es[i + 1..];
      ApplyIndex1(cache, id, gv, es[i]);
    }
  }

  /** The loop over `Index2Entries.Values` (lines 357-385). */
  method ApplyAllIndex2(cache: PathCache, id: u32, gv: GameVersion, es: seq<Index2Entry>)
    requires cache.Snapshot().Valid()
    modifies cache
    ensures cache.Snapshot() == FoldIndex2(old(cache.Snapshot()), id, gv, es)
  {
    ghost var start := cache.Snapshot();
    for i := 0 to |es|
      invariant cache.Snapshot().Valid()
      invariant FoldIndex2(start, id, gv, es) == FoldIndex2(cache.Snapshot(), id, gv, es[i..])
    {
      assert es[i..][1..] == es[i + 1..];
      ApplyIndex2(cache, id, gv, es[i]);
    }
  }

  /** The body of the loop over `holder.Indexes` (lines 265-385). */
  method ApplySegment(cache: PathCache, gv: GameVersion, s: SegmentData)
    requires cache.Snapshot().Valid()
    modifies cache
    ensures cache.Snapshot() == Observe(StepLatestIndex(old(cache.Snapshot()), s.indexId, gv), gv, s)
  {
    ApplyLatestIndex(cache, s.indexId, gv);
    assert cache.Snapshot().Valid() by {
      SameRowsValid(old(cache.Snapshot()), cache.Snapshot());
    }
    ApplyAllCombined(cache, s.indexId, gv, Values(s.entries.combined));
    ApplyAllIndex1(cache, s.indexId, gv, Values(s.entries.index1Entries));
    ApplyAllIndex2(cache, s.indexId, gv, Values(s.entries.index2Entries));
  }

  /** `ServerHashDatabase`: the database tables (`store`, on the same contents type as the
      cache) and the optional in-memory cache. */
  class ServerHashDatabase {
    var store: Cache
    var cache: PathCache?

    /** A fresh context: empty tables and no cache yet (the constructor leaves `_cache`
        null). */
    constructor ()
      ensures store.Valid() && store == Cleared(store) && store.heap == [] && cache == null
    {
      store := Cache([], map[], map[], map[], map[], map[], map[], map[], map[]);
      cache := null;
    }

    /** `ProcessInMemory(holder)`: false where the source dereferences a null cache, which
        throws before anything changes. */
    method ProcessInMemory(holder: Holder) returns (ok: bool)
      requires cache != null ==> cache.Snapshot().Valid()
      modifies cache
      ensures ok <==> cache != null
      ensures ok ==> cache.Snapshot() == InMemory(old(cache.Snapshot()), holder)
    {
      var c := cache;
      if c == null {
        return false;
      }
      var gv := holder.gameVersion;
      ApplyLatestProcessed(c, holder.repo, gv);
      SameRowsValid(old(c.Snapshot()), c.Snapshot());
      ghost var start := c.Snapshot();
      for i := 0 to |holder.indexes|
        invariant c.Snapshot().Valid()
        invariant InMemorySegments(start, gv, holder.indexes) == InMemorySegments(c.Snapshot(), gv, holder.indexes[i..])
      {
        assert holder.indexes[i..][1..] == holder.indexes[i + 1..];
        ApplySegment(c, gv, holder.indexes[i]);
      }
      ok := true;
    }

    /** `ProcessInMemory(List<PatchIndexHolder>)`: its loop body is empty, so only the (here
        unmodelled) save happens. */
    method ProcessInMemoryAll(holders: seq<Holder>)
      ensures store == old(store) && cache == old(cache)
    {
      for i := 0 to |holders| {
      }
    }

    // ---- the database path ----

    /** `HandlePathEntry`: the combined-entry rule against the tables. */
    method HandlePathEntry(gv: GameVersion, id: u32, e: CombinedEntry)
      requires store.Valid()
      modifies this
      ensures store == StepCombined(old(store), id, gv, e) && cache == old(cache)
    {
      var path := store.FindPath4(CombinedKey(id, e));
      if path.Some? {
        var ref := path.value;
        if store.heap[ref].path.None? && e.path.Some? {
          store := store.SetPath(ref, e.path);
        }
        store := store.SetSeen(ref, Widen(store.heap[ref].seen, gv));
      } else {
        PromoteEntry(gv, id, e);
      }
    }

    /** `HandlePathEntry` on a new key (lines 105-153). */
    method PromoteEntry(gv: GameVersion, id: u32, e: CombinedEntry)
      modifies this
      ensures store == Promote(old(store), id, gv, e) && cache == old(cache)
    {
      var k, db := CombinedKey(id, e), store;
      var index1 := db.FindIndex1(k.File());
      var index2 := db.FindIndex2(k.Hash());
      var earliest, latest := gv, gv;
      ghost var merged := Seen(gv, gv);
      if index1.Some? {
        if Lt(index1.value.seen.first, earliest) {
          earliest := index1.value.seen.first;
        }
        if Gt(index1.value.seen.last, latest) {
          latest := index1.value.seen.last;
        }
        assert Seen(earliest, latest) == Absorb(Seen(gv, gv), index1.value.seen);
        merged := Seen(earliest, latest);
        db := db.RemoveIndex1(index1.value);
      }
      assert db == Unstage1(store, k.File());
      ghost var unstaged1 := db;
      assert index2 == unstaged1.FindIndex2(k.Hash());
      if index2.Some? {
        if Lt(index2.value.seen.first, earliest) {
          earliest := index2.value.seen.first;
        }
        if Gt(index2.value.seen.last, latest) {
          latest := index2.value.seen.last;
        }
        assert Seen(earliest, latest) == Absorb(merged, index2.value.seen);
        db := db.RemoveIndex2(index2.value);
      }
      assert Seen(earliest, latest) == Promoted(store, k, gv);
      assert db == Unstage2(unstaged1, k.Hash());
      store := db.Inserted(PathEntry(id, e.folderHash, e.fileHash, e.fullHash, e.path, Seen(earliest, latest)));
    }

    /** `HandleIndex1Entry`. */
    method HandleIndex1Entry(gv: GameVersion, id: u32, e: Index1Entry)
      requires store.Valid()
      modifies this
      ensures store == StepIndex1(old(store), id, gv, e) && cache == old(cache)
    {
      var f := FileKey(id, e.folderHash, e.fileHash);
      var path := store.FindPath3(f);
      if path.Some? {
        store := store.SetSeen(path.value, Widen(store.heap[path.value].seen, gv));
        return;
      }
      var index1 := store.FindIndex1(f);
      if index1.Some? {
        store := store.SetIndex1(index1.value.(seen := Widen(index1.value.seen, gv)));
      } else {
        store := store.AddIndex1(Index1Row(id, e.folderHash, e.fileHash, Seen(gv, gv))).value;
      }
    }

    /** `HandleIndex2Entry`. */
    method HandleIndex2Entry(gv: GameVersion, id: u32, e: Index2Entry)
      requires store.Valid()
      modifies this
      ensures store == StepIndex2(old(store), id, gv, e) && cache == old(cache)
    {
      var h := HashKey(id, e.fullHash);
      var path := store.FindPath2(h);
      if path.Some? {
        store := store.SetSeen(path.value, Widen(store.heap[path.value].seen, gv));
        return;
      }
      var index2 := store.FindIndex2(h);
      if index2.Some? {
        store := store.SetIndex2(index2.value.(seen := Widen(index2.value.seen, gv)));
      } else {
        store := store.AddIndex2(Index2Row(id, e.fullHash, Seen(gv, gv))).value;
      }
    }

    /** `ProcessInternal`: the three loops, each followed by a save. */
    method ProcessInternal(info: SegmentData, gv: GameVersion)
      requires store.Valid()
      modifies this
      ensures store == Observe(old(store), gv, info) && cache == old(cache)
    {
      HandleAllCombined(gv, info.indexId, Values(info.entries.combined));
      HandleAllIndex1(gv, info.indexId, Values(info.entries.index1Entries));
      HandleAllIndex2(gv, info.indexId, Values(info.entries.index2Entries));
    }

    /** The first loop of `ProcessInternal`. */
    method HandleAllCombined(gv: GameVersion, id: u32, es: seq<CombinedEntry>)
      requires store.Valid()
      modifies this
      ensures store == FoldCombined(old(store), id, gv, es) && cache == old(cache)
    {
      ghost var start := store;
      for i := 0 to |es|
        invariant store.Valid() && cache == old(cache)
        invariant FoldCombined(start, id, gv, es) == FoldCombined(store, id, gv, es[i..])
      {
        assert es[i..][1..] == es[i + 1..];
        HandlePathEntry(gv, id, es[i]);
      }
    }

    /** The second loop of `ProcessInternal`. */
    method HandleAllIndex1(gv: GameVersion, id: u32, es: seq<Index1Entry>)
      requires store.Valid()
      modifies this
      ensures store == FoldIndex1(old(store), id, gv, es) && cache == old(cache)
    {
      ghost var start := store;
      for i := 0 to |es|
        invariant store.Valid() && cache == old(cache)
        invariant FoldIndex1(start, id, gv, es) == FoldIndex1(store, id, gv, es[i..])
      {
        assert es[i..][1..] == es[i + 1..];
        HandleIndex1Entry(gv, id, es[i]);
      }
    }

    /** The third loop of `ProcessInternal`. */
    method HandleAllIndex2(gv: GameVersion, id: u32, es: seq<Index2Entry>)
      requires store.Valid()
      modifies this
      ensures store == FoldIndex2(old(store), id, gv, es) && cache == old(cache)
    {
      ghost var start := store;
      for i := 0 to |es|
        invariant store.Valid() && cache == old(cache)
        invariant FoldIndex2(start, id, gv, es) == FoldIndex2(store, id, gv, es[i..])
      {
        assert es[i..][1..] == es[i + 1..];
        HandleIndex2Entry(gv, id, es[i]);
      }
    }

    /** `Process(holder)`: the repository's version first, then each segment. */
    method Process(holder: Holder)
      requires store.Valid()
      modifies this
      ensures store == Processed(old(store), holder) && cache == old(cache)
    {
      var gv, segments := holder.gameVersion, holder.indexes;
      RecordProcessed(holder.repo, gv);
      ghost var start := store;
      for i := 0 to |segments|
        invariant store.Valid() && cache == old(cache)
        invariant ProcessedSegments(start, gv, segments) == ProcessedSegments(store, gv, segments[i..])
      {
        assert segments[i..][1..] == segments[i + 1..];
        ProcessSegment(segments[i], gv);
      }
      assert segments[|segments|..] == [];
    }

    /** The latest processed version of the repository (lines 426-440). */
    method RecordProcessed(repo: string, gv: GameVersion)
      requires store.Valid()
      modifies this
      ensures store == StepLatestProcessed(old(store), repo, gv) && store.Valid() && cache == old(cache)
    {
      var db := store;
      var latest := db.FindLatestProcessed(repo);
      if latest.Some? {
        if Lt(latest.value.version, gv) {
          db := db.SetLatestProcessed(latest.value.(version := gv));
        }
      } else {
        db := db.AddLatestProcessed(LatestProcessedVersion(repo, gv)).value;
      }
      SameRowsValid(store, db);
      store := db;
    }

    /** The body of `Process`'s loop: the segment's observations, then its index's version,
        skipped when already at least `gv` (lines 446-465). */
    method ProcessSegment(comp: SegmentData, gv: GameVersion)
      requires store.Valid()
      modifies this
      ensures store == StepLatestIndex(Observe(old(store), gv, comp), comp.indexId, gv)
      ensures store.Valid() && cache == old(cache)
    {
      ProcessInternal(comp, gv);
      var db := store;
      var lgvi := db.FindLatestIndex(comp.indexId);
      if lgvi.Some? {
        if !Ge(lgvi.value.gameVersion, gv) {
          db := db.SetLatestIndex(lgvi.value.(gameVersion := gv));
        }
      } else {
        db := db.AddLatestIndex(LatestIndex(comp.indexId, gv)).value;
      }
      SameRowsValid(store, db);
      store := db;
    }

    /** `Process(List<PatchIndexHolder>)`. */
    method ProcessAll(holders: seq<Holder>)
      requires store.Valid()
      modifies this
      ensures store == ProcessedAll(old(store), holders) && cache == old(cache)
    {
      ghost var start := store;
      for i := 0 to |holders|
        invariant store.Valid() && cache == old(cache)
        invariant ProcessedAll(start, holders) == ProcessedAll(store, holders[i..])
      {
        assert holders[i..][1..] == holders[i + 1..];
        Process(holders[i]);
      }
    }
  }
}

=== FILE: server_laws.dfy ===
/** What ResLogger2.Common/ServerDatabase/ServerHashDatabase.cs promises about the catalog:
    the outcome of each observation kind, the invariant that staging and confirmed rows never
    share a key, that paths are never replaced and ranges only widen, the version
    bookkeeping, and that `Process` and `ProcessInMemory` end in the same catalog when the
    database reads its own unsaved writes, as the in-memory cache does. */
module ServerLaws {
  import opened Base
  import opened GameVersions
  import opened Entries
  import opened PathEntries
  import opened Caches
  import opened CacheLaws
  import opened Tables
  import opened CompositeIndex
  import opened PatchIndexHolders
  import opened ServerSteps

  // ---- the disjointness invariant ----

  /** No staging row sits at the projection of a confirmed row: no Index1 row shares
      (IndexId, Folder, File) and no Index2 row shares (IndexId, Full) with it. */
  ghost predicate Disjoint(c: Cache) {
    forall k | k in c.byFolder :: k.File() !in c.index1 && k.Hash() !in c.index2
  }

  /** The catalog invariant the reconciliation keeps. */
  ghost predicate Good(c: Cache) {
    c.Valid() && c.Exact() && Disjoint(c)
  }

  /** `Exact` too only looks at the confirmed rows. */
  lemma SameRowsExact(c: Cache, c': Cache)
    requires c.Valid() && c.Exact()
    requires c'.heap == c.heap && c'.byFolder == c.byFolder && c'.leafOrder == c.leafOrder && c'.byFull == c.byFull
    ensures c'.Valid() && c'.Exact()
  {
    SameRowsValid(c, c');
  }

  /** A freshly cleared catalog satisfies the invariant. */
  lemma ClearedGood(c: Cache)
    requires c.Valid()
    ensures Good(Cleared(c))
  {
    ClearedFindsNothing(c, FullKey(0, 0, 0, 0), FileKey(0, 0, 0), HashKey(0, 0), 0, "");
  }

  /** Disjointness only looks at the keys of the confirmed and staging tables. */
  lemma SameKeysDisjoint(c: Cache, c': Cache)
    requires Disjoint(c)
    requires c'.byFolder == c.byFolder && c'.index1 == c.index1 && c'.index2 == c.index2
    ensures Disjoint(c')
  {
  }

  lemma ReconfirmKeys(c: Cache, ref: Ref, e: CombinedEntry, gv: GameVersion)
    requires c.Valid() && ref < |c.heap|
    ensures var r := Reconfirm(c, ref, e, gv);
      r.byFolder == c.byFolder && r.index1 == c.index1 && r.index2 == c.index2
  {
  }

  lemma SetSeenKeys(c: Cache, ref: Ref, seen: Seen)
    requires ref < |c.heap|
    ensures var r := c.SetSeen(ref, seen);
      r.byFolder == c.byFolder && r.index1 == c.index1 && r.index2 == c.index2
  {
  }

  lemma ReconfirmGood(c: Cache, ref: Ref, e: CombinedEntry, gv: GameVersion)
    requires Good(c) && ref < |c.heap|
    ensures Good(Reconfirm(c, ref, e, gv))
  {
    var c1 := if c.heap[ref].path.None? && e.path.Some? then c.SetPath(ref, e.path) else c;
    SetPathKeepsExact(c, ref, e.path);
    SetSeenKeepsExact(c1, ref, Widen(c1.heap[ref].seen, gv));
    ReconfirmKeys(c, ref, e, gv);
    SameKeysDisjoint(c, Reconfirm(c, ref, e, gv));
  }

  lemma PromoteGood(c: Cache, id: u32, gv: GameVersion, e: CombinedEntry)
    requires Good(c) && CombinedKey(id, e) !in c.byFolder
    ensures Good(Promote(c, id, gv, e))
  {
    var k := CombinedKey(id, e);
    var u, row := Unstaged(c, k), NewRow(c, id, gv, e);
    assert KeyOf(row) == k;
    SameRowsExact(c, u);
    AddPathKeepsExact(u, row);
    var r := u.Inserted(row);
    assert r == u.AddPath(row).value;
    assert r.byFolder == c.byFolder[k := |c.heap|];
    forall k' | k' in r.byFolder ensures k'.File() !in r.index1 && k'.Hash() !in r.index2 {
      if k' != k {
        assert k' in c.byFolder;
      }
    }
  }

  /** A combined observation keeps the invariant. */
  lemma StepCombinedGood(c: Cache, id: u32, gv: GameVersion, e: CombinedEntry)
    requires Good(c)
    ensures Good(StepCombined(c, id, gv, e))
  {
    match c.FindPath4(CombinedKey(id, e))
    case Some(ref) => ReconfirmGood(c, ref, e, gv);
    case None => PromoteGood(c, id, gv, e);
  }

  /** Staging at a prefix no confirmed row has keeps the tables disjoint. */
  lemma Stage1Disjoint(c: Cache, f: FileKey, gv: GameVersion)
    requires Disjoint(c) && forall k | k in c.byFolder :: k.File() != f
    ensures Disjoint(Stage1(c, f, gv))
  {
  }

  lemma Stage2Disjoint(c: Cache, h: HashKey, gv: GameVersion)
    requires Disjoint(c) && forall k | k in c.byFolder :: k.Hash() != h
    ensures Disjoint(Stage2(c, h, gv))
  {
  }

  /** An Index1-only observation keeps the invariant: it stages only where no confirmed row
      has the prefix. */
  lemma StepIndex1Good(c: Cache, id: u32, gv: GameVersion, e: Index1Entry)
    requires Good(c)
    ensures Good(StepIndex1(c, id, gv, e))
  {
    var f := FileKey(id, e.folderHash, e.fileHash);
    match c.FindPath3(f)
    case Some(ref) =>
      SetSeenKeepsExact(c, ref, Widen(c.heap[ref].seen, gv));
      SetSeenKeys(c, ref, Widen(c.heap[ref].seen, gv));
      SameKeysDisjoint(c, c.SetSeen(ref, Widen(c.heap[ref].seen, gv)));
    case None =>
      SameRowsExact(c, Stage1(c, f, gv));
      Stage1Disjoint(c, f, gv);
  }

  /** An Index2-only observation keeps the invariant: a full hash no confirmed row has is
      absent from the by-full index. */
  lemma StepIndex2Good(c: Cache, id: u32, gv: GameVersion, e: Index2Entry)
    requires Good(c)
    ensures Good(StepIndex2(c, id, gv, e))
  {
    var h := HashKey(id, e.fullHash);
    match c.FindPath2(h)
    case Some(ref) =>
      SetSeenKeepsExact(c, ref, Widen(c.heap[ref].seen, gv));
      SetSeenKeys(c, ref, Widen(c.heap[ref].seen, gv));
      SameKeysDisjoint(c, c.SetSeen(ref, Widen(c.heap[ref].seen, gv)));
    case None =>
      SameRowsExact(c, Stage2(c, h, gv));
      forall k | k in c.byFolder ensures k.Hash() != h {
        assert k.Hash() in c.byFull;
      }
      Stage2Disjoint(c, h, gv);
  }

  lemma StepLatestGood(c: Cache, repo: string, id: u32, gv: GameVersion)
    requires Good(c)
    ensures Good(StepLatestProcessed(c, repo, gv)) && Good(StepLatestIndex(c, id, gv))
  {
    SameRowsExact(c, StepLatestProcessed(c, repo, gv));
    SameRowsExact(c, StepLatestIndex(c, id, gv));
  }

  lemma {:induction false} FoldCombinedGood(c: Cache, id: u32, gv: GameVersion, es: seq<CombinedEntry>)
    requires Good(c)
    ensures Good(FoldCombined(c, id, gv, es))
    decreases |es|
  {
    if es != [] {
      StepCombinedGood(c, id, gv, es[0]);
      FoldCombinedGood(StepCombined(c, id, gv, es[0]), id, gv, es[1..]);
    }
  }

  lemma {:induction false} FoldIndex1Good(c: Cache, id: u32, gv: GameVersion, es: seq<Index1Entry>)
    requires Good(c)
    ensures Good(FoldIndex1(c, id, gv, es))
    decreases |es|
  {
    if es != [] {
      StepIndex1Good(c, id, gv, es[0]);
      FoldIndex1Good(StepIndex1(c, id, gv, es[0]), id, gv, es[1..]);
    }
  }

  lemma {:induction false} FoldIndex2Good(c: Cache, id: u32, gv: GameVersion, es: seq<Index2Entry>)
    requires Good(c)
    ensures Good(FoldIndex2(c, id, gv, es))
    decreases |es|
  {
    if es != [] {
      StepIndex2Good(c, id, gv, es[0]);
      FoldIndex2Good(StepIndex2(c, id, gv, es[0]), id, gv, es[1..]);
    }
  }

  /** One segment's observations keep the invariant. */
  lemma ObserveGood(c: Cache, gv: GameVersion, s: SegmentData)
    requires Good(c)
    ensures Good(Observe(c, gv, s))
  {
    var c1 := FoldCombined(c, s.indexId, gv, Values(s.entries.combined));
    FoldCombinedGood(c, s.indexId, gv, Values(s.entries.combined));
    FoldIndex1Good(c1, s.indexId, gv, Values(s.entries.index1Entries));
    FoldIndex2Good(FoldIndex1(c1, s.indexId, gv, Values(s.entries.index1Entries)), s.indexId, gv, Values(s.entries.index2Entries));
  }

  lemma {:induction false} InMemorySegmentsGood(c: Cache, gv: GameVersion, ss: seq<SegmentData>)
    requires Good(c)
    ensures Good(InMemorySegments(c, gv, ss))
    decreases |ss|
  {
    if ss != [] {
      var c1 := StepLatestIndex(c, ss[0].indexId, gv);
      StepLatestGood(c, "", ss[0].indexId, gv);
      ObserveGood(c1, gv, ss[0]);
      InMemorySegmentsGood(Observe(c1, gv, ss[0]), gv, ss[1..]);
    }
  }

  /** `ProcessInMemory` keeps the invariant: staging and confirmed rows stay disjoint. */
  lemma InMemoryGood(c: Cache, h: Holder)
    requires Good(c)
    ensures Good(InMemory(c, h))
  {
    StepLatestGood(c, h.repo, 0, h.gameVersion);
    InMemorySegmentsGood(StepLatestProcessed(c, h.repo, h.gameVersion), h.gameVersion, h.indexes);
  }

  lemma {:induction false} ProcessedSegmentsGood(c: Cache, gv: GameVersion, ss: seq<SegmentData>)
    requires Good(c)
    ensures Good(ProcessedSegments(c, gv, ss))
    decreases |ss|
  {
    if ss != [] {
      var c1 := Observe(c, gv, ss[0]);
      ObserveGood(c, gv, ss[0]);
      StepLatestGood(c1, "", ss[0].indexId, gv);
      ProcessedSegmentsGood(StepLatestIndex(c1, ss[0].indexId, gv), gv, ss[1..]);
    }
  }

  /** `Process` keeps the invariant, holder after holder. */
  lemma {:induction false} ProcessedAllGood(c: Cache, hs: seq<Holder>)
    requires Good(c)
    ensures Good(ProcessedAll(c, hs))
    decreases |hs|
  {
    if hs != [] {
      StepLatestGood(c, hs[0].repo, 0, hs[0].gameVersion);
      ProcessedSegmentsGood(StepLatestProcessed(c, hs[0].repo, hs[0].gameVersion), hs[0].gameVersion, hs[0].indexes);
      ProcessedAllGood(Processed(c, hs[0]), hs[1..]);
    }
  }
}

=== FILE: server_outcomes.dfy ===
/** The outcome of each observation kind and of the version bookkeeping in
    ResLogger2.Common/ServerDatabase/ServerHashDatabase.cs, stated against the catalog before
    the step. */
module ServerOutcomes {
  import opened Base
  import opened GameVersions
  import opened Entries
  import opened PathEntries
  import opened Caches
  import opened CompositeIndex
  import opened ServerSteps

  // ---- combined observations ----

  /** Reconfirming changes only the row's path and range. */
  lemma ReconfirmFrame(c: Cache, ref: Ref, e: CombinedEntry, gv: GameVersion)
    requires c.Valid() && ref < |c.heap|
    ensures var r := Reconfirm(c, ref, e, gv);
      && r.byFolder == c.byFolder && r.index1 == c.index1 && r.index2 == c.index2
      && |r.heap| == |c.heap| && KeyOf(r.heap[ref]) == KeyOf(c.heap[ref])
      && forall j | 0 <= j < |c.heap| && j != ref :: r.heap[j] == c.heap[j]
  {
  }

  lemma ReconfirmRow(c: Cache, ref: Ref, e: CombinedEntry, gv: GameVersion)
    requires c.Valid() && ref < |c.heap|
    ensures var r := Reconfirm(c, ref, e, gv);
      && ref < |r.heap|
      && (c.heap[ref].path.Some? ==> r.heap[ref].path == c.heap[ref].path)
      && (c.heap[ref].path.None? ==> r.heap[ref].path == e.path)
      && r.heap[ref].seen == Widen(c.heap[ref].seen, gv)
  {
  }

  /** A combined observation on a confirmed key (lines 278-286): the row keeps its key, a
      path it already has is never replaced, a missing one is taken from the observation,
      its range is widened with `gv`; no other row and no table's keys change. */
  lemma CombinedKnown(c: Cache, id: u32, gv: GameVersion, e: CombinedEntry)
    requires c.Valid() && CombinedKey(id, e) in c.byFolder
    ensures var ref, r := c.byFolder[CombinedKey(id, e)], StepCombined(c, id, gv, e);
      && ref < |c.heap| && r.byFolder == c.byFolder && r.index1 == c.index1 && r.index2 == c.index2
      && |r.heap| == |c.heap| && KeyOf(r.heap[ref]) == CombinedKey(id, e)
      && (c.heap[ref].path.Some? ==> r.heap[ref].path == c.heap[ref].path)
      && (c.heap[ref].path.None? ==> r.heap[ref].path == e.path)
      && r.heap[ref].seen == Widen(c.heap[ref].seen, gv)
      && forall j | 0 <= j < |c.heap| && j != ref :: r.heap[j] == c.heap[j]
  {
    ReconfirmFrame(c, c.byFolder[CombinedKey(id, e)], e, gv);
    ReconfirmRow(c, c.byFolder[CombinedKey(id, e)], e, gv);
  }

  /** A combined observation on a new key (lines 288-323): both staging rows at its
      projections are gone, and one confirmed row is appended under the key, carrying the
      observation's hashes and path and the promoted range. */
  lemma CombinedNew(c: Cache, id: u32, gv: GameVersion, e: CombinedEntry)
    requires c.Valid() && CombinedKey(id, e) !in c.byFolder
    ensures var k, r := CombinedKey(id, e), StepCombined(c, id, gv, e);
      && r.byFolder == c.byFolder[k := |c.heap|]
      && r.heap == c.heap + [NewRow(c, id, gv, e)]
      && KeyOf(NewRow(c, id, gv, e)) == k && NewRow(c, id, gv, e).path == e.path
      && NewRow(c, id, gv, e).seen == Promoted(c, k, gv)
      && r.index1 == c.index1 - {k.File()} && r.index2 == c.index2 - {k.Hash()}
  {
  }

  /** The promoted range holds `gv` and the ranges of the staging rows it replaces. */
  lemma PromotedRange(c: Cache, k: FullKey, gv: GameVersion)
    ensures var p := Promoted(c, k, gv);
      && Covers(p, gv)
      && (k.File() in c.index1 ==> Within(c.index1[k.File()], p))
      && (k.Hash() in c.index2 ==> Within(c.index2[k.Hash()], p))
  {
    var g := Seen(gv, gv);
    var s1 := if k.File() in c.index1 then Absorb(g, c.index1[k.File()]) else g;
    var p := Promoted(c, k, gv);
    assert p == if k.Hash() in c.index2 then Absorb(s1, c.index2[k.Hash()]) else s1;
    WithinReflexive(g);
    if k.File() in c.index1 {
      AbsorbWithin(g, c.index1[k.File()]);
    }
    WithinReflexive(s1);
    if k.Hash() in c.index2 {
      AbsorbWithin(s1, c.index2[k.Hash()]);
    }
    WithinTransitive(g, s1, p);
    if k.File() in c.index1 {
      WithinTransitive(c.index1[k.File()], s1, p);
    }
  }

  /** ... and it is the smallest such range: each bound is `gv`'s or one of the removed
      rows' (the `earliestFirstSeen`/`latestLastSeen` minimum and maximum). */
  lemma PromotedBounds(c: Cache, k: FullKey, gv: GameVersion)
    ensures var p := Promoted(c, k, gv);
      && (p.first == gv || (k.File() in c.index1 && p.first == c.index1[k.File()].first)
                        || (k.Hash() in c.index2 && p.first == c.index2[k.Hash()].first))
      && (p.last == gv || (k.File() in c.index1 && p.last == c.index1[k.File()].last)
                       || (k.Hash() in c.index2 && p.last == c.index2[k.Hash()].last))
  {
    var g := Seen(gv, gv);
    var s1 := if k.File() in c.index1 then Absorb(g, c.index1[k.File()]) else g;
    assert Promoted(c, k, gv) == if k.Hash() in c.index2 then Absorb(s1, c.index2[k.Hash()]) else s1;
  }

  // ---- Index1-only and Index2-only observations ----

  /** An Index1-only observation whose prefix a confirmed row has (lines 328-334) widens that
      row with `gv` and stages nothing. */
  lemma Index1Confirmed(c: Cache, id: u32, gv: GameVersion, e: Index1Entry)
    requires c.Valid()
    requires exists k | k in c.byFolder :: k.File() == FileKey(id, e.folderHash, e.fileHash)
    ensures var f := FileKey(id, e.folderHash, e.fileHash);
      var ref, r := c.FindPath3(f).value, StepIndex1(c, id, gv, e);
      && ref < |c.heap| && KeyOf(c.heap[ref]).File() == f
      && r.byFolder == c.byFolder && r.index1 == c.index1 && r.index2 == c.index2
      && |r.heap| == |c.heap| && r.heap[ref].seen == Widen(c.heap[ref].seen, gv)
      && r.heap[ref].path == c.heap[ref].path && KeyOf(r.heap[ref]) == KeyOf(c.heap[ref])
      && forall j | 0 <= j < |c.heap| && j != ref :: r.heap[j] == c.heap[j]
  {
    var f := FileKey(id, e.folderHash, e.fileHash);
    var k :| k in c.byFolder && k.File() == f;
    assert c.FindPath3(f).Some?;
  }

  lemma Stage1Outcome(c: Cache, f: FileKey, gv: GameVersion)
    ensures var r := Stage1(c, f, gv);
      && f in r.index1 && r.index1 == c.index1[f := r.index1[f]]
      && (f in c.index1 ==> r.index1[f] == Widen(c.index1[f], gv))
      && (f !in c.index1 ==> r.index1[f] == Seen(gv, gv))
  {
    var r := Stage1(c, f, gv);
    if f in c.index1 {
      assert c.FindIndex1(f).value.seen == c.index1[f];
      assert r.index1 == c.index1[f := Widen(c.index1[f], gv)];
    } else {
      assert Index1Row(f.indexId, f.folderHash, f.fileHash, Seen(gv, gv)).Key() == f;
      assert r.index1 == c.index1[f := Seen(gv, gv)];
    }
  }

  /** Otherwise (lines 336-354) it widens the Index1 staging row at its prefix, or creates one
      whose range is exactly `gv`; nothing else changes. */
  lemma Index1Staged(c: Cache, id: u32, gv: GameVersion, e: Index1Entry)
    requires c.Valid()
    requires forall k | k in c.byFolder :: k.File() != FileKey(id, e.folderHash, e.fileHash)
    ensures var f, r := FileKey(id, e.folderHash, e.fileHash), StepIndex1(c, id, gv, e);
      && r.heap == c.heap && r.byFolder == c.byFolder && r.index2 == c.index2
      && f in r.index1 && r.index1 == c.index1[f := r.index1[f]]
      && (f in c.index1 ==> r.index1[f] == Widen(c.index1[f], gv))
      && (f !in c.index1 ==> r.index1[f] == Seen(gv, gv))
  {
    var f := FileKey(id, e.folderHash, e.fileHash);
    assert c.FindPath3(f).None?;
    assert StepIndex1(c, id, gv, e) == Stage1(c, f, gv);
    Stage1Outcome(c, f, gv);
  }

  /** An Index2-only observation whose full hash the by-full index holds (lines 359-365)
      widens the first row there with `gv` and stages nothing. */
  lemma Index2Confirmed(c: Cache, id: u32, gv: GameVersion, e: Index2Entry)
    requires c.Valid() && HashKey(id, e.fullHash) in c.byFull
    ensures var h := HashKey(id, e.fullHash);
      var ref, r := c.byFull[h][0], StepIndex2(c, id, gv, e);
      && ref < |c.heap| && KeyOf(c.heap[ref]).Hash() == h
      && r.byFolder == c.byFolder && r.index1 == c.index1 && r.index2 == c.index2
      && |r.heap| == |c.heap| && r.heap[ref].seen == Widen(c.heap[ref].seen, gv)
      && r.heap[ref].path == c.heap[ref].path && KeyOf(r.heap[ref]) == KeyOf(c.heap[ref])
      && forall j | 0 <= j < |c.heap| && j != ref :: r.heap[j] == c.heap[j]
  {
  }

  lemma Stage2Outcome(c: Cache, h: HashKey, gv: GameVersion)
    ensures var r := Stage2(c, h, gv);
      && h in r.index2 && r.index2 == c.index2[h := r.index2[h]]
      && (h in c.index2 ==> r.index2[h] == Widen(c.index2[h], gv))
      && (h !in c.index2 ==> r.index2[h] == Seen(gv, gv))
  {
    var r := Stage2(c, h, gv);
    if h in c.index2 {
      assert c.FindIndex2(h).value.seen == c.index2[h];
      assert r.index2 == c.index2[h := Widen(c.index2[h], gv)];
    } else {
      assert Index2Row(h.indexId, h.fullHash, Seen(gv, gv)).Key() == h;
      assert r.index2 == c.index2[h := Seen(gv, gv)];
    }
  }

  /** Otherwise (lines 367-384) it widens the Index2 staging row at its full hash, or creates
      one whose range is exactly `gv`; nothing else changes. */
  lemma Index2Staged(c: Cache, id: u32, gv: GameVersion, e: Index2Entry)
    requires c.Valid() && HashKey(id, e.fullHash) !in c.byFull
    ensures var h, r := HashKey(id, e.fullHash), StepIndex2(c, id, gv, e);
      && r.heap == c.heap && r.byFolder == c.byFolder && r.index1 == c.index1
      && h in r.index2 && r.index2 == c.index2[h := r.index2[h]]
      && (h in c.index2 ==> r.index2[h] == Widen(c.index2[h], gv))
      && (h !in c.index2 ==> r.index2[h] == Seen(gv, gv))
  {
    assert StepIndex2(c, id, gv, e) == Stage2(c, HashKey(id, e.fullHash), gv);
    Stage2Outcome(c, HashKey(id, e.fullHash), gv);
  }

  // ---- version bookkeeping ----

  /** `LatestProcessedVersion[repo]` becomes the larger of its old value and `gv`, or `gv`
      when the repository had none (lines 247-261); other repositories keep theirs. */
  lemma LatestProcessedMax(c: Cache, repo: string, gv: GameVersion)
    ensures var r := StepLatestProcessed(c, repo, gv);
      && repo in r.latestProcessed && Ge(r.latestProcessed[repo], gv)
      && (repo in c.latestProcessed ==> Ge(r.latestProcessed[repo], c.latestProcessed[repo]))
      && (r.latestProcessed[repo] == gv || (repo in c.latestProcessed && r.latestProcessed[repo] == c.latestProcessed[repo]))
      && r.latestProcessed == c.latestProcessed[repo := r.latestProcessed[repo]]
  {
    CompareReflexive(gv);
    if repo in c.latestProcessed {
      var v := c.latestProcessed[repo];
      CompareReflexive(v);
      CompareAntisymmetric(v, gv);
      assert StepLatestProcessed(c, repo, gv).latestProcessed == c.latestProcessed[repo := if Lt(v, gv) then gv else v];
    }
  }

  /** `LatestIndex[id]` follows the same rule (lines 265-274); other ids keep theirs. */
  lemma LatestIndexMax(c: Cache, id: u32, gv: GameVersion)
    ensures var r := StepLatestIndex(c, id, gv);
      && id in r.latestIndexes && Ge(r.latestIndexes[id], gv)
      && (id in c.latestIndexes ==> Ge(r.latestIndexes[id], c.latestIndexes[id]))
      && (r.latestIndexes[id] == gv || (id in c.latestIndexes && r.latestIndexes[id] == c.latestIndexes[id]))
      && r.latestIndexes == c.latestIndexes[id := r.latestIndexes[id]]
  {
    CompareReflexive(gv);
    if id in c.latestIndexes {
      var v := c.latestIndexes[id];
      CompareReflexive(v);
      CompareAntisymmetric(v, gv);
      assert StepLatestIndex(c, id, gv).latestIndexes == c.latestIndexes[id := if Lt(v, gv) then gv else v];
    }
  }
}

=== FILE: server_steps.dfy ===
/** ResLogger2.Common/ServerDatabase/ServerHashDatabase.cs, the reconciliation rules as
    functions on the catalog contents (`Caches.Cache`). The in-memory path (`ProcessInMemory`,
    through the `PathCache`) and the database path (`Process`, `Handle*`) apply the same rules;
    the methods of `ServerHashDatabases` are proved to compute these functions.

    One observation of a path segment is one of three kinds:
    - a combined entry (both hashes known): confirms a catalog row, promoting any staging rows;
    - an Index1-only entry (folder and file hash): widens a confirmed row with that prefix, or
      stages an Index1 row;
    - an Index2-only entry (full hash): widens a confirmed row with that full hash, or stages
      an Index2 row. */
module ServerSteps {
  import opened Base
  import opened GameVersions
  import opened Entries
  import opened PathEntries
  import opened Caches
  import opened CacheLaws
  import opened Tables
  import opened CompositeIndex
  import opened PatchIndexHolders

  /** The catalog key of a combined entry seen in index `id`. */
  function CombinedKey(id: u32, e: CombinedEntry): FullKey {
    FullKey(id, e.folderHash, e.fileHash, e.fullHash)
  }

  /** The range a promoted row starts with: `gv`, widened by the Index1 staging row and then
      by the Index2 staging row when they exist (the `earliestFirstSeen`/`latestLastSeen`
      tests). */
  function Promoted(c: Cache, k: FullKey, gv: GameVersion): Seen {
    var s1 := match c.FindIndex1(k.File())
      case Some(row) => Absorb(Seen(gv, gv), row.seen)
      case None => Seen(gv, gv);
    match c.FindIndex2(k.Hash())
    case Some(row) => Absorb(s1, row.seen)
    case None => s1
  }

  /** The confirmed row a combined entry on a new key inserts. */
  function NewRow(c: Cache, id: u32, gv: GameVersion, e: CombinedEntry): PathEntry {
    PathEntry(id, e.folderHash, e.fileHash, e.fullHash, e.path, Promoted(c, CombinedKey(id, e), gv))
  }

  /** The cache once the Index1 staging row at `f`, if any, is removed. */
  function Unstage1(c: Cache, f: FileKey): (r: Cache)
    ensures r == c.(index1 := r.index1) && r.index1 == c.index1 - {f}
  {
    match c.FindIndex1(f) case Some(row) => c.RemoveIndex1(row) case None => c
  }

  /** The cache once the Index2 staging row at `h`, if any, is removed. */
  function Unstage2(c: Cache, h: HashKey): (r: Cache)
    ensures r == c.(index2 := r.index2) && r.index2 == c.index2 - {h}
  {
    match c.FindIndex2(h) case Some(row) => c.RemoveIndex2(row) case None => c
  }

  /** The cache once the staging rows a combined entry promotes are removed. */
  function Unstaged(c: Cache, k: FullKey): (r: Cache)
    ensures r == c.(index1 := r.index1, index2 := r.index2)
    ensures r.index1 == c.index1 - {k.File()} && r.index2 == c.index2 - {k.Hash()}
  {
    Unstage2(Unstage1(c, k.File()), k.Hash())
  }

  /** Validity only looks at the confirmed rows: changing the staging and version tables
      keeps it. */
  lemma SameRowsValid(c: Cache, c': Cache)
    requires c.Valid()
    requires c'.heap == c.heap && c'.byFolder == c.byFolder && c'.leafOrder == c.leafOrder && c'.byFull == c.byFull
    ensures c'.Valid()
  {
    assert c'.RefsValid() && c'.LeavesValid();
  }

  /** A combined entry on a known key: the path is attached when the row had none, and the
      range is widened. */
  function Reconfirm(c: Cache, ref: Ref, e: CombinedEntry, gv: GameVersion): (r: Cache)
    requires c.Valid() && ref < |c.heap|
    ensures r.Valid()
    ensures r == c.(heap := r.heap)
  {
    var c1 := if c.heap[ref].path.None? && e.path.Some? then c.SetPath(ref, e.path) else c;
    SetPathKeepsValid(c, ref, e.path);
    SetSeenKeepsValid(c1, ref, Widen(c1.heap[ref].seen, gv));
    c1.SetSeen(ref, Widen(c1.heap[ref].seen, gv))
  }

  /** A combined entry on a new key: its staging rows go, the promoted row comes in. */
  function Promote(c: Cache, id: u32, gv: GameVersion, e: CombinedEntry): (r: Cache)
    ensures r.latestIndexes == c.latestIndexes && r.latestProcessed == c.latestProcessed
  {
    Unstaged(c, CombinedKey(id, e)).Inserted(NewRow(c, id, gv, e))
  }

  lemma PromoteValid(c: Cache, id: u32, gv: GameVersion, e: CombinedEntry)
    requires c.Valid() && CombinedKey(id, e) !in c.byFolder
    ensures Promote(c, id, gv, e).Valid()
  {
    var u, row := Unstaged(c, CombinedKey(id, e)), NewRow(c, id, gv, e);
    assert KeyOf(row) == CombinedKey(id, e);
    SameRowsValid(c, u);
    InsertedValid(u, row);
  }

  /** One combined entry (`ProcessInMemory`, lines 278-323; `HandlePathEntry`). */
  function StepCombined(c: Cache, id: u32, gv: GameVersion, e: CombinedEntry): (r: Cache)
    requires c.Valid()
    ensures r.Valid()
    ensures r.latestIndexes == c.latestIndexes && r.latestProcessed == c.latestProcessed
  {
    match c.FindPath4(CombinedKey(id, e))
    case Some(ref) => Reconfirm(c, ref, e, gv)
    case None =>
      PromoteValid(c, id, gv, e);
      Promote(c, id, gv, e)
  }

  /** The Index1 staging table after an Index1-only entry no confirmed row covers. */
  function Stage1(c: Cache, f: FileKey, gv: GameVersion): (r: Cache)
    ensures r == c.(index1 := r.index1)
    ensures r.index1.Keys == c.index1.Keys + {f}
  {
    match c.FindIndex1(f)
    case Some(row) => c.SetIndex1(row.(seen := Widen(row.seen, gv)))
    case None => c.AddIndex1(Index1Row(f.indexId, f.folderHash, f.fileHash, Seen(gv, gv))).value
  }

  /** One Index1-only entry (`ProcessInMemory`, lines 328-354; `HandleIndex1Entry`). */
  function StepIndex1(c: Cache, id: u32, gv: GameVersion, e: Index1Entry): (r: Cache)
    requires c.Valid()
    ensures r.Valid()
    ensures r.latestIndexes == c.latestIndexes && r.latestProcessed == c.latestProcessed
  {
    var f := FileKey(id, e.folderHash, e.fileHash);
    match c.FindPath3(f)
    case Some(ref) =>
      SetSeenKeepsValid(c, ref, Widen(c.heap[ref].seen, gv));
      c.SetSeen(ref, Widen(c.heap[ref].seen, gv))
    case None =>
      SameRowsValid(c, Stage1(c, f, gv));
      Stage1(c, f, gv)
  }

  /** The Index2 staging table after an Index2-only entry no confirmed row covers. */
  function Stage2(c: Cache, h: HashKey, gv: GameVersion): (r: Cache)
    ensures r == c.(index2 := r.index2)
    ensures r.index2.Keys == c.index2.Keys + {h}
  {
    match c.FindIndex2(h)
    case Some(row) => c.SetIndex2(row.(seen := Widen(row.seen, gv)))
    case None => c.AddIndex2(Index2Row(h.indexId, h.fullHash, Seen(gv, gv))).value
  }

  /** One Index2-only entry (`ProcessInMemory`, lines 359-384; `HandleIndex2Entry`). */
  function StepIndex2(c: Cache, id: u32, gv: GameVersion, e: Index2Entry): (r: Cache)
    requires c.Valid()
    ensures r.Valid()
    ensures r.latestIndexes == c.latestIndexes && r.latestProcessed == c.latestProcessed
  {
    var h := HashKey(id, e.fullHash);
    match c.FindPath2(h)
    case Some(ref) =>
      SetSeenKeepsValid(c, ref, Widen(c.heap[ref].seen, gv));
      c.SetSeen(ref, Widen(c.heap[ref].seen, gv))
    case None =>
      SameRowsValid(c, Stage2(c, h, gv));
      Stage2(c, h, gv)
  }

  /** The newest version recorded for a repository (lines 247-261, 426-440): created as `gv`,
      or moved up to `gv` when it was older. */
  function StepLatestProcessed(c: Cache, repo: string, gv: GameVersion): (r: Cache)
    ensures r.heap == c.heap && r.byFolder == c.byFolder && r.leafOrder == c.leafOrder && r.byFull == c.byFull
    ensures r.index1 == c.index1 && r.index2 == c.index2 && r.latestIndexes == c.latestIndexes
  {
    match c.FindLatestProcessed(repo)
    case None => c.AddLatestProcessed(LatestProcessedVersion(repo, gv)).value
    case Some(lp) => if Lt(lp.version, gv) then c.SetLatestProcessed(lp.(version := gv)) else c
  }

  /** The newest version recorded for an index id (lines 265-274, 448-463). */
  function StepLatestIndex(c: Cache, id: u32, gv: GameVersion): (r: Cache)
    ensures r == c.(latestIndexes := r.latestIndexes)
  {
    match c.FindLatestIndex(id)
    case None => c.AddLatestIndex(LatestIndex(id, gv)).value
    case Some(li) => if Lt(li.gameVersion, gv) then c.SetLatestIndex(li.(gameVersion := gv)) else c
  }

  // ---- one segment's entries, in enumeration order ----

  function FoldCombined(c: Cache, id: u32, gv: GameVersion, es: seq<CombinedEntry>): (r: Cache)
    requires c.Valid()
    ensures r.Valid()
    ensures r.latestIndexes == c.latestIndexes && r.latestProcessed == c.latestProcessed
    decreases |es|
  {
    if es == [] then c else FoldCombined(StepCombined(c, id, gv, es[0]), id, gv, es[1..])
  }

  function FoldIndex1(c: Cache, id: u32, gv: GameVersion, es: seq<Index1Entry>): (r: Cache)
    requires c.Valid()
    ensures r.Valid()
    ensures r.latestIndexes == c.latestIndexes && r.latestProcessed == c.latestProcessed
    decreases |es|
  {
    if es == [] then c else FoldIndex1(StepIndex1(c, id, gv, es[0]), id, gv, es[1..])
  }

  function FoldIndex2(c: Cache, id: u32, gv: GameVersion, es: seq<Index2Entry>): (r: Cache)
    requires c.Valid()
    ensures r.Valid()
    ensures r.latestIndexes == c.latestIndexes && r.latestProcessed == c.latestProcessed
    decreases |es|
  {
    if es == [] then c else FoldIndex2(StepIndex2(c, id, gv, es[0]), id, gv, es[1..])
  }

  /** All observations of one segment: combined entries, then Index1-only entries, then
      Index2-only entries (`ProcessInternal`, and lines 276-385). */
  function Observe(c: Cache, gv: GameVersion, s: SegmentData): (r: Cache)
    requires c.Valid()
    ensures r.Valid()
    ensures r.latestIndexes == c.latestIndexes && r.latestProcessed == c.latestProcessed
  {
    var c1 := FoldCombined(c, s.indexId, gv, Values(s.entries.combined));
    var c2 := FoldIndex1(c1, s.indexId, gv, Values(s.entries.index1Entries));
    FoldIndex2(c2, s.indexId, gv, Values(s.entries.index2Entries))
  }

  /** `ProcessInMemory(holder)`: the repository's version, then per segment its index's
      version followed by its observations. */
  function InMemory(c: Cache, h: Holder): (r: Cache)
    requires c.Valid()
    ensures r.Valid()
  {
    InMemorySegments(StepLatestProcessed(c, h.repo, h.gameVersion), h.gameVersion, h.indexes)
  }

  function InMemorySegments(c: Cache, gv: GameVersion, ss: seq<SegmentData>): (r: Cache)
    requires c.Valid()
    ensures r.Valid()
    decreases |ss|
  {
    if ss == [] then c
    else InMemorySegments(Observe(StepLatestIndex(c, ss[0].indexId, gv), gv, ss[0]), gv, ss[1..])
  }

  /** `Process(holder)`: the same rules with each index's version recorded after its
      observations. */
  function Processed(c: Cache, h: Holder): (r: Cache)
    requires c.Valid()
    ensures r.Valid()
  {
    ProcessedSegments(StepLatestProcessed(c, h.repo, h.gameVersion), h.gameVersion, h.indexes)
  }

  function ProcessedSegments(c: Cache, gv: GameVersion, ss: seq<SegmentData>): (r: Cache)
    requires c.Valid()
    ensures r.Valid()
    decreases |ss|
  {
    if ss == [] then c
    else ProcessedSegments(StepLatestIndex(Observe(c, gv, ss[0]), ss[0].indexId, gv), gv, ss[1..])
  }

  /** `Process(List<PatchIndexHolder>)`: each holder in turn. */
  function ProcessedAll(c: Cache, hs: seq<Holder>): (r: Cache)
    requires c.Valid()
    ensures r.Valid()
    decreases |hs|
  {
    if hs == [] then c else ProcessedAll(Processed(c, hs[0]), hs[1..])
  }
}

=== FILE: strings.dfy ===
/** Ordinal string operations of the .NET and Python standard libraries that the
    modelled code relies on, over `string` = `seq<char>`. */
module Strings {
  import opened Base

  predicate StartsWith(s: string, prefix: string) {
    |prefix| <= |s| && s[..|prefix|] == prefix
  }

  predicate EndsWith(s: string, suffix: string) {
    |suffix| <= |s| && s[|s| - |suffix|..] == suffix
  }

  predicate OccursAt(s: string, pat: string, i: int) {
    0 <= i && i + |pat| <= |s| && s[i..i + |pat|] == pat
  }

  /** `string.Contains(string)` / Python `pat in s`. */
  predicate Contains(s: string, pat: string) {
    exists i | 0 <= i <= |s| - |pat| :: OccursAt(s, pat, i)
  }

  /** `string.Replace(old, new)` / Python `str.replace`: every non-overlapping
      occurrence, scanned from the left, is replaced. */
  function ReplaceAll(s: string, pat: string, rep: string): (r: string)
    requires pat != ""
    ensures !Contains(s, pat) ==> r == s
    decreases |s|
  {
    if |s| < |pat| then s
    else if s[..|pat|] == pat then
      assert OccursAt(s, pat, 0);
      rep + ReplaceAll(s[|pat|..], pat, rep)
    else
      ghost var _ := ContainsTail(s, pat);
      [s[0]] + ReplaceAll(s[1..], pat, rep)
  }

  /** If the tail of `s` contains `pat`, so does `s`. */
  ghost function ContainsTail(s: string, pat: string): bool
    requires |s| > 0
    ensures Contains(s[1..], pat) ==> Contains(s, pat)
  {
    if Contains(s[1..], pat) then
      var i :| 0 <= i <= |s[1..]| - |pat| && OccursAt(s[1..], pat, i);
      assert s[1..][i..i + |pat|] == s[i + 1..i + 1 + |pat|];
      assert OccursAt(s, pat, i + 1);
      true
    else true
  }

  /** `string.IndexOf(char)`: the first position of `c`, or -1. */
  function IndexOf(s: string, c: char): (r: int)
    ensures -1 <= r < |s|
    ensures r >= 0 ==> s[r] == c
    ensures forall j | 0 <= j < |s| && (r == -1 || j < r) :: s[j] != c
    decreases |s|
  {
    if |s| == 0 then -1
    else if s[0] == c then 0
    else
      var t := IndexOf(s[1..], c);
      if t == -1 then -1 else t + 1
  }

  /** `string.LastIndexOf(char)`: the last position of `c`, or -1. */
  function LastIndexOf(s: string, c: char): (r: int)
    ensures -1 <= r < |s|
    ensures r >= 0 ==> s[r] == c
    ensures forall j | r < j < |s| :: s[j] != c
    decreases |s|
  {
    if |s| == 0 then -1
    else if s[|s| - 1] == c then |s| - 1
    else LastIndexOf(s[..|s| - 1], c)
  }

  /** The last position holding `c` is what `LastIndexOf` finds. */
  lemma LastIndexOfIs(s: string, c: char, i: nat)
    requires i < |s| && s[i] == c
    requires forall j | i < j < |s| :: s[j] != c
    ensures LastIndexOf(s, c) == i
  {
  }

  /** `string.Split(char)`: the pieces between separators, always at least one. */
  function Split(s: string, sep: char): (parts: seq<string>)
    ensures |parts| >= 1
    decreases |s|
  {
    var i := IndexOf(s, sep);
    if i < 0 then [s] else [s[..i]] + Split(s[i + 1..], sep)
  }

  lemma SplitNoSeparator(s: string, sep: char)
    requires sep !in s
    ensures Split(s, sep) == [s]
  {
  }

  lemma SplitFirstPiece(a: string, sep: char, b: string)
    requires sep !in a
    ensures Split(a + [sep] + b, sep) == [a] + Split(b, sep)
  {
    var s := a + [sep] + b;
    assert s[|a|] == sep;
    assert forall j | 0 <= j < |a| :: s[j] == a[j];
    assert IndexOf(s, sep) == |a|;
    assert s[..|a|] == a;
    assert s[|a| + 1..] == b;
  }

  /** `string.Join(sep, parts)` for a non-empty list of pieces. */
  function Join(parts: seq<string>, sep: char): string
    requires |parts| >= 1
  {
    if |parts| == 1 then parts[0] else parts[0] + [sep] + Join(parts[1..], sep)
  }

  /** Splitting a joined list gives the pieces back when no piece holds the separator. */
  lemma {:induction false} SplitJoin(parts: seq<string>, sep: char)
    requires |parts| >= 1
    requires forall i | 0 <= i < |parts| :: sep !in parts[i]
    ensures Split(Join(parts, sep), sep) == parts
  {
    if |parts| == 1 {
      SplitNoSeparator(parts[0], sep);
    } else {
      SplitJoin(parts[1..], sep);
      SplitFirstPiece(parts[0], sep, Join(parts[1..], sep));
    }
  }

  // ---- decimal numbers ----

  predicate IsDigit(c: char) {
    '0' <= c <= '9'
  }

  predicate AllDigits(s: string) {
    forall i | 0 <= i < |s| :: IsDigit(s[i])
  }

  function DigitValue(c: char): (d: nat)
    requires IsDigit(c)
    ensures d < 10
  {
    (c as int) - ('0' as int)
  }

  function DigitChar(d: nat): (c: char)
    requires d < 10
    ensures IsDigit(c) && DigitValue(c) == d
  {
    (('0' as int) + d) as char
  }

  /** The value of a string of decimal digits, most significant first. */
  function DigitsValue(s: string): nat
    requires AllDigits(s)
    decreases |s|
  {
    if |s| == 0 then 0 else DigitsValue(s[..|s| - 1]) * 10 + DigitValue(s[|s| - 1])
  }

  /** The shortest decimal rendering of `n`. */
  function DecimalString(n: nat): (s: string)
    ensures |s| >= 1 && AllDigits(s)
  {
    if n < 10 then [DigitChar(n)] else DecimalString(n / 10) + [DigitChar(n % 10)]
  }

  /** The custom numeric format "00…0" of `width` zeros: at least `width` digits. */
  function ZeroPadded(n: nat, width: nat): (s: string)
    ensures AllDigits(s) && |s| >= width && |s| >= 1
  {
    var d := DecimalString(n);
    if |d| >= width then d else Zeros(width - |d|) + d
  }

  function Zeros(k: nat): (z: string)
    ensures |z| == k && AllDigits(z)
    ensures forall i | 0 <= i < k :: z[i] == '0'
  {
    if k == 0 then [] else ['0'] + Zeros(k - 1)
  }

  lemma {:induction false} DecimalRoundTrip(n: nat)
    ensures DigitsValue(DecimalString(n)) == n
  {
    if n >= 10 {
      DecimalRoundTrip(n / 10);
      var s := DecimalString(n);
      assert s[..|s| - 1] == DecimalString(n / 10);
    }
  }

  lemma {:induction false} LeadingZerosIgnored(k: nat, s: string)
    requires AllDigits(s)
    ensures DigitsValue(Zeros(k) + s) == DigitsValue(s)
    decreases |s|
  {
    var t := Zeros(k) + s;
    if |s| == 0 {
      assert t == Zeros(k);
      ZerosValue(k);
    } else {
      LeadingZerosIgnored(k, s[..|s| - 1]);
      assert t[..|t| - 1] == Zeros(k) + s[..|s| - 1];
    }
  }

  lemma {:induction false} ZerosValue(k: nat)
    ensures DigitsValue(Zeros(k)) == 0
  {
    if k > 0 {
      ZerosValue(k - 1);
      var z := Zeros(k);
      assert z == Zeros(k - 1) + ['0'] by {
        assert forall i | 0 <= i < k :: z[i] == (Zeros(k - 1) + ['0'])[i];
      }
      assert z[..k - 1] == Zeros(k - 1);
    }
  }

  lemma PaddedValue(k: nat, d: string, z: string)
    requires AllDigits(d) && z == Zeros(k) + d
    ensures AllDigits(z) && DigitsValue(z) == DigitsValue(d)
  {
    LeadingZerosIgnored(k, d);
  }

  lemma ZeroPaddedValue(n: nat, width: nat)
    ensures DigitsValue(ZeroPadded(n, width)) == n
  {
    var d := DecimalString(n);
    DecimalRoundTrip(n);
    if |d| < width {
      PaddedValue(width - |d|, d, ZeroPadded(n, width));
    }
  }

  /** Why a number failed to parse: .NET's FormatException / OverflowException. */
  datatype NumberError = NotANumber | TooLarge

  /** `uint.Parse` restricted to plain ASCII decimal digits. */
  function ParseUInt(s: string): (r: Result<u32, NumberError>)
    ensures r.Ok? <==> s != "" && AllDigits(s) && DigitsValue(s) <= U32_MAX
    ensures r.Ok? ==> r.value as int == DigitsValue(s)
  {
    if s == "" || !AllDigits(s) then Err(NotANumber)
    else if DigitsValue(s) > U32_MAX then Err(TooLarge)
    else Ok(DigitsValue(s) as u32)
  }
}

=== FILE: tables.dfy ===
/** .NET `Dictionary<K, V>` as the code uses it: an association list in insertion order.
    `Add` throws on a key already present, `Remove` frees a key, and enumeration visits the
    entries in the order they were added (exact here, because no dictionary modelled with a
    table is added to after an entry was removed). */
module Tables {
  import opened Base

  datatype Pair<K, V> = Pair(key: K, value: V)

  type Table<K, V> = seq<Pair<K, V>>

  /** `ContainsKey`. */
  predicate Has<K(==), V>(t: Table<K, V>, k: K) {
    exists i | 0 <= i < |t| :: t[i].key == k
  }

  /** The indexer: the value stored under `k`. */
  function Get<K(==), V>(t: Table<K, V>, k: K): (v: V)
    requires Has(t, k)
    ensures Pair(k, v) in t
  {
    if t[0].key == k then t[0].value
    else
      assert exists i | 1 <= i < |t| :: t[i].key == k;
      assert t[1..][0].key == k || exists i | 1 <= i < |t[1..]| :: t[1..][i].key == k;
      Get(t[1..], k)
  }

  /** No key occurs twice. */
  predicate UniqueKeys<K(==), V>(t: Table<K, V>) {
    forall i, j | 0 <= i < j < |t| :: t[i].key != t[j].key
  }

  /** `Add(k, v)`: fails with the key when it is already present. */
  function Put<K(==), V>(t: Table<K, V>, k: K, v: V): (r: Result<Table<K, V>, K>)
    ensures r.Err? <==> Has(t, k)
    ensures r.Err? ==> r.error == k
    ensures r.Ok? ==> r.value == t + [Pair(k, v)]
  {
    if Has(t, k) then Err(k) else Ok(t + [Pair(k, v)])
  }

  /** `Add` for every item in turn, stopping at the first duplicate. */
  function PutAll<K(==), V>(t: Table<K, V>, items: Table<K, V>): Result<Table<K, V>, K>
    decreases |items|
  {
    if items == [] then Ok(t)
    else
      match Put(t, items[0].key, items[0].value)
      case Err(k) => Err(k)
      case Ok(t') => PutAll(t', items[1..])
  }

  /** The loop of `Add`s `PutAll` specifies. */
  method AddAll<K(==), V>(t: Table<K, V>, items: Table<K, V>) returns (r: Result<Table<K, V>, K>)
    ensures r == PutAll(t, items)
  {
    var acc := t;
    var i := 0;
    while i < |items|
      invariant 0 <= i <= |items|
      invariant PutAll(t, items) == PutAll(acc, items[i..])
    {
      assert items[i..][1..] == items[i + 1..];
      if Has(acc, items[i].key) {
        return Err(items[i].key);
      }
      acc := acc + [items[i]];
      i := i + 1;
    }
    return Ok(acc);
  }

  /** `Values`, in enumeration order. */
  function Values<K, V>(t: Table<K, V>): (r: seq<V>)
    ensures |r| == |t| && forall i | 0 <= i < |t| :: r[i] == t[i].value
  {
    if t == [] then [] else [t[0].value] + Values(t[1..])
  }

  /** `Remove(k)`. */
  function Remove<K(==), V>(t: Table<K, V>, k: K): (r: Table<K, V>)
    ensures forall i | 0 <= i < |r| :: r[i] in t && r[i].key != k
    ensures forall i | 0 <= i < |t| && t[i].key != k :: t[i] in r
  {
    if t == [] then []
    else (if t[0].key == k then [] else [t[0]]) + Remove(t[1..], k)
  }

  lemma HasAppend<K, V>(a: Table<K, V>, b: Table<K, V>, k: K)
    ensures Has(a + b, k) <==> Has(a, k) || Has(b, k)
  {
    if Has(a + b, k) {
      var i :| 0 <= i < |a + b| && (a + b)[i].key == k;
      if i >= |a| {
        assert b[i - |a|].key == k;
      }
    }
    if Has(a, k) {
      var i :| 0 <= i < |a| && a[i].key == k;
      assert (a + b)[i].key == k;
    }
    if Has(b, k) {
      var i :| 0 <= i < |b| && b[i].key == k;
      assert (a + b)[|a| + i].key == k;
    }
  }

  lemma InHas<K, V>(t: Table<K, V>, k: K, v: V)
    requires Pair(k, v) in t
    ensures Has(t, k)
  {
    var i :| 0 <= i < |t| && t[i] == Pair(k, v);
  }

  /** With distinct keys, the value found is the one stored. */
  lemma UniqueGet<K, V>(t: Table<K, V>, k: K, v: V)
    requires UniqueKeys(t) && Pair(k, v) in t
    ensures Has(t, k) && Get(t, k) == v
  {
    InHas(t, k, v);
    var i :| 0 <= i < |t| && t[i] == Pair(k, v);
    var j :| 0 <= j < |t| && t[j] == Pair(k, Get(t, k));
    assert t[i].key == t[j].key;
  }

  /** Removing a key frees exactly that key. */
  lemma RemoveHas<K, V>(t: Table<K, V>, k: K, j: K)
    ensures Has(Remove(t, k), j) <==> Has(t, j) && j != k
  {
    var r := Remove(t, k);
    if Has(r, j) {
      var i :| 0 <= i < |r| && r[i].key == j;
      assert r[i] in t;
      InHas(t, j, r[i].value);
    }
    if Has(t, j) && j != k {
      var i :| 0 <= i < |t| && t[i].key == j;
      assert t[i] in r;
      InHas(r, j, t[i].value);
    }
  }

  /** Removing one key leaves the value under every other key. */
  lemma {:induction false} GetRemove<K, V>(t: Table<K, V>, k: K, j: K)
    requires Has(t, j) && j != k
    ensures Has(Remove(t, k), j) && Get(Remove(t, k), j) == Get(t, j)
    decreases |t|
  {
    RemoveHas(t, k, j);
    if t[0].key != j {
      assert Has(t[1..], j) by {
        var i :| 0 <= i < |t| && t[i].key == j;
        assert t[1..][i - 1].key == j;
      }
      GetRemove(t[1..], k, j);
      RemoveHas(t[1..], k, j);
      if t[0].key == k {
        assert Remove(t, k) == Remove(t[1..], k);
      } else {
        assert Remove(t, k) == [t[0]] + Remove(t[1..], k);
        assert Remove(t, k)[1..] == Remove(t[1..], k);
      }
    }
  }

  /** A run of successful `Add`s appends the items in order. */
  lemma {:induction false} PutAllAppends<K, V>(t: Table<K, V>, items: Table<K, V>)
    requires PutAll(t, items).Ok?
    ensures PutAll(t, items).value == t + items
    decreases |items|
  {
    if items != [] {
      var t' := t + [items[0]];
      PutAllAppends(t', items[1..]);
      assert t' + items[1..] == t + items;
    }
  }

  /** Starting from distinct keys, the `Add`s all succeed exactly when the result has
      distinct keys: a throw means a key occurred twice. */
  lemma {:induction false} PutAllUnique<K, V>(t: Table<K, V>, items: Table<K, V>)
    requires UniqueKeys(t)
    ensures PutAll(t, items).Ok? <==> UniqueKeys(t + items)
    decreases |items|
  {
    if items != [] {
      var k := items[0].key;
      var t' := t + [items[0]];
      assert t' + items[1..] == t + items;
      if Has(t, k) {
        var i :| 0 <= i < |t| && t[i].key == k;
        assert (t + items)[i].key == (t + items)[|t|].key;
      } else {
        assert UniqueKeys(t') by {
          forall i, j | 0 <= i < j < |t'| ensures t'[i].key != t'[j].key {
            if j == |t| {
              assert t[i].key != k;
            }
          }
        }
        PutAllUnique(t', items[1..]);
      }
    }
  }

  /** `Add`ing items to an empty dictionary without a throw gives exactly the items, and
      their keys are distinct. */
  lemma PutAllFresh<K, V>(items: Table<K, V>)
    requires PutAll([], items).Ok?
    ensures PutAll([], items).value == items && UniqueKeys(items)
  {
    PutAllAppends([], items);
    PutAllUnique([], items);
    assert [] + items == items;
  }

  /** Removing a key keeps the keys distinct. */
  lemma {:induction false} RemoveUnique<K, V>(t: Table<K, V>, k: K)
    requires UniqueKeys(t)
    ensures UniqueKeys(Remove(t, k))
    decreases |t|
  {
    if t != [] {
      var rest := t[1..];
      assert UniqueKeys(rest) by {
        forall a, b | 0 <= a < b < |rest| ensures rest[a].key != rest[b].key {
          assert rest[a] == t[a + 1] && rest[b] == t[b + 1];
        }
      }
      RemoveUnique(rest, k);
      if t[0].key != k {
        var r := Remove(rest, k);
        assert !Has(r, t[0].key) by {
          RemoveHas(rest, k, t[0].key);
          forall a | 0 <= a < |rest| ensures rest[a].key != t[0].key {
            assert rest[a] == t[a + 1];
          }
        }
        UniqueAppend([t[0]], r);
      }
    }
  }

  /** Two tables with distinct keys and no key in common make one with distinct keys. */
  lemma UniqueAppend<K, V>(a: Table<K, V>, b: Table<K, V>)
    requires UniqueKeys(a) && UniqueKeys(b)
    requires forall k | Has(a, k) :: !Has(b, k)
    ensures UniqueKeys(a + b)
  {
    var ab := a + b;
    forall i, j | 0 <= i < j < |ab| ensures ab[i].key != ab[j].key {
      if j < |a| {
        assert ab[i] == a[i] && ab[j] == a[j];
      } else if i >= |a| {
        assert ab[i] == b[i - |a|] && ab[j] == b[j - |a|];
      } else {
        assert ab[i] == a[i] && ab[j] == b[j - |a|];
        assert Has(a, a[i].key);
        assert Has(b, b[j - |a|].key);
      }
    }
  }
}

=== FILE: update_job.dfy ===
/** ResLogger2.Web/Jobs/UpdateJob.cs: the scheduled job that compares each repository's last
    processed version with the upstream latest, picks the patch files that bring the outdated
    repositories forward, and imports the resulting patch indexes into the catalog under the
    database lock. Fetching the version and URL lists, downloading and unpacking the patches
    are I/O: their results are parameters here. */
module UpdateJobs {
  import opened Base
  import opened Strings
  import opened GameVersions
  import opened Caches
  import opened PatchIndexHolders
  import opened ServerSteps
  import opened ServerHashDatabases
  import CompositeIndex
  import opened PatchDownloads

  // ---- `GetRepoAndVersion` ----

  /** `LatestProcessedVersion` as `GetRepoAndVersion` builds it. */
  datatype RepoVersion = RepoVersion(repo: string, version: GameVersion)

  /** What makes `Execute` throw before any download: an index or a range outside the URL, a
      version that does not parse, or a repository added twice to `updatesNeeded`. */
  datatype JobError = UrlOutOfRange | UnreadableVersion(cause: VersionError) | DuplicateRepo(repo: string)

  /** No position of `s` holds `c`. */
  predicate Free(s: string, c: char) {
    forall k | 0 <= k < |s| :: s[k] != c
  }

  /** The repository part of lines 206-211: the 8 characters after the last "game/", after
      skipping 4 more when the next character is 'e'. None where an index or the range lies
      outside the URL (the span throws). A URL without "game/" is read from index 4. */
  function RepoOf(url: string): (r: Option<string>)
    ensures r.Some? ==> |r.value| == 8
  {
    var gameEnd := LastOccurrence(url, "game/") + 5;
    if gameEnd >= |url| then None
    else
      var start := if url[gameEnd] == 'e' then gameEnd + 4 else gameEnd;
      if start + 8 > |url| then None else Some(url[start..start + 8])
  }

  /** The version part of lines 212-215: the stem without its first character, and without its
      last one too when it starts with 'H'. None where that range is inverted. */
  function VersionTextOf(url: string): (r: Option<string>)
    ensures r.Some? ==> |r.value| < |Stem(url)|
  {
    var stem := Stem(url);
    var length := |stem| - (if StartsWith(stem, "H") then 1 else 0);
    if length < 1 then None else Some(stem[1..length])
  }

  /** `GetRepoAndVersion`: both parts, then `GameVersion.Parse` of the version text. */
  function GetRepoAndVersion(url: string): (r: Result<RepoVersion, JobError>)
    ensures r.Ok? ==> |r.value.repo| == 8
  {
    match RepoOf(url)
    case None => Err(UrlOutOfRange)
    case Some(repo) =>
      match VersionTextOf(url)
      case None => Err(UrlOutOfRange)
      case Some(text) =>
        match Parse(text)
        case Err(e) => Err(UnreadableVersion(e))
        case Ok(v) => Ok(RepoVersion(repo, v))
  }

  /** The position of the last occurrence of `pat`, or -1 (`LastIndexOf(string, Ordinal)`). */
  function LastOccurrence(s: string, pat: string): (r: int)
    ensures -1 <= r
    ensures r >= 0 ==> OccursAt(s, pat, r)
    ensures forall i | r < i :: !OccursAt(s, pat, i)
    decreases |s|
  {
    if |s| < |pat| then -1
    else if OccursAt(s, pat, |s| - |pat|) then |s| - |pat|
    else
      var r := LastOccurrence(s[..|s| - 1], pat);
      assert forall i | r < i && OccursAt(s, pat, i) :: OccursAt(s[..|s| - 1], pat, i) by {
        forall i | r < i && OccursAt(s, pat, i) ensures OccursAt(s[..|s| - 1], pat, i) {
          assert s[..|s| - 1][i..i + |pat|] == s[i..i + |pat|];
        }
      }
      if r >= 0 then
        assert s[..|s| - 1][r..r + |pat|] == s[r..r + |pat|];
        r
      else r
  }

  /** The occurrence at `at` is the last one when nothing after it holds the pattern's first
      character. */
  lemma LastOccurrenceAt(s: string, pat: string, at: nat)
    requires |pat| > 0 && OccursAt(s, pat, at)
    requires forall k | at < k < |s| :: s[k] != pat[0]
    ensures LastOccurrence(s, pat) == at
  {
    var r := LastOccurrence(s, pat);
    if r >= 0 {
      assert s[r..r + |pat|][0] == s[r];
    }
  }

  /** A download URL of the usual shape: `.../game/<repo>/<stem>.patch` for the base game and
      `.../game/exN/<repo>/<stem>.patch` for an expansion. */
  function PatchUrl(prefix: string, expansion: Option<char>, repo: string, stem: string): string {
    RepoFolder(prefix, expansion, repo) + "/" + stem + ".patch"
  }

  /** `.../game/<repo>` or `.../game/exN/<repo>`. */
  function RepoFolder(prefix: string, expansion: Option<char>, repo: string): string {
    prefix + "game/" + ExFolder(expansion) + repo
  }

  /** "exN/" for expansion N, nothing for the base game. */
  function ExFolder(expansion: Option<char>): (r: string)
    ensures |r| == if expansion.Some? then 4 else 0
  {
    if expansion.Some? then "ex" + [expansion.value] + "/" else ""
  }

  /** A concatenation is free of `c` when both parts are. */
  lemma FreeConcat(a: string, b: string, c: char)
    requires Free(a, c) && Free(b, c)
    ensures Free(a + b, c)
  {
    forall k | 0 <= k < |a + b| ensures (a + b)[k] != c {
      if k >= |a| {
        assert (a + b)[k] == b[k - |a|];
      }
    }
  }

  /** A "game/" followed by nothing holding a 'g' is the last one. */
  lemma GameAt(prefix: string, rest: string)
    requires Free(rest, 'g')
    ensures LastOccurrence(prefix + "game/" + rest, "game/") == |prefix|
  {
    GameOccurs(prefix, rest);
    NoGAfterGame(prefix, rest);
    LastOccurrenceAt(prefix + "game/" + rest, "game/", |prefix|);
  }

  lemma GameOccurs(prefix: string, rest: string)
    ensures OccursAt(prefix + "game/" + rest, "game/", |prefix|)
  {
    var url := prefix + "game/" + rest;
    assert url[|prefix|..|prefix| + 5] == "game/";
  }

  lemma NoGAfterGame(prefix: string, rest: string)
    requires Free(rest, 'g')
    ensures forall k | |prefix| < k < |prefix + "game/" + rest| :: (prefix + "game/" + rest)[k] != 'g'
  {
    var url := prefix + "game/" + rest;
    var at := |prefix|;
    forall k | at < k < |url| ensures url[k] != 'g' {
      if k < at + 5 {
        assert url[k] == "game/"[k - at];
      } else {
        assert url[k] == rest[k - at - 5];
      }
    }
  }

  /** What follows the "game/" of such a URL. */
  function AfterGame(expansion: Option<char>, repo: string, stem: string): string {
    ExFolder(expansion) + (repo + ("/" + stem + ".patch"))
  }

  lemma PatchUrlSplit(prefix: string, expansion: Option<char>, repo: string, stem: string)
    ensures PatchUrl(prefix, expansion, repo, stem) == prefix + "game/" + AfterGame(expansion, repo, stem)
  {
    var ex := ExFolder(expansion);
    var tail := "/" + stem + ".patch";
    assert RepoFolder(prefix, expansion, repo) + tail == prefix + "game/" + ex + repo + tail;
  }

  lemma AfterGameFree(expansion: Option<char>, repo: string, stem: string)
    requires Free(repo, 'g') && Free(stem, 'g')
    requires expansion.Some? ==> expansion.value != 'g'
    ensures Free(AfterGame(expansion, repo, stem), 'g')
  {
    var ex := ExFolder(expansion);
    assert Free(ex, 'g') by {
      if expansion.Some? {
        assert ex == ['e', 'x', expansion.value, '/'];
      }
    }
    FreeConcat("/", stem, 'g');
    FreeConcat("/" + stem, ".patch", 'g');
    FreeConcat(repo, "/" + stem + ".patch", 'g');
    FreeConcat(ex, repo + ("/" + stem + ".patch"), 'g');
  }

  lemma AppendAssoc<T>(a: seq<T>, b: seq<T>, c: seq<T>)
    ensures a + (b + c) == a + b + c
  {
  }

  /** A slice lying wholly in the right part of a concatenation. */
  lemma SliceRight<T>(a: seq<T>, b: seq<T>, i: int, j: int)
    requires |a| <= i <= j <= |a| + |b|
    ensures (a + b)[i..j] == b[i - |a|..j - |a|]
  {
  }

  /** `RepoOf` where the last "game/" sits at `at` and the id begins `n` characters after it. */
  lemma RepoOfAt(url: string, at: int, n: int, repo: string)
    requires LastOccurrence(url, "game/") == at
    requires n == 0 || n == 4
    requires 0 <= at && at + 13 + n <= |url|
    requires url[at + 5] == 'e' <==> n == 4
    requires url[at + 5 + n..at + 13 + n] == repo
    ensures RepoOf(url) == Some(repo)
  {
  }

  /** With the last "game/" at the end of `prefix`, the repository is read from what
      follows. */
  lemma RepoAfterGame(prefix: string, expansion: Option<char>, repo: string, stem: string)
    requires |repo| == 8
    requires expansion.None? ==> repo[0] != 'e'
    requires LastOccurrence(prefix + "game/" + AfterGame(expansion, repo, stem), "game/") == |prefix|
    ensures RepoOf(prefix + "game/" + AfterGame(expansion, repo, stem)) == Some(repo)
  {
    var ex := ExFolder(expansion);
    var rest := AfterGame(expansion, repo, stem);
    var tail := "/" + stem + ".patch";
    var n := |ex|;
    var head := prefix + "game/";
    SliceRight(head, rest, |head| + n, |head| + n + 8);
    SliceRight(ex, repo + tail, n, n + 8);
    assert (repo + tail)[..8] == repo;
    assert (head + rest)[|head|] == rest[0];
    if expansion.None? {
      assert rest[0] == repo[0];
    } else {
      assert rest[0] == 'e';
    }
    RepoOfAt(head + rest, |prefix|, n, repo);
  }

  /** The repository of such a URL. */
  lemma RepoOfPatchUrl(prefix: string, expansion: Option<char>, repo: string, stem: string)
    requires |repo| == 8 && Free(repo, 'g') && Free(stem, 'g')
    requires expansion.Some? ==> expansion.value != 'g'
    requires expansion.None? ==> repo[0] != 'e'
    ensures RepoOf(PatchUrl(prefix, expansion, repo, stem)) == Some(repo)
  {
    PatchUrlSplit(prefix, expansion, repo, stem);
    AfterGameFree(expansion, repo, stem);
    GameAt(prefix, AfterGame(expansion, repo, stem));
    RepoAfterGame(prefix, expansion, repo, stem);
  }

  /** On such a URL the repository and the version come back out, provided nothing after the
      "game/" holds a 'g' (repository ids are hexadecimal and stems are versions), the stem
      holds no '/' or '.' and does not start with 'H', and a base-game repository id does not
      start with 'e'. */
  lemma GetRepoAndVersionOfPatchUrl(prefix: string, expansion: Option<char>, repo: string, stem: string)
    requires |repo| == 8 && Free(repo, 'g') && Free(stem, 'g') && '/' !in stem && '.' !in stem
    requires expansion.Some? ==> expansion.value != 'g'
    requires expansion.None? ==> repo[0] != 'e'
    requires |stem| >= 1 && stem[0] != 'H'
    ensures var r := GetRepoAndVersion(PatchUrl(prefix, expansion, repo, stem));
      match Parse(stem[1..])
      case Ok(v) => r == Ok(RepoVersion(repo, v))
      case Err(e) => r == Err(UnreadableVersion(e))
  {
    var url := PatchUrl(prefix, expansion, repo, stem);
    RepoOfPatchUrl(prefix, expansion, repo, stem);
    VersionTextOfPatchUrl(prefix, expansion, repo, stem);
    assert RepoOf(url) == Some(repo) && VersionTextOf(url) == Some(stem[1..]);
  }

  /** The stem of such a URL is the one it was built from. */
  lemma StemOfPatchUrl(prefix: string, expansion: Option<char>, repo: string, stem: string)
    requires '/' !in stem && '.' !in stem
    ensures Stem(PatchUrl(prefix, expansion, repo, stem)) == stem
  {
    var front := RepoFolder(prefix, expansion, repo);
    StemOfPath(front, stem, "patch");
    assert "." + "patch" == ".patch";
    AppendAssoc(front + "/" + stem, ".", "patch");
  }

  /** The version text of such a URL is its stem without the leading letter. */
  lemma VersionTextOfPatchUrl(prefix: string, expansion: Option<char>, repo: string, stem: string)
    requires '/' !in stem && '.' !in stem && |stem| >= 1 && stem[0] != 'H'
    ensures VersionTextOf(PatchUrl(prefix, expansion, repo, stem)) == Some(stem[1..])
  {
    StemOfPatchUrl(prefix, expansion, repo, stem);
    assert stem[..1][0] == stem[0];
    assert !StartsWith(stem, "H");
    assert stem[1..|stem|] == stem[1..];
  }

  /** A base-game repository id starting with 'e' loses its first four characters: the rule
      reads it as an expansion folder. */
  lemma RepoStartingWithE()
    ensures RepoOf("game/e0123456/D2023.patch") == Some("3456/D20")
  {
    var url := "game/e0123456/D2023.patch";
    assert url[..5] == "game/";
    assert OccursAt(url, "game/", 0);
    forall k | 0 < k < |url| ensures url[k] != 'g' {
    }
    LastOccurrenceAt(url, "game/", 0);
    assert url[9..17] == "3456/D20";
  }

  // ---- which repositories need an update (lines 55-66) ----

  /** One entry of `updatesNeeded`. */
  datatype Update = Update(current: GameVersion, latest: GameVersion)

  /** The repository's stored version exists and the operator `!=` finds the upstream one
      different (with both non-null, `!=` is the negation of the comparator's equality). */
  predicate NeedsUpdate(current: map<string, GameVersion>, lv: RepoVersion) {
    lv.repo in current && !SameVersion(current[lv.repo], lv.version)
  }

  /** `updatesNeeded` after the loop has seen `latest`; `Dictionary.Add` throws on a repository
      that is already there. */
  function UpdatesFrom(current: map<string, GameVersion>, latest: seq<RepoVersion>): Result<map<string, Update>, JobError> {
    if latest == [] then Ok(map[])
    else match UpdatesFrom(current, latest[..|latest| - 1])
      case Err(e) => Err(e)
      case Ok(m) =>
        var lv := latest[|latest| - 1];
        if !NeedsUpdate(current, lv) then Ok(m)
        else if lv.repo in m then Err(DuplicateRepo(lv.repo))
        else Ok(m[lv.repo := Update(current[lv.repo], lv.version)])
  }

  /** Two upstream entries for one repository that both need it updated. */
  predicate Clash(current: map<string, GameVersion>, latest: seq<RepoVersion>) {
    exists i, j | 0 <= i < j < |latest| ::
      latest[i].repo == latest[j].repo && NeedsUpdate(current, latest[i]) && NeedsUpdate(current, latest[j])
  }

  /** Some upstream entry for `repo` needs it updated. */
  predicate Outdated(current: map<string, GameVersion>, latest: seq<RepoVersion>, repo: string) {
    exists i | 0 <= i < |latest| :: latest[i].repo == repo && NeedsUpdate(current, latest[i])
  }

  /** Without a clash, the repositories in the result are exactly the outdated ones, each with
      its stored and its upstream version; unknown repositories never appear. */
  lemma {:induction false} UpdatesFromOk(current: map<string, GameVersion>, latest: seq<RepoVersion>)
    requires UpdatesFrom(current, latest).Ok?
    ensures var m := UpdatesFrom(current, latest).value;
      && (forall repo :: repo in m <==> Outdated(current, latest, repo))
      && (forall i | 0 <= i < |latest| && NeedsUpdate(current, latest[i]) ::
            m[latest[i].repo] == Update(current[latest[i].repo], latest[i].version))
  {
    if latest != [] {
      var init := latest[..|latest| - 1];
      var n := |latest| - 1;
      UpdatesFromOk(current, init);
      assert forall i | 0 <= i < n :: init[i] == latest[i];
      forall repo | Outdated(current, latest, repo) && !Outdated(current, init, repo)
        ensures latest[n].repo == repo && NeedsUpdate(current, latest[n])
      {
        var i :| 0 <= i < |latest| && latest[i].repo == repo && NeedsUpdate(current, latest[i]);
        if i < n {
          assert false;
        }
      }
    }
  }

  /** The loop throws exactly when there is a clash. */
  lemma {:induction false} UpdatesFromErr(current: map<string, GameVersion>, latest: seq<RepoVersion>)
    ensures UpdatesFrom(current, latest).Err? <==> Clash(current, latest)
  {
    if latest != [] {
      var init := latest[..|latest| - 1];
      var n := |latest| - 1;
      var lv := latest[n];
      UpdatesFromErr(current, init);
      assert forall i | 0 <= i < n :: init[i] == latest[i];
      if Clash(current, init) {
        var i, j :| 0 <= i < j < n && init[i].repo == init[j].repo && NeedsUpdate(current, init[i]) && NeedsUpdate(current, init[j]);
        assert latest[i] == init[i] && latest[j] == init[j];
      } else {
        UpdatesFromOk(current, init);
        var m := UpdatesFrom(current, init).value;
        if NeedsUpdate(current, lv) && lv.repo in m {
          var i :| 0 <= i < n && init[i].repo == lv.repo && NeedsUpdate(current, init[i]);
          assert latest[i] == init[i];
        }
        if Clash(current, latest) {
          var i, j :| 0 <= i < j < |latest| && latest[i].repo == latest[j].repo && NeedsUpdate(current, latest[i]) && NeedsUpdate(current, latest[j]);
          if j == n {
            assert Outdated(current, init, lv.repo) by {
              assert init[i] == latest[i];
            }
          }
        }
      }
    }
  }

  /** Once the loop has thrown, the later entries change nothing. */
  lemma {:induction false} UpdatesFromErrStays(current: map<string, GameVersion>, latest: seq<RepoVersion>, k: nat)
    requires k <= |latest| && UpdatesFrom(current, latest[..k]).Err?
    ensures UpdatesFrom(current, latest) == UpdatesFrom(current, latest[..k])
    decreases |latest|
  {
    if k < |latest| {
      var init := latest[..|latest| - 1];
      assert init[..k] == latest[..k];
      UpdatesFromErrStays(current, init, k);
    } else {
      assert latest[..k] == latest;
    }
  }

  /** The first loop of `Execute`. */
  method UpdatesNeeded(current: map<string, GameVersion>, latest: seq<RepoVersion>) returns (r: Result<map<string, Update>, JobError>)
    ensures r == UpdatesFrom(current, latest)
  {
    var updates: map<string, Update> := map[];
    for k := 0 to |latest|
      invariant UpdatesFrom(current, latest[..k]) == Ok(updates)
    {
      assert latest[..k + 1][..k] == latest[..k];
      var lv := latest[k];
      if lv.repo in current {
        var cur := current[lv.repo];
        if !SameVersion(cur, lv.version) {
          if lv.repo in updates {
            UpdatesFromErrStays(current, latest, k + 1);
            return Err(DuplicateRepo(lv.repo));
          }
          updates := updates[lv.repo := Update(cur, lv.version)];
        }
      }
    }
    assert latest[..|latest|] == latest;
    return Ok(updates);
  }

  // ---- which patch files are downloaded (lines 87-109) ----

  /** A historical patch: the stem starts with 'H'. */
  predicate Historical(url: string) {
    StartsWith(Stem(url), "H")
  }

  /** What one turn of the second loop does with a URL: skip it, throw, or list it under a
      repository. */
  datatype Verdict = Skip | Throw(error: JobError) | Take(repo: string)

  /** Lines 91-101: historical patches are skipped; then the URL is read (which may throw); it
      is taken when its repository needs an update and it is newer than the stored version. */
  function VerdictOf(updates: map<string, Update>, url: string): Verdict {
    if Historical(url) then Skip
    else match GetRepoAndVersion(url)
      case Err(e) => Throw(e)
      case Ok(info) =>
        if info.repo !in updates || Le(info.version, updates[info.repo].current) then Skip
        else Take(info.repo)
  }

  /** `m` with `url` at the end of the list under `repo`, which is created if missing. */
  function Appended(m: map<string, seq<string>>, repo: string, url: string): (r: map<string, seq<string>>)
    ensures r.Keys == m.Keys + {repo}
    ensures r[repo] == (if repo in m then m[repo] else []) + [url]
    ensures forall other | other in m && other != repo :: r[other] == m[other]
  {
    m[repo := (if repo in m then m[repo] else []) + [url]]
  }

  /** The dictionary after the loop has seen `urls`, given each URL's verdict. */
  function SelectFrom(urls: seq<string>, verdict: string -> Verdict): Result<map<string, seq<string>>, JobError> {
    if urls == [] then Ok(map[])
    else match SelectFrom(urls[..|urls| - 1], verdict)
      case Err(e) => Err(e)
      case Ok(m) =>
        var url := urls[|urls| - 1];
        match verdict(url)
        case Skip => Ok(m)
        case Throw(e) => Err(e)
        case Take(repo) => Ok(Appended(m, repo, url))
  }

  /** `patchFilesNeeded` after the loop has seen `urls`. */
  function PatchesFrom(updates: map<string, Update>, urls: seq<string>): Result<map<string, seq<string>>, JobError> {
    SelectFrom(urls, url => VerdictOf(updates, url))
  }

  /** The loop throws exactly when some URL's verdict is to throw. */
  lemma {:induction false} SelectFromErr(urls: seq<string>, verdict: string -> Verdict)
    ensures SelectFrom(urls, verdict).Err? <==> exists i | 0 <= i < |urls| :: verdict(urls[i]).Throw?
  {
    if urls != [] {
      var init := urls[..|urls| - 1];
      SelectFromErr(init, verdict);
      assert forall i | 0 <= i < |init| :: init[i] == urls[i];
    }
  }

  /** The URLs taken for `repo`, in their order. */
  function Taken(urls: seq<string>, verdict: string -> Verdict, repo: string): (r: seq<string>)
    ensures |r| <= |urls|
  {
    if urls == [] then []
    else Taken(urls[..|urls| - 1], verdict, repo) + (if verdict(urls[|urls| - 1]) == Take(repo) then [urls[|urls| - 1]] else [])
  }

  /** A URL is among those taken for `repo` exactly when it is one of the URLs and its verdict
      is to take it for `repo`. */
  lemma {:induction false} TakenHas(urls: seq<string>, verdict: string -> Verdict, repo: string, url: string)
    ensures url in Taken(urls, verdict, repo) <==> url in urls && verdict(url) == Take(repo)
  {
    if urls != [] {
      var init := urls[..|urls| - 1];
      TakenHas(init, verdict, repo, url);
      assert urls == init + [urls[|urls| - 1]];
    }
  }

  /** Otherwise the dictionary lists, for each repository that had a URL taken, exactly its
      taken URLs in their order, and no other repository. */
  lemma {:induction false} SelectFromOk(urls: seq<string>, verdict: string -> Verdict, repo: string)
    requires SelectFrom(urls, verdict).Ok?
    ensures var m := SelectFrom(urls, verdict).value;
      && (repo in m <==> Taken(urls, verdict, repo) != [])
      && (repo in m ==> m[repo] == Taken(urls, verdict, repo))
  {
    if urls != [] {
      var init := urls[..|urls| - 1];
      SelectFromOk(init, verdict, repo);
    }
  }

  /** Once the loop has thrown, the later URLs change nothing. */
  lemma {:induction false} SelectFromErrStays(urls: seq<string>, verdict: string -> Verdict, k: nat)
    requires k <= |urls| && SelectFrom(urls[..k], verdict).Err?
    ensures SelectFrom(urls, verdict) == SelectFrom(urls[..k], verdict)
    decreases |urls|
  {
    if k < |urls| {
      var init := urls[..|urls| - 1];
      assert init[..k] == urls[..k];
      SelectFromErrStays(init, verdict, k);
    } else {
      assert urls[..k] == urls;
    }
  }

  /** A URL that the selection keeps: not historical, readable, for a repository that needs an
      update, and newer than the stored version. */
  predicate Wanted(updates: map<string, Update>, url: string) {
    && !Historical(url)
    && GetRepoAndVersion(url).Ok?
    && GetRepoAndVersion(url).value.repo in updates
    && Gt(GetRepoAndVersion(url).value.version, updates[GetRepoAndVersion(url).value.repo].current)
  }

  /** A URL the loop throws on: not historical and unreadable. */
  predicate Unreadable(url: string) {
    !Historical(url) && GetRepoAndVersion(url).Err?
  }

  /** The verdict on one URL: throw exactly when it is unreadable, take exactly when it is
      wanted, and then under the repository its URL names. */
  lemma VerdictOfIs(updates: map<string, Update>, url: string)
    ensures VerdictOf(updates, url).Throw? <==> Unreadable(url)
    ensures VerdictOf(updates, url).Take? <==> Wanted(updates, url)
    ensures VerdictOf(updates, url).Take? ==> VerdictOf(updates, url).repo == GetRepoAndVersion(url).value.repo
  {
    if !Historical(url) && GetRepoAndVersion(url).Ok? {
      var info := GetRepoAndVersion(url).value;
      if info.repo in updates {
        CompareTotal(info.version, updates[info.repo].current);
      }
    }
  }

  /** The selection throws exactly when some non-historical URL cannot be read. */
  lemma PatchesFromErr(updates: map<string, Update>, urls: seq<string>)
    ensures PatchesFrom(updates, urls).Err? <==> exists i | 0 <= i < |urls| :: Unreadable(urls[i])
  {
    var verdict := url => VerdictOf(updates, url);
    SelectFromErr(urls, verdict);
    forall i | 0 <= i < |urls| ensures verdict(urls[i]).Throw? <==> Unreadable(urls[i]) {
      VerdictOfIs(updates, urls[i]);
    }
  }

  /** Otherwise a URL is listed under a repository exactly when it is one of the URLs, it is
      wanted and it names that repository; the lists keep the order of `urls`. */
  lemma PatchSelected(updates: map<string, Update>, urls: seq<string>, url: string, repo: string)
    requires PatchesFrom(updates, urls).Ok?
    ensures var m := PatchesFrom(updates, urls).value;
      (repo in m && url in m[repo]) <==>
      (url in urls && Wanted(updates, url) && GetRepoAndVersion(url).value.repo == repo)
  {
    var verdict := url => VerdictOf(updates, url);
    SelectFromOk(urls, verdict, repo);
    TakenHas(urls, verdict, repo, url);
    VerdictOfIs(updates, url);
  }

  /** Every repository listed needs an update. */
  lemma PatchesListed(updates: map<string, Update>, urls: seq<string>, repo: string)
    requires PatchesFrom(updates, urls).Ok? && repo in PatchesFrom(updates, urls).value
    ensures repo in updates && |PatchesFrom(updates, urls).value[repo]| > 0
  {
    var verdict := url => VerdictOf(updates, url);
    SelectFromOk(urls, verdict, repo);
    var url := Taken(urls, verdict, repo)[0];
    TakenHas(urls, verdict, repo, url);
    VerdictOfIs(updates, url);
  }

  /** The body of the second loop, its `continue`s as early returns. */
  method AddPatchFile(updates: map<string, Update>, needed: map<string, seq<string>>, url: string)
    returns (r: Result<map<string, seq<string>>, JobError>)
    ensures r == match VerdictOf(updates, url)
      case Skip => Ok(needed)
      case Throw(e) => Err(e)
      case Take(repo) => Ok(Appended(needed, repo, url))
  {
    if StartsWith(Stem(url), "H") {
      return Ok(needed);
    }
    var info := GetRepoAndVersion(url);
    if info.Err? {
      return Err(info.error);
    }
    var repo, version := info.value.repo, info.value.version;
    if repo !in updates {
      return Ok(needed);
    }
    if Le(version, updates[repo].current) {
      return Ok(needed);
    }
    if repo in needed {
      return Ok(needed[repo := needed[repo] + [url]]);
    }
    assert [] + [url] == [url];
    return Ok(needed[repo := [url]]);
  }

  /** The second loop of `Execute`. */
  method PatchFilesNeeded(updates: map<string, Update>, urls: seq<string>) returns (r: Result<map<string, seq<string>>, JobError>)
    ensures r == PatchesFrom(updates, urls)
  {
    ghost var verdict := url => VerdictOf(updates, url);
    var needed: map<string, seq<string>> := map[];
    for k := 0 to |urls|
      invariant SelectFrom(urls[..k], verdict) == Ok(needed)
    {
      assert urls[..k + 1][..k] == urls[..k];
      var step := AddPatchFile(updates, needed, urls[k]);
      if step.Err? {
        SelectFromErrStays(urls, verdict, k + 1);
        return step;
      }
      needed := step.value;
    }
    assert urls[..|urls|] == urls;
    return Ok(needed);
  }

  // ---- the import (lines 175-198) ----

  /** The catalog after `ProcessInMemory` on each holder in turn. */
  function ImportedAll(c: Cache, holders: seq<Holder>): (r: Cache)
    requires c.Valid()
    ensures r.Valid()
    decreases |holders|
  {
    if holders == [] then c else ImportedAll(InMemory(c, holders[0]), holders[1..])
  }

  /** How a run of the job ends. */
  datatype JobOutcome =
    | Failed(error: JobError)                         // an exception before any download
    | NoUpdates                                       // nothing to do: return at line 74
    | LockNotAcquired(patches: map<string, seq<string>>)
    | Imported(patches: map<string, seq<string>>)

  class UpdateJob {
    const db: ServerHashDatabase

    constructor (db: ServerHashDatabase)
      ensures this.db == db
    {
      this.db := db;
    }

    /** The lock guard: without the lock nothing is processed (and nothing saved); with it,
        every holder goes through `ProcessInMemory` in order. The cache is the one
        `ReloadCache` leaves behind. */
    method Import(holders: seq<Holder>, lockAcquired: bool) returns (imported: bool)
      requires db.cache != null && db.cache.Snapshot().Valid()
      modifies db.cache
      ensures imported == lockAcquired
      ensures db.cache == old(db.cache)
      ensures db.cache.Snapshot() == if imported then ImportedAll(old(db.cache.Snapshot()), holders) else old(db.cache.Snapshot())
    {
      if !lockAcquired {
        return false;
      }
      ghost var start := db.cache.Snapshot();
      for i := 0 to |holders|
        invariant db.cache != null && db.cache == old(db.cache) && db.cache.Snapshot().Valid()
        invariant ImportedAll(start, holders) == ImportedAll(db.cache.Snapshot(), holders[i..])
      {
        assert holders[i..][1..] == holders[i + 1..];
        var _ := db.ProcessInMemory(holders[i]);
      }
      assert holders[|holders|..] == [];
      return true;
    }

    /** `Execute`: the version lists, the patch URLs and the downloaded patch files, in the order
        the directory lists them, are given. The catalog changes only when there are updates,
        every URL could be read and the lock was taken; it then takes in every holder built
        before the first patch file that could not be read. */
    method Execute(current: map<string, GameVersion>, latest: seq<RepoVersion>, urls: seq<string>,
                   files: seq<string>, extract: string -> seq<string>,
                   read: string -> CompositeIndex.IndexFile, hs: CompositeIndex.Hashing,
                   lockAcquired: bool) returns (outcome: JobOutcome)
      requires db.cache != null && db.cache.Snapshot().Valid()
      modifies db.cache
      ensures db.cache == old(db.cache)
      ensures outcome.Failed? <==>
        UpdatesFrom(current, latest).Err? || (UpdatesFrom(current, latest).value != map[] && PatchesFrom(UpdatesFrom(current, latest).value, urls).Err?)
      ensures outcome == NoUpdates <==> UpdatesFrom(current, latest) == Ok(map[])
      ensures (outcome.Imported? || outcome.LockNotAcquired?) ==> outcome.patches == PatchesFrom(UpdatesFrom(current, latest).value, urls).value
      ensures outcome.LockNotAcquired? || outcome.Imported? ==> (outcome.Imported? <==> lockAcquired)
      ensures db.cache.Snapshot() ==
        if outcome.Imported? then ImportedAll(old(db.cache.Snapshot()), HoldersFrom(files, extract, read, hs))
        else old(db.cache.Snapshot())
    {
      var updates := UpdatesNeeded(current, latest);
      if updates.Err? {
        return Failed(updates.error);
      }
      if updates.value == map[] {
        return NoUpdates;
      }
      var patches := PatchFilesNeeded(updates.value, urls);
      if patches.Err? {
        return Failed(patches.error);
      }
      var holders := BuildHolders(files, extract, read, hs);
      var imported := Import(holders, lockAcquired);
      outcome := if imported then Imported(patches.value) else LockNotAcquired(patches.value);
    }
  }
}
